=== FILE: README.md ===
# A verified model of a teaching Java virtual machine

This project models the core of a small Java virtual machine written in Go,
built chapter by chapter (ch01 to ch11). The model follows the latest chapter
of each component. It covers the class-file decoder, the class model and
loader, the runtime data areas, the instruction semantics and the interpreter
loop, and it proves properties of each.

- **Class files.** The big-endian reader (`ClassReader`), the constant pool
  and its typed lookups (`ClassFilePool`), and attributes and members
  (`ClassFileAttributes`). These follow chapter 4 of the Java Virtual Machine
  Specification, Java SE 8.
- **Descriptors, flags and names.** The access-flag predicates
  (`AccessFlags`), method descriptors (`MethodDescriptors`), and class names
  and their descriptors (`ClassNames`).
- **The method area.**
  - The run-time constant pool (`RuntimeConstantPool`).
  - Fields and methods (`ClassMembers`).
  - The class arena with its objects and string pool (`Heaps`, `StringPool`),
    and the UTF-8 and UTF-16 conversions of Java strings (`Utf8`, `Utf16`).
  - The class hierarchy and member access (`ClassHierarchy`).
  - Assignability (`Assignability`).
  - Class preparation (`ClassPreparation`).
  - The class loader and its start-up (`ClassLoader`, `ClassLoaderInit`).
  - The resolution of symbolic references and the exception-table search
    (`Resolution`).
- **Threads.** Slots and local variables (`Slots`); operand stacks, frames,
  the bounded frame stack and the thread (`Frames`); the bytecode reader
  (`Bytecode`).
- **Instructions.**
  - Stack, constant and load instructions (`StackInstructions`).
  - Integer arithmetic and conversions (`MathInstructions`).
  - Comparisons, branches and switches (`ControlInstructions`).
  - The reference instructions (`ReferenceInstructions`, `MultiArrays`,
    `ThrowInstruction`).
  - The shared invoke and class-initialisation logic (`InvokeLogic`).
  - The native-method registry, `INVOKE_NATIVE` and
    `Throwable.fillInStackTrace` (`Natives`).
- **The interpreter loop** (`Interpreter`).

Every Go panic is modelled as an error value. This includes panics the
virtual machine raises with a Java exception name and runtime failures such
as an index out of range, a nil dereference or a failed type assertion
(`Wrappers`). Fixed-width integers and their wrap-around are written out over
unbounded integers (`MachineInts`). Mutable Go objects become immutable
values that each operation returns updated. Loaded classes live in an arena
indexed by class id, and a class is added only after its superclass and
interfaces. So every walk up the hierarchy ends.

A Go string is a sequence of bytes. The model writes it as a Dafny `string`
with one character per byte, so class names, descriptors and the keys of the
class map and of the string pool are byte strings, as they are in Go. Where Go
takes the runes of a string (`[]rune(s)`) or writes runes back
(`string(runes)`), the model decodes or encodes UTF-8 (`Utf8`).

## Model

| member | source | states |
|---|---|---|
| MachineInts.ShiftMaskIsMod | ch10/instructions/math/sh.go:20 | the distance masks `uint32(v2) & 0x1f` and `& 0x3f` are v2 modulo 32 and modulo 64, for negative v2 too |
| MachineInts.ShrKeepsSign | ch10/instructions/math/sh.go:34 | the arithmetic right shift of an int keeps its sign and agrees with the logical shift on non-negative values |
| MachineInts.Shr64KeepsSign | ch10/instructions/math/sh.go:73 | the same for the long arithmetic shift |
| MachineInts.UshrNonNegative | ch10/instructions/math/sh.go:47 | a logical right shift by at least one bit never gives a negative int or long |
| MachineInts.Xor32Twice | ch09/instructions/math/xor.go:17 | xoring an int twice with the same value gives it back |
| MachineInts.Xor64Twice | ch09/instructions/math/xor.go:28 | the same for longs |
| MachineInts.Or32Idem | ch10/instructions/math/or.go:17 | or-ing an int with itself gives it back |
| MachineInts.Or64Idem | ch10/instructions/math/or.go:28 | the same for longs |
| MachineInts.NegInvolution | ch10/instructions/math/neg.go:31-44 | two's-complement negation undoes itself, and the minimum int and long are their own negations |
| MachineInts.I2B | ch11/instructions/conversions/i2x.go:28 | `int32(int8(i))` lies in -128..127 and agrees with i modulo 2^8 |
| MachineInts.I2C | ch11/instructions/conversions/i2x.go:39 | `int32(uint16(i))` lies in 0..65535 and agrees with i modulo 2^16 |
| MachineInts.I2S | ch11/instructions/conversions/i2x.go:50 | `int32(int16(i))` lies in -32768..32767 and agrees with i modulo 2^16 |
| MachineInts.NarrowingIdempotent | ch11/instructions/conversions/i2x.go:25-52 | each narrowing conversion leaves its own results unchanged |
| MathInstructions.ExecIntOp | ch10/instructions/math/sh.go:16-49 | ISHL, ISHR, IUSHR (and IXOR, IOR) pop v2 then v1 and push one int; they fail exactly when fewer than two slots are on the stack, and the rest of the frame is kept |
| MathInstructions.IntShifts | ch10/instructions/math/sh.go:20-47 | ISHL multiplies by 2^(v2 mod 32) with 32-bit wrap-around; ISHR keeps the sign of v1 and agrees with IUSHR when v1 is non-negative; IUSHR by a non-zero distance is non-negative |
| MathInstructions.IntBitOps | ch09/instructions/math/xor.go:13-19 | IXOR and IOR do not depend on operand order; xoring twice with one operand restores the other; x or x is x |
| MathInstructions.ExecLongOp | ch10/instructions/math/sh.go:55-87 | the long shifts pop an int distance and LXOR, LOR pop a long, then the long v1 is popped and one long pushed; success exactly when both operands are there |
| MathInstructions.LongShifts | ch10/instructions/math/sh.go:59-86 | LSHL multiplies by 2^(v2 mod 64) with wrap-around; LSHR keeps the sign; LUSHR by a non-zero distance is non-negative |
| MathInstructions.LongBitOps | ch09/instructions/math/xor.go:24-29 | LXOR and LOR are symmetric; xoring twice restores; x or x is x |
| MathInstructions.ExecINeg | ch10/instructions/math/neg.go:31-35 | INEG replaces the top int by its wrapped negation, failing only on an empty stack |
| MathInstructions.ExecLNeg | ch10/instructions/math/neg.go:40-44 | LNEG replaces the top long by its wrapped negation, failing only with fewer than two slots |
| MathInstructions.INegTwice | ch10/instructions/math/neg.go:31-35 | INEG twice restores a frame whose top slot holds an int |
| MathInstructions.LNegTwice | ch10/instructions/math/neg.go:40-44 | LNEG twice gives back the same long at the same depth |
| MathInstructions.FetchIinc | ch07/instructions/math/iinc.go:15-18 | IINC reads an unsigned byte index and then a signed byte constant, two bytes in all |
| MathInstructions.ExecIinc | ch07/instructions/math/iinc.go:20-25 | IINC adds the constant to local `index` with 32-bit wrap-around; it fails exactly when the index is outside the locals; no other local and not the operand stack changes |
| MathInstructions.IincComposes | ch07/instructions/math/iinc.go:20-25 | two increments of one local add up modulo 2^32, and +c followed by -c restores the frame |
| MathInstructions.ExecI2L | ch11/instructions/conversions/i2x.go:12-17 | I2L replaces the int on top by a two-slot long; it fails exactly when the stack is empty or has no room for the second slot |
| MathInstructions.I2LSignExtends | ch11/instructions/conversions/i2x.go:15 | the long pushed by I2L has the value of the int |
| MathInstructions.ExecNarrow | ch11/instructions/conversions/i2x.go:25-52 | I2B, I2C, I2S replace the top int by its narrowed value, failing only on an empty stack |
| MathInstructions.NarrowRanges | ch11/instructions/conversions/i2x.go:28-50 | the narrowed values lie in the byte, char and short ranges and agree with the int in the bits kept |
| MathInstructions.NarrowIdempotent | ch11/instructions/conversions/i2x.go:25-52 | narrowing a frame twice gives the frame narrowed once |
| StackInstructions.ExecSwap | ch09/instructions/stack/swap.go:15-21 | SWAP exchanges the two top slots and keeps the rest; it succeeds exactly when there are at least two |
| StackInstructions.SwapTwice | ch09/instructions/stack/swap.go:15-21 | SWAP twice restores the frame |
| StackInstructions.ExecPop | ch09/instructions/stack/pop.go:14-17 | POP drops the top slot, failing exactly on an empty stack |
| StackInstructions.ExecPop2 | ch09/instructions/stack/pop.go:25-29 | POP2 drops the two top slots, failing exactly with fewer than two |
| StackInstructions.Pop2IsTwoPops | ch09/instructions/stack/pop.go:25-29 | POP2 is POP done twice, failures included |
| StackInstructions.FetchBipush | ch05/instructions/constants/ipush.go:18-20 | BIPUSH reads one signed byte, whose unsigned reading is the code byte |
| StackInstructions.FetchSipush | ch05/instructions/constants/ipush.go:27-29 | SIPUSH reads a signed 16-bit value whose big-endian encoding is the next two code bytes |
| StackInstructions.ExecPushInt | ch05/instructions/constants/ipush.go:22-34 | BIPUSH and SIPUSH push the fetched value, failing exactly when the stack is full |
| StackInstructions.PushThenPop | ch05/instructions/constants/ipush.go:22-24 | the pushed value is on top, and POP restores the frame |
| StackInstructions.ExecIload | ch06/instructions/loads/iload.go:54-57 | ILOAD pushes the int in local `index`, failing exactly when the index is outside the locals or the stack is full |
| StackInstructions.IincThenIload | ch06/instructions/loads/iload.go:54-57 | loading a local after IINC pushes the incremented value |
| StackInstructions.BitOpsIgnoreSwap | ch09/instructions/stack/swap.go:15-21 | IXOR and IOR give the same frame with or without a SWAP first |
| ControlInstructions.Branch | ch10/instructions/comparisons/if_icmp.go:16 | a branch moves the frame's next pc to the executing instruction's pc plus the offset and changes nothing else in the frame |
| ControlInstructions.BranchIf | ch10/instructions/comparisons/if_icmp.go:15-17 | a conditional branch either takes the offset or leaves the next pc where operand fetching put it, and changes nothing else |
| ControlInstructions.ExecIfIcmp | ch10/instructions/comparisons/if_icmp.go:14-75 | IF_ICMP<cond> pops val2 then val1, and branches exactly when the condition holds for (val1, val2); fewer than two ints is an error |
| ControlInstructions.IfIcmpPairs | ch10/instructions/comparisons/if_icmp.go:14-68 | EQ/NE, LT/GE and GT/LE pop the same two operands and exactly one instruction of each pair branches |
| ControlInstructions.ExecIfAcmp | ch11/instructions/comparisons/if_acmp.go:14-34 | IF_ACMPEQ and IF_ACMPNE pop two references and branch when they are, respectively are not, the same reference |
| ControlInstructions.ExecIfNull | ch11/instructions/extended/ifnull.go:14-30 | IFNULL and IFNONNULL pop one reference and branch when it is, respectively is not, null |
| ControlInstructions.RefTestPairs | ch11/instructions/comparisons/if_acmp.go:14-34 | on the same operands exactly one of IF_ACMPEQ/IF_ACMPNE branches, and exactly one of IFNULL/IFNONNULL |
| ControlInstructions.FetchGotoW | ch10/instructions/extended/goto_w.go:13-15 | GOTO_W reads a signed 32-bit offset from the four bytes after the opcode, and needs all four |
| ControlInstructions.ExecGoto | ch10/instructions/extended/goto_w.go:17-19 | GOTO_W always branches and leaves the operand stack and the locals alone |
| ControlInstructions.SwitchHeader | ch08/instructions/control/tableswitch.go:20-22 | a switch header is read from the first multiple of 4 at or after the pc, as consecutive big-endian ints |
| ControlInstructions.FetchTableSwitch | ch08/instructions/control/tableswitch.go:19-26 | TABLESWITCH skips the padding, reads default, low and high, then `high - low + 1` (32-bit) jump offsets; a negative count is a fault |
| ControlInstructions.ExecTableSwitch | ch08/instructions/control/tableswitch.go:34-43 | TABLESWITCH pops the index and, inside [low, high], branches by the jump offset at index - low, otherwise by the default offset |
| ControlInstructions.TableSwitchSelects | ch08/instructions/control/tableswitch.go:19-43 | on a table as fetched, an index in range selects `jumpOffsets[index - low]` and the instruction cannot fail once an int is on the stack |
| ControlInstructions.FetchLookupSwitch | ch10/instructions/control/lookupswitch.go:14-19 | LOOKUPSWITCH skips the padding, reads default and npairs, then `npairs * 2` (32-bit) ints |
| ControlInstructions.FirstMatchUnique | ch10/instructions/control/lookupswitch.go:24-30 | at most one pair is the first whose key matches |
| ControlInstructions.MatchFromSpec | ch10/instructions/control/lookupswitch.go:24-30 | the search loop returns the offset of the first pair whose key equals the popped key, and none when no pair has it |
| ControlInstructions.ExecLookupSwitch | ch10/instructions/control/lookupswitch.go:21-32 | LOOKUPSWITCH pops the key and branches once: by the first matching pair's offset, or by the default |
| ControlInstructions.LookupSwitchSelects | ch10/instructions/control/lookupswitch.go:14-32 | on a table as fetched, the first pair with the key decides the branch and with no such pair the default is taken |
| ControlInstructions.PairIntsEven | ch10/instructions/control/lookupswitch.go:18 | `npairs * 2` in 32-bit arithmetic is even even when it wraps |
| Bytecode.ReadUint8 | ch09/instructions/base/bytecode_reader.go:27-31 | succeeds exactly when a byte is left, returns the byte at the pc and advances the pc by one |
| Bytecode.ReadInt8 | ch09/instructions/base/bytecode_reader.go:37-39 | the byte at the pc read as two's complement, same bounds and advance as ReadUint8 |
| Bytecode.ToU8 | ch09/instructions/base/bytecode_reader.go:38 | the conversion between int8 and uint8 keeps the value modulo 256 |
| Bytecode.ReadUint16 | ch09/instructions/base/bytecode_reader.go:45-49 | two bytes, the first one high: the value's big-endian encoding is the two bytes at the pc |
| Bytecode.ReadInt16 | ch09/instructions/base/bytecode_reader.go:55-57 | the two bytes at the pc are the big-endian encoding of the value's unsigned reading |
| Bytecode.ReadInt32 | ch09/instructions/base/bytecode_reader.go:63-69 | the four bytes at the pc are the big-endian encoding of the value's unsigned reading, the wrapping 32-bit shifts included |
| Bytecode.PaddingSpec | ch09/instructions/base/bytecode_reader.go:71-75 | the padding skipped is at most 3 bytes and ends at the first multiple of 4 at or after the pc |
| Bytecode.SkipPadding | ch09/instructions/base/bytecode_reader.go:71-75 | skipping succeeds when the pc is aligned or the padding bytes exist, and moves the pc to the next multiple of 4 |
| Bytecode.ReadInt32s | ch09/instructions/base/bytecode_reader.go:77-83 | a negative count is the `make` fault; otherwise n ints are read in order, each as ReadInt32 reads it |
| Bytecode.ReadInts | ch09/instructions/base/bytecode_reader.go:78-82 | n ints succeed exactly when 4n bytes are left, and they are the ints stored one after another at the pc |
| Bytecode.Int32At | ch09/instructions/base/bytecode_reader.go:63-69 | the int32 at an offset is the one whose big-endian encoding are the four bytes there |
| Bytecode.IntsCons | ch09/instructions/base/bytecode_reader.go:79-81 | reading one int and then the rest reads the ints stored consecutively |
| Bytecode.ReadInt32Is | ch09/instructions/base/bytecode_reader.go:63-69 | the value ReadInt32 returns is the int stored at the pc |
| Bytecode.BytesInjective | ch09/instructions/base/bytecode_reader.go:45-49 | two values below 256^n with the same n-byte encoding are equal, so reads are unambiguous |
| Bytecode.Int16ReadInvertsEncoding | ch09/instructions/base/bytecode_reader.go:55-57 | whatever int16 is encoded at the pc is read back, and the pc moves past it |
| Bytecode.WrapU16RoundTrip | ch09/instructions/base/bytecode_reader.go:56 | `int16` of a uint16, read back as unsigned, is the same uint16 |
| Bytecode.U16RoundTrip | ch09/instructions/base/bytecode_reader.go:56 | an int16 read as unsigned and converted back is unchanged |
| Bytecode.Int32ReadInvertsEncoding | ch09/instructions/base/bytecode_reader.go:63-69 | whatever int32 is encoded at the pc is read back, and the pc moves past it |
| Bytecode.FetchBranch | ch11/instructions/base/instruction.go:34-36 | a branch instruction reads a signed 16-bit offset from the two bytes after the opcode |
| Bytecode.FetchIndex8 | ch11/instructions/base/instruction.go:51-53 | an index-8 instruction reads the next byte as an unsigned index |
| Bytecode.FetchIndex16 | ch11/instructions/base/instruction.go:68-70 | an index-16 instruction reads the next two bytes as an unsigned big-endian index |
| Slots.LongHalvesRoundTrip | ch09/rtda/local_vars.go:43-53 | splitting a long into `int32(v)` and `int32(v >> 32)` and joining them as `int64(high)<<32 \| int64(low)` gives the long back |
| Slots.HalvesLongRoundTrip | ch09/rtda/local_vars.go:43-53 | joining two halves and splitting the long gives the halves back, so the two-slot encoding of a long is a bijection |
| Slots.NewSlots | ch09/rtda/local_vars.go:12 | `make([]Slot, n)` is n zero slots |
| Slots.NewLocalVars | ch09/rtda/local_vars.go:10-15 | a method with maxLocals > 0 gets maxLocals + 1 zero slots, and one with none gets no slots |
| Slots.SetInt | ch09/rtda/local_vars.go:21-23 | storing an int at an index inside the table replaces only that slot's number; an index outside is an error |
| Slots.GetInt | ch09/rtda/local_vars.go:25-27 | reading an int needs an index inside the table |
| Slots.SetFloat | ch09/rtda/local_vars.go:29-32 | a float is stored as its bit pattern reinterpreted as an int32; the slot's reference and every other slot are kept |
| Slots.GetFloat | ch09/rtda/local_vars.go:34-37 | reading a float needs an index inside the table |
| Slots.SetLong | ch09/rtda/local_vars.go:43-46 | a long occupies index and index + 1, low half first, and no other slot changes; both slots must exist |
| Slots.GetLong | ch09/rtda/local_vars.go:48-53 | a long is read back from the halves at index and index + 1 |
| Slots.SetDouble | ch09/rtda/local_vars.go:59-62 | a double is stored as the long of its bits: the low half at index, the high half at index + 1, every other slot kept; it needs two slots |
| Slots.GetDouble | ch09/rtda/local_vars.go:64-67 | a double is read through GetLong and needs two slots |
| Slots.SetRef | ch09/rtda/local_vars.go:73-75 | storing a reference replaces only that slot's reference |
| Slots.GetRef | ch09/rtda/local_vars.go:77-79 | reading a reference needs an index inside the table |
| Slots.SetSlot | ch09/rtda/local_vars.go:81-83 | a whole slot is replaced at an index inside the table |
| Slots.GetThis | ch09/rtda/local_vars.go:86-88 | `this` is the reference in slot 0 and needs a non-empty table |
| Slots.IntRoundTrip | ch09/rtda/local_vars.go:21-27 | an int stored is read back and the slot's reference is untouched |
| Slots.FloatRoundTrip | ch09/rtda/local_vars.go:29-37 | a float's bits stored are read back |
| Slots.LongRoundTrip | ch09/rtda/local_vars.go:43-53 | a long stored is read back |
| Slots.DoubleRoundTrip | ch09/rtda/local_vars.go:59-67 | a double's bits stored are read back |
| Slots.RefRoundTrip | ch09/rtda/local_vars.go:73-88 | a reference stored is read back, the slot's number is untouched, and a reference stored at 0 is `this` |
| Frames.NewOperandStack | ch09/rtda/frame.go:26 | a new frame's operand stack is empty and holds at most maxStack slots |
| Frames.PushSlot | ch09/instructions/stack/swap.go:19-20 | a push succeeds exactly when the stack has room and puts the slot on top |
| Frames.PopSlot | ch09/instructions/stack/swap.go:17-18 | a pop succeeds exactly when the stack is non-empty and removes the top slot |
| Frames.PopInt | ch10/instructions/math/sh.go:18-19 | popping an int needs a slot on the stack |
| Frames.PopFloat | ch11/instructions/conversions/i2x.go:62 | popping a float needs a slot on the stack |
| Frames.PopLong | ch10/instructions/math/sh.go:58 | popping a long needs two slots on the stack |
| Frames.PopDouble | ch11/instructions/conversions/i2x.go:73 | popping a double needs two slots on the stack |
| Frames.PopRef | ch10/instructions/references/athrow.go:16 | popping a reference needs a slot on the stack |
| Frames.GetRefFromTop | ch09/instructions/references/invokeinterface.go:30 | the reference n slots below the top, without popping; n must be below the depth |
| Frames.ClearStack | ch10/instructions/references/athrow.go:35 | clearing leaves an empty operand stack with the same bound |
| Frames.PopSlots | ch10/instructions/base/method_invoke_logic.go:15-19 | popping n slots at once succeeds when n are there and returns them in the order they were pushed |
| Frames.SlotRoundTrip | ch09/instructions/stack/swap.go:17-20 | a slot pushed is popped back and the stack is as before |
| Frames.IntRoundTrip | ch10/instructions/math/sh.go:18-22 | an int pushed is popped back |
| Frames.FloatRoundTrip | ch11/instructions/conversions/i2x.go:62 | a float's bits pushed are popped back |
| Frames.LongRoundTrip | ch10/instructions/math/sh.go:58-61 | a long pushed as two slots is popped back whole |
| Frames.DoubleRoundTrip | ch11/instructions/conversions/i2x.go:73 | a double pushed as two slots is popped back whole |
| Frames.RefRoundTrip | ch10/instructions/references/athrow.go:36 | a reference pushed is popped back and is the reference 0 slots from the top |
| Frames.PushBounds | ch10/instructions/math/sh.go:61 | a push onto a full stack fails, and a long needs two free slots and takes two |
| Frames.NewFrame | ch09/rtda/frame.go:21-28 | a new frame has the method's local table, an empty operand stack of maxStack slots, and starts at pc 0 |
| Frames.NextPCAccessors | ch09/rtda/frame.go:47-56 | setting the next pc touches nothing else, and `RevertNextPC` resets it to the thread's pc whatever was set before |
| Frames.Push | ch11/rtda/jvm_stack.go:19-28 | pushing onto a stack holding maxSize frames is the StackOverflowError panic; otherwise the frame becomes the top |
| Frames.Pop | ch11/rtda/jvm_stack.go:30-39 | popping an empty stack is the "jvm stack is empty" panic; otherwise the top frame is removed and returned |
| Frames.Top | ch11/rtda/jvm_stack.go:41-46 | the top of an empty stack is the "jvm stack is empty!" panic; otherwise it is the last frame pushed |
| Frames.SetTop | ch09/rtda/frame.go:50-52 | an in-place update of the current frame replaces the top and keeps every frame below |
| Frames.Clear | ch11/rtda/jvm_stack.go:52-56 | clearing pops until the stack is empty and keeps its bound |
| Frames.GetFrames | ch11/rtda/jvm_stack.go:58-64 | `getFrames` lists as many frames as the stack holds |
| Frames.PushPop | ch11/rtda/jvm_stack.go:19-39 | popping after a successful push returns the frame and the stack before it, and the frame is the top |
| Frames.OverflowKeeps | ch11/rtda/jvm_stack.go:20-22 | a push fails exactly at maxSize frames and otherwise adds one frame |
| Frames.EmptyIffNoTop | ch11/rtda/jvm_stack.go:30-50 | the stack is empty exactly when `top` and `pop` panic |
| Frames.GetFramesReverse | ch11/rtda/jvm_stack.go:58-64 | `getFrames` lists the frames from the top down, the reverse of the order pushed |
| Frames.GetFramesPush | ch11/rtda/jvm_stack.go:19-28 | after a push, `getFrames` starts with the new frame, followed by the old list |
| Frames.ClearIsEmpty | ch11/rtda/jvm_stack.go:52-56 | clearing any stack gives a new empty stack of the same bound |
| Frames.NewThread | ch09/rtda/thread.go:10-14 | a new thread has pc 0 and an empty stack of at most 1024 frames |
| Frames.SetPC | ch09/rtda/thread.go:28-30 | setting the pc leaves the frame stack alone |
| Frames.ThreadLifo | ch09/rtda/thread.go:32-45 | a frame pushed onto a thread is its current frame and pops off again, leaving the thread as before |
| Frames.SetCurrentFrameTop | ch09/rtda/thread.go:40-45 | replacing the current frame keeps the depth and the frames below, and makes the new frame current |
| Frames.PushFrame | ch09/rtda/thread.go:32-34 | a push fails with the StackOverflowError panic exactly when the stack already holds maxSize frames; otherwise the frame goes on top and the pc is kept |
| Frames.PopFrame | ch09/rtda/thread.go:36-38 | popping an empty stack is the "jvm stack is empty" panic; otherwise the top frame is returned and the frames below and the pc are kept |
| Frames.CurrentFrame | ch09/rtda/thread.go:40-45 | `CurrentFrame` and `TopFrame` are the "jvm stack is empty!" panic on an empty stack and otherwise the last frame pushed |
| Frames.SetCurrentFrame | ch09/rtda/thread.go:40-42 | an in-place update of the current frame fails exactly on an empty stack, and otherwise replaces the top, keeping the frames below and the pc |
| ClassReader.BigEndianBound | ch05/classfile/class_reader.go:26 | the big-endian value of n bytes is below 256^n |
| ClassReader.BigEndianOfBytes | ch05/classfile/class_reader.go:26 | decoding the n-byte big-endian encoding of a value that fits gives the value back |
| ClassReader.BytesOfBigEndian | ch05/classfile/class_reader.go:26 | encoding the big-endian value of a byte string in as many bytes gives the string back |
| ClassReader.ReadN | ch05/classfile/class_reader.go:25-49 | reading n bytes big-endian succeeds exactly when n bytes are left, and the data is the value's encoding followed by the rest |
| ClassReader.ReadNBytes | ch05/classfile/class_reader.go:25-49 | reading n bytes in front of any rest decodes the encoded value and leaves the rest |
| ClassReader.ReadUint8 | ch05/classfile/class_reader.go:15-19 | u1: the first byte, and the data after it; an empty reader fails |
| ClassReader.ReadUint16 | ch05/classfile/class_reader.go:25-29 | u2: the first two bytes big-endian, which must exist |
| ClassReader.ReadUint32 | ch05/classfile/class_reader.go:35-39 | u4: the first four bytes big-endian, which must exist |
| ClassReader.ReadUint64 | ch05/classfile/class_reader.go:45-49 | u8: the first eight bytes big-endian, which must exist |
| ClassReader.ReadUintEncoded | ch05/classfile/class_reader.go:15-49 | each fixed-width reader decodes the encoding of any value of its width, in front of any rest |
| ClassReader.ReadBytes | ch05/classfile/class_reader.go:68-72 | `readBytes(n)` splits off exactly the first n bytes, which must exist |
| ClassReader.ReadU16Run | ch05/classfile/class_reader.go:58-60 | n consecutive u2 values are read in order when 2n bytes are left |
| ClassReader.ReadUint16s | ch05/classfile/class_reader.go:55-62 | a u2 count and then that many u2 values: the data is the table's encoding followed by the rest |
| ClassReader.ReadUint16sFails | ch05/classfile/class_reader.go:55-62 | the table reader fails exactly when fewer bytes remain than the count (or the count itself) needs |
| ClassReader.ReadU16RunEncoded | ch05/classfile/class_reader.go:58-60 | the encoding of n u2 values is read back as those values |
| ClassReader.ReadUint16sEncoded | ch05/classfile/class_reader.go:55-62 | `readUint16s` decodes the encoding of any table of fewer than 2^16 values |
| ClassFilePool.Chars | ch09/classfile/constant_pool.go:56-59 | the Go string of a Utf8 entry holds the entry's bytes, one character per byte |
| ClassFilePool.CharBytes | ch09/classfile/constant_pool.go:56-59 | the inverse of Chars on strings of byte-sized characters |
| ClassFilePool.ReadPair | ch11/classfile/cp_class.go:15-17 | an entry body of two u2 indices is the encodings of the two indices followed by the rest |
| ClassFilePool.ReadConstantInfo | ch09/classfile/constant_pool.go:13 | reading an entry yields a non-empty entry and consumes at least its tag byte |
| ClassFilePool.ReadConstantBody | ch03/classfile/cp_numeric.go:18-60 | the body of a known tag yields a non-empty entry; an unknown tag is the class-format panic |
| ClassFilePool.ReadPairEncoded | ch11/classfile/cp_class.go:15-17 | two encoded u2 indices are read back |
| ClassFilePool.ReadConstantInfoEncoded | ch09/classfile/constant_pool.go:13 | reading the tag-and-body encoding of any entry a class file can carry gives the entry back |
| ClassFilePool.ReadConstantBodyEncoded | ch03/classfile/cp_numeric.go:18-60 | each kind's body reader decodes that kind's body encoding |
| ClassFilePool.IntegerBodyEncoded | ch03/classfile/cp_numeric.go:18-21 | an Integer entry is its four bytes read as uint32 and converted to int32 |
| ClassFilePool.FloatBodyEncoded | ch03/classfile/cp_numeric.go:31-34 | a Float entry keeps its four bytes as the IEEE 754 bit pattern |
| ClassFilePool.LongBodyEncoded | ch03/classfile/cp_numeric.go:44-47 | a Long entry is its eight bytes read as uint64 and converted to int64 |
| ClassFilePool.DoubleBodyEncoded | ch03/classfile/cp_numeric.go:57-60 | a Double entry keeps its eight bytes as the IEEE 754 bit pattern |
| ClassFilePool.Utf8BodyEncoded | ch09/classfile/constant_pool.go:56-59 | a Utf8 entry is a u2 length followed by that many bytes |
| ClassFilePool.IndexBodyEncoded | ch11/classfile/cp_string.go:16-18 | Class, String and MethodType entries are one u2 index |
| ClassFilePool.MethodHandleBodyEncoded | ch09/classfile/constant_pool.go:13 | a MethodHandle entry is a u1 kind and a u2 index |
| ClassFilePool.PairBodyEncoded | ch11/classfile/cp_class.go:15-17 | the ref, NameAndType and InvokeDynamic entries are two u2 indices |
| ClassFilePool.ReadEntries | ch09/classfile/constant_pool.go:12-18 | the loop over indices 1 .. count-1 extends the entries read so far to a pool of count entries of the right shape |
| ClassFilePool.ReadEntriesAfter | ch09/classfile/constant_pool.go:14-17 | after a Long or Double the next index is left empty, and the table stays well formed |
| ClassFilePool.AppendEntry | ch09/classfile/constant_pool.go:12-18 | appending an entry after a narrow one, and an empty index after a wide one, keeps the pool's shape |
| ClassFilePool.ReadConstantPool | ch09/classfile/constant_pool.go:9-20 | the pool has as many indices as the u2 count says, entry 0 empty and an empty index after every Long and Double |
| ClassFilePool.ReadEntriesEncoded | ch09/classfile/constant_pool.go:12-18 | reading the encoding of the remaining entries gives them back |
| ClassFilePool.ReadEntriesAfterEncoded | ch09/classfile/constant_pool.go:14-17 | the step after an entry skips the index after a wide one and reads the rest back |
| ClassFilePool.ReadConstantPoolEncoded | ch09/classfile/constant_pool.go:9-20 | reading the encoding of any well-formed pool gives back the pool, whatever follows |
| ClassFilePool.GetConstantInfo | ch09/classfile/constant_pool.go:26-31 | a lookup returns the entry at the index, and an empty index is the "Invalid constant pool index!" panic |
| ClassFilePool.InvalidIndices | ch09/classfile/constant_pool.go:12-31 | in a pool as read, exactly index 0 and the indices after Long and Double entries are refused |
| ClassFilePool.GetUtf8 | ch09/classfile/constant_pool.go:56-59 | succeeds exactly on a Utf8 entry and gives its string |
| ClassFilePool.GetClassName | ch09/classfile/constant_pool.go:47-51 | succeeds exactly on a Class entry naming a Utf8 entry, and gives that string |
| ClassFilePool.GetNameAndType | ch09/classfile/constant_pool.go:37-42 | succeeds exactly on a NameAndType entry whose two indices name Utf8 entries, and gives both strings |
| ClassFileAttributes.KindNames | ch07/classfile/attribute_info.go:34-56 | exactly eight attribute names select a kind of their own, one name per kind; every other name is unparsed |
| ClassFileAttributes.ReadGroups | ch05/classfile/attr_local_variable_type_table.go:18-26 | n entries of w u2 fields each are read in order, and the data is their encoding followed by the rest |
| ClassFileAttributes.GroupsCons | ch05/classfile/attr_local_variable_type_table.go:18-26 | the encoding of a table is the first entry's encoding followed by the rest's |
| ClassFileAttributes.ReadGroupsEncoded | ch05/classfile/attr_local_variable_type_table.go:18-26 | the encoding of n entries of w fields is read back |
| ClassFileAttributes.ReadTable | ch05/classfile/attr_local_variable_type_table.go:15-27 | a u2 length and then that many entries: the data is the table's encoding followed by the rest |
| ClassFileAttributes.ReadTableEncoded | ch05/classfile/attr_local_variable_type_table.go:15-27 | the encoding of any table of fewer than 2^16 entries is read back |
| ClassFileAttributes.GroupsBodyLength | ch05/classfile/attr_local_variable_type_table.go:19-25 | an entry of five u2 fields takes ten bytes |
| ClassFileAttributes.LocalVariableTypeEntries | ch05/classfile/attr_local_variable_type_table.go:19-25 | each group of five u2 values becomes one entry, in field order |
| ClassFileAttributes.LocalVariableTypeGroups | ch05/classfile/attr_local_variable_type_table.go:7-13 | an entry's five fields as a group of u2 values |
| ClassFileAttributes.ReadLocalVariableTypeTable | ch05/classfile/attr_local_variable_type_table.go:15-27 | the table takes a u2 length and ten bytes per entry, and the rest is what follows |
| ClassFileAttributes.LocalVariableTypeTableRoundTrip | ch05/classfile/attr_local_variable_type_table.go:15-27 | reading the encoding of any LocalVariableTypeTable gives back its entries |
| ClassFileAttributes.ReadExceptions | ch03/classfile/attr_exceptions.go:11-13 | an Exceptions attribute is a u2 table of class indices, read by `readUint16s` |
| ClassFileAttributes.ExceptionsRoundTrip | ch03/classfile/attr_exceptions.go:11-17 | reading the encoding of any exception index table gives it back |
| ClassFileAttributes.ReadAttributes | ch07/classfile/attribute_info.go:16-23 | the attribute table consumes at least its u2 count |
| ClassFileAttributes.ReadAttributeRun | ch07/classfile/attribute_info.go:19-21 | n attributes are read one after another |
| ClassFileAttributes.ReadAttribute | ch07/classfile/attribute_info.go:25-32 | an attribute consumes at least its six header bytes |
| ClassFileAttributes.ReadAttributeBody | ch07/classfile/attribute_info.go:29-30 | the attribute name selects the kind that is read, and an unparsed attribute keeps its name, length and length bytes of body |
| ClassFileAttributes.ReadKnownBody | ch07/classfile/attribute_info.go:35-51 | the body reader of a known kind produces an attribute of that kind |
| ClassFileAttributes.ReadIndexBody | ch07/classfile/attribute_info.go:38-49 | ConstantValue and SourceFile bodies are a single u2 index |
| ClassFileAttributes.ReadCode | ch07/classfile/attribute_info.go:36-37 | a Code attribute is read as one |
| ClassFileAttributes.ReadAttributesCount | ch07/classfile/attribute_info.go:16-23 | the table reader reads the u2 count and then that many attributes |
| ClassFileAttributes.ReadAttributeHeader | ch07/classfile/attribute_info.go:25-32 | an attribute is a u2 name index resolved through the pool, a u4 length, and the body of the named kind; a bad name index fails |
| ClassFileAttributes.UnparsedBody | ch07/classfile/attribute_info.go:52-53 | an unknown name keeps the length and exactly that many bytes of body |
| ClassFileAttributes.UnparsedRoundTrip | ch07/classfile/attribute_info.go:25-53 | the encoding of an attribute of unknown name is read back as that unparsed attribute |
| ClassFileAttributes.IndexBody | ch07/classfile/attribute_info.go:38-49 | a ConstantValue or SourceFile body of one u2 index is read back |
| ClassFileAttributes.IndexAttributeRoundTrip | ch07/classfile/attribute_info.go:25-49 | the encoding of a ConstantValue or SourceFile attribute is read back |
| ClassFileAttributes.ReadMember | ch05/classfile/member_info.go:31-39 | a member consumes at least its flags, name, descriptor and attribute count |
| ClassFileAttributes.ReadMemberHeader | ch05/classfile/member_info.go:31-39 | a member is the u2 access flags, name index and descriptor index, then its attribute table |
| ClassFileAttributes.ReadMemberRun | ch05/classfile/member_info.go:22-24 | n members are read one after another |
| ClassFileAttributes.ReadMembers | ch05/classfile/member_info.go:19-26 | the member table consumes at least its u2 count |
| ClassFileAttributes.ReadMembersCount | ch05/classfile/member_info.go:19-26 | the member table reader reads the u2 count and then that many members |
| ClassFileAttributes.MemberName | ch05/classfile/member_info.go:45-47 | a member's name is the Utf8 entry at its name index |
| ClassFileAttributes.MemberDescriptor | ch05/classfile/member_info.go:53-55 | a member's descriptor is the Utf8 entry at its descriptor index |
| ClassFileAttributes.FirstOfKind | ch05/classfile/member_info.go:58-66 | the search returns an attribute of the kind with none of that kind before it, and nothing exactly when there is none |
| ClassFileAttributes.ShiftNoneOfKind | ch05/classfile/member_info.go:59-64 | skipping one attribute of another kind shifts the search by one |
| ClassFileAttributes.CodeAttribute | ch05/classfile/member_info.go:58-66 | the member's first Code attribute, and nil exactly when it has none |
| ClassFileAttributes.ConstantValueAttribute | ch07/rtda/heap/field.go:47 | the member's first ConstantValue attribute (no ConstantValue comes before it), and nil exactly when it has none |
| ClassFileAttributes.LineNumberTableOf | ch11/native/java/lang/Throwable.go:53 | the first LineNumberTable of a Code attribute (none comes before it), and none exactly when it has none |
| ClassFileAttributes.SuperClassName | ch10/rtda/heap/class.go:33 | superclass index 0 means no superclass (the empty name); any other index names a Class entry |
| ClassFileAttributes.InterfaceNamesFrom | ch10/rtda/heap/class.go:34 | the interface names are the Class entries at the interface indices, in order, and the lookup fails when any does |
| ClassFileAttributes.SourceFileName | ch11/native/java/lang/Throwable.go:52 | the file name a stack trace element takes from its class: the SourceFile attribute's name, and "Unknown" without one |
| AccessFlags.BitAndPow2 | ch10/rtda/heap/class.go:52 | masking with a single bit 2^k is non-zero exactly when bit k of the flags is set |
| AccessFlags.SingleBitTest | ch10/rtda/heap/class.go:52 | on 16-bit flags, `0 != flags & 2^k` tests bit k and nothing else |
| AccessFlags.FlagBitPositions | ch10/rtda/heap/class.go:51-80 | each ACC_ constant is the single bit that tables 4.1-A, 4.5-A and 4.6-A of the Java Virtual Machine Specification give it |
| AccessFlags.ClassFlagBits | ch10/rtda/heap/class.go:51-81 | each class predicate holds exactly when its bit of the access flags is set |
| AccessFlags.MemberFlagBits | ch11/rtda/heap/class_member.go:21-38 | each predicate shared by fields and methods holds exactly when its bit is set |
| AccessFlags.MethodFlagBits | ch10/rtda/heap/method.go:77-94 | each method predicate holds exactly when its bit is set |
| AccessFlags.FieldFlagBits | ch07/rtda/heap/field.go:25-33 | each field predicate holds exactly when its bit is set |
| MethodDescriptors.AddParameterType | ch11/rtda/heap/method_descriptor.go:9-18 | the type is appended after the others and the return type kept; a full slice first gets four more places of capacity |
| MethodDescriptors.CapacityAfterAdds | ch11/rtda/heap/method_descriptor.go:9-18 | adding parameters one by one keeps the capacity the smallest multiple of 4 that holds them all |
| MethodDescriptors.AddAll | ch11/rtda/heap/method_descriptor.go:9-18 | the length never exceeds the capacity however many parameters are added |
| MethodDescriptors.AddAllAppends | ch11/rtda/heap/method_descriptor.go:17 | adding a list of parameters appends them in order and keeps the return type |
| MethodDescriptors.FieldTypeStart | ch10/rtda/heap/method.go:36 | a field type never starts with ')' or 'V', so the parameter loop and the return type cannot be confused |
| MethodDescriptors.FindSemicolon | ch10/rtda/heap/method.go:36 | the first ';' at or after a position, or none when there is none |
| MethodDescriptors.ParseFieldType | ch10/rtda/heap/method.go:36 | a field type parsed from a position ends after it |
| MethodDescriptors.ParseParams | ch10/rtda/heap/method.go:36 | the parameter list parsed up to ')' gives a descriptor whose length stays within its capacity |
| MethodDescriptors.ParseMethodDescriptor | ch10/rtda/heap/method.go:36 | a malformed descriptor is the "BAD descriptor" panic naming it |
| MethodDescriptors.FindSemicolonFirst | ch10/rtda/heap/method.go:36 | the search finds the first ';' after a run of other characters |
| MethodDescriptors.FieldTypeParses | ch10/rtda/heap/method.go:36 | any field type in front of any text is parsed as exactly that field type |
| MethodDescriptors.ParsedFieldType | ch10/rtda/heap/method.go:36 | what the field-type parser accepts is a field type |
| MethodDescriptors.ParamsParse | ch10/rtda/heap/method.go:36 | the text of any list of field types followed by ')' parses to that list |
| MethodDescriptors.DescriptorRoundTrip | ch10/rtda/heap/method.go:36 | parsing the text of any parameter list and return type gives back that list and type |
| MethodDescriptors.EncodeShape | ch10/rtda/heap/method.go:36 | a descriptor is "(", the parameter types, ")" and the return type |
| MethodDescriptors.ParsedParamsAreFieldTypes | ch10/rtda/heap/method.go:36 | every parameter type the parser produces is a field type |
| MethodDescriptors.ParsedDescriptorWellFormed | ch10/rtda/heap/method.go:36 | a parsed descriptor has field-type parameters and a field type or "V" as return type |
| RuntimeConstantPool.MemberRefInfo | ch09/rtda/heap/cp_memberref.go:13-16 | a member reference copies the class name of its Class entry and the name and descriptor of its NameAndType entry, and fails when either lookup does |
| RuntimeConstantPool.ConvertEntry | ch11/rtda/heap/constant_pool.go:23-54 | numeric entries keep their values, String and Class entries their names, member references their class, name and descriptor; other kinds have no run-time form |
| RuntimeConstantPool.ConvertEntries | ch11/rtda/heap/constant_pool.go:22-55 | the loop from index i on completes the converted prefix to a pool of the same length |
| RuntimeConstantPool.NewConstantPool | ch11/rtda/heap/constant_pool.go:18-57 | the run-time pool has as many indices as the class-file pool and index 0 is empty |
| RuntimeConstantPool.ConvertEntriesSpec | ch11/rtda/heap/constant_pool.go:22-55 | on a pool as read, the loop succeeds exactly when every entry converts, and each index holds its entry's run-time form, so the index after a Long or Double stays empty |
| RuntimeConstantPool.NewConstantPoolSpec | ch11/rtda/heap/constant_pool.go:18-57 | the conversion of a pool as read fails exactly when some entry fails, and otherwise maps every index to its entry's run-time form |
| RuntimeConstantPool.GetConstant | ch11/rtda/heap/constant_pool.go:60-65 | the constant at a used index, and the "No constants at index N" panic at an empty one |
| ClassNames.PrimitiveTableInverse | ch09/rtda/heap/class_name_helper.go:18-28 | the primitive-type table maps a name to a code exactly when the reverse search maps the code back to the name |
| ClassNames.PrimitiveTableInjective | ch09/rtda/heap/class_name_helper.go:18-28 | no two primitive names share a descriptor, so `toClassName`'s map iteration finds one answer whatever the order |
| ClassNames.PrimitiveCodeShape | ch09/rtda/heap/class_name_helper.go:18-28 | every primitive descriptor is one letter, neither '[' nor 'L' |
| ClassNames.ToDescriptor | ch09/rtda/heap/class_name_helper.go:8-16 | an array name is its own descriptor, a primitive name its letter, any other class name "L" name ";"; an empty name indexes out of range |
| ClassNames.ArrayClassName | ch09/rtda/heap/class_name_helper.go:4-6 | the array class of a class is "[" followed by the class's descriptor |
| ClassNames.ToClassName | ch09/rtda/heap/class_name_helper.go:39-54 | an array descriptor is its own name, "L" name ";" gives the name, a primitive letter its name, and anything else the "Invalid descriptor" panic |
| ClassNames.ComponentClassName | ch09/rtda/heap/class_name_helper.go:30-36 | the component of an array name is the class named by the rest of the descriptor, and a non-array name is the "Not array" panic |
| ClassNames.ComponentOfArrayClassName | ch09/rtda/heap/class_name_helper.go:4-54 | the component class of the array class of any non-empty class name is that name |
| ClassNames.ArrayComponentShorter | ch09/rtda/heap/class_name_helper.go:30-36 | an array's component name is shorter than the array's name, so descending through components ends |
| ClassNames.JavaName | ch10/rtda/heap/class.go:190-192 | the Java name replaces every '/' by '.' and keeps every other character |
| ClassNames.LastSlash | ch10/rtda/heap/class.go:116 | `strings.LastIndex(name, "/")`: the last '/' of the name, or none when there is none |
| ClassNames.PackageName | ch10/rtda/heap/class.go:115-121 | the package is the name up to its last '/', and empty for a name without one |
| Utf16.EncodeChar | ch09/rtda/heap/string_pool.go:26-29 | a character below U+10000 is one unit that is not a surrogate, any other is a high surrogate followed by a low one |
| Utf16.Encode | ch09/rtda/heap/string_pool.go:26-29 | the encoding has at least as many units as the string has characters |
| Utf16.DecodePair | ch09/rtda/heap/string_pool.go:31-34 | a surrogate pair decodes to a character at or above U+10000 |
| Utf16.Decode | ch09/rtda/heap/string_pool.go:31-34 | decoding gives at most one character per unit |
| Utf16.EncodeDecodeChar | ch09/rtda/heap/string_pool.go:26-34 | decoding the units of one character followed by any units gives the character followed by their decoding |
| Utf16.DecodeEncode | ch09/rtda/heap/string_pool.go:26-34 | `utf16ToString(stringToUtf16(s))` is s |
| Utf16.EncodeWellFormed | ch09/rtda/heap/string_pool.go:26-29 | an encoding never has an unpaired surrogate |
| Utf16.EncodeDecode | ch09/rtda/heap/string_pool.go:26-34 | on units without an unpaired surrogate, encoding the decoding gives the units back |
| Utf8.DecodeFirst | ch09/rtda/heap/string_pool.go:27 | `utf8.DecodeRune`: an ASCII byte is itself; an invalid start, a cut-short sequence included, is U+FFFD of width 1 |
| Utf8.Decode | ch09/rtda/heap/string_pool.go:27 | `[]rune(s)`: at most one rune per byte |
| Utf8.EncodeRune | ch09/rtda/heap/string_pool.go:33 | `utf8.EncodeRune`: one to four bytes, a single byte exactly for ASCII |
| Utf8.Encode | ch09/rtda/heap/string_pool.go:33 | `string(runes)`: a byte string at least as long as the runes |
| Utf8.DecodeEncodeRune | ch09/rtda/heap/string_pool.go:27-33 | decoding the encoding of a rune, whatever follows, reads the rune back as a valid sequence of the encoding's width |
| Utf8.DecodeEncode | ch09/rtda/heap/string_pool.go:27-33 | `[]rune(string(rs))` is rs, and `string(rs)` is valid UTF-8 |
| Utf8.EncodeDecodeFirst | ch09/rtda/heap/string_pool.go:27-33 | a valid sequence at the start of a string is the encoding of the rune it decodes to |
| Utf8.EncodeDecode | ch09/rtda/heap/string_pool.go:27-33 | `string([]rune(s))` is s exactly when s is valid UTF-8 |
| Utf8.AsciiRunes | ch09/rtda/heap/string_pool.go:27 | an ASCII string is valid and is its own runes |
| Utf8.TwoByteExample | ch09/rtda/heap/string_pool.go:27 | the bytes C3 A9 are the one rune U+00E9, and a lone C3 is U+FFFD |
| StringPool.StringChars | ch09/rtda/heap/string_pool.go:22 | a string's characters are those of the char array its `value` field refers to |
| StringPool.GoString | ch09/rtda/heap/string_pool.go:21-34 | `GoString` succeeds exactly when the object has a char array in `value`; the result is valid UTF-8 whose runes are the decoding of the UTF-16 units |
| StringPool.GoStringStable | ch09/rtda/heap/string_pool.go:21-24 | a string's contents do not change as the heap grows |
| StringPool.GoStringIgnoresPool | ch09/rtda/heap/string_pool.go:21-24 | a string's contents do not depend on the intern pool |
| StringPool.InternConsistentGrows | ch09/rtda/heap/string_pool.go:6 | every pooled object keeps the contents of its key as the heap grows |
| StringPool.InternConsistentAdd | ch09/rtda/heap/string_pool.go:41 | adding a string under its own contents keeps the pool consistent |
| StringPool.InternString | ch09/rtda/heap/string_pool.go:36-43 | interning returns the pooled object for the string's contents, or pools and returns the string itself; nothing but the pool changes |
| StringPool.InternStringContents | ch09/rtda/heap/string_pool.go:36-43 | the interned object has the same contents, and the pool stays consistent |
| StringPool.InternStringIdempotent | ch09/rtda/heap/string_pool.go:36-43 | interning the result of an intern changes nothing |
| StringPool.InternStringCanonical | ch09/rtda/heap/string_pool.go:36-43 | two strings of equal contents intern to the same object |
| Decimal.NatToString | ch11/rtda/heap/constant_pool.go:64 | `%d` of a natural number is a non-empty digit string without a leading zero |
| Decimal.NatToStringRoundTrip | ch11/rtda/heap/constant_pool.go:64 | reading the digits back gives the number |
| Decimal.NatToStringInjective | ch11/rtda/heap/constant_pool.go:64 | distinct numbers render differently |
| ClassMembers.ConstValueIndexOf | ch07/rtda/heap/field.go:46-50 | a field whose member has a ConstantValue attribute takes the index of the first one; a field without one keeps constant-value index 0 |
| ClassMembers.NewField | ch07/rtda/heap/field.go:15-18 | a field copies the member's flags, and its name and descriptor from the pool; its constant-value index is that of the member's first ConstantValue attribute, or 0 without one; a bad index fails |
| ClassMembers.NewFields | ch07/rtda/heap/field.go:12-21 | one field per member entry, in the same order, and failure exactly when some entry fails |
| ClassMembers.GetCatchType | ch10/rtda/heap/exception_table.go:33-38 | index 0 is catch-all; any other index must hold a class reference, or the type assertion fails |
| ClassMembers.NewHandler | ch10/rtda/heap/exception_table.go:22-27 | a handler copies the range and handler pc of its entry and the catch type `getCatchType` gives |
| ClassMembers.NewExceptionTable | ch10/rtda/heap/exception_table.go:19-30 | one handler per entry, in the same order |
| ClassMembers.ExceptionTableCatchTypes | ch10/rtda/heap/exception_table.go:19-38 | every handler is catch-all exactly when its entry's index is 0, and otherwise names a class reference of the pool |
| ClassMembers.ParamWidth | ch10/rtda/heap/method.go:67-70 | a parameter takes one slot, or two for a long or a double |
| ClassMembers.ParamSlotsAppend | ch10/rtda/heap/method.go:65-71 | the slot count of a parameter list is the sum over its parts |
| ClassMembers.ParamSlotsBounds | ch10/rtda/heap/method.go:65-71 | the parameters take between one and two slots each, and exactly one each when none is a long or a double |
| ClassMembers.ReturnOpcodeKinds | ch10/rtda/heap/method.go:48-61 | the injected return is `return` for void, `areturn` for references and arrays, `lreturn`, `freturn`, `dreturn` for their types, and `ireturn` for the int-like types |
| ClassMembers.InjectCodeAttribute | ch10/rtda/heap/method.go:45-63 | a native method gets a four-slot stack, locals for its arguments, and the code `invokenative` plus the return; nothing else changes |
| ClassMembers.CodeParts | ch10/rtda/heap/method.go:15-21 | stack and locals sizes, code and exception table come from the first Code attribute, and are empty without one |
| ClassMembers.NewMethod | ch10/rtda/heap/method.go:31-42 | a method copies flags, name and descriptor, takes its sizes and code from the Code attribute, counts argument slots from the parsed descriptor (plus `this` unless static), and a native one gets injected code |
| ClassMembers.NativeInjectionTotal | ch10/rtda/heap/method.go:38-40 | the injection of a native method cannot fail once its descriptor parsed |
| ClassMembers.NewMethods | ch10/rtda/heap/method.go:23-29 | one method per member entry, in the same order |
| ClassMembers.LineAt | ch11/native/java/lang/Throwable.go:55 | the line found is -1 or the line of some entry of the table |
| ClassMembers.LineAtLast | ch11/native/java/lang/Throwable.go:55 | the line is that of the last entry starting at or before the pc, and -1 exactly when no entry does |
| ClassMembers.GetLineNumber | ch11/native/java/lang/Throwable.go:55 | a native method has line -2, a method without a line table -1, and any other the line of the last entry at or before the pc |
| Heaps.EmptyHeapValid | ch10/rtda/heap/class_loader.go:114 | the empty method area and heap satisfy the heap invariant |
| Heaps.GrowsTrans | ch10/rtda/heap/class_loader.go:114 | loading and allocation never undo each other's results, over any number of steps |
| Heaps.AddClass | ch10/rtda/heap/class_loader.go:114 | `classMap[class.name] = class`: the class gets the next id, is found by its name, and nothing loaded before changes |
| Heaps.AddedValid | ch10/rtda/heap/class_loader.go:114 | registering a class whose superclass and interfaces were loaded keeps the heap invariant |
| Heaps.CachesValidExtend | ch10/rtda/heap/class_loader.go:114 | resolutions that were valid stay valid when a class is added |
| Heaps.SetState | ch10/rtda/heap/class.go:21-23 | changing a class's mutable state touches no class definition, object or name |
| Heaps.Alloc | ch11/rtda/heap/object.go:23-28 | a new object gets the next address and keeps the heap invariant |
| Heaps.Deref | ch08/instructions/references/arraylength.go:16-18 | a null reference is the nil dereference; an address gives the object stored there |
| Heaps.ClassAccessibility | ch10/rtda/heap/class.go:110-112 | a class is accessible to itself and to its package, a public class to every class, and a non-public one to no class of another package |
| Heaps.GetStaticMethod | ch10/rtda/heap/class.go:130-139 | the first method the class itself declares that is static and has the name and descriptor, and none exactly when there is none |
| Heaps.GetMainMethod | ch10/rtda/heap/class.go:126-139 | the first static method the class declares named `main` with descriptor `([Ljava/lang/String;)V`, and none exactly when it declares none |
| Heaps.GetClinitMethod | ch10/rtda/heap/class.go:130-151 | the first static method the class declares named `<clinit>` with descriptor `()V`, and none exactly when it declares none |
| Heaps.StartInit | ch10/rtda/heap/class.go:145-147 | starting the initialization sets that class's flag and leaves every other class's state alone |
| Heaps.Chain | ch10/rtda/heap/class.go:160 | the walk `c = c.superClass` from a class visits superclasses of ever smaller id and ends at a class without one |
| Heaps.FirstField | ch10/rtda/heap/class.go:161-167 | the first field at or after i with the name, descriptor and static-ness, and none exactly when no later field matches |
| Heaps.FirstMethod | ch10/rtda/heap/class.go:174-181 | the first method at or after i with the name, descriptor and static-ness, and none exactly when no later method matches |
| Heaps.GetField | ch10/rtda/heap/class.go:159-170 | a field found is a valid member and the first match its owner declares |
| Heaps.GetFieldFirstOwner | ch10/rtda/heap/class.go:159-170 | the field found is declared by the first class on the superclass chain that declares a match |
| Heaps.GetFieldNone | ch10/rtda/heap/class.go:159-170 | the search finds nothing exactly when no class on the chain declares a match |
| Heaps.GetMethod | ch10/rtda/heap/class.go:172-184 | a method found is a valid member and the first match its owner declares |
| Heaps.GetMethodFirstOwner | ch10/rtda/heap/class.go:172-184 | the method found is declared by the first class on the superclass chain that declares a match |
| Heaps.GetMethodNone | ch10/rtda/heap/class.go:172-184 | the search finds nothing exactly when no class on the chain declares a match |
| Heaps.ShiftChain | ch10/rtda/heap/class.go:160 | the chain of a class is the class followed by the chain of its superclass |
| Heaps.GetMethodStable | ch10/rtda/heap/class.go:172-184 | loading more classes does not change what a method search from a loaded class finds |
| Heaps.GetFieldStable | ch10/rtda/heap/class.go:159-170 | loading more classes does not change what a field search from a loaded class finds |
| Heaps.NewObject | ch11/rtda/heap/object.go:23-28 | a new object has the class, `instanceSlotCount` zero slots and no extra, at the next address; no class changes |
| Heaps.InstanceFieldSlot | ch11/rtda/heap/object.go:44-45 | the slot comes from the instance field `getField(name, descriptor, false)` finds |
| Heaps.SetRefVar | ch11/rtda/heap/object.go:43-47 | writing a reference field changes only that object |
| Heaps.RefVarRoundTrip | ch11/rtda/heap/object.go:43-53 | reading a reference field just written gives the value written, and no other slot, the class or the extra of the object changes |
| Heaps.GetExtra | ch11/rtda/heap/object.go:15-17 | the extra of the object a reference points to |
| Heaps.SetExtra | ch11/rtda/heap/object.go:18-20 | setting the extra changes only that object's extra |
| Heaps.ExtraRoundTrip | ch11/rtda/heap/object.go:15-20 | the extra set is read back, and the object's data is untouched |
| Heaps.ArrayData | ch10/rtda/heap/array_class.go:11-30 | the data of a new array is never a field table |
| Heaps.ArrayLength | ch08/instructions/references/arraylength.go:19 | only an array has a length; a field table is the "Not array!" panic |
| Heaps.ArrayDataShape | ch10/rtda/heap/array_class.go:11-30 | a new array has count zero elements of the representation its name selects: bytes for "[Z" and "[B", chars for "[C" only, references for every non-primitive name |
| Heaps.NewArray | ch10/rtda/heap/array_class.go:7-31 | a non-array class is the "Not array class" panic; otherwise the zero-filled array is allocated at the next address |
| ClassHierarchy.AncestorFromStable | ch10/rtda/heap/class_hierarchy.go:78 | loading more classes does not change which classes lie on an already loaded superclass chain |
| ClassHierarchy.SubClassStable | ch10/rtda/heap/class_hierarchy.go:77-84 | loading more classes does not change `IsSubClassOf` between loaded classes |
| ClassHierarchy.AncestorFromChain | ch10/rtda/heap/class_hierarchy.go:78-83 | the superclass loop meets t exactly when t is on the class's chain |
| ClassHierarchy.SubClassIsChain | ch10/rtda/heap/class_hierarchy.go:77-84 | s is a subclass of t exactly when t is a proper ancestor on s's superclass chain |
| ClassHierarchy.SubClassBelow | ch10/rtda/heap/class_hierarchy.go:78 | every superclass found was loaded before the class it was found from |
| ClassHierarchy.SubClassIrreflexive | ch10/rtda/heap/class_hierarchy.go:77-84 | no class is its own subclass and no two classes are subclasses of each other |
| ClassHierarchy.AncestorFromTrans | ch10/rtda/heap/class_hierarchy.go:78-83 | an ancestor of an ancestor is met by the same loop |
| ClassHierarchy.SubClassTransitive | ch10/rtda/heap/class_hierarchy.go:77-84 | `IsSubClassOf` is transitive |
| ClassHierarchy.DirectInterfaceImplemented | ch10/rtda/heap/class_hierarchy.go:86-104 | an interface a class lists directly is one it implements and one it extends |
| ClassHierarchy.SubInterfaceTransitive | ch10/rtda/heap/class_hierarchy.go:97-104 | `isSubInterfaceOf` is transitive |
| ClassHierarchy.ImplementsSuperInterface | ch10/rtda/heap/class_hierarchy.go:86-104 | a class implementing an interface implements every superinterface of it |
| ClassHierarchy.ImplementsInherited | ch10/rtda/heap/class_hierarchy.go:86-95 | a class implements every interface any of its superclasses implements |
| ClassHierarchy.ChainSuffix | ch10/rtda/heap/class_hierarchy.go:87 | every tail of a superclass chain is the chain of the class it starts at |
| ClassHierarchy.MemberAccessRules | ch11/rtda/heap/class_member.go:51-65 | the declaring class always has access; a public member is open to all; a non-private member to its package; a protected one to subclasses; a member neither public nor protected is closed to other packages, and a private one is open to its class alone |
| Assignability.ArrayClassOf | ch10/rtda/heap/class.go:153-156 | the class loaded is named by the array name of the class, and the component of that name is the class's own name; an empty name is a Go index failure |
| Assignability.ComponentClass | ch10/rtda/heap/array_class.go:34-37 | the class loaded is the one registered under the component part of the array class's name; a name with no component part fails as the name conversion does |
| Assignability.ComponentOfArrayClass | ch10/rtda/heap/array_class.go:34-37 | the component class of the array class of a registered class is that class again |
| Assignability.ComponentMeasure | ch10/rtda/heap/class_hierarchy.go:54-56 | a component class that is itself an array has a shorter name, so the component recursion ends |
| Assignability.IsAssignableFrom | ch10/rtda/heap/class_hierarchy.go:15-61 | on any class path, only two distinct array classes load anything and every other pair is answered by the assignability relation over the loaded classes; on a consistent class path the answer always agrees with that relation over the classes loaded afterwards |
| Assignability.IsInstanceOf | ch11/rtda/heap/object.go:30-32 | an object is an instance of c exactly when its class is assignable to c: for an object that is no array on any class path, and for every object on a consistent one |
| Assignability.ClassToClass | ch10/rtda/heap/class_hierarchy.go:22-27 | between classes that are neither arrays nor interfaces, s is assignable to t exactly when t is s or on its superclass chain |
| Assignability.InterfaceToOther | ch10/rtda/heap/class_hierarchy.go:32-40 | an interface is assignable to a class only when it is java/lang/Object, and to another interface exactly when that is a superinterface of it |
| Assignability.ArrayToOther | ch10/rtda/heap/class_hierarchy.go:43-51 | an array class is assignable to a non-array class exactly when that is java/lang/Object, or, for an interface, java/lang/Cloneable or java/io/Serializable |
| Assignability.ArrayToArray | ch10/rtda/heap/class_hierarchy.go:52-57 | two array classes are assignable when their component classes are the same or assignable |
| Assignability.SubclassInherits | ch10/rtda/heap/class_hierarchy.go:22-31 | whatever a class is assignable to, its subclasses are too |
| Resolution.LookupMethodInInterfaces | ch09/rtda/heap/method_lookup.go:16-31 | a method found is a valid member and the first match its interface declares |
| Resolution.InterfaceLookupSpec | ch09/rtda/heap/method_lookup.go:16-31 | what the depth-first search finds is declared by an interface in the searched tree, and it finds nothing exactly when no interface in that tree declares a match |
| Resolution.LookupMethod | ch11/rtda/heap/cp_methodref.go:45-55 | a method found is a valid member and the first match its owner declares |
| Resolution.LookupMethodSpec | ch11/rtda/heap/cp_methodref.go:45-55 | a match on the superclass chain wins; without one the interfaces of the class are searched; nothing is found exactly when neither declares a match |
| Resolution.ChainMatch | ch09/rtda/heap/method_lookup.go:4-14 | `LookupMethodInClass` finds a method exactly when some class on the chain declares one |
| Resolution.LookupInterfaceMethod | ch09/rtda/heap/cp_interface_methodref.go:45-54 | a method found is a valid member and the first match its owner declares |
| Resolution.InterfaceMethodIsTreeSearch | ch09/rtda/heap/cp_interface_methodref.go:45-54 | the lookup is the depth-first search started at the interface itself: its own method wins, otherwise the match comes from its superinterfaces |
| Resolution.LookupField | ch07/rtda/heap/cp_fieldref.go:41-56 | a field found is a valid member and the first match its owner declares |
| Resolution.LookupFieldInInterfaces | ch07/rtda/heap/cp_fieldref.go:47-51 | a field found in the interfaces is a valid member and the first match its owner declares |
| Resolution.LookupFieldSpec | ch07/rtda/heap/cp_fieldref.go:41-56 | the field found is declared by a class the search may visit, and nothing is found exactly when no such class declares a match |
| Resolution.LookupFieldFromSpec | ch07/rtda/heap/cp_fieldref.go:47-51 | the same for the loop over the interfaces |
| Resolution.OwnFieldFirst | ch07/rtda/heap/cp_fieldref.go:42-46 | a field the class declares itself is the one found, whatever its interfaces and superclasses declare |
| Resolution.CachesGrowTrans | ch09/rtda/heap/symref.go:12-17 | filling in caches, repeated, still only fills in caches |
| Resolution.CacheClass | ch09/rtda/heap/symref.go:23-26 | an inaccessible class is the IllegalAccessError panic, and only then; otherwise the class is cached under the index and nothing else changes |
| Resolution.ResolveClass | ch09/rtda/heap/symref.go:12-27 | a cached class is returned as is; otherwise the class loaded by the reference's name, accessible to d, is returned and cached |
| Resolution.CacheField | ch07/rtda/heap/cp_fieldref.go:28-39 | NoSuchFieldError exactly when the lookup finds nothing, IllegalAccessError exactly when d may not access the field found, and otherwise that field is cached |
| Resolution.StoreField | ch07/rtda/heap/cp_fieldref.go:28-39 | a success stores the field found from the resolved class, accessible to d |
| Resolution.ResolveField | ch07/rtda/heap/cp_fieldref.go:20-39 | a cached field is returned as is; otherwise the field found from the resolved class, accessible to d, is returned and cached |
| Resolution.CacheMethod | ch11/rtda/heap/cp_methodref.go:26-43 | IncompatibleClassChangeError exactly when the class is an interface, NoSuchMethodError exactly when the lookup finds nothing, IllegalAccessError exactly when d may not access the method found, and otherwise that method is cached |
| Resolution.CacheInterfaceMethod | ch09/rtda/heap/cp_interface_methodref.go:25-43 | IncompatibleClassChangeError exactly when the class is not an interface, then the same lookup, access and cache outcomes |
| Resolution.StoreMethod | ch11/rtda/heap/cp_methodref.go:26-43 | a success stores the method found from a resolved class that is not an interface, accessible to d |
| Resolution.StoreInterfaceMethod | ch09/rtda/heap/cp_interface_methodref.go:25-43 | a success stores the method found from a resolved interface, accessible to d |
| Resolution.ResolveMethod | ch11/rtda/heap/cp_methodref.go:19-24 | a cached method is returned as is; otherwise the method found, accessible to d, is returned and cached |
| Resolution.ResolveInterfaceMethod | ch09/rtda/heap/cp_interface_methodref.go:18-23 | the same for interface method references |
| Resolution.ResolveFieldTwice | ch07/rtda/heap/cp_fieldref.go:20-25 | a second resolution of a field reference gives the same field and the heap the first one left |
| Resolution.ResolveMethodTwice | ch11/rtda/heap/cp_methodref.go:19-24 | a second resolution of a method reference gives the same method and the heap the first one left |
| Resolution.RejectsKept | ch10/rtda/heap/exception_table.go:48-49 | a handler that rejected a class keeps rejecting it while classes are loaded and caches filled in |
| Resolution.FindExceptionHandler | ch10/rtda/heap/exception_table.go:42-55 | the handler found is the first in table order whose range holds pc, start inclusive and end exclusive, and that catches the class or is a catch-all; none is found exactly when every covering handler rejects it. The search fails only where it resolves the catch class of a covering handler with no covering catch-all before it; when no handler covers pc it finds none, and when the first that does is a catch-all it finds that one, in both cases without resolving anything |
| ClassPreparation.NewClass | ch10/rtda/heap/class.go:29-39 | the class's flags, names, pool, fields and methods are those its class file decodes to, with no superclass, interfaces or slot counts yet; a class file whose name does not decode gives no class |
| ClassPreparation.SlotWidth | ch10/rtda/heap/class_loader.go:168-171 | a field takes one slot or two |
| ClassPreparation.CalcSlotIdsFrom | ch10/rtda/heap/class_loader.go:165-173 | from field i on, every selected field is numbered after the selected fields before it, the others keep their numbers, and the next free slot is what the selected fields need |
| ClassPreparation.CalcSlotIds | ch10/rtda/heap/class_loader.go:160-189 | the slot numbers counted from start and the slot count: start plus what the selected fields need |
| ClassPreparation.SlotsNeededPrefix | ch10/rtda/heap/class_loader.go:165-173 | the slots a prefix of the fields needs never exceed what all of them need |
| ClassPreparation.SlotLayoutDisjoint | ch10/rtda/heap/class_loader.go:160-189 | every selected field's slots lie in the range from start to the count, and no two selected fields share a slot |
| ClassPreparation.SlotsNeededIgnoresSlotIds | ch10/rtda/heap/class_loader.go:166-171 | the slots fields need depend on their flags and descriptors, not on their old slot numbers |
| ClassPreparation.Prepare | ch10/rtda/heap/class_loader.go:154-189 | instance fields are numbered from the superclass's instance slot count, static fields from 0, and only slot numbers and the two counts change |
| ClassPreparation.PrepareLayout | ch10/rtda/heap/class_loader.go:154-189 | after preparation every field's slots lie within the count of its kind, instance fields after the inherited slots, and no two fields of one kind share a slot |
| ClassPreparation.Unlinked | ch10/rtda/heap/class.go:29-39 | taking away what linking adds leaves no superclass, no interfaces and every field at slot 0 |
| ClassPreparation.LinkingKeepsDefinition | ch10/rtda/heap/class_loader.go:109-116 | a class as its class file defines it is unlinked, and resolving its superclass and interfaces and preparing it changes nothing the class file gave it |
| ClassPreparation.LinkingKeepsUnlinked | ch10/rtda/heap/class_loader.go:143-158 | linking an unlinked class and unlinking it again gives it back |
| ClassPreparation.InitPrimitiveStatic | ch10/rtda/heap/class_loader.go:200-219 | a field of kind Z, B, C, S or I takes an int constant, J a long, F a float, D a double; a constant of another kind is a failed type assertion; pool index 0 sets nothing |
| ClassPreparation.PreparedStaticsDisjoint | ch10/rtda/heap/class_loader.go:177-189 | after preparation each static field's slots end before those of any later static field |
| ClassPreparation.InitPrimitiveStaticValue | ch10/rtda/heap/class_loader.go:200-219 | after initialisation the getter of the field's type reads the pool constant from the field's slot, and the initialisation fails exactly when the pool has no constant of that kind there or the slot is out of range |
| ClassLoader.ClassPathValid | ch10/rtda/heap/class_loader.go:100-125 | class files that each define the class they are read under make a class path on which every class is consistent and not yet linked |
| ClassLoader.RegisteredKept | ch10/rtda/heap/class_loader.go:51-53 | a name registered to a class keeps that class in every heap that grows from there |
| ClassLoader.StepTrans | ch10/rtda/heap/class_loader.go:50-70 | loading steps compose: the heap stays valid, grows, keeps its pooled strings, its mirrors and its registrations |
| ClassLoader.GiveMirror | ch10/rtda/heap/class_loader.go:66-67 | the class's `jClass` is a new `java.lang.Class` object at the next address whose extra is the class; nothing else changes |
| ClassLoader.MirrorStep | ch10/rtda/heap/class_loader.go:66-67 | giving a class its mirror is a loading step, after which the new object stands for that class |
| ClassLoader.MirrorIfReady | ch10/rtda/heap/class_loader.go:65-68 | while `java/lang/Class` is registered the class gets its mirror; otherwise nothing changes; no other class's state changes |
| ClassLoader.LinkedClass | ch10/rtda/heap/class_loader.go:143-175 | the linked class keeps its name and names, has the resolved superclass and interfaces, and its fields laid out after the superclass's instance slots |
| ClassLoader.LinkedClassGrows | ch10/rtda/heap/class_loader.go:162-164 | linking against a heap that grows gives the same class |
| ClassLoader.SetStaticRef | ch10/rtda/heap/class_loader.go:223 | writing a reference static slot succeeds exactly when the slot exists, changes only that slot of that class's static variables and reads back as the value |
| ClassLoader.HeldKept | ch10/rtda/heap/class_loader.go:200-223 | a static constant stays held while the class, the pooled strings and the field's own slots are unchanged |
| ClassLoader.LinkedFromGrows | ch10/rtda/heap/class_loader.go:109-116 | a class linked from its definition stays so as the heap grows |
| ClassLoader.LinkedFromDefinition | ch10/rtda/heap/class_loader.go:109-158 | a loaded class unlinks back to its class file's definition and is that definition prepared against its superclass |
| ClassLoader.LoadClass | ch10/rtda/heap/class_loader.go:50-70 | a registered name gives its class and the same heap; an empty name is a Go index failure; otherwise the class loaded is new, registered under the name and given a mirror when `java/lang/Class` is loaded |
| ClassLoader.LoadArrayClass | ch10/rtda/heap/class_loader.go:72-86 | the array class is public, initialised, registered under its name, with superclass java/lang/Object and interfaces java/lang/Cloneable and java/io/Serializable |
| ClassLoader.LoadNonArrayClass | ch10/rtda/heap/class_loader.go:88-106 | a missing class file is the ClassNotFoundException panic with the name; a class file that does not decode passes its error on; a class already being loaded is a circular hierarchy; otherwise the class is linked from its definition and registered |
| ClassLoader.DefineClass | ch10/rtda/heap/class_loader.go:109-116 | the class defined is linked from its class file's definition, registered under its name, with its superclass and interfaces the classes it names |
| ClassLoader.DefineWithSuper | ch10/rtda/heap/class_loader.go:112-116 | once the superclass is resolved the interfaces are, and the class is linked and registered |
| ClassLoader.RegisterClass | ch10/rtda/heap/class_loader.go:114 | the class gets the next id, is the linked class, has fresh static variables, and is registered under its name |
| ClassLoader.LinkClass | ch10/rtda/heap/class_loader.go:143-158 | the registered class is the linked class; each of its static final constant fields holds its constant and every other static slot is zero |
| ClassLoader.ResolveSuperClass | ch10/rtda/heap/class_loader.go:128-132 | only java/lang/Object has no superclass; every other class's superclass is the class registered under its superclass name |
| ClassLoader.ResolveInterfaces | ch10/rtda/heap/class_loader.go:133-141 | one class per interface name, in order, each registered under that name |
| ClassLoader.InitStaticFinals | ch10/rtda/heap/class_loader.go:191-198 | initialising the static finals changes only the static variables of the class, and of those only the slots of static final fields with a constant; when static fields do not share slots, each such field afterwards holds its constant |
| ClassLoader.InitStaticFinalVar | ch10/rtda/heap/class_loader.go:200-226 | a field without a ConstantValue sets nothing; a primitive field gets its constant as `InitPrimitiveStatic` says; a `String` field gets the pooled Java string of its constant; no slot but the field's own changes, and the field then holds its constant |
| ClassLoader.InitStringFinal | ch10/rtda/heap/class_loader.go:220-223 | the static slot gets the pooled string of the constant and no other static slot changes; a pool error passes on and a constant that is not a string is a failed type assertion |
| ClassLoader.SetStaticString | ch10/rtda/heap/class_loader.go:222-223 | the static slot holds the pooled Java string of s and no other static slot of the class changes |
| ClassLoader.JString | ch09/rtda/heap/string_pool.go:9-19 | a pooled string is returned with the same heap; otherwise a new string joins the pool under s, and it reads back as s re-encoded from its runes, which is s exactly when s is valid UTF-8 |
| ClassLoader.NewJString | ch09/rtda/heap/string_pool.go:13-18 | the new string, whose chars are the UTF-16 of the runes of s, is the pool's entry for s and reads back as s exactly when s is valid UTF-8; the entries pooled before `JString` began are kept |
| ClassLoader.StringMade | ch09/rtda/heap/string_pool.go:13-16 | a string object whose `value` is the char array of the runes of s is a loading step and reads back as those runes written as UTF-8 |
| ClassLoader.InternStep | ch09/rtda/heap/string_pool.go:17 | pooling a string that was not pooled when a run of loading steps began extends that run by one step |
| ClassLoaderInit.PrimitiveNamesTable | ch09/rtda/heap/class_name_helper.go:18-28 | the names `loadPrimitiveClasses` walks are exactly the keys of the primitive type table, and none is `java/lang/Class` or an array name |
| ClassLoaderInit.EmptyHeapMirrors | ch10/rtda/heap/class_loader.go:17 | the loader starts from an empty class map, in which every class trivially has a valid mirror |
| ClassLoaderInit.MirrorsAdded | ch10/rtda/heap/class_loader.go:47 | registering a class without a mirror keeps every mirror valid |
| ClassLoaderInit.LoadBasicClasses | ch10/rtda/heap/class_loader.go:24-32 | `java/lang/Class` is loaded, and afterwards every registered class has a mirror |
| ClassLoaderInit.BasicStep | ch10/rtda/heap/class_loader.go:26-31 | one turn of the loop gives class id a mirror if it lacks one and keeps what the earlier turns did |
| ClassLoaderInit.LoadPrimitiveClass | ch10/rtda/heap/class_loader.go:38-48 | the primitive class is public, initialisation started, added last with its mirror and registered under its name; without `java/lang/Class` it is a nil dereference |
| ClassLoaderInit.LoadPrimitiveClasses | ch10/rtda/heap/class_loader.go:33-37 | every primitive class gets registered with its mirror and its initialisation started; other names keep their classes |
| ClassLoaderInit.PrimitiveStep | ch10/rtda/heap/class_loader.go:34-36 | one turn of the loop keeps the classes of the turns before |
| ClassLoaderInit.PrimitiveRegisteredKept | ch10/rtda/heap/class_loader.go:47 | a registered primitive class stays registered while other primitive classes are added |
| ClassLoaderInit.NewClassLoader | ch10/rtda/heap/class_loader.go:13-22 | the loader's heap is valid, every registered class has a valid mirror, and every primitive class is registered |
| InvokeLogic.Invocation | ch10/instructions/base/method_invoke_logic.go:8-22 | a call succeeds exactly when there is a caller frame, room for a frame, and enough caller slots and callee locals for the arguments, and then leaves the thread as a call does |
| InvokeLogic.InvokeMethod | ch10/instructions/base/method_invoke_logic.go:8-22 | an empty frame stack, a full one and too few argument slots each fail as the Go code does; otherwise the new frame is on top holding the arguments the caller lost |
| InvokeLogic.InvokedArgs | ch10/instructions/base/method_invoke_logic.go:15-20 | argument i lands in local i, the deepest argument slot in local 0, and the new frame starts at pc 0; a method without arguments leaves the caller as it was |
| InvokeLogic.InitChain | ch09/instructions/base/class_init_login.go:25-32 | the classes started begin with c and go on to ever lower ids, each one loaded before the one before it |
| InvokeLogic.InitChainSpec | ch09/instructions/base/class_init_login.go:25-32 | those classes are the start of the superclass chain of c, up to the first that is an interface, has no superclass or whose superclass had started, and none after c had started |
| InvokeLogic.ClinitFrame | ch09/instructions/base/class_init_login.go:15-22 | a frame exactly when the class has a `<clinit>`, and then a new frame for that method |
| InvokeLogic.ClinitFramesOwners | ch09/instructions/base/class_init_login.go:9-13 | every `<clinit>` frame pushed belongs to a class of the chain |
| InvokeLogic.ClinitFramesEmpty | ch09/instructions/base/class_init_login.go:15-22 | no frame is pushed exactly when no class of the chain has a `<clinit>` |
| InvokeLogic.ClinitFramesOrdered | ch09/instructions/base/class_init_login.go:9-13 | each frame pushed later belongs to a class further up the chain, so a superclass's `<clinit>` runs before its subclass's |
| InvokeLogic.ScheduleClinit | ch09/instructions/base/class_init_login.go:15-22 | the `<clinit>` frame, if any, is pushed on top; a full stack is the StackOverflowError panic, and only then |
| InvokeLogic.InitClass | ch09/instructions/base/class_init_login.go:9-13 | starting an initialisation keeps the heap valid |
| InvokeLogic.InitSuperClass | ch09/instructions/base/class_init_login.go:25-32 | initialising the superclass keeps the heap valid |
| InvokeLogic.InitClassSpec | ch09/instructions/base/class_init_login.go:9-32 | exactly the classes of the init chain get their init flag set, their `<clinit>` frames are pushed in chain order, and the only failure is an overflowing frame stack |
| InvokeLogic.InitSuperClassSpec | ch09/instructions/base/class_init_login.go:25-32 | `initSuperClass` does the same for the rest of the chain after c |
| InvokeLogic.InitStep | ch09/instructions/base/class_init_login.go:9-13 | c's own step followed by the rest of the chain gives the outcome for the whole chain |
| InvokeLogic.InitStepOk | ch09/instructions/base/class_init_login.go:9-13 | on success the frames pushed are the `<clinit>` frames of the whole chain, and they fitted |
| InvokeLogic.StartedStep | ch10/rtda/heap/class.go:145-147 | starting c and then the rest starts c followed by the rest |
| InvokeLogic.InitChainStable | ch09/instructions/base/class_init_login.go:28 | starting a later class does not change the chain of an earlier one |
| ReferenceInstructions.WithFrame | ch09/rtda/thread.go:40-42 | the thread with its current frame replaced: the frames below, the pc and the bound are kept |
| ReferenceInstructions.RunningKept | ch06/instructions/references/getfield.go:15-17 | loading classes and filling in caches keep the running method and the current class's pool |
| ReferenceInstructions.CachedField | ch06/instructions/references/getfield.go:17 | the field cached for a resolved reference is a field of a loaded class |
| ReferenceInstructions.CachedMethod | ch07/instructions/references/invokestatic.go:17 | the method cached for a resolved reference is a method of a loaded class |
| ReferenceInstructions.CachedClass | ch06/instructions/references/instanceof.go:26 | the class cached for a resolved reference is a loaded class |
| ReferenceInstructions.KindOf | ch06/instructions/references/getfield.go:33-46 | an empty descriptor has no first character; one whose first character is none of Z B C S I F J D L [ moves no value |
| ReferenceInstructions.PushValue | ch06/instructions/references/getfield.go:33-46 | the value of the field's kind at slot id is pushed with its width; it fails exactly when the slots or the operand stack are too small |
| ReferenceInstructions.StoreInt | ch06/instructions/references/putstatic.go:42-43 | an int is popped into the int half of slot id |
| ReferenceInstructions.StoreFloat | ch06/instructions/references/putstatic.go:44-45 | a float is popped into the int half of slot id |
| ReferenceInstructions.StoreLong | ch06/instructions/references/putstatic.go:46-47 | a long is popped into the int halves of slots id and id + 1 |
| ReferenceInstructions.StoreDouble | ch06/instructions/references/putstatic.go:48-49 | a double is popped into the int halves of slots id and id + 1 |
| ReferenceInstructions.StoreRef | ch06/instructions/references/putstatic.go:50-51 | a reference is popped into the reference half of slot id |
| ReferenceInstructions.StoreValue | ch06/instructions/references/putstatic.go:41-54 | the top value, as wide as its kind, is popped and stored at slot id; it fails exactly when the stack or the slots are too small |
| ReferenceInstructions.StoreThenLoad | ch06/instructions/references/putstatic.go:41-54 | a value stored and loaded again comes back as it was pushed, the other half of each slot cleared, and no slot outside the value's changes |
| ReferenceInstructions.ExecArrayLength | ch08/instructions/references/arraylength.go:13-21 | an empty stack is an out-of-range pop, null the NullPointerException panic, an object that is no array the "Not array!" panic; otherwise the array's length replaces the reference |
| ReferenceInstructions.LengthOfNewArray | ch08/instructions/references/arraylength.go:19-20 | the length of an array just made with count elements is count |
| ReferenceInstructions.GetFieldResolved | ch06/instructions/references/getfield.go:19-46 | a static field is the IncompatibleClassChangeError panic, an empty stack an out-of-range pop, null the NullPointerException panic; otherwise the field's value replaces the object reference, with the width its descriptor gives |
| ReferenceInstructions.ExecGetField | ch06/instructions/references/getfield.go:14-48 | a pool entry that is not a field reference fails the type assertion; otherwise the field is resolved and read; the heap changes by resolution only |
| ReferenceInstructions.WithStatics | ch06/instructions/references/putstatic.go:39 | only the static variables of the class change |
| ReferenceInstructions.PutStaticResolved | ch06/instructions/references/putstatic.go:27-54 | a field that is not static is the IncompatibleClassChangeError panic; a final one outside its class's `<clinit>` the IllegalAccessError panic; otherwise the top value is popped into the field's static slots |
| ReferenceInstructions.PutStaticWritesField | ch06/instructions/references/putstatic.go:37-54 | PUTSTATIC writes only the field's own slots and reading the field back gives the popped value |
| ReferenceInstructions.PutStaticStep | ch06/instructions/references/putstatic.go:39-54 | writing a static field is a heap step |
| ReferenceInstructions.ExecPutStatic | ch06/instructions/references/putstatic.go:17-55 | a pool entry that is not a field reference fails the type assertion; otherwise the field is resolved and written as `PutStaticResolved` says |
| ReferenceInstructions.ExecInstanceOf | ch06/instructions/references/instanceof.go:15-32 | null gives 0 before any class is resolved; otherwise the class is resolved and 0 or 1 replaces the reference, 1 exactly when the object is an instance of the class (stated for an object that is no array on any class path, and for every object on a consistent one) |
| ReferenceInstructions.InstanceOfTest | ch06/instructions/references/instanceof.go:27-31 | for a reference that is not null, an address past the heap fails; otherwise 0 or 1 replaces it, 1 exactly when its object is an instance of the resolved class (stated for an object that is no array on any class path, and for every object on a consistent one) |
| ReferenceInstructions.ExecCheckCast | ch11/instructions/references/checkcast.go:16-31 | the operand stack is left as it was; null passes; once the test is reached the only failure is ClassCastException, and a reference passes exactly when its object is an instance of the resolved class (stated for an object that is no array on any class path, and for every object on a consistent one) |
| ReferenceInstructions.InitFirst | ch09/instructions/references/new.go:21-25 | the next pc goes back to this instruction and the init chain of the class is started with its `<clinit>` frames on top; the only failure is an overflowing frame stack |
| ReferenceInstructions.InitFirstStarts | ch09/instructions/references/new.go:21-25 | the class's initialisation has started once the path succeeds |
| ReferenceInstructions.NewResolved | ch09/instructions/references/new.go:21-31 | an unstarted class is initialised first; an interface or abstract class is the InstantiationError panic; otherwise a fresh object of the class with zeroed fields is pushed |
| ReferenceInstructions.NewAfterInit | ch09/instructions/references/new.go:21-31 | a NEW that started its class allocates when it runs again, without initialising again |
| ReferenceInstructions.NewStep | ch09/instructions/references/new.go:21-31 | NEW changes the heap by starting classes or allocating only |
| ReferenceInstructions.ExecNew | ch09/instructions/references/new.go:16-32 | a pool entry that is not a class reference fails the type assertion; otherwise the class is resolved and NEW goes on as `NewResolved` says |
| ReferenceInstructions.InvokeStaticResolved | ch07/instructions/references/invokestatic.go:18-29 | a method that is not static is the IncompatibleClassChangeError panic; an unstarted class is initialised first; otherwise the method is called |
| ReferenceInstructions.ExecInvokeStatic | ch07/instructions/references/invokestatic.go:14-30 | a pool entry that is not a method reference fails the type assertion; otherwise the method is resolved and INVOKESTATIC goes on as `InvokeStaticResolved` says |
| ReferenceInstructions.ReferenceArrayOf | ch10/instructions/references/anewarray.go:24-25 | the array of a class that is not primitive holds references, count nulls when new |
| ReferenceInstructions.ANewArrayResolved | ch10/instructions/references/anewarray.go:19-26 | an empty stack is an out-of-range pop; a negative count the NegativeArraySizeException panic; otherwise a new array of the component's array class replaces the count |
| ReferenceInstructions.ExecANewArray | ch10/instructions/references/anewarray.go:15-27 | the component class is resolved before the count is popped, then ANEWARRAY goes on as `ANewArrayResolved` says |
| ReferenceInstructions.ANewArrayNulls | ch10/instructions/references/anewarray.go:24-26 | the array pushed holds as many nulls as the count popped |
| ReferenceInstructions.Receiver | ch07/instructions/references/invokespecial.go:32 | the receiver is the slot `argSlotCount - 1` from the top; a method without argument slots, or too few slots, is an out-of-range index |
| ReferenceInstructions.SpecialTarget | ch07/instructions/references/invokespecial.go:47-54 | without a super call the resolved method is called; any method chosen is a method of a loaded class |
| ReferenceInstructions.SuperCallTarget | ch07/instructions/references/invokespecial.go:48-53 | a super call finds the first declaration with the reference's name and descriptor up the chain of the current class's superclass, and finds one exactly when that chain declares it |
| ReferenceInstructions.InvokeSpecialResolved | ch07/instructions/references/invokespecial.go:22-60 | the checks in order: a constructor of another class is NoSuchMethodError, a static method IncompatibleClassChangeError, a null receiver the NullPointersException panic, the protected rule IllegalAccessError, a missing or abstract target AbstractMethodError; when all pass, the target is called |
| ReferenceInstructions.ExecInvokeSpecial | ch07/instructions/references/invokespecial.go:15-62 | a pool entry that is not a method reference fails the type assertion; the class and then the method are resolved, and INVOKESPECIAL goes on as `InvokeSpecialResolved` says |
| ReferenceInstructions.FetchInvokeInterface | ch09/instructions/references/invokeinterface.go:16-20 | the pool index is the next big-endian u16; the count and zero bytes are read and dropped; fewer than 4 bytes fail |
| ReferenceInstructions.InterfaceReceiver | ch09/instructions/references/invokeinterface.go:26-33 | a static or private method is the IncompatibleClassChangeError panic and a null receiver the NullPointerException panic; otherwise the receiver is an object |
| ReferenceInstructions.VirtualTarget | ch09/instructions/references/invokeinterface.go:40 | the method found up the receiver class's superclass chain, found exactly when that chain declares one |
| ReferenceInstructions.InterfaceDispatch | ch09/instructions/references/invokeinterface.go:35-47 | a receiver class that does not implement the interface is IncompatibleClassChangeError, a missing or abstract target AbstractMethodError, a non-public one IllegalAccessError; otherwise the target is called |
| ReferenceInstructions.ExecInvokeInterface | ch09/instructions/references/invokeinterface.go:22-48 | a pool entry that is not an interface method reference fails the type assertion; the method is resolved and checked, then the interface resolved and the receiver's method called |
| ThrowInstruction.NotBoth | ch10/rtda/heap/exception_table.go:45-50 | a handler cannot both catch and reject a class |
| ThrowInstruction.CaughtUnique | ch10/rtda/heap/exception_table.go:42-55 | the handler search finds at most one handler |
| ThrowInstruction.CaughtNotPasses | ch10/instructions/references/athrow.go:32-39 | a frame whose search finds a handler with a positive pc does not pass the exception on |
| ThrowInstruction.ClassRefsGrowAll | ch09/rtda/heap/symref.go:26 | resolution in one class keeps every class's resolved class references |
| ThrowInstruction.CatchesKept | ch10/rtda/heap/exception_table.go:48-50 | a handler keeps catching a class while classes are loaded and caches filled in |
| ThrowInstruction.PassesKept | ch10/instructions/references/athrow.go:32-40 | a frame keeps passing an exception on while classes are loaded and caches filled in |
| ThrowInstruction.FramesPassKept | ch10/instructions/references/athrow.go:28-44 | frames that passed the exception on keep doing so after a later frame's search resolves classes |
| ThrowInstruction.HandlerPC | ch10/instructions/references/athrow.go:31-32 | a positive pc is that of the handler the search finds at pc = nextPC - 1; otherwise the frame passes the exception on; a catch type that is no class reference fails the type assertion, and any other failure is the resolution of a covering handler's catch class |
| ThrowInstruction.Caught | ch10/instructions/references/athrow.go:34-37 | the frame that takes the exception keeps its method and locals and its operand stack's size |
| ThrowInstruction.PassesDown | ch10/instructions/references/athrow.go:40-43 | the frame searched after the ones that passed the exception on, when it passes it too, extends the run of passing frames |
| ThrowInstruction.TakenUnique | ch10/instructions/references/athrow.go:27-46 | two frames cannot both take the same exception |
| ThrowInstruction.TakenBlocks | ch10/instructions/references/athrow.go:33-38 | the frame that takes the exception does not pass it on |
| ThrowInstruction.ThrownUnique | ch10/instructions/references/athrow.go:15-50 | throwing has one outcome: which frame takes the exception, and where it goes on, is determined by the heap |
| ThrowInstruction.SearchFrame | ch10/instructions/references/athrow.go:29-43 | one round of the search: a frame with a handler goes on at it with just the exception on its operand stack, the frames above dropped; otherwise every frame from there up passes the exception on; the round fails only when the frame's search may (a bad catch type, or a catch class to resolve) or the frame has no operand-stack room for the exception |
| ThrowInstruction.ExecAthrow | ch10/instructions/references/athrow.go:15-53 | an empty operand stack is an out-of-range pop and a null exception the NullPointerException panic; otherwise the thread is the one throwing the exception gives: a frame takes it, or every frame is popped and the uncaught exception is handled as `HandleUncaught` says; any other failure is a dangling exception reference, a frame whose round may fail as `SearchFrame` says, or `HandleUncaught`'s failure |
| ThrowInstruction.HandleUncaught | ch10/instructions/references/athrow.go:49-53 | the stack ends empty with pc and size kept, and the call fails exactly when the exception's `detailMessage` cannot be read as a string; a null message is the nil dereference of `GoString` |
| MultiArrays.FetchMultiANewArray | ch09/instructions/references/multianewarray.go:16-19 | the class index is the next big-endian u16 and the dimension count the u8 after it; the reader moves 3 bytes on, and fewer bytes fail |
| MultiArrays.NegativeShift | ch09/instructions/references/multianewarray.go:34-38 | popping one count leaves the remaining counts' negative and fitting tests as they were, one dimension fewer |
| MultiArrays.PopCounts | ch09/instructions/references/multianewarray.go:32-41 | `dims` ints are popped so that counts[0] is the deepest; a negative count among them is the NegativeArraySizeException panic, and too few slots an out-of-range pop |
| MultiArrays.Lengths | ch09/instructions/references/multianewarray.go:44 | the counts as lengths, in order |
| MultiArrays.MultiShapedKept | ch09/instructions/references/multianewarray.go:43-53 | an array tree built earlier keeps its shape as the heap grows |
| MultiArrays.MultiShapedBelow | ch09/instructions/references/multianewarray.go:43-53 | an array tree whose objects lie above one bound lies above every lower bound |
| MultiArrays.FillStep | ch09/instructions/references/multianewarray.go:47-50 | storing the sub-arrays into the outer array is a heap step |
| MultiArrays.ElementsKept | ch09/instructions/references/multianewarray.go:48-50 | elements built earlier keep their shape as the heap grows |
| MultiArrays.NewMultiArray | ch09/instructions/references/multianewarray.go:43-53 | the outer array of length counts[0] is allocated first at the first free address; with one count it is the whole tree, and with more, its elements are at increasing addresses, so distinct objects, and on a consistent class path each is a new array tree of the rest over the component class; no counts is an index failure, a non-array class the "Not array class" panic |
| MultiArrays.NewElements | ch09/instructions/references/multianewarray.go:48-50 | n elements; on a consistent class path each is an array tree of the remaining counts over the component class |
| MultiArrays.NewElement | ch09/instructions/references/multianewarray.go:49 | one element, made only when the component class name exists; on a consistent class path it is an array tree over the component class |
| MultiArrays.MultiANewArrayResolved | ch09/instructions/references/multianewarray.go:25-28 | count errors pass on with the heap unchanged; zero dimensions is an index failure; on success exactly one reference, to a new array at the first free address, replaces the counts, and it is the root of the array tree when there is one count or the class path is consistent |
| MultiArrays.ExecMultiANewArray | ch09/instructions/references/multianewarray.go:21-29 | a pool entry that is not a class reference fails the type assertion; the class is resolved before the counts are popped, and a new array of that class replaces the counts, the array tree of the counts when there is one count or the class path is consistent |
| MultiArrays.TwoLevels | ch09/instructions/references/multianewarray.go:43-53 | with two counts m and n the outer array holds m references to arrays of n zero elements each, all allocated after it (that they are distinct objects is stated by `NewMultiArray`) |
| Natives.Register | ch10/native/registry.go:19-22 | the registry gains the triple's key, which now maps to the method, and every other key keeps its method |
| Natives.FindNativeMethod | ch10/native/registry.go:24-33 | a registered triple gives its method; otherwise `registerNatives()V` gives the do-nothing method, and only it gives anything |
| Natives.ThrowableNatives | ch11/native/java/lang/Throwable.go:17-19 | after the Throwable natives register, `java/lang/Throwable.fillInStackTrace(I)Ljava/lang/Throwable;` finds `fillInStackTrace` |
| Natives.FindAfterRegister | ch10/native/registry.go:19-27 | a method just registered is the one found, and a second registration of a triple replaces the first |
| Natives.FirstTilde | ch10/native/registry.go:20 | in a key whose class name has no '~', the first '~' ends the class name |
| Natives.SplitAtTilde | ch10/native/registry.go:20 | two '~'-free names glued around a '~' come apart again |
| Natives.KeyInjective | ch10/native/registry.go:20 | class and method names without '~' give distinct triples distinct keys |
| Natives.KeyCollision | ch10/native/registry.go:20 | with a '~' inside a name two different triples share a key, so one registration is found under the other triple |
| Natives.RegisterElsewhere | ch10/native/registry.go:19-33 | registering one triple leaves what is found for every other '~'-free triple alone |
| Natives.DistanceToObject | ch11/native/java/lang/Throwable.go:40-46 | the distance is 0 exactly for a class without a superclass and never exceeds the class's id |
| Natives.DistanceIsChain | ch11/native/java/lang/Throwable.go:40-46 | the distance is the number of classes above the class on its superclass chain |
| Natives.ElementOf | ch11/native/java/lang/Throwable.go:48-57 | the element's class name is the class's name with every '/' turned into '.' and every other character kept; it has the method's name and the class's source file; its line is -2 for a native method, -1 for a method without a line table, and otherwise the line `LineAt` finds for the instruction before the next pc (the last entry starting at or before it, by `ClassMembers.LineAtLast`) |
| Natives.StackTraceElements | ch11/native/java/lang/Throwable.go:29-37 | one element per frame below the skipped ones, from the top down; skipping more frames than there are is an out-of-range slice, and only then |
| Natives.TraceEndsAtBottom | ch11/native/java/lang/Throwable.go:31-35 | the last element of a stack trace is the bottom frame of the thread |
| Natives.ElementString | ch11/native/java/lang/Throwable.go:59-62 | the text is `class.method(file:line)`: each name and the decimal line at the offset the parts before it leave, separated by '.', '(' and ':' and closed by ')' |
| Natives.IntToStringInjective | ch11/native/java/lang/Throwable.go:60-61 | distinct line numbers print differently |
| Natives.ElementStringLine | ch11/native/java/lang/Throwable.go:59-62 | two elements with the same names that print the same have the same line number |
| Natives.ExecFillInStackTrace | ch11/native/java/lang/Throwable.go:22-27 | a frame without locals is an out-of-range index and a null `this` a nil dereference |
| Natives.FillIsFilled | ch11/native/java/lang/Throwable.go:22-27 | `this` is pushed on the operand stack and only its extra changes, to the stack trace of the frames below the skipped ones |
| Natives.FillReadsBack | ch11/native/java/lang/Throwable.go:23-26 | after `fillInStackTrace` the throwable's extra reads back as the stack trace, its fields are kept, and `this` is on top of the operand stack |
| Natives.RunNative | ch10/native/registry.go:13-16 | the do-nothing native changes nothing, and `fillInStackTrace` fills the trace in |
| Natives.ExecInvokeNative | ch11/instructions/reserved/invokenative.go:15-26 | a method without a native is the UnsatisfiedLinkError panic naming class, method and descriptor; otherwise the native found runs on the current frame |
| Natives.InvokeFillInStackTrace | ch11/instructions/reserved/invokenative.go:15-26 | once the Throwable natives are registered, INVOKE_NATIVE in `fillInStackTrace(I)` fills in the stack trace |
| Natives.InvokeUnregistered | ch11/instructions/reserved/invokenative.go:20-25 | an unregistered `registerNatives()V` does nothing, and any other unregistered method fails to link |
| Interpreter.Decode | ch07/interpreter.go:24-33 | the thread's pc becomes the frame's next pc, the instruction is the one the opcode there and its operands give, and the frame's next pc moves past them; a pc outside the code is a Go index failure |
| Interpreter.DecodeKeeps | ch07/interpreter.go:24-33 | decoding changes only the thread's pc and the current frame's next pc |
| Interpreter.LogFrames | ch07/interpreter.go:54-61 | every frame is popped, in order from the top, and the stack is left empty |
| Interpreter.LogFramesTopDown | ch07/interpreter.go:54-61 | the frames logged are the thread's frames from the top down |
| Interpreter.CatchErr | ch07/interpreter.go:46-51 | the failure is passed on unchanged after every frame has been logged and popped |
| Interpreter.Loop | ch07/interpreter.go:21-44 | a run that ends, normally or by a failure, leaves the frame stack empty; one cut short by the bound does not |
| Interpreter.LoopUnfolds | ch07/interpreter.go:23-43 | each turn decodes and executes one instruction, stops on a failure or an empty stack, and otherwise goes on from the state it left |
| Interpreter.FuelMonotone | ch07/interpreter.go:21-44 | more fuel does not change a run that ended: the bound only cuts long runs short |
| Interpreter.InterpretStarts | ch07/interpreter.go:13-19 | the run starts at pc 0 in the only frame of a new thread whose stack holds at most 1024 frames |

## Left out

- The class path (directory, zip, wildcard and composite entries) is file-system I/O. It is the map `defs` from a class name to the class it defines, or to the error its class file decodes to.
- The command line and the entry points are flag parsing and printing only.
- Floating-point arithmetic is not modelled: `f2x.go`, `I2F`/`I2D`, `FNEG`/`DNEG`, and the `Float` and `Double` natives. Float and double slots hold their 32- and 64-bit patterns only.
- The host-dependent natives are registry keys whose effect is a parameter of `Natives.ExecInvokeNative`. These are `Object.hashCode` (it uses a pointer address), `Object.clone`, the float-bit conversions, and the thin `Class` and `String` wrappers over the loader and the intern table.
- The printing is not modelled:
  - the verbose `[Loaded ...]` message of `loadNonArrayClass`;
  - the `printf` rendering of `logInstruction` and `logFrames` (the model records which frames are logged, in order);
  - the message and stack trace printed by `handleUncaughtException`.
- Files with nothing to state are not modelled: the `nop.go` files, the `GOTO` files that call `base.Branch`, the single-lookup `cp_class.go` and `cp_string.go`, the field copy in `cp_memberref.go`, and `slot.go` (it is the `Slots.Slot` datatype).
- Earlier chapter snapshots of modelled files are left out; each component follows its latest version.
- Concurrency does not exist in the program; the model has one thread.
- `base/branch_logic.go` is not part of this model. A branch sets the frame's next pc to the thread's pc plus the offset, as the instructions that call it require.
- `rtda/operand_stack.go` is not part of this model. The operand stack is the sequence of its live slots, bounded by `maxStack`, with long and double values taking two slots low half first, as `local_vars.go` stores them.
- `classfile/constant_info.go` and `classfile/class_file.go` are not part of this model.
  - Constant-pool entries are read by tag as section 4.4 of the Java Virtual Machine Specification lays them out, except for the contents of a Utf8 entry (below).
  - The class-file header is given as an already decoded `ClassFileAttributes.ClassFile`.
- `classfile/attr_code.go` is not part of this model. The Code attribute is read as section 4.7.3 of the Java Virtual Machine Specification lays it out.
- The method-descriptor parser is not part of this model. `MethodDescriptors.ParseMethodDescriptor` follows section 4.3.3 of the Java Virtual Machine Specification.
- The access-flag constants file is not part of this model. The masks are those of tables 4.1-A, 4.5-A and 4.6-A of the Java Virtual Machine Specification.
- `heap/array_object.go` is not part of this model. An array object holds its elements as a `Heaps.ObjData` value, with one case for each element representation that `array_class.go` chooses.
- The exception table and the line-number table of a method are not in the `method.go` modelled.
  - `Method.FindExceptionHandler` (with -1 for no handler) and `GetLineNumber` (`ClassMembers.LineAt`) are modelled from their uses in `athrow.go` and `Throwable.go`.
  - The line table follows section 4.7.12 of the Java Virtual Machine Specification.
- `instructions/factory.go` is not part of this model. The instruction set is a parameter of `Interpreter.Loop`: one function fetches an instruction with its operands and one executes it.
- Interpreter.Loop: runs at most `fuel` instructions. A run that needs more ends in `OutOfFuel`, and `Interpreter.FuelMonotone` shows that more fuel never changes a run that ended. Runs that never end are not modelled.
- Interpreter.CatchErr: when `Execute` fails, the frames logged (each with its method and next pc) are those of the thread as decoding left it, while the Go code logs them as the failed instruction left them. The two differ whenever that instruction pushed, popped or reverted frames before it failed. A call with too few argument slots is one case: Go pushes the callee frame before `PopSlot` fails and logs it on top, while `InvokeLogic.Invocation` fails with no frame pushed. Class initialisation that overflows the frame stack partway is another: Go has reverted the caller's next pc and pushed the `<clinit>` frames that fitted, while `ReferenceInstructions.InitFirst` fails with the caller's next pc past the instruction and no frame pushed. ATHROW is the third: Go pops the frames it searched before a lower frame's catch-class resolution fails, and clears the stack before reading an uncaught exception's detail message fails, so it logs fewer frames or none. The model's `Err` results do not carry the partly updated thread.
- Interpreter.Loop: the frames logged after a failed instruction are those `Interpreter.CatchErr` describes above, not those Go logs.
- A failed instruction passes no heap on, since the Go program stops at the panic. On a failure the reference instructions return the heap they started from, or the heap resolution reached.
- Go's `IsArray` indexes the first character of the name and fails on an empty one. `ClassLoader.LoadClass` fails on an empty name with `Err(OutOfRange)`, and `ClassNames.IsArrayName` is false on it.
- ReferenceInstructions.ExecCheckCast: `CHECKCAST` pops and re-pushes the reference. The model leaves the frame unchanged, which is the same value whenever the push succeeds. Its ghost out-parameter `tested` only records that the type test was reached.
- ReferenceInstructions.Receiver: a method with no argument slots has no receiver. Go's unsigned `ArgSlotCount() - 1` wraps around, and the out-of-range index is `Err(OutOfRange)`.
- ReferenceInstructions.NullPointersMessage: `INVOKESPECIAL` panics with "java.lang.NullPointersException", spelled as the Go code spells it.
- ReferenceInstructions.Running: the bound on the frame stack (`Bounded`) and the validity of every frame's method (`ThrowInstruction.FramesValid`) are invariants of a thread. The instructions require them; they are not proved for every run of the loop.
- ThrowInstruction.HandlerPC: a typed handler whose catch-type index does not name a class entry fails with `Err(BadAssertion)`, the failed Go type assertion. The model checks this (`Resolution.CatchTypesAt`) rather than assuming it.
- ThrowInstruction.ExecAthrow: the frames that pass the exception on are stated through `Resolution.RejectsKept` and `Resolution.HandlerStep`. These assume only that the class references already resolved stay resolved (`ClassRefsGrow`), which is weaker than the Go cache, where nothing resolved is ever dropped.
- ThrowInstruction.HandleUncaught: the message and the stack trace are not printed. The trace is read through Go's `reflect` from the exception's extra data, and on an exception without one (`Extra()` nil) that read panics in Go; the model ends normally there.
- ClassFilePool.Chars: `classfile/cp_utf8.go` and its `decodeMUTF8` are not part of this model. The Go string of a Utf8 entry is taken to be the entry's bytes as they stand. Section 4.4.7 of the Java Virtual Machine Specification defines those bytes as modified UTF-8, which agrees with the UTF-8 that `Utf8.Decode` reads except for U+0000 (two bytes C0 80) and characters above U+FFFF (two three-byte surrogates). Strings holding those are read as Go's UTF-8 decoding reads the bytes: each byte of C0 80 and of an encoded surrogate becomes U+FFFD.
- Consistent class path: `ClassLoader.Consistent(defs)` says that every class file defines the class it is found under. On any other class path a class loaded by one name can carry another, so the names the model looks classes up by no longer say which class was found. The members below run on every class path but state the following only on a consistent one.
- Assignability.IsAssignableFrom: the answer is stated against `AssignableIn` only on a consistent class path, or when no two distinct array classes are compared. On another class path a component class can declare an array name no shorter than the array's own. Go then recurses on, and perhaps without end; the model gives `Err(Diverge)` as soon as the name is not shorter.
- Assignability.IsInstanceOf: the answer is stated against `AssignableIn` for an object that is not an array on any class path, and for every object only on a consistent one.
- ReferenceInstructions.ExecInstanceOf: which of 0 and 1 is pushed is stated through `AssignableIn` only for an object that is not an array, or on a consistent class path; on other paths only that one of them replaces the reference.
- ReferenceInstructions.InstanceOfTest: as for `ExecInstanceOf`, for an array object the 0 or 1 pushed is tied to `AssignableIn` only on a consistent class path; on other paths only that one of them replaces the reference.
- ReferenceInstructions.ExecCheckCast: whether the cast passes is stated through `AssignableIn` only for an object that is not an array, or on a consistent class path; on other paths only that the result is the unchanged thread or ClassCastException.
- MultiArrays.NewMultiArray: the shape of the array tree is stated only for one count or on a consistent class path. That sibling arrays are distinct objects is stated for the elements of the outer array only, not for the deeper levels, where each array of the tree is only stated to sit above the array holding it.
- MultiArrays.NewElements: the shape of each element is stated only on a consistent class path.
- MultiArrays.NewElement: the shape of the element is stated only on a consistent class path.
- MultiArrays.MultiANewArrayResolved: the shape of the pushed array tree is stated only for one count or on a consistent class path.
- MultiArrays.ExecMultiANewArray: the shape of the pushed array tree is stated only for one count or on a consistent class path.
- Natives.KeyInjective: the registry key `class~method~descriptor` tells triples apart only when the class and method names contain no '~'. `Natives.KeyCollision` shows two triples that share a key. Java class and method names never contain '~'.
- ClassLoader.LoadClass: a class that is asked for again while it is being loaded gives `Err(Diverge)`, raised in `LoadNonArrayClass`. On a consistent class path that is a circular hierarchy, and the Go code recurses on it without end. On another class path a file can define a class under a name other than its own, so the name asked for again may be registered meanwhile. The Go code can then finish where the model gives `Err(Diverge)`.
- ClassLoader.LoadNonArrayClass: it raises the `Err(Diverge)` that the `ClassLoader.LoadClass` line above describes, for a name already being loaded; the Go code has no such check.
- ClassFileAttributes.SourceFileName: the class's `sourceFile` field and its "Unknown" default are set in ch11's rtda/heap/class.go, which is not part of this model; the default is taken from the behaviour `Throwable.go` relies on.
- ClassLoader.InitStaticFinalVar: the loader's steps (`ClassLoader.Step`) do not carry the consistency of the string pool (`StringPool.InternConsistent`) through loading.
- ClassLoaderInit.NewClassLoader: the Go code walks the class map in no fixed order. The model gives mirrors in class-id order and adds the primitive classes in the order of the `primitiveTypes` table; only the addresses of the mirror objects depend on that order.

=== FILE: access_flags.dfy ===
/** Access flags of classes, fields and methods (tables 4.1-A, 4.5-A and 4.6-A of
    the Java Virtual Machine Specification, Java SE 8) and the predicates that
    test them. Every predicate is `flags & ACC_X != 0` for a one-bit mask. */
module AccessFlags {
  import opened MachineInts

  const ACC_PUBLIC: u16 := 0x0001
  const ACC_PRIVATE: u16 := 0x0002
  const ACC_PROTECTED: u16 := 0x0004
  const ACC_STATIC: u16 := 0x0008
  const ACC_FINAL: u16 := 0x0010
  const ACC_SUPER: u16 := 0x0020
  const ACC_SYNCHRONIZED: u16 := 0x0020
  const ACC_VOLATILE: u16 := 0x0040
  const ACC_BRIDGE: u16 := 0x0040
  const ACC_TRANSIENT: u16 := 0x0080
  const ACC_VARARGS: u16 := 0x0080
  const ACC_NATIVE: u16 := 0x0100
  const ACC_INTERFACE: u16 := 0x0200
  const ACC_ABSTRACT: u16 := 0x0400
  const ACC_STRICT: u16 := 0x0800
  const ACC_SYNTHETIC: u16 := 0x1000
  const ACC_ANNOTATION: u16 := 0x2000
  const ACC_ENUM: u16 := 0x4000

  /** Binary digit k of a. */
  predicate Bit(a: nat, k: nat)
    decreases k
  {
    if k == 0 then a % 2 == 1 else Bit(a / 2, k - 1)
  }

  /** `0 != flags & mask` on 16-bit flags. */
  predicate HasFlag(flags: u16, mask: u16) {
    BitAnd(flags, mask, 16) != 0
  }

  /** Masking with a single bit 2^k is non-zero exactly when bit k is set. */
  lemma {:induction false} BitAndPow2(a: nat, k: nat, n: nat)
    ensures BitAnd(a, Pow2(k), n) != 0 <==> k < n && Bit(a, k)
    decreases n
  {
    if n > 0 {
      if k == 0 {
        BitAndZero(a / 2, n - 1);
      } else {
        assert Pow2(k) % 2 == 0 && Pow2(k) / 2 == Pow2(k - 1);
        BitAndPow2(a / 2, k - 1, n - 1);
      }
    }
  }

  /** For a one-bit mask, `HasFlag` is a test of that bit and of nothing else. */
  lemma SingleBitTest(flags: u16, k: nat)
    requires k < 16
    ensures Pow2(k) < TWO_16
    ensures HasFlag(flags, Pow2(k)) <==> Bit(flags, k)
  {
    Pow2Small();
    Pow2Monotone(k, 16);
    BitAndPow2(flags, k, 16);
  }

  lemma {:induction false} Pow2Monotone(a: nat, b: nat)
    requires a < b
    ensures Pow2(a) < Pow2(b)
    decreases b
  {
    if a < b - 1 {
      Pow2Monotone(a, b - 1);
    }
  }

  /** The constants are the single bits the specification assigns them. */
  lemma FlagBitPositions()
    ensures ACC_PUBLIC == Pow2(0) && ACC_PRIVATE == Pow2(1) && ACC_PROTECTED == Pow2(2)
    ensures ACC_STATIC == Pow2(3) && ACC_FINAL == Pow2(4) && ACC_SUPER == Pow2(5)
    ensures ACC_SYNCHRONIZED == Pow2(5) && ACC_VOLATILE == Pow2(6) && ACC_BRIDGE == Pow2(6)
    ensures ACC_TRANSIENT == Pow2(7) && ACC_VARARGS == Pow2(7) && ACC_NATIVE == Pow2(8)
    ensures ACC_INTERFACE == Pow2(9) && ACC_ABSTRACT == Pow2(10) && ACC_STRICT == Pow2(11)
    ensures ACC_SYNTHETIC == Pow2(12) && ACC_ANNOTATION == Pow2(13) && ACC_ENUM == Pow2(14)
  {
  }

  // Predicates shared by classes and members
  predicate IsPublic(flags: u16) { HasFlag(flags, ACC_PUBLIC) }
  predicate IsPrivate(flags: u16) { HasFlag(flags, ACC_PRIVATE) }
  predicate IsProtected(flags: u16) { HasFlag(flags, ACC_PROTECTED) }
  predicate IsStatic(flags: u16) { HasFlag(flags, ACC_STATIC) }
  predicate IsFinal(flags: u16) { HasFlag(flags, ACC_FINAL) }
  predicate IsSynthetic(flags: u16) { HasFlag(flags, ACC_SYNTHETIC) }
  predicate IsAbstract(flags: u16) { HasFlag(flags, ACC_ABSTRACT) }
  predicate IsEnum(flags: u16) { HasFlag(flags, ACC_ENUM) }

  // Class-only predicates
  predicate IsSuper(flags: u16) { HasFlag(flags, ACC_SUPER) }
  predicate IsInterface(flags: u16) { HasFlag(flags, ACC_INTERFACE) }
  predicate IsAnnotation(flags: u16) { HasFlag(flags, ACC_ANNOTATION) }

  // Method-only predicates
  predicate IsSynchronized(flags: u16) { HasFlag(flags, ACC_SYNCHRONIZED) }
  predicate IsBridge(flags: u16) { HasFlag(flags, ACC_BRIDGE) }
  predicate IsVarargs(flags: u16) { HasFlag(flags, ACC_VARARGS) }
  predicate IsNative(flags: u16) { HasFlag(flags, ACC_NATIVE) }
  predicate IsStrict(flags: u16) { HasFlag(flags, ACC_STRICT) }

  // Field-only predicates
  predicate IsVolatile(flags: u16) { HasFlag(flags, ACC_VOLATILE) }
  predicate IsTransient(flags: u16) { HasFlag(flags, ACC_TRANSIENT) }

  /** Class predicates: each holds iff its bit of the flags is set. */
  lemma ClassFlagBits(flags: u16)
    ensures IsPublic(flags) <==> Bit(flags, 0)
    ensures IsFinal(flags) <==> Bit(flags, 4)
    ensures IsSuper(flags) <==> Bit(flags, 5)
    ensures IsInterface(flags) <==> Bit(flags, 9)
    ensures IsAbstract(flags) <==> Bit(flags, 10)
    ensures IsSynthetic(flags) <==> Bit(flags, 12)
    ensures IsAnnotation(flags) <==> Bit(flags, 13)
    ensures IsEnum(flags) <==> Bit(flags, 14)
  {
    FlagBitPositions();
    SingleBitTest(flags, 0);
    SingleBitTest(flags, 4);
    SingleBitTest(flags, 5);
    SingleBitTest(flags, 9);
    SingleBitTest(flags, 10);
    SingleBitTest(flags, 12);
    SingleBitTest(flags, 13);
    SingleBitTest(flags, 14);
  }

  /** Member predicates common to fields and methods. */
  lemma MemberFlagBits(flags: u16)
    ensures IsPublic(flags) <==> Bit(flags, 0)
    ensures IsPrivate(flags) <==> Bit(flags, 1)
    ensures IsProtected(flags) <==> Bit(flags, 2)
    ensures IsStatic(flags) <==> Bit(flags, 3)
    ensures IsFinal(flags) <==> Bit(flags, 4)
    ensures IsSynthetic(flags) <==> Bit(flags, 12)
  {
    FlagBitPositions();
    SingleBitTest(flags, 0);
    SingleBitTest(flags, 1);
    SingleBitTest(flags, 2);
    SingleBitTest(flags, 3);
    SingleBitTest(flags, 4);
    SingleBitTest(flags, 12);
  }

  /** Method predicates. */
  lemma MethodFlagBits(flags: u16)
    ensures IsSynchronized(flags) <==> Bit(flags, 5)
    ensures IsBridge(flags) <==> Bit(flags, 6)
    ensures IsVarargs(flags) <==> Bit(flags, 7)
    ensures IsNative(flags) <==> Bit(flags, 8)
    ensures IsAbstract(flags) <==> Bit(flags, 10)
    ensures IsStrict(flags) <==> Bit(flags, 11)
  {
    FlagBitPositions();
    SingleBitTest(flags, 5);
    SingleBitTest(flags, 6);
    SingleBitTest(flags, 7);
    SingleBitTest(flags, 8);
    SingleBitTest(flags, 10);
    SingleBitTest(flags, 11);
  }

  /** Field predicates. */
  lemma FieldFlagBits(flags: u16)
    ensures IsVolatile(flags) <==> Bit(flags, 6)
    ensures IsTransient(flags) <==> Bit(flags, 7)
    ensures IsEnum(flags) <==> Bit(flags, 14)
  {
    FlagBitPositions();
    SingleBitTest(flags, 6);
    SingleBitTest(flags, 7);
    SingleBitTest(flags, 14);
  }
}

=== FILE: assignable.dfy ===
/** Array classes of classes and component classes of arrays, and the
    assignability test behind `instanceof` and `checkcast` (section 6.5 of the
    Java Virtual Machine Specification, `isAssignableFrom`).

    The Go test loads the component classes of two array classes as it goes,
    so the test is a method that threads the heap; `AssignableIn` is the answer
    it gives in terms of the classes already loaded, and is `None` when a
    component class is missing or its name cannot be formed. The method runs
    on any class path; its answer agrees with `AssignableIn` when the class
    path is consistent (every class file defines the class it is found
    under), which is what keeps the classes it looks up registered under the
    names it looked them up by. */
module Assignability {
  import opened Wrappers
  import opened AccessFlags
  import opened ClassNames
  import opened Heaps
  import opened ClassHierarchy
  import opened ClassLoader

  // ---------------------------------------------------------------------------
  // Array and component classes

  /** `Class.ArrayClass`: loads the class of arrays of class id. */
  method ArrayClassOf(defs: Defs, h: Heap, id: ClassId) returns (r: Result<(ClassId, Heap)>)
    requires Valid(h) && id < |h.classes|
    ensures r.Ok? ==> Step(defs, {}, h, r.value.1) && r.value.0 < |r.value.1.classes|
    ensures |h.classes[id].name| == 0 ==> r == Err(OutOfRange)
    ensures r.Ok? ==> Ok(r.value.1.classes[r.value.0].name) == ArrayClassName(h.classes[id].name)
    ensures r.Ok? ==> ComponentClassName(r.value.1.classes[r.value.0].name) == Ok(h.classes[id].name)
  {
    var name :- ArrayClassName(h.classes[id].name);
    ComponentOfArrayClassName(h.classes[id].name);
    r := LoadClass(defs, h, {}, name);
  }

  /** `ComponentClass`: loads the class named by the component part of the
      name of array class id. */
  method ComponentClass(defs: Defs, h: Heap, id: ClassId) returns (r: Result<(ClassId, Heap)>)
    requires Valid(h) && id < |h.classes|
    ensures r.Ok? ==> Step(defs, {}, h, r.value.1) && r.value.0 < |r.value.1.classes|
    ensures ComponentClassName(h.classes[id].name).Err? ==> r == Err(ComponentClassName(h.classes[id].name).error)
    ensures r.Ok? ==> ComponentClassName(h.classes[id].name).Ok?
    ensures r.Ok? && Consistent(defs) ==> Registered(r.value.1, ComponentClassName(h.classes[id].name).value, r.value.0)
  {
    var name :- ComponentClassName(h.classes[id].name);
    r := LoadClass(defs, h, {}, name);
  }

  /** Loading the component class of the array class of a registered class
      gives that class back. */
  method ComponentOfArrayClass(defs: Defs, h: Heap, id: ClassId) returns (r: Result<(ClassId, ClassId, Heap)>)
    requires Valid(h) && id < |h.classes| && Registered(h, h.classes[id].name, id) && Consistent(defs)
    ensures |h.classes[id].name| == 0 ==> r == Err(OutOfRange)
    ensures r.Ok? ==> Step(defs, {}, h, r.value.2) && r.value.0 < |r.value.2.classes|
    ensures r.Ok? ==> r.value.1 == id
  {
    var arr :- ArrayClassOf(defs, h, id);
    var comp :- ComponentClass(defs, arr.1, arr.0);
    assert Stable(h, comp.1);
    StepTrans(defs, {}, h, arr.1, comp.1);
    r := Ok((arr.0, comp.0, comp.1));
  }

  // ---------------------------------------------------------------------------
  // Assignability

  /** The test for a class s that is not an array class: classes by the
      superclass chain, interfaces by their superinterfaces, and an interface
      to a class only when that class is `java.lang.Object`. */
  predicate ClassAssignable(cs: seq<Class>, s: ClassId, t: ClassId)
    requires Linked(cs) && s < |cs| && t < |cs|
  {
    if !IsInterface(cs[s].accessFlags) then
      if !IsInterface(cs[t].accessFlags) then IsSubClassOf(cs, s, t) else IsImplements(cs, s, t)
    else
      if !IsInterface(cs[t].accessFlags) then cs[t].name == JlObject else IsSuperInterfaceOf(cs, t, s)
  }

  /** The test for an array class s and a class t that is not an array class. */
  predicate ArrayToNonArray(t: Class) {
    if !IsInterface(t.accessFlags) then t.name == JlObject
    else t.name == JlCloneable || t.name == JioSerializable
  }

  /** The measure the component recursion decreases: only array classes
      recurse, and a component class that is an array has a shorter name. */
  function ArrayMeasure(c: Class): nat {
    if IsArray(c) then |c.name| else 0
  }

  lemma ComponentMeasure(className: string)
    requires IsArrayName(className) && ComponentClassName(className).Ok?
    ensures IsArrayName(ComponentClassName(className).value) ==> |ComponentClassName(className).value| < |className|
  {
    if IsArrayName(ComponentClassName(className).value) {
      ArrayComponentShorter(className);
    }
  }

  /** `t.isAssignableFrom(s)` over the loaded classes; two array classes
      compare their component classes, found by name among those registered. */
  function AssignableIn(h: Heap, s: ClassId, t: ClassId): (r: Option<bool>)
    requires Valid(h) && s < |h.classes| && t < |h.classes|
    decreases ArrayMeasure(h.classes[s])
  {
    var cs := h.classes;
    if s == t then Some(true)
    else if !IsArray(cs[s]) then Some(ClassAssignable(cs, s, t))
    else if !IsArray(cs[t]) then Some(ArrayToNonArray(cs[t]))
    else
      var sn := ComponentClassName(cs[s].name);
      var tn := ComponentClassName(cs[t].name);
      if sn.Err? || tn.Err? || sn.value !in h.classMap || tn.value !in h.classMap then None
      else
        var sc, tc := h.classMap[sn.value], h.classMap[tn.value];
        if sc == tc then Some(true)
        else
          ComponentMeasure(cs[s].name);
          AssignableIn(h, sc, tc)
  }

  /** `isAssignableFrom`, loading component classes as the Go code does. */
  method IsAssignableFrom(defs: Defs, h: Heap, s: ClassId, t: ClassId) returns (r: Result<(bool, Heap)>)
    requires Valid(h) && s < |h.classes| && t < |h.classes|
    ensures r.Ok? ==> Step(defs, {}, h, r.value.1)
    ensures r.Ok? && Consistent(defs) ==> AssignableIn(r.value.1, s, t) == Some(r.value.0)
    ensures s == t || !IsArray(h.classes[s]) || !IsArray(h.classes[t]) ==> r == Ok((AssignableIn(h, s, t).value, h))
    decreases ArrayMeasure(h.classes[s])
  {
    if s == t || !IsArray(h.classes[s]) || !IsArray(h.classes[t]) {
      StepRefl(defs, {}, h);
      return Ok((AssignableIn(h, s, t).value, h));
    }
    var sp :- ComponentClass(defs, h, s);
    var (sc, h1) := sp;
    var tp :- ComponentClass(defs, h1, t);
    var (tc, h2) := tp;
    StepTrans(defs, {}, h, h1, h2);
    if Consistent(defs) {
      RegisteredKept(h1, h2, ComponentClassName(h.classes[s].name).value, sc);
    }
    if sc == tc {
      return Ok((true, h2));
    }
    ComponentMeasure(h.classes[s].name);
    if ArrayMeasure(h2.classes[sc]) >= ArrayMeasure(h.classes[s]) {
      // only on an inconsistent class path, where a component class may
      // declare a name no shorter than the array's: Go recurses on regardless
      return Err(Diverge);
    }
    var b :- IsAssignableFrom(defs, h2, sc, tc);
    StepTrans(defs, {}, h, h2, b.1);
    if Consistent(defs) {
      RegisteredKept(h2, b.1, ComponentClassName(h.classes[s].name).value, sc);
      RegisteredKept(h2, b.1, ComponentClassName(h.classes[t].name).value, tc);
    }
    r := Ok(b);
  }

  /** `Object.IsInstanceOf`: whether the object's class is assignable to c. */
  method IsInstanceOf(defs: Defs, h: Heap, obj: nat, c: ClassId) returns (r: Result<(bool, Heap)>)
    requires Valid(h) && obj < |h.objects| && c < |h.classes|
    ensures r.Ok? ==> Step(defs, {}, h, r.value.1)
    ensures r.Ok? && Consistent(defs) ==> AssignableIn(r.value.1, h.objects[obj].classId, c) == Some(r.value.0)
    ensures !IsArray(h.classes[h.objects[obj].classId]) ==> r == Ok((AssignableIn(h, h.objects[obj].classId, c).value, h))
  {
    r := IsAssignableFrom(defs, h, h.objects[obj].classId, c);
  }

  // ---------------------------------------------------------------------------
  // Properties

  /** Between classes that are neither interfaces nor arrays, s is assignable
      to t exactly when t is on the superclass chain of s, s itself included. */
  lemma ClassToClass(h: Heap, s: ClassId, t: ClassId)
    requires Valid(h) && s < |h.classes| && t < |h.classes|
    requires !IsArray(h.classes[s]) && !IsInterface(h.classes[s].accessFlags) && !IsInterface(h.classes[t].accessFlags)
    ensures AssignableIn(h, s, t) == Some(t in Chain(h.classes, s))
  {
    SubClassIsChain(h.classes, s, t);
    var ch := Chain(h.classes, s);
    assert ch == [ch[0]] + ch[1..];
  }

  /** An interface is assignable to a class only when the class is
      `java.lang.Object`, and to an interface only when that interface is
      among its superinterfaces. */
  lemma InterfaceToOther(h: Heap, s: ClassId, t: ClassId)
    requires Valid(h) && s < |h.classes| && t < |h.classes| && s != t
    requires !IsArray(h.classes[s]) && IsInterface(h.classes[s].accessFlags)
    ensures !IsInterface(h.classes[t].accessFlags) ==> AssignableIn(h, s, t) == Some(h.classes[t].name == JlObject)
    ensures IsInterface(h.classes[t].accessFlags) ==> AssignableIn(h, s, t) == Some(IsSubInterfaceOf(h.classes, s, t))
  {
  }

  /** An array class is assignable to `java.lang.Object` and to the
      interfaces `java.lang.Cloneable` and `java.io.Serializable`, and to no
      other class that is not an array class. */
  lemma ArrayToOther(h: Heap, s: ClassId, t: ClassId)
    requires Valid(h) && s < |h.classes| && t < |h.classes| && s != t
    requires IsArray(h.classes[s]) && !IsArray(h.classes[t])
    ensures AssignableIn(h, s, t) == Some(
      if IsInterface(h.classes[t].accessFlags) then h.classes[t].name in {JlCloneable, JioSerializable}
      else h.classes[t].name == JlObject)
  {
  }

  /** Two array classes are assignable when their component classes are the
      same or assignable. */
  lemma ArrayToArray(h: Heap, s: ClassId, t: ClassId)
    requires Valid(h) && s < |h.classes| && t < |h.classes| && s != t
    requires IsArray(h.classes[s]) && IsArray(h.classes[t])
    requires ComponentClassName(h.classes[s].name).Ok? && ComponentClassName(h.classes[s].name).value in h.classMap
    requires ComponentClassName(h.classes[t].name).Ok? && ComponentClassName(h.classes[t].name).value in h.classMap
    ensures var sc := h.classMap[ComponentClassName(h.classes[s].name).value];
            var tc := h.classMap[ComponentClassName(h.classes[t].name).value];
            AssignableIn(h, s, t) == if sc == tc then Some(true) else AssignableIn(h, sc, tc)
  {
  }

  /** Whatever a class is assignable to, so are its subclasses, for classes
      that are neither interfaces nor arrays. */
  lemma SubclassInherits(h: Heap, u: ClassId, s: ClassId, t: ClassId)
    requires Valid(h) && u < |h.classes| && s < |h.classes| && t < |h.classes|
    requires !IsArray(h.classes[u]) && !IsInterface(h.classes[u].accessFlags)
    requires !IsArray(h.classes[s]) && !IsInterface(h.classes[s].accessFlags)
    requires IsSubClassOf(h.classes, u, s) && AssignableIn(h, s, t) == Some(true)
    ensures AssignableIn(h, u, t) == Some(true)
  {
    SubClassIrreflexive(h.classes, u, s);
    if s == t {
    } else if !IsInterface(h.classes[t].accessFlags) {
      SubClassTransitive(h.classes, u, s, t);
      SubClassIrreflexive(h.classes, u, t);
    } else {
      ImplementsInherited(h.classes, u, s, t);
    }
  }
}

=== FILE: bytecode_reader.dfy ===
/** The bytecode reader: a method's code with a pc, from which an
    instruction's opcode and operands are read big-endian.

    The Go reader advances its pc in place; here each read returns the value
    and the advanced reader. Reading a byte outside the code indexes outside
    the Go slice and becomes `Err(OutOfRange)`. Every read is specified by the
    encoder it inverts: the bytes at the old pc are the big-endian encoding of
    the value read, as `ClassReader.Bytes` writes it. */
module Bytecode {
  import opened Wrappers
  import opened MachineInts
  import opened ClassReader

  datatype Reader = Reader(code: seq<u8>, pc: int)

  /** `make([]int32, n)` with a negative n. */
  const BadLength := Fault("makeslice: len out of range")

  /** `Reset`: read code from pc on. */
  function Reset(code: seq<u8>, pc: int): (r: Reader)
    ensures r.code == code && r.pc == pc
  {
    Reader(code, pc)
  }

  /** The next n bytes are inside the code. */
  predicate Available(r: Reader, n: nat) {
    0 <= r.pc && r.pc + n <= |r.code|
  }

  /** The n bytes at the pc. */
  function Ahead(r: Reader, n: nat): (bs: seq<u8>)
    requires Available(r, n)
    ensures |bs| == n
  {
    r.code[r.pc..r.pc + n]
  }

  function ReadUint8(r: Reader): (res: Result<(u8, Reader)>)
    ensures res.Ok? <==> Available(r, 1)
    ensures res.Ok? ==> res.value.0 == r.code[r.pc] && res.value.1 == r.(pc := r.pc + 1)
  {
    if 0 <= r.pc < |r.code| then Ok((r.code[r.pc], r.(pc := r.pc + 1))) else Err(OutOfRange)
  }

  /** `int8(ReadUint8())`: the byte as two's complement. */
  function ReadInt8(r: Reader): (res: Result<(i8, Reader)>)
    ensures res.Ok? <==> Available(r, 1)
    ensures res.Ok? ==> ToU8(res.value.0) == r.code[r.pc] && res.value.1 == r.(pc := r.pc + 1)
  {
    var b :- ReadUint8(r);
    Ok((Wrap8(b.0), b.1))
  }

  /** The unsigned reading of a signed byte. */
  function ToU8(x: i8): (u: u8)
    ensures (u - x) % TWO_8 == 0
  {
    x % TWO_8
  }

  /** Two bytes, the first one high. */
  function ReadUint16(r: Reader): (res: Result<(u16, Reader)>)
    ensures res.Ok? <==> Available(r, 2)
    ensures res.Ok? ==> Ahead(r, 2) == Bytes(res.value.0, 2) && res.value.1 == r.(pc := r.pc + 2)
  {
    var b1 :- ReadUint8(r);
    var b2 :- ReadUint8(b1.1);
    var v := b1.0 * 256 + b2.0;
    assert Bytes(v, 2) == [b1.0, b2.0] by {
      assert Bytes(v / 256, 1) == Bytes(v / 256 / 256, 0) + [(v / 256 % 256) as u8];
    }
    Ok((v, b2.1))
  }

  /** `int16(ReadUint16())`. */
  function ReadInt16(r: Reader): (res: Result<(i16, Reader)>)
    ensures res.Ok? <==> Available(r, 2)
    ensures res.Ok? ==> Ahead(r, 2) == Bytes(ToU16(res.value.0), 2) && res.value.1 == r.(pc := r.pc + 2)
  {
    var h :- ReadUint16(r);
    WrapU16RoundTrip(h.0);
    Ok((Wrap16(h.0), h.1))
  }

  /** Four bytes, the first one highest; the 32-bit shifts of the Go code wrap,
      so the value is the two's-complement reading of the bytes. */
  function ReadInt32(r: Reader): (res: Result<(i32, Reader)>)
    ensures res.Ok? <==> Available(r, 4)
    ensures res.Ok? ==> Ahead(r, 4) == Bytes(ToU32(res.value.0), 4) && res.value.1 == r.(pc := r.pc + 4)
  {
    var h :- ReadUint16(r);
    var l :- ReadUint16(h.1);
    var u := h.0 * TWO_16 + l.0;
    assert Ahead(r, 4) == Ahead(r, 2) + Ahead(h.1, 2);
    BytesSplit(u, h.0, l.0);
    U32RoundTrip(0, u);
    Ok((Wrap32(u), l.1))
  }

  /** The four-byte encoding of h * 2^16 + l is that of h followed by that of l. */
  lemma BytesSplit(u: nat, h: u16, l: u16)
    requires u == h * TWO_16 + l
    ensures Bytes(u, 4) == Bytes(h, 2) + Bytes(l, 2)
  {
    assert u / 256 / 256 == h;
    assert u % 256 == l % 256 && u / 256 % 256 == l / 256;
    assert Bytes(u, 4) == Bytes(u / 256 / 256, 2) + [(u / 256 % 256) as u8] + [(u % 256) as u8];
    assert Bytes(l, 2) == Bytes(l / 256 / 256, 0) + [(l / 256 % 256) as u8] + [(l % 256) as u8];
  }

  // ---------------------------------------------------------------------------
  // Padding and tables of ints

  /** The bytes from pc to the next multiple of 4. */
  function Padding(pc: int): (n: nat)
  {
    (4 - pc % 4) % 4
  }

  predicate Aligned(pc: int) {
    pc % 4 == 0
  }

  /** The padding lands on the first multiple of 4 at or after pc. */
  lemma PaddingSpec(pc: int)
    ensures Padding(pc) <= 3 && Aligned(pc + Padding(pc))
    ensures forall x :: pc <= x < pc + Padding(pc) ==> !Aligned(x)
  {
  }

  /** `SkipPadding`: reads bytes until the pc is a multiple of 4. Go's `%`
      truncates, but whether the remainder is zero does not depend on that. */
  function SkipPadding(r: Reader): (res: Result<Reader>)
    ensures res.Ok? <==> r.pc % 4 == 0 || Available(r, Padding(r.pc))
    ensures res.Ok? ==> res.value == r.(pc := r.pc + Padding(r.pc))
    decreases Padding(r.pc)
  {
    if r.pc % 4 == 0 then Ok(r)
    else
      var b :- ReadUint8(r);
      SkipPadding(b.1)
  }

  /** `ReadInt32s(n)`: n ints in order. */
  function ReadInt32s(r: Reader, n: i32): (res: Result<(seq<i32>, Reader)>)
    ensures n < 0 ==> res == Err(BadLength)
    ensures n >= 0 ==> res == ReadInts(r, n)
  {
    if n < 0 then Err(BadLength) else ReadInts(r, n)
  }

  /** The big-endian int32 at offset i of the code. */
  function Int32At(code: seq<u8>, i: nat): (v: i32)
    requires i + 4 <= |code|
    ensures Bytes(ToU32(v), 4) == code[i..i + 4]
  {
    BigEndianBound(code[i..i + 4]);
    Pow256Values();
    BytesOfBigEndian(code[i..i + 4]);
    U32RoundTrip(0, BigEndian(code[i..i + 4]));
    Wrap32(BigEndian(code[i..i + 4]))
  }

  /** vs are the ints stored one after another from offset pc of the code. */
  predicate IntsAt(code: seq<u8>, pc: int, vs: seq<i32>) {
    && 0 <= pc && pc + 4 * |vs| <= |code|
    && forall i :: 0 <= i < |vs| ==> vs[i] == Int32At(code, pc + 4 * i)
  }

  /** n ints in order, each read as `ReadInt32` does. */
  function ReadInts(r: Reader, n: nat): (res: Result<(seq<i32>, Reader)>)
    ensures res.Ok? <==> n == 0 || Available(r, 4 * n)
    ensures res.Ok? ==> |res.value.0| == n && res.value.1 == r.(pc := r.pc + 4 * n)
    ensures res.Ok? && n > 0 ==> IntsAt(r.code, r.pc, res.value.0)
    decreases n
  {
    if n == 0 then Ok(([], r))
    else
      var first :- ReadInt32(r);
      var more :- ReadInts(first.1, n - 1);
      ReadInt32Is(r, first.0);
      IntsCons(r.code, r.pc, first.0, more.0);
      Ok(([first.0] + more.0, more.1))
  }

  lemma IntsCons(code: seq<u8>, pc: nat, v: i32, vs: seq<i32>)
    requires pc + 4 * (|vs| + 1) <= |code| && v == Int32At(code, pc)
    requires |vs| == 0 || IntsAt(code, pc + 4, vs)
    ensures IntsAt(code, pc, [v] + vs)
  {
    forall i | 0 < i <= |vs|
      ensures ([v] + vs)[i] == Int32At(code, pc + 4 * i)
    {
      assert pc + 4 * i == pc + 4 + 4 * (i - 1);
    }
  }

  /** The int32 read at the pc is the one at that offset of the code. */
  lemma ReadInt32Is(r: Reader, v: i32)
    requires Available(r, 4) && Ahead(r, 4) == Bytes(ToU32(v), 4)
    ensures v == Int32At(r.code, r.pc)
  {
    var w := Int32At(r.code, r.pc);
    BigEndianOfBytes(ToU32(v), 4);
    BigEndianOfBytes(ToU32(w), 4);
    Pow256Values();
    U32RoundTrip(v, 0);
    U32RoundTrip(w, 0);
  }

  // ---------------------------------------------------------------------------
  // Reading back what an encoder wrote

  /** Two values below 256^n with the same n-byte encoding are equal. */
  lemma BytesInjective(a: nat, b: nat, n: nat)
    requires a < Pow256(n) && b < Pow256(n) && Bytes(a, n) == Bytes(b, n)
    ensures a == b
  {
    BigEndianOfBytes(a, n);
    BigEndianOfBytes(b, n);
  }

  /** Whatever int16 is encoded at the pc is read back. */
  lemma Int16ReadInvertsEncoding(code: seq<u8>, pc: nat, s: i16)
    requires pc + 2 <= |code| && code[pc..pc + 2] == Bytes(ToU16(s), 2)
    ensures ReadInt16(Reset(code, pc)) == Ok((s, Reset(code, pc + 2)))
  {
    var x := ReadInt16(Reset(code, pc)).value.0;
    Pow256Values();
    BytesInjective(ToU16(s), ToU16(x), 2);
    U16RoundTrip(s);
    U16RoundTrip(x);
  }

  lemma WrapU16RoundTrip(u: u16)
    ensures ToU16(Wrap16(u)) == u
  {
  }

  lemma U16RoundTrip(s: i16)
    ensures Wrap16(ToU16(s)) == s
  {
  }

  /** Whatever int32 is encoded at the pc is read back. */
  lemma Int32ReadInvertsEncoding(code: seq<u8>, pc: nat, w: i32)
    requires pc + 4 <= |code| && code[pc..pc + 4] == Bytes(ToU32(w), 4)
    ensures ReadInt32(Reset(code, pc)) == Ok((w, Reset(code, pc + 4)))
  {
    var x := ReadInt32(Reset(code, pc)).value.0;
    Pow256Values();
    BytesInjective(ToU32(w), ToU32(x), 4);
    U32RoundTrip(w, 0);
    U32RoundTrip(x, 0);
  }

  // ---------------------------------------------------------------------------
  // Operand fetching of the common instruction shapes

  /** A branch instruction reads a signed 16-bit offset. */
  function FetchBranch(r: Reader): (res: Result<(int, Reader)>)
    ensures res.Ok? <==> Available(r, 2)
    ensures res.Ok? ==> -TWO_15 <= res.value.0 < TWO_15 && res.value.1.pc == r.pc + 2
    ensures res.Ok? ==> Ahead(r, 2) == Bytes(ToU16(res.value.0), 2)
  {
    var o :- ReadInt16(r);
    Ok((o.0 as int, o.1))
  }

  /** An index-8 instruction reads an unsigned byte. */
  function FetchIndex8(r: Reader): (res: Result<(nat, Reader)>)
    ensures res.Ok? <==> Available(r, 1)
    ensures res.Ok? ==> res.value.0 < 256 && res.value.0 == r.code[r.pc] && res.value.1.pc == r.pc + 1
  {
    var b :- ReadUint8(r);
    Ok((b.0 as nat, b.1))
  }

  /** An index-16 instruction reads an unsigned big-endian 16-bit value. */
  function FetchIndex16(r: Reader): (res: Result<(nat, Reader)>)
    ensures res.Ok? <==> Available(r, 2)
    ensures res.Ok? ==> res.value.0 < TWO_16 && res.value.1.pc == r.pc + 2
    ensures res.Ok? ==> Ahead(r, 2) == Bytes(res.value.0, 2)
  {
    var h :- ReadUint16(r);
    Ok((h.0 as nat, h.1))
  }
}

=== FILE: class_hierarchy.dfy ===
/** Subclass, interface and member-access relations between loaded classes.
    Classes are compared by identity, as the Go code compares `*Class`
    pointers; here the identity of a class is its id in the heap's arena. */
module ClassHierarchy {
  import opened Wrappers
  import opened MachineInts
  import opened AccessFlags
  import opened ClassNames
  import opened Heaps

  /** The loop of `IsSubClassOf` from class c on: some class from c up the
      superclass chain is t. */
  predicate AncestorFrom(cs: seq<Class>, c: Option<ClassId>, t: ClassId)
    requires Linked(cs) && (c.Some? ==> c.value < |cs|)
    decreases if c.Some? then c.value + 1 else 0
  {
    match c
    case None => false
    case Some(id) =>
      assert ClassLinked(cs[id], id);
      id == t || AncestorFrom(cs, cs[id].superClass, t)
  }

  /** `IsSubClassOf`: t is a proper superclass of s. */
  predicate IsSubClassOf(cs: seq<Class>, s: ClassId, t: ClassId)
    requires Linked(cs) && s < |cs|
  {
    assert ClassLinked(cs[s], s);
    AncestorFrom(cs, cs[s].superClass, t)
  }

  /** The subclass test only looks at the classes on the chain, so classes
      loaded later do not change it. */
  lemma {:induction false} AncestorFromStable(cs: seq<Class>, cs': seq<Class>, c: Option<ClassId>, t: ClassId)
    requires Linked(cs) && Linked(cs') && |cs| <= |cs'| && (c.Some? ==> c.value < |cs|)
    requires forall j :: 0 <= j < |cs| ==> cs'[j] == cs[j]
    ensures AncestorFrom(cs', c, t) == AncestorFrom(cs, c, t)
    decreases if c.Some? then c.value + 1 else 0
  {
    if c.Some? {
      assert cs'[c.value] == cs[c.value];
      assert ClassLinked(cs[c.value], c.value);
      AncestorFromStable(cs, cs', cs[c.value].superClass, t);
    }
  }

  lemma SubClassStable(cs: seq<Class>, cs': seq<Class>, s: ClassId, t: ClassId)
    requires Linked(cs) && Linked(cs') && s < |cs| <= |cs'|
    requires forall j :: 0 <= j < |cs| ==> cs'[j] == cs[j]
    ensures IsSubClassOf(cs', s, t) == IsSubClassOf(cs, s, t)
  {
    assert cs'[s] == cs[s];
    assert ClassLinked(cs[s], s);
    AncestorFromStable(cs, cs', cs[s].superClass, t);
  }

  /** `IsSuperClassOf` */
  predicate IsSuperClassOf(cs: seq<Class>, t: ClassId, s: ClassId)
    requires Linked(cs) && s < |cs|
  {
    IsSubClassOf(cs, s, t)
  }

  lemma {:induction false} AncestorFromChain(cs: seq<Class>, id: ClassId, t: ClassId)
    requires Linked(cs) && id < |cs|
    ensures AncestorFrom(cs, Some(id), t) <==> t in Chain(cs, id)
    decreases id
  {
    assert ClassLinked(cs[id], id);
    if cs[id].superClass.Some? {
      AncestorFromChain(cs, cs[id].superClass.value, t);
    }
  }

  /** The loop of `IsSubClassOf` finds exactly the classes of the superclass
      chain after s itself. */
  lemma SubClassIsChain(cs: seq<Class>, s: ClassId, t: ClassId)
    requires Linked(cs) && s < |cs|
    ensures IsSubClassOf(cs, s, t) <==> t in Chain(cs, s)[1..]
  {
  }

  /** A superclass has a smaller id, so no class is its own subclass and the
      relation is antisymmetric. */
  lemma {:induction false} SubClassBelow(cs: seq<Class>, c: Option<ClassId>, t: ClassId)
    requires Linked(cs) && (c.Some? ==> c.value < |cs|)
    ensures AncestorFrom(cs, c, t) ==> c.Some? && t <= c.value
    decreases if c.Some? then c.value + 1 else 0
  {
    if c.Some? {
      assert ClassLinked(cs[c.value], c.value);
      SubClassBelow(cs, cs[c.value].superClass, t);
    }
  }

  lemma SubClassIrreflexive(cs: seq<Class>, s: ClassId, t: ClassId)
    requires Linked(cs) && s < |cs| && t < |cs|
    ensures IsSubClassOf(cs, s, t) ==> t < s
    ensures !IsSubClassOf(cs, s, s)
    ensures !(IsSubClassOf(cs, s, t) && IsSubClassOf(cs, t, s))
  {
    assert ClassLinked(cs[s], s);
    assert ClassLinked(cs[t], t);
    SubClassBelow(cs, cs[s].superClass, t);
    SubClassBelow(cs, cs[s].superClass, s);
    SubClassBelow(cs, cs[t].superClass, s);
  }

  lemma {:induction false} AncestorFromTrans(cs: seq<Class>, c: Option<ClassId>, t: ClassId, u: ClassId)
    requires Linked(cs) && (c.Some? ==> c.value < |cs|) && t < |cs|
    requires AncestorFrom(cs, c, t) && AncestorFrom(cs, Some(t), u)
    ensures AncestorFrom(cs, c, u)
    decreases if c.Some? then c.value + 1 else 0
  {
    assert ClassLinked(cs[c.value], c.value);
    if c.value != t {
      AncestorFromTrans(cs, cs[c.value].superClass, t, u);
    }
  }

  /** A subclass of a subclass of u is a subclass of u. */
  lemma SubClassTransitive(cs: seq<Class>, s: ClassId, t: ClassId, u: ClassId)
    requires Linked(cs) && s < |cs| && t < |cs|
    requires IsSubClassOf(cs, s, t) && IsSubClassOf(cs, t, u)
    ensures IsSubClassOf(cs, s, u)
  {
    assert ClassLinked(cs[s], s);
    assert ClassLinked(cs[t], t);
    assert AncestorFrom(cs, Some(t), u);
    AncestorFromTrans(cs, cs[s].superClass, t, u);
  }

  // ---------------------------------------------------------------------------
  // Interfaces

  /** `isSubInterfaceOf`: iface is among the superinterfaces of c, directly or
      through one of them. */
  predicate IsSubInterfaceOf(cs: seq<Class>, c: ClassId, iface: ClassId)
    requires Linked(cs) && c < |cs|
    decreases c
  {
    assert ClassLinked(cs[c], c);
    exists k :: 0 <= k < |cs[c].interfaces| && DirectOrSub(cs, cs[c].interfaces[k], iface, c)
  }

  /** The loop body of `isSubInterfaceOf`: the interface is iface or extends it. */
  predicate DirectOrSub(cs: seq<Class>, i: ClassId, iface: ClassId, bound: ClassId)
    requires Linked(cs) && i < bound < |cs|
    decreases bound, 0
  {
    i == iface || IsSubInterfaceOf(cs, i, iface)
  }

  /** `isSuperInterfaceOf` */
  predicate IsSuperInterfaceOf(cs: seq<Class>, iface: ClassId, c: ClassId)
    requires Linked(cs) && c < |cs|
  {
    IsSubInterfaceOf(cs, c, iface)
  }

  /** `IsImplements`: some class on the chain of s lists iface or a
      subinterface of it among its interfaces. */
  predicate IsImplements(cs: seq<Class>, s: ClassId, iface: ClassId)
    requires Linked(cs) && s < |cs|
  {
    exists p :: 0 <= p < |Chain(cs, s)| && IsSubInterfaceOf(cs, Chain(cs, s)[p], iface)
  }

  /** A class whose direct interface is iface implements it. */
  lemma DirectInterfaceImplemented(cs: seq<Class>, s: ClassId, k: nat)
    requires Linked(cs) && s < |cs| && k < |cs[s].interfaces|
    ensures IsSubInterfaceOf(cs, s, cs[s].interfaces[k])
    ensures IsImplements(cs, s, cs[s].interfaces[k])
  {
    assert ClassLinked(cs[s], s);
    assert DirectOrSub(cs, cs[s].interfaces[k], cs[s].interfaces[k], s);
    assert Chain(cs, s)[0] == s;
  }

  lemma {:induction false} SubInterfaceTransitive(cs: seq<Class>, a: ClassId, b: ClassId, c: ClassId)
    requires Linked(cs) && a < |cs| && b < |cs|
    requires IsSubInterfaceOf(cs, a, b) && IsSubInterfaceOf(cs, b, c)
    ensures IsSubInterfaceOf(cs, a, c)
    decreases a
  {
    assert ClassLinked(cs[a], a);
    var k :| 0 <= k < |cs[a].interfaces| && DirectOrSub(cs, cs[a].interfaces[k], b, a);
    var i := cs[a].interfaces[k];
    if i != b {
      SubInterfaceTransitive(cs, i, b, c);
    }
    assert DirectOrSub(cs, i, c, a);
  }

  /** Implementing an interface implies implementing what it extends. */
  lemma ImplementsSuperInterface(cs: seq<Class>, s: ClassId, i: ClassId, j: ClassId)
    requires Linked(cs) && s < |cs| && i < |cs|
    requires IsImplements(cs, s, i) && IsSubInterfaceOf(cs, i, j)
    ensures IsImplements(cs, s, j)
  {
    var p :| 0 <= p < |Chain(cs, s)| && IsSubInterfaceOf(cs, Chain(cs, s)[p], i);
    SubInterfaceTransitive(cs, Chain(cs, s)[p], i, j);
  }

  /** A subclass implements every interface its superclass implements. */
  lemma ImplementsInherited(cs: seq<Class>, s: ClassId, t: ClassId, i: ClassId)
    requires Linked(cs) && s < |cs| && t < |cs|
    requires IsSubClassOf(cs, s, t) && IsImplements(cs, t, i)
    ensures IsImplements(cs, s, i)
  {
    SubClassIsChain(cs, s, t);
    var p :| 0 <= p < |Chain(cs, t)| && IsSubInterfaceOf(cs, Chain(cs, t)[p], i);
    var q :| 1 <= q < |Chain(cs, s)| && Chain(cs, s)[q] == t;
    ChainSuffix(cs, s, q);
    assert Chain(cs, s)[q + p] == Chain(cs, t)[p];
  }

  /** The chain of a class on the chain of s is the rest of the chain of s. */
  lemma {:induction false} ChainSuffix(cs: seq<Class>, s: ClassId, q: nat)
    requires Linked(cs) && s < |cs| && q < |Chain(cs, s)|
    ensures Chain(cs, s)[q] < |cs| && Chain(cs, s)[q..] == Chain(cs, Chain(cs, s)[q])
    decreases q
  {
    if q > 0 {
      ShiftChain(cs, s);
      var p := cs[s].superClass.value;
      var c, d := Chain(cs, s), Chain(cs, p);
      assert |c| == |d| + 1 && c[q] == d[q - 1];
      ChainSuffix(cs, p, q - 1);
      assert c[q..] == c[1..][q - 1..];
    }
  }

  // ---------------------------------------------------------------------------
  // Access control of fields and methods

  /** `ClassMember.isAccessibleTo`: whether class d may access a member with
      the flags declared in class c. */
  predicate MemberAccessibleTo(cs: seq<Class>, flags: u16, c: ClassId, d: ClassId)
    requires Linked(cs) && c < |cs| && d < |cs|
  {
    if IsPublic(flags) then true
    else if IsProtected(flags) then
      d == c || IsSubClassOf(cs, d, c) || PackageName(cs[c].name) == PackageName(cs[d].name)
    else if !IsPrivate(flags) then PackageName(cs[c].name) == PackageName(cs[d].name)
    else d == c
  }

  /** The access rules: the declaring class always has access; public members
      are open to all; a member that is neither public nor protected is closed
      to other packages; a protected member is open to subclasses; and a
      private-only member is open to its class alone. */
  lemma MemberAccessRules(cs: seq<Class>, flags: u16, c: ClassId, d: ClassId)
    requires Linked(cs) && c < |cs| && d < |cs|
    ensures MemberAccessibleTo(cs, flags, c, c)
    ensures IsPublic(flags) ==> MemberAccessibleTo(cs, flags, c, d)
    ensures PackageName(cs[c].name) == PackageName(cs[d].name) && !IsPrivate(flags) ==> MemberAccessibleTo(cs, flags, c, d)
    ensures IsProtected(flags) && IsSubClassOf(cs, d, c) ==> MemberAccessibleTo(cs, flags, c, d)
    ensures !IsPublic(flags) && !IsProtected(flags) && PackageName(cs[c].name) != PackageName(cs[d].name) ==>
      !MemberAccessibleTo(cs, flags, c, d)
    ensures !IsPublic(flags) && !IsProtected(flags) && IsPrivate(flags) ==> (MemberAccessibleTo(cs, flags, c, d) <==> d == c)
  {
  }
}

=== FILE: class_loader.dfy ===
/** The class loader: loading a class by name, with its superclass and
    interfaces first, registering it, laying it out and initialising its
    static final constants; array classes made on demand; the mirror
    (`java.lang.Class` object) of each loaded class; `JString`; and the
    loader's start-up.

    The class path and the class-file parser are a map `defs` from a class
    name to its decoded class file. Loading is one mutually recursive group
    whose measure is the set of class files not being loaded: a class still
    being loaded (the set `loading`) that is asked for again is a circular hierarchy, on which the Go code recurses
    without end, and here gives `Diverge`. */
module ClassLoader {
  import opened Wrappers
  import opened MachineInts
  import opened AccessFlags
  import opened ClassNames
  import opened Slots
  import opened ClassFileAttributes
  import opened RuntimeConstantPool
  import opened ClassMembers
  import opened Heaps
  import opened ClassPreparation
  import opened StringPool
  import Utf16
  import Utf8

  /** The class path: under each name, the class its class file defines as
      `newClass` builds it from the parsed file, or the error doing so gives. */
  type Defs = map<string, Result<Class>>

  /** The class path of a set of parsed class files. */
  function ClassPath(files: map<string, ClassFile>): (defs: Defs)
    ensures defs.Keys == files.Keys
    ensures forall n :: n in files ==> defs[n] == NewClass(files[n])
  {
    map n | n in files :: NewClass(files[n])
  }

  /** Every class file defines the class it is found under. */
  predicate Consistent(defs: Defs) {
    forall n :: n in defs && defs[n].Ok? ==> defs[n].value.name == n
  }

  /** Every class a class path holds is as its class file defines it: not yet
      linked. */
  predicate AllUnlinked(defs: Defs) {
    forall n :: n in defs && defs[n].Ok? ==> Unlinked(defs[n].value) == defs[n].value
  }

  /** Files that each define the class they are found under make a consistent
      class path, and every class on it is unlinked. */
  lemma ClassPathValid(files: map<string, ClassFile>)
    requires forall n :: n in files ==> ClassName(files[n]).Ok? ==> ClassName(files[n]) == Ok(n)
    ensures Consistent(ClassPath(files)) && AllUnlinked(ClassPath(files))
  {
    var defs := ClassPath(files);
    forall n | n in defs && defs[n].Ok?
      ensures defs[n].value.name == n && Unlinked(defs[n].value) == defs[n].value
    {
      LinkingKeepsDefinition(files[n], None, [], 0);
    }
  }

  const JlObject := "java/lang/Object"
  const JlClass := "java/lang/Class"
  const JlString := "java/lang/String"
  const JlCloneable := "java/lang/Cloneable"
  const JioSerializable := "java/io/Serializable"

  // ---------------------------------------------------------------------------
  // What a load may change

  predicate Registered(h: Heap, name: string, id: ClassId) {
    name in h.classMap && h.classMap[name] == id
  }

  /** A class registered under a name keeps that name in every heap that
      grows from the one it is registered in. */
  lemma RegisteredKept(h: Heap, h': Heap, name: string, id: ClassId)
    requires Valid(h) && Registered(h, name, id) && Grows(h, h')
    ensures id < |h'.classes| && h'.classes[id].name == name
  {
  }

  /** Every registered name keeps its class. */
  predicate Stable(h: Heap, h': Heap) {
    forall n :: n in h.classMap ==> n in h'.classMap && h'.classMap[n] == h.classMap[n]
  }

  /** No class being loaded is registered by the loads it starts (array
      classes are never in the middle of being loaded). */
  predicate Untouched(loading: set<string>, h: Heap, h': Heap) {
    forall n :: n in loading && !IsArrayName(n) && n !in h.classMap ==> n !in h'.classMap
  }

  /** The states of the classes loaded before are kept. */
  predicate StatesKept(h: Heap, h': Heap) {
    |h.states| <= |h'.states| && forall j :: 0 <= j < |h.states| ==> h'.states[j] == h.states[j]
  }

  /** Object a is the mirror of class id: a `java.lang.Class` object whose
      extra is the class. */
  predicate MirrorOf(h: Heap, a: nat, id: ClassId)
    requires Valid(h)
  {
    a < |h.objects| && h.objects[a].extra == Mirror(id) && h.classes[h.objects[a].classId].name == JlClass
  }

  /** Class id's mirror, once it has one, stands for that class. */
  predicate MirrorValid(h: Heap, id: int)
    requires Valid(h)
  {
    0 <= id < |h.states| && h.states[id].jClass.Addr? ==> MirrorOf(h, h.states[id].jClass.address, id)
  }

  /** Every class's mirror, once it has one, stands for that class. */
  ghost predicate MirrorsValid(h: Heap) {
    Valid(h) && forall id :: MirrorValid(h, id)
  }

  /** Every string pooled in h is still pooled in h', as the same object. */
  predicate PoolKept(h: Heap, h': Heap) {
    forall s :: s in h.interned ==> s in h'.interned && h'.interned[s] == h.interned[s]
  }

  /** One or more steps of loading: the heap stays valid and grows, pooled
      strings stay pooled, mirrors stay valid, and, when the class
      path is consistent, names stay registered to the same class and no
      class being loaded is registered from inside its own load. */
  ghost predicate Step(defs: Defs, loading: set<string>, h: Heap, h': Heap) {
    // bound to a name so that a Step is proved as one fact, not part by part
    var kept :=
      && Valid(h') && Grows(h, h') && PoolKept(h, h')
      && (MirrorsValid(h) ==> MirrorsValid(h'))
      && (Consistent(defs) ==> Stable(h, h') && Untouched(loading, h, h'));
    kept
  }

  lemma StepRefl(defs: Defs, loading: set<string>, h: Heap)
    requires Valid(h)
    ensures Step(defs, loading, h, h)
  {
  }

  lemma StepTrans(defs: Defs, loading: set<string>, h1: Heap, h2: Heap, h3: Heap)
    requires Step(defs, loading, h1, h2) && Step(defs, loading, h2, h3)
    ensures Step(defs, loading, h1, h3)
  {
  }

  lemma StepWeaken(defs: Defs, loading: set<string>, loading': set<string>, h: Heap, h': Heap)
    requires loading <= loading' && Step(defs, loading', h, h')
    ensures Step(defs, loading, h, h')
  {
  }

  /** A change that touches neither the classes, the names nor the pool, keeps
      every mirror and only appends objects is a step. */
  lemma PlainStep(defs: Defs, loading: set<string>, h: Heap, h': Heap)
    requires Valid(h) && Valid(h') && Grows(h, h')
    requires h'.classes == h.classes && h'.classMap == h.classMap && h'.interned == h.interned
    requires |h'.states| == |h.states| && forall j :: 0 <= j < |h.states| ==> h'.states[j].jClass == h.states[j].jClass
    ensures Step(defs, loading, h, h')
  {
    if MirrorsValid(h) {
      MirrorsKept(h, h');
    }
  }

  /** Mirrors stay valid while the classes and every class's mirror are kept
      and objects are only appended. */
  lemma MirrorsKept(h: Heap, h': Heap)
    requires MirrorsValid(h) && Valid(h') && Grows(h, h') && h'.classes == h.classes
    requires |h'.states| == |h.states| && forall j :: 0 <= j < |h.states| ==> h'.states[j].jClass == h.states[j].jClass
    ensures MirrorsValid(h')
  {
    forall id
      ensures MirrorValid(h', id)
    {
      if 0 <= id < |h'.states| && h'.states[id].jClass.Addr? {
        assert MirrorValid(h, id);
      }
    }
  }

  /** Registering a class without a mirror is a step as long as it takes no
      name registered at the start and, on a consistent class path, the name
      of no class being loaded unless it is an array class. */
  lemma AddClassStep(defs: Defs, loading: set<string>, h0: Heap, h: Heap, c: Class, st: ClassState)
    requires Step(defs, loading, h0, h) && ClassLinked(c, |h.classes|) && CachesValid(h.classes, st) && st.jClass.Null?
    requires Consistent(defs) ==> c.name !in h0.classMap && (c.name in loading ==> IsArrayName(c.name))
    ensures Step(defs, loading, h0, AddClass(h, c, st).1)
  {
    var h' := AddClass(h, c, st).1;
    GrowsTrans(h0, h, h');
    if MirrorsValid(h0) {
      forall id
        ensures MirrorValid(h', id)
      {
        if 0 <= id < |h'.states| && h'.states[id].jClass.Addr? {
          assert id < |h.states| && h'.states[id] == h.states[id];
          assert MirrorValid(h, id);
        }
      }
    }
    if Consistent(defs) {
      assert Stable(h0, h) && Untouched(loading, h0, h);
    }
  }

  /** `class.jClass = jlClassClass.NewObject(); class.jClass.extra = class` */
  function GiveMirror(h: Heap, jlClassId: ClassId, id: ClassId): (h': Heap)
    requires Valid(h) && jlClassId < |h.classes| && id < |h.classes|
    ensures Valid(h') && Grows(h, h') && StateOnlyButObjects(h, h')
    ensures h'.states == h.states[id := h.states[id].(jClass := Addr(|h.objects|))]
    ensures h'.objects == h.objects + [Object(jlClassId, FieldSlots(NewSlots(h.classes[jlClassId].instanceSlotCount)), Mirror(id))]
  {
    var (obj, h1) := NewObject(h, jlClassId);
    var h2 := SetExtra(h1, obj, Mirror(id)).value;
    SetState(h2, id, h2.states[id].(jClass := obj))
  }

  predicate StateOnlyButObjects(h: Heap, h': Heap) {
    h'.classes == h.classes && h'.classMap == h.classMap && h'.interned == h.interned
  }

  /** Giving a class a mirror of the class registered as `java.lang.Class` is
      a step. */
  lemma MirrorStep(defs: Defs, loading: set<string>, h: Heap, id: ClassId)
    requires Valid(h) && JlClass in h.classMap && id < |h.classes|
    ensures Step(defs, loading, h, GiveMirror(h, h.classMap[JlClass], id))
    ensures MirrorOf(GiveMirror(h, h.classMap[JlClass], id), |h.objects|, id)
  {
    var h' := GiveMirror(h, h.classMap[JlClass], id);
    if MirrorsValid(h) {
      forall j
        ensures MirrorValid(h', j)
      {
        if 0 <= j < |h'.states| && j != id && h'.states[j].jClass.Addr? {
          assert MirrorValid(h, j);
        }
      }
    }
  }

  /** Sets the static variables of a class. */
  function SetStaticVars(h: Heap, id: ClassId, vars: Slots): (h': Heap)
    requires Valid(h) && id < |h.classes|
    ensures Valid(h') && Grows(h, h') && StateOnly(h, h')
    ensures h'.states == h.states[id := h.states[id].(staticVars := vars)]
  {
    SetState(h, id, h.states[id].(staticVars := vars))
  }

  /** Only the static variables of class id change, and keep their number. */
  predicate OnlyStatics(h: Heap, h': Heap, id: ClassId)
    requires id < |h.states|
  {
    && |h'.states| >= |h.states|
    && (forall j :: 0 <= j < |h.states| && j != id ==> h'.states[j] == h.states[j])
    && h'.states[id] == h.states[id].(staticVars := h'.states[id].staticVars)
    && |h'.states[id].staticVars| == |h.states[id].staticVars|
  }

  /** The mirror step of `LoadClass`: a class loaded while `java.lang.Class`
      is registered gets its mirror at once; the others get theirs when the
      loader starts up. */
  function MirrorIfReady(defs: Defs, loading: set<string>, h: Heap, id: ClassId): (h': Heap)
    requires Valid(h) && id < |h.classes|
    ensures Step(defs, loading, h, h') && h'.classes == h.classes && h'.classMap == h.classMap
    ensures |h'.states| == |h.states| && forall j :: 0 <= j < |h.states| && j != id ==> h'.states[j] == h.states[j]
    ensures JlClass in h.classMap ==> MirrorOf(h', |h.objects|, id) && h'.states[id].jClass == Addr(|h.objects|)
    ensures JlClass !in h.classMap ==> h' == h
  {
    if JlClass in h.classMap then
      MirrorStep(defs, loading, h, id);
      GiveMirror(h, h.classMap[JlClass], id)
    else
      StepRefl(defs, loading, h);
      h
  }

  /** The class defined from c0 with its superclass and interfaces resolved
      and its fields laid out after those of its superclass. */
  function LinkedClass(h: Heap, c0: Class, sup: Option<ClassId>, ifs: seq<ClassId>): (c: Class)
    requires Valid(h) && (sup.Some? ==> sup.value < |h.classes|)
    requires forall k :: 0 <= k < |ifs| ==> ifs[k] < |h.classes|
    ensures ClassLinked(c, |h.classes|) && c.name == c0.name
    ensures c.superClassName == c0.superClassName && c.interfaceNames == c0.interfaceNames
    ensures c.superClass == sup && c.interfaces == ifs
    ensures c == Prepare(c0.(superClass := sup, interfaces := ifs), if sup.Some? then h.classes[sup.value].instanceSlotCount else 0)
  {
    Prepare(c0.(superClass := sup, interfaces := ifs), if sup.Some? then h.classes[sup.value].instanceSlotCount else 0)
  }

  /** Linking against a heap that grows gives the same class. */
  lemma LinkedClassGrows(h: Heap, h': Heap, c0: Class, sup: Option<ClassId>, ifs: seq<ClassId>)
    requires Valid(h) && Valid(h') && Grows(h, h') && (sup.Some? ==> sup.value < |h.classes|)
    requires forall k :: 0 <= k < |ifs| ==> ifs[k] < |h.classes|
    ensures LinkedClass(h', c0, sup, ifs) == LinkedClass(h, c0, sup, ifs)
  {
  }

  /** The state of a class just loaded: not initialised, no mirror, nothing
      resolved, and `count` static slots, which only static initialisation of
      constants has written. */
  predicate FreshStatics(st: ClassState, count: nat) {
    st.(staticVars := NewSlots(count)) == FreshState(count, false) && |st.staticVars| == count
  }

  /** Sets reference slot `slot` of the static variables of class id. */
  function SetStaticRef(h: Heap, id: ClassId, slot: nat, v: Ref): (r: Result<Heap>)
    requires Valid(h) && id < |h.classes|
    ensures r.Ok? ==> Valid(r.value) && Grows(h, r.value) && StateOnly(h, r.value)
    ensures r.Ok? <==> slot < |h.states[id].staticVars|
    ensures r.Ok? ==> r.value.states == h.states[id := h.states[id].(staticVars := r.value.states[id].staticVars)]
    ensures r.Ok? ==> |r.value.states[id].staticVars| == |h.states[id].staticVars|
    ensures r.Ok? ==> GetRef(r.value.states[id].staticVars, slot) == Ok(v)
    ensures r.Ok? ==> forall j :: 0 <= j < |h.states[id].staticVars| && j != slot ==>
      r.value.states[id].staticVars[j] == h.states[id].staticVars[j]
  {
    var vars :- SetRef(h.states[id].staticVars, slot, v);
    RefRoundTrip(h.states[id].staticVars, slot, v);
    Ok(SetStaticVars(h, id, vars))
  }

  /** Class id is c0 with its superclass and interfaces resolved (a
      superclass exactly when c0 is not `java.lang.Object`), its fields laid
      out after those of its superclass, and its state fresh. */
  predicate LinkedFrom(h: Heap, id: ClassId, c0: Class)
    requires Valid(h)
  {
    && id < |h.classes|
    && var c := h.classes[id];
    && ClassLinked(c, id)
    && c == LinkedClass(h, c0, c.superClass, c.interfaces)
    && (c.superClass.None? <==> c0.name == JlObject)
    && FreshStatics(h.states[id], c.staticSlotCount)
  }

  /** A linked class stays linked from its definition as the heap grows and
      keeps its state. */
  lemma LinkedFromGrows(h: Heap, h': Heap, id: ClassId, c0: Class)
    requires Valid(h) && Valid(h') && Grows(h, h') && StatesKept(h, h') && LinkedFrom(h, id, c0)
    ensures LinkedFrom(h', id, c0)
  {
    var c := h.classes[id];
    LinkedClassGrows(h, h', c0, c.superClass, c.interfaces);
  }

  /** A class linked from an unlinked definition unlinks back to it. */
  lemma LinkedFromDefinition(h: Heap, id: ClassId, c0: Class)
    requires Valid(h) && LinkedFrom(h, id, c0) && Unlinked(c0) == c0
    ensures Unlinked(h.classes[id]) == c0
    ensures var c := h.classes[id];
      c == Prepare(c0.(superClass := c.superClass, interfaces := c.interfaces),
                   if c.superClass.Some? then h.classes[c.superClass.value].instanceSlotCount else 0)
  {
    var c := h.classes[id];
    LinkingKeepsUnlinked(c0, c.superClass, c.interfaces,
      if c.superClass.Some? then h.classes[c.superClass.value].instanceSlotCount else 0);
  }

  /** The classes ids have the names names, position by position. */
  predicate Named(h: Heap, ids: seq<ClassId>, names: seq<string>) {
    |ids| == |names| && forall k :: 0 <= k < |ids| ==> ids[k] < |h.classes| && h.classes[ids[k]].name == names[k]
  }

  lemma NamedGrows(h: Heap, h': Heap, ids: seq<ClassId>, names: seq<string>)
    requires Grows(h, h') && Named(h, ids, names)
    ensures Named(h', ids, names)
  {
  }

  lemma NamedAppend(h: Heap, ids: seq<ClassId>, names: seq<string>, id: ClassId, name: string)
    requires Named(h, ids, names) && id < |h.classes| && h.classes[id].name == name
    ensures Named(h, ids + [id], names + [name])
  {
  }

  /** The superclass and the interfaces of class id are the classes it names. */
  predicate NamesResolved(h: Heap, id: ClassId)
    requires id < |h.classes|
  {
    var c := h.classes[id];
    && (c.superClass.Some? ==> Named(h, [c.superClass.value], [c.superClassName]))
    && Named(h, c.interfaces, c.interfaceNames)
  }

  // ---------------------------------------------------------------------------
  // Loading

  /** `LoadClass`: the registered class of that name, or else the class loaded
      now (an array class when the name starts with '[') and given a mirror if
      `java.lang.Class` is loaded already. */
  method LoadClass(defs: Defs, h: Heap, loading: set<string>, name: string) returns (r: Result<(ClassId, Heap)>)
    requires Valid(h)
    ensures r.Ok? ==> Step(defs, loading, h, r.value.1) && r.value.0 < |r.value.1.classes|
    ensures r.Ok? ==> StatesKept(h, r.value.1)
    ensures name in h.classMap ==> r == Ok((h.classMap[name], h))
    ensures name !in h.classMap && |name| == 0 ==> r == Err(OutOfRange)
    ensures r.Ok? && name !in h.classMap ==> |h.classes| <= r.value.0
    ensures r.Ok? && (IsArrayName(name) || Consistent(defs)) ==> Registered(r.value.1, name, r.value.0)
    ensures r.Ok? && name !in h.classMap && JlClass in h.classMap ==> r.value.1.states[r.value.0].jClass.Addr?
    decreases defs.Keys - loading, if IsArrayName(name) then 4 else 0, 1
  {
    if name in h.classMap {
      StepRefl(defs, loading, h);
      return Ok((h.classMap[name], h));
    }
    if |name| == 0 {
      return Err(OutOfRange);
    }
    var p;
    if name[0] == '[' {
      p := LoadArrayClass(defs, h, loading, name);
    } else {
      p := LoadNonArrayClass(defs, h, loading, name);
    }
    var q :- p;
    var h' := MirrorIfReady(defs, loading, q.1, q.0);
    StepTrans(defs, loading, h, q.1, h');
    MirrorKeeps(h, q.1, h', q.0, name);
    r := Ok((q.0, h'));
  }

  /** Giving the class just loaded its mirror keeps the states of the classes
      loaded before it and the class's registration. */
  lemma MirrorKeeps(h: Heap, h1: Heap, h2: Heap, id: ClassId, name: string)
    requires |h.states| == |h.classes| <= id < |h1.states| && StatesKept(h, h1)
    requires h2.classMap == h1.classMap && |h2.states| == |h1.states|
    requires forall j :: 0 <= j < |h1.states| && j != id ==> h2.states[j] == h1.states[j]
    ensures StatesKept(h, h2)
    ensures Registered(h1, name, id) ==> Registered(h2, name, id)
  {
    forall j | 0 <= j < |h.states|
      ensures h2.states[j] == h.states[j]
    {
      assert h2.states[j] == h1.states[j];
    }
  }

  /** The array class `loadArrayClass` makes: public, without members, its
      superclass and interfaces given. */
  function ArrayClass(name: string, superClass: ClassId, interfaces: seq<ClassId>): Class {
    Class(ACC_PUBLIC, name, "", [], [], [], [], Some(superClass), interfaces, 0, 0, "")
  }

  /** Class id is the array class of that name, with one superclass and two
      interfaces, initialised from the start. */
  predicate IsArrayClass(h: Heap, id: ClassId, name: string)
    requires Valid(h)
  {
    && id < |h.classes|
    && var c := h.classes[id];
    && c.superClass.Some? && |c.interfaces| == 2
    && c == ArrayClass(name, c.superClass.value, c.interfaces)
    && h.states[id] == FreshState(0, true)
  }

  /** `loadArrayClass`: a public class, initialised from the start, whose
      superclass is `java.lang.Object` and whose interfaces are
      `java.lang.Cloneable` and `java.io.Serializable`, loaded in that order. */
  method LoadArrayClass(defs: Defs, h: Heap, loading: set<string>, name: string) returns (r: Result<(ClassId, Heap)>)
    requires Valid(h) && IsArrayName(name) && name !in h.classMap
    ensures r.Ok? ==> Step(defs, loading, h, r.value.1) && StatesKept(h, r.value.1)
    ensures r.Ok? ==> r.value.0 == |r.value.1.classes| - 1 && |h.classes| <= r.value.0 && Registered(r.value.1, name, r.value.0)
    ensures r.Ok? ==> IsArrayClass(r.value.1, r.value.0, name)
    ensures r.Ok? && Consistent(defs) ==> var c := r.value.1.classes[r.value.0];
      Named(r.value.1, [c.superClass.value] + c.interfaces, [JlObject, JlCloneable, JioSerializable])
    decreases defs.Keys - loading, 3, 0
  {
    var bases :- ResolveInterfaces(defs, h, loading, [JlObject, JlCloneable, JioSerializable]);
    var (ids, h') := bases;
    var c := ArrayClass(name, ids[0], ids[1..]);
    AddClassStep(defs, loading, h, h', c, FreshState(0, true));
    var (id, h'') := AddClass(h', c, FreshState(0, true));
    if Consistent(defs) {
      NamedGrows(h', h'', ids, [JlObject, JlCloneable, JioSerializable]);
      assert [ids[0]] + ids[1..] == ids;
    }
    r := Ok((id, h''));
  }

  /** `loadNonArrayClass`: read the class file, then define and link the
      class. */
  method LoadNonArrayClass(defs: Defs, h: Heap, loading: set<string>, name: string) returns (r: Result<(ClassId, Heap)>)
    requires Valid(h) && name !in h.classMap && !IsArrayName(name)
    ensures r.Ok? ==> Step(defs, loading, h, r.value.1) && StatesKept(h, r.value.1)
    ensures r.Ok? ==> |h.classes| <= r.value.0
    ensures name in loading ==> r == Err(Diverge)
    ensures name !in loading && name !in defs ==> r == Err(Panic(ClassNotFoundPrefix + name))
    ensures name !in loading && name in defs && defs[name].Err? ==> r == Err(defs[name].error)
    ensures r.Ok? ==> name in defs && defs[name].Ok? && LinkedFrom(r.value.1, r.value.0, defs[name].value)
    ensures r.Ok? && Consistent(defs) ==> Registered(r.value.1, name, r.value.0) && NamesResolved(r.value.1, r.value.0)
    decreases defs.Keys - loading, 0, 0
  {
    if name in loading {
      return Err(Diverge);
    }
    if name !in defs {
      return Err(Panic(ClassNotFoundPrefix + name));
    }
    var c0 :- defs[name];
    r := DefineClass(defs, h, loading, name, c0);
  }

  /** `defineClass` and `link`: resolve the superclass of c0, the class found
      under name, then the rest. */
  method DefineClass(defs: Defs, h: Heap, loading: set<string>, name: string, c0: Class) returns (r: Result<(ClassId, Heap)>)
    requires Valid(h) && name in defs && name !in loading && name !in h.classMap && !IsArrayName(name)
    requires Consistent(defs) ==> c0.name == name
    ensures r.Ok? ==> Step(defs, loading, h, r.value.1) && StatesKept(h, r.value.1)
    ensures r.Ok? ==> |h.classes| <= r.value.0 && LinkedFrom(r.value.1, r.value.0, c0)
    ensures r.Ok? && Consistent(defs) ==> Registered(r.value.1, name, r.value.0) && NamesResolved(r.value.1, r.value.0)
    decreases defs.Keys - loading - {name}, 12, 0
  {
    var sup :- ResolveSuperClass(defs, h, loading + {name}, c0);
    StepWeaken(defs, loading, loading + {name}, h, sup.1);
    r := DefineWithSuper(defs, sup.1, loading, name, c0, sup.0);
    if r.Ok? {
      StepTrans(defs, loading, h, sup.1, r.value.1);
    }
  }

  /** The rest of `defineClass` and `link` once the superclass is resolved:
      resolve the interfaces, then `LinkClass`. */
  method DefineWithSuper(defs: Defs, h: Heap, loading: set<string>, name: string, c0: Class, sup: Option<ClassId>)
    returns (r: Result<(ClassId, Heap)>)
    requires Valid(h) && name in defs && name !in loading && !IsArrayName(name)
    requires (sup.Some? ==> sup.value < |h.classes|) && (sup.None? <==> c0.name == JlObject)
    requires Consistent(defs) ==> c0.name == name && name !in h.classMap
    requires Consistent(defs) && sup.Some? ==> Named(h, [sup.value], [c0.superClassName])
    ensures r.Ok? ==> Step(defs, loading, h, r.value.1) && StatesKept(h, r.value.1)
    ensures r.Ok? ==> |h.classes| <= r.value.0 && LinkedFrom(r.value.1, r.value.0, c0)
    ensures r.Ok? && Consistent(defs) ==> Registered(r.value.1, name, r.value.0) && NamesResolved(r.value.1, r.value.0)
    decreases defs.Keys - loading - {name}, 11, 0
  {
    var ifs :- ResolveInterfaces(defs, h, loading + {name}, c0.interfaceNames);
    StepWeaken(defs, loading, loading + {name}, h, ifs.1);
    r := LinkClass(defs, ifs.1, loading, name, c0, sup, ifs.0);
    if r.Ok? {
      StepTrans(defs, loading, h, ifs.1, r.value.1);
      LinkedClassGrows(ifs.1, r.value.1, c0, sup, ifs.0);
      if Consistent(defs) {
        NamedGrows(ifs.1, r.value.1, ifs.0, c0.interfaceNames);
        if sup.Some? {
          NamedGrows(h, r.value.1, [sup.value], [c0.superClassName]);
        }
      }
    }
  }

  /** The class `link` lays out, with fields placed after those of its
      superclass, added to the heap with fresh static variables and
      registered under its name. */
  method RegisterClass(defs: Defs, h: Heap, loading: set<string>, name: string, c0: Class, sup: Option<ClassId>, ifs: seq<ClassId>)
    returns (id: ClassId, h': Heap)
    requires Valid(h) && name !in loading && !IsArrayName(name)
    requires (sup.Some? ==> sup.value < |h.classes|) && (sup.None? <==> c0.name == JlObject)
    requires forall k :: 0 <= k < |ifs| ==> ifs[k] < |h.classes|
    requires Consistent(defs) ==> c0.name == name && name !in h.classMap
    ensures Step(defs, loading, h, h') && StatesKept(h, h')
    ensures id == |h.classes| && id < |h'.classes|
    ensures h'.classes[id] == LinkedClass(h, c0, sup, ifs)
    ensures h'.states[id] == FreshState(h'.classes[id].staticSlotCount, false)
    ensures Consistent(defs) ==> Registered(h', name, id)
  {
    var c := LinkedClass(h, c0, sup, ifs);
    var st := FreshState(c.staticSlotCount, false);
    AddClassStep(defs, loading, h, h, c, st);
    var added := AddClass(h, c, st);
    id, h' := added.0, added.1;
  }

  /** The rest of `defineClass` and `link`: register the class with its
      fields laid out after those of its superclass, then initialise its
      static final constants. */
  method LinkClass(defs: Defs, h: Heap, loading: set<string>, name: string, c0: Class, sup: Option<ClassId>, ifs: seq<ClassId>)
    returns (r: Result<(ClassId, Heap)>)
    requires Valid(h) && name in defs && name !in loading && !IsArrayName(name)
    requires (sup.Some? ==> sup.value < |h.classes|) && (sup.None? <==> c0.name == JlObject)
    requires forall k :: 0 <= k < |ifs| ==> ifs[k] < |h.classes|
    requires Consistent(defs) ==> c0.name == name && name !in h.classMap
    ensures r.Ok? ==> Step(defs, loading, h, r.value.1) && StatesKept(h, r.value.1)
    ensures r.Ok? ==> r.value.0 == |h.classes| && r.value.0 < |r.value.1.classes|
    ensures r.Ok? ==> r.value.1.classes[r.value.0] == LinkedClass(h, c0, sup, ifs)
    ensures r.Ok? ==> FreshStatics(r.value.1.states[r.value.0], r.value.1.classes[r.value.0].staticSlotCount)
    ensures r.Ok? ==> ConstantsSet(r.value.1, r.value.0)
    ensures r.Ok? && Consistent(defs) ==> Registered(r.value.1, name, r.value.0)
    decreases defs.Keys - loading - {name}, 10, 0
  {
    var id, h3 := RegisterClass(defs, h, loading, name, c0, sup, ifs);
    PreparedStaticsDisjoint(c0.(superClass := sup, interfaces := ifs), if sup.Some? then h.classes[sup.value].instanceSlotCount else 0);
    var h4 :- InitStaticFinals(defs, h3, loading + {name}, id);
    StepWeaken(defs, loading, loading + {name}, h3, h4);
    StepTrans(defs, loading, h, h3, h4);
    r := Ok((id, h4));
  }

  /** `resolveSuperClass`: every class but `java.lang.Object` loads the class
      named as its superclass. */
  method ResolveSuperClass(defs: Defs, h: Heap, loading: set<string>, c: Class) returns (r: Result<(Option<ClassId>, Heap)>)
    requires Valid(h)
    ensures r.Ok? ==> Step(defs, loading, h, r.value.1) && StatesKept(h, r.value.1)
    ensures r.Ok? ==> (r.value.0.None? <==> c.name == JlObject)
    ensures r.Ok? && r.value.0.Some? ==> r.value.0.value < |r.value.1.classes|
    ensures r.Ok? && r.value.0.Some? && Consistent(defs) ==> Named(r.value.1, [r.value.0.value], [c.superClassName])
    decreases defs.Keys - loading, 5, 0
  {
    if c.name == JlObject {
      StepRefl(defs, loading, h);
      return Ok((None, h));
    }
    var p :- LoadClass(defs, h, loading, c.superClassName);
    r := Ok((Some(p.0), p.1));
  }

  predicate HasArrayName(names: seq<string>) {
    exists k :: 0 <= k < |names| && IsArrayName(names[k])
  }

  /** `resolveInterfaces`: loads the class of each interface name, in order. */
  method ResolveInterfaces(defs: Defs, h: Heap, loading: set<string>, names: seq<string>) returns (r: Result<(seq<ClassId>, Heap)>)
    requires Valid(h)
    ensures r.Ok? ==> Step(defs, loading, h, r.value.1) && StatesKept(h, r.value.1)
    ensures r.Ok? ==> |r.value.0| == |names| && forall k :: 0 <= k < |names| ==> r.value.0[k] < |r.value.1.classes|
    ensures r.Ok? && Consistent(defs) ==> Named(r.value.1, r.value.0, names)
    decreases defs.Keys - loading, if HasArrayName(names) then 5 else 2, 0
  {
    var ids: seq<ClassId> := [];
    var cur := h;
    StepRefl(defs, loading, h);
    for i := 0 to |names|
      invariant Step(defs, loading, h, cur) && StatesKept(h, cur)
      invariant |ids| == i && forall k :: 0 <= k < i ==> ids[k] < |cur.classes|
      invariant Consistent(defs) ==> Named(cur, ids, names[..i])
    {
      var p :- LoadClass(defs, cur, loading, names[i]);
      StepTrans(defs, loading, h, cur, p.1);
      if Consistent(defs) {
        NamedGrows(cur, p.1, ids, names[..i]);
        NamedAppend(p.1, ids, names[..i], p.0, names[i]);
        assert names[..i] + [names[i]] == names[..i + 1];
      }
      ids := ids + [p.0];
      cur := p.1;
    }
    assert names[..|names|] == names;
    r := Ok((ids, cur));
  }

  /** `allocAndInitStaticVars` (the slots themselves are allocated when the
      class is registered): each static final field gets its constant, in
      declaration order. */
  method InitStaticFinals(defs: Defs, h: Heap, loading: set<string>, id: ClassId) returns (r: Result<Heap>)
    requires Valid(h) && id < |h.classes|
    ensures r.Ok? ==> Step(defs, loading, h, r.value) && OnlyStatics(h, r.value, id)
    ensures var fs := h.classes[id].fields;
      r.Ok? ==> forall j :: 0 <= j < |h.states[id].staticVars| && FreeSlot(fs, |fs|, j) ==>
        r.value.states[id].staticVars[j] == h.states[id].staticVars[j]
    ensures var fs := h.classes[id].fields;
      r.Ok? && StaticSlotsDisjoint(fs) ==> forall k :: 0 <= k < |fs| && ConstantField(fs[k]) ==> ConstantHeld(r.value, id, fs[k])
    decreases defs.Keys - loading, 9, 0
  {
    var fs := h.classes[id].fields;
    var vars := h.states[id].staticVars;
    var cur := h;
    StepRefl(defs, loading, h);
    for k := 0 to |fs|
      invariant Step(defs, loading, h, cur) && OnlyStatics(h, cur, id)
      invariant forall j :: 0 <= j < |vars| && FreeSlot(fs, k, j) ==> cur.states[id].staticVars[j] == vars[j]
      invariant StaticSlotsDisjoint(fs) ==> forall i :: 0 <= i < k && ConstantField(fs[i]) ==> ConstantHeld(cur, id, fs[i])
    {
      if IsStatic(fs[k].accessFlags) && IsFinal(fs[k].accessFlags) {
        var next :- InitStaticFinalVar(defs, cur, loading, id, k);
        StepTrans(defs, loading, h, cur, next);
        FinalsFrameStep(h, cur, next, id, k);
        if StaticSlotsDisjoint(fs) {
          forall i | 0 <= i < k && ConstantField(fs[i])
            ensures ConstantHeld(next, id, fs[i])
          {
            forall j | 0 <= j < |vars| && OccupiesSlot(fs[i], j)
              ensures next.states[id].staticVars[j] == cur.states[id].staticVars[j]
            {
              assert !OccupiesSlot(fs[k], j);
            }
            HeldKept(cur, next, id, fs[i]);
          }
        }
        cur := next;
      } else {
        assert !ConstantField(fs[k]);
        FreeSlotShrinks(fs, k, vars, cur.states[id].staticVars);
      }
    }
    r := Ok(cur);
  }

  /** Slots free of the first k + 1 fields that field k left alone are still
      as they were before the first field. */
  lemma {:induction false} FinalsFrameStep(h: Heap, cur: Heap, next: Heap, id: ClassId, k: nat)
    requires Valid(h) && id < |h.classes| && k < |h.classes[id].fields|
    requires OnlyStatics(h, cur, id) && OnlyStatics(cur, next, id) && id < |next.states|
    requires var fs := h.classes[id].fields; var vars := h.states[id].staticVars;
      forall j :: 0 <= j < |vars| && FreeSlot(fs, k, j) ==> cur.states[id].staticVars[j] == vars[j]
    requires var f := h.classes[id].fields[k];
      !ConstantField(f) ==> next.states[id].staticVars == cur.states[id].staticVars
    requires var f := h.classes[id].fields[k];
      forall j :: 0 <= j < |cur.states[id].staticVars| && !OccupiesSlot(f, j) ==>
        next.states[id].staticVars[j] == cur.states[id].staticVars[j]
    ensures var fs := h.classes[id].fields; var vars := h.states[id].staticVars;
      forall j :: 0 <= j < |vars| && FreeSlot(fs, k + 1, j) ==> next.states[id].staticVars[j] == vars[j]
  {
    var fs := h.classes[id].fields;
    forall j | 0 <= j < |h.states[id].staticVars| && FreeSlot(fs, k + 1, j)
      ensures next.states[id].staticVars[j] == h.states[id].staticVars[j]
    {
      assert FreeSlot(fs, k, j);
      if ConstantField(fs[k]) {
        assert !OccupiesSlot(fs[k], j);
      }
    }
  }

  /** A field that is not static final writes nothing, so the slots free of
      the first k fields are those free of the first k + 1 as well. */
  lemma {:induction false} FreeSlotShrinks(fs: seq<Field>, k: nat, vars: Slots, cur: Slots)
    requires k < |fs| && !ConstantField(fs[k]) && |cur| == |vars|
    requires forall j :: 0 <= j < |vars| && FreeSlot(fs, k, j) ==> cur[j] == vars[j]
    ensures forall j :: 0 <= j < |vars| && FreeSlot(fs, k + 1, j) ==> cur[j] == vars[j]
  {
    forall j | 0 <= j < |vars| && FreeSlot(fs, k + 1, j)
      ensures cur[j] == vars[j]
    {
      assert FreeSlot(fs, k, j);
    }
  }

  /** `initStaticFinalVar` for field k of class id: nothing without a
      ConstantValue; a `String` constant becomes the pooled Java string; the
      other types as `InitPrimitiveStatic` says. */
  method InitStaticFinalVar(defs: Defs, h: Heap, loading: set<string>, id: ClassId, k: nat) returns (r: Result<Heap>)
    requires Valid(h) && id < |h.classes| && k < |h.classes[id].fields|
    ensures r.Ok? ==> Step(defs, loading, h, r.value) && OnlyStatics(h, r.value, id)
    ensures var f := h.classes[id].fields[k]; f.constValueIndex == 0 ==> r == Ok(h)
    ensures var f := h.classes[id].fields[k]; var vars := h.states[id].staticVars;
      f.constValueIndex > 0 && f.descriptor != "Ljava/lang/String;" ==>
        (r.Ok? <==> InitPrimitiveStatic(vars, h.classes[id].constantPool, f).Ok?) &&
        (r.Ok? ==> r.value.states[id].staticVars == InitPrimitiveStatic(vars, h.classes[id].constantPool, f).value)
    ensures var f := h.classes[id].fields[k];
      r.Ok? && f.constValueIndex > 0 && f.descriptor == "Ljava/lang/String;" ==> StringFinalSet(h, r.value, id, f)
    ensures var f := h.classes[id].fields[k];
      r.Ok? && f.constValueIndex > 0 ==> ConstantHeld(r.value, id, f)
    ensures var f := h.classes[id].fields[k];
      r.Ok? ==> forall j :: 0 <= j < |h.states[id].staticVars| && !OccupiesSlot(f, j) ==>
        r.value.states[id].staticVars[j] == h.states[id].staticVars[j]
    decreases defs.Keys - loading, 8, 0
  {
    var c := h.classes[id];
    var f := c.fields[k];
    if f.constValueIndex == 0 {
      StepRefl(defs, loading, h);
      return Ok(h);
    }
    if f.descriptor == "Ljava/lang/String;" {
      r := InitStringFinal(defs, h, loading, id, f);
    } else {
      InitPrimitiveStaticValue(h.states[id].staticVars, c.constantPool, f);
      var vars :- InitPrimitiveStatic(h.states[id].staticVars, c.constantPool, f);
      var h' := SetStaticVars(h, id, vars);
      PlainStep(defs, loading, h, h');
      r := Ok(h');
    }
  }

  /** A static final field whose ConstantValue static initialisation
      writes: one of a primitive type or `String`, with a constant. */
  predicate ConstantField(f: Field) {
    && IsStatic(f.accessFlags) && IsFinal(f.accessFlags) && f.constValueIndex > 0
    && (IsIntKind(f.descriptor) || f.descriptor in {"J", "F", "D", "Ljava/lang/String;"})
  }

  /** The static slots of field f of class id hold the constant the field
      names, read with the getter of the field's type: a boolean, byte, char,
      short or int field an int constant, a long a long, a float a float, a
      double a double, and a `String` the pooled Java string of a string
      constant. */
  predicate ConstantHeld(h: Heap, id: ClassId, f: Field)
    requires id < |h.classes| && id < |h.states|
  {
    var c := GetConstant(h.classes[id].constantPool, f.constValueIndex);
    var vars := h.states[id].staticVars;
    && (IsIntKind(f.descriptor) ==> c.Ok? && c.value.IntConst? && GetInt(vars, f.slotId) == Ok(c.value.intValue))
    && (f.descriptor == "J" ==> c.Ok? && c.value.LongConst? && GetLong(vars, f.slotId) == Ok(c.value.longValue))
    && (f.descriptor == "F" ==> c.Ok? && c.value.FloatConst? && GetFloat(vars, f.slotId) == Ok(c.value.floatBits))
    && (f.descriptor == "D" ==> c.Ok? && c.value.DoubleConst? && GetDouble(vars, f.slotId) == Ok(c.value.doubleBits))
    && (f.descriptor == "Ljava/lang/String;" ==>
          c.Ok? && c.value.StringConst? && c.value.str in h.interned && GetRef(vars, f.slotId) == Ok(h.interned[c.value.str]))
  }

  /** A constant stays held while the class, the pool entries and the
      field's own slots stay as they were. */
  lemma {:induction false} HeldKept(h: Heap, h': Heap, id: ClassId, f: Field)
    requires id < |h.classes| && id < |h.states| && id < |h'.classes| && id < |h'.states|
    requires h'.classes[id] == h.classes[id] && PoolKept(h, h')
    requires |h'.states[id].staticVars| == |h.states[id].staticVars|
    requires forall j :: 0 <= j < |h.states[id].staticVars| && OccupiesSlot(f, j) ==>
      h'.states[id].staticVars[j] == h.states[id].staticVars[j]
    requires ConstantHeld(h, id, f)
    ensures ConstantHeld(h', id, f)
  {
    var vars, vars' := h.states[id].staticVars, h'.states[id].staticVars;
    if IsLongOrDouble(f) {
      if f.slotId + 1 < |vars| {
        assert OccupiesSlot(f, f.slotId) && OccupiesSlot(f, f.slotId + 1);
      }
    } else if f.slotId < |vars| {
      assert OccupiesSlot(f, f.slotId);
    }
  }

  /** No constant field among the first n of fs takes slot j. */
  ghost predicate FreeSlot(fs: seq<Field>, n: nat, j: int)
    requires n <= |fs|
  {
    forall k :: 0 <= k < n && ConstantField(fs[k]) ==> !OccupiesSlot(fs[k], j)
  }

  /** After static initialisation of class id, every constant field holds
      its constant and every other static slot is still zero. */
  ghost predicate ConstantsSet(h: Heap, id: ClassId)
    requires Valid(h) && id < |h.classes|
  {
    var fs := h.classes[id].fields;
    var vars := h.states[id].staticVars;
    && (forall k :: 0 <= k < |fs| && ConstantField(fs[k]) ==> ConstantHeld(h, id, fs[k]))
    && (forall j :: 0 <= j < |vars| && FreeSlot(fs, |fs|, j) ==> vars[j] == ZeroSlot)
  }

  /** The static slot of field f of class id holds the pooled string of the
      `String` constant the field names. */
  predicate StringFinalSet(h: Heap, h': Heap, id: ClassId, f: Field)
    requires id < |h.classes| && id < |h'.states|
  {
    var c := GetConstant(h.classes[id].constantPool, f.constValueIndex);
    && c.Ok? && c.value.StringConst? && c.value.str in h'.interned
    && GetRef(h'.states[id].staticVars, f.slotId) == Ok(h'.interned[c.value.str])
  }

  /** The `String` case of `initStaticFinalVar`: the constant must be a
      string, whose pooled Java string goes into the static slot. */
  method InitStringFinal(defs: Defs, h: Heap, loading: set<string>, id: ClassId, f: Field) returns (r: Result<Heap>)
    requires Valid(h) && id < |h.classes|
    ensures r.Ok? ==> Step(defs, loading, h, r.value) && OnlyStatics(h, r.value, id)
    ensures r.Ok? ==> StringFinalSet(h, r.value, id, f)
    ensures r.Ok? ==> forall j :: 0 <= j < |h.states[id].staticVars| && j != f.slotId ==>
      r.value.states[id].staticVars[j] == h.states[id].staticVars[j]
    ensures var v := GetConstant(h.classes[id].constantPool, f.constValueIndex);
      v.Err? ==> r == Err(v.error)
    ensures var v := GetConstant(h.classes[id].constantPool, f.constValueIndex);
      v.Ok? && !v.value.StringConst? ==> r == Err(BadAssertion)
    decreases defs.Keys - loading, 7, 0
  {
    var v :- GetConstant(h.classes[id].constantPool, f.constValueIndex);
    if !v.StringConst? {
      return Err(BadAssertion);
    }
    r := SetStaticString(defs, h, loading, id, f.slotId, v.str);
  }

  /** Static slot `slot` of class id gets the pooled Java string of s. */
  method SetStaticString(defs: Defs, h: Heap, loading: set<string>, id: ClassId, slot: nat, s: string) returns (r: Result<Heap>)
    requires Valid(h) && id < |h.classes|
    ensures r.Ok? ==> Step(defs, loading, h, r.value) && OnlyStatics(h, r.value, id)
    ensures r.Ok? ==> s in r.value.interned && GetRef(r.value.states[id].staticVars, slot) == Ok(r.value.interned[s])
    ensures r.Ok? ==> forall j :: 0 <= j < |h.states[id].staticVars| && j != slot ==>
      r.value.states[id].staticVars[j] == h.states[id].staticVars[j]
    decreases defs.Keys - loading, 6, 1
  {
    var p :- JString(defs, h, loading, s);
    var h' :- SetStaticRef(p.1, id, slot, p.0);
    PlainStep(defs, loading, p.1, h');
    StepTrans(defs, loading, h, p.1, h');
    r := Ok(h');
  }

  /** `JString`: the pooled Java string with these contents, or a new one made
      of a fresh `char[]` holding the UTF-16 encoding, which joins the pool. */
  method JString(defs: Defs, h: Heap, loading: set<string>, s: string) returns (r: Result<(Ref, Heap)>)
    requires Valid(h)
    ensures r.Ok? ==> Step(defs, loading, h, r.value.1) && StatesKept(h, r.value.1)
    ensures r.Ok? ==> s in r.value.1.interned && r.value.1.interned[s] == r.value.0
    ensures s in h.interned ==> r == Ok((h.interned[s], h))
    ensures r.Ok? && s !in h.interned ==> GoString(r.value.1, r.value.0) == Ok(Utf8.Encode(Utf8.Decode(s)))
    ensures r.Ok? && s !in h.interned ==> (GoString(r.value.1, r.value.0) == Ok(s) <==> Utf8.Valid(s))
    decreases defs.Keys - loading, 6, 0
  {
    if s in h.interned {
      StepRefl(defs, loading, h);
      return Ok((h.interned[s], h));
    }
    var ca :- LoadClass(defs, h, loading, "[C");
    var (arr, h2) := Alloc(ca.1, Object(ca.0, CharArray(Utf16.Encode(Utf8.Decode(s))), NoExtra));
    PlainStep(defs, loading, ca.1, h2);
    StepTrans(defs, loading, h, ca.1, h2);
    r := NewJString(defs, h2, loading, s, arr, h);
  }

  /** The rest of `JString`: a `java.lang.String` whose `value` is the array
      arr, which holds the UTF-16 encoding of the runes of s; it joins the
      pool under s. h0 is the heap `JString` started from, in which s was not
      pooled; loading `java.lang.String` may pool s meanwhile, and that entry
      is then replaced, as in the Go code. */
  method NewJString(defs: Defs, h: Heap, loading: set<string>, s: string, arr: Ref, ghost h0: Heap) returns (r: Result<(Ref, Heap)>)
    requires Valid(h) && arr.Addr? && arr.address < |h.objects| && h.objects[arr.address].data == CharArray(Utf16.Encode(Utf8.Decode(s)))
    requires Step(defs, loading, h0, h) && s !in h0.interned
    ensures r.Ok? ==> Step(defs, loading, h0, r.value.1) && StatesKept(h, r.value.1)
    ensures r.Ok? ==> s in r.value.1.interned && r.value.1.interned[s] == r.value.0
    ensures r.Ok? ==> GoString(r.value.1, r.value.0) == Ok(Utf8.Encode(Utf8.Decode(s)))
    ensures r.Ok? ==> (GoString(r.value.1, r.value.0) == Ok(s) <==> Utf8.Valid(s))
    decreases defs.Keys - loading, 5, 0
  {
    var sc :- LoadClass(defs, h, loading, JlString);
    var (jStr, h4) := NewObject(sc.1, sc.0);
    StringMade(defs, loading, sc.1, sc.0, arr, s);
    var h5 :- SetRefVar(h4, jStr, "value", "[C", arr);
    var h6 := SetInterned(h5, s, jStr);
    GoStringIgnoresPool(h5, h6, jStr);
    StepTrans(defs, loading, h0, h, sc.1);
    StepTrans(defs, loading, h0, sc.1, h5);
    InternStep(defs, loading, h0, h5, s, jStr);
    r := Ok((jStr, h6));
  }

  /** Allocating a string object and setting its `value` field to an array
      of the UTF-16 encoding of the runes of s is a step, after which the
      string reads as s re-encoded, which is s exactly when s is valid UTF-8. */
  lemma StringMade(defs: Defs, loading: set<string>, h: Heap, stringClass: ClassId, arr: Ref, s: string)
    requires Valid(h) && stringClass < |h.classes|
    requires arr.Addr? && arr.address < |h.objects| && h.objects[arr.address].data == CharArray(Utf16.Encode(Utf8.Decode(s)))
    ensures var p := NewObject(h, stringClass);
      var h' := SetRefVar(p.1, p.0, "value", "[C", arr);
      h'.Ok? ==> Step(defs, loading, h, h'.value) && GoString(h'.value, p.0) == Ok(Utf8.Encode(Utf8.Decode(s)))
    ensures var p := NewObject(h, stringClass);
      var h' := SetRefVar(p.1, p.0, "value", "[C", arr);
      h'.Ok? ==> (GoString(h'.value, p.0) == Ok(s) <==> Utf8.Valid(s))
  {
    var p := NewObject(h, stringClass);
    var h' := SetRefVar(p.1, p.0, "value", "[C", arr);
    if h'.Ok? {
      var h5 := h'.value;
      assert forall a :: 0 <= a < |h.objects| ==> h5.objects[a] == h.objects[a];
      PlainStep(defs, loading, h, h5);
      RefVarRoundTrip(p.1, p.0, "value", "[C", arr);
      assert StringChars(h5, p.0) == Ok(Utf16.Encode(Utf8.Decode(s)));
      Utf16.DecodeEncode(Utf8.Decode(s));
      Utf8.EncodeDecode(s);
    }
  }

  /** Pooling a string that was not pooled when the steps began extends
      them by one more step. */
  lemma InternStep(defs: Defs, loading: set<string>, h0: Heap, h: Heap, s: string, jStr: Ref)
    requires Step(defs, loading, h0, h) && s !in h0.interned
    ensures Step(defs, loading, h0, SetInterned(h, s, jStr))
  {
    if MirrorsValid(h0) {
      MirrorsKept(h, SetInterned(h, s, jStr));
    }
  }
}

=== FILE: class_members.dfy ===
/** Fields and methods of a loaded class, built from the class file's member
    entries. A member does not point back at its class here: a member is always
    reached through the class that holds it (see `FieldKey` and `MethodKey` in
    the heap), so that class is its owner. */
module ClassMembers {
  import opened Wrappers
  import opened MachineInts
  import opened AccessFlags
  import opened ClassFilePool
  import opened ClassFileAttributes
  import opened RuntimeConstantPool
  import opened MethodDescriptors

  // ---------------------------------------------------------------------------
  // Fields

  /** A field: access flags, name, descriptor, the pool index of its
      ConstantValue (0 when it has none) and its slot number, which the class
      loader assigns when it lays out the class. */
  datatype Field = Field(accessFlags: u16, name: string, descriptor: string, constValueIndex: nat, slotId: nat)

  /** `copyAttributes` of a field: the index in its first ConstantValue
      attribute, or 0. */
  function ConstValueIndexOf(m: MemberInfo): (r: nat)
    ensures (forall i :: 0 <= i < |m.attributes| ==> !m.attributes[i].ConstantValue?) ==> r == 0
    ensures forall i :: 0 <= i < |m.attributes| && m.attributes[i].ConstantValue? && NoneOfKindBefore(m.attributes, ConstantValueKind, i) ==>
      r == m.attributes[i].constantValueIndex as nat
  {
    var a := ConstantValueAttribute(m);
    if a.Some? then a.value.constantValueIndex else 0
  }

  /** One element of `newFields`: `copyMemberInfo`, then `copyAttributes`. */
  function NewField(cp: ConstantPool, m: MemberInfo): (r: Result<Field>)
    ensures r.Ok? <==> MemberName(m, cp).Ok? && MemberDescriptor(m, cp).Ok?
    ensures r.Ok? ==> r.value.accessFlags == m.accessFlags && r.value.slotId == 0
    ensures r.Ok? ==> r.value.name == cp[m.nameIndex].str && r.value.descriptor == cp[m.descriptorIndex].str
    ensures r.Ok? ==> r.value.constValueIndex == ConstValueIndexOf(m)
    ensures r.Ok? && (forall i :: 0 <= i < |m.attributes| ==> !m.attributes[i].ConstantValue?) ==> r.value.constValueIndex == 0
    ensures r.Ok? ==> forall i :: 0 <= i < |m.attributes| && m.attributes[i].ConstantValue? && NoneOfKindBefore(m.attributes, ConstantValueKind, i) ==>
      r.value.constValueIndex == m.attributes[i].constantValueIndex as nat
  {
    var name :- MemberName(m, cp);
    var descriptor :- MemberDescriptor(m, cp);
    Ok(Field(m.accessFlags, name, descriptor, ConstValueIndexOf(m), 0))
  }

  /** `newFields`: one field per member entry, in the same order. */
  function NewFields(cp: ConstantPool, ms: seq<MemberInfo>): (r: Result<seq<Field>>)
    ensures r.Ok? <==> forall i :: 0 <= i < |ms| ==> NewField(cp, ms[i]).Ok?
    ensures r.Ok? ==> |r.value| == |ms| && forall i :: 0 <= i < |ms| ==> r.value[i] == NewField(cp, ms[i]).value
    decreases |ms|
  {
    if |ms| == 0 then Ok([])
    else
      var f :- NewField(cp, ms[0]);
      var rest := NewFields(cp, ms[1..]);
      assert forall i :: 1 <= i < |ms| ==> ms[i] == ms[1..][i - 1];
      if rest.Err? then rest.PropagateFailure() else Ok([f] + rest.value)
  }

  /** `isLongOrDouble`: the field takes two slots. */
  predicate IsLongOrDouble(f: Field) {
    f.descriptor == "J" || f.descriptor == "D"
  }

  // ---------------------------------------------------------------------------
  // Exception tables

  /** A handler: the code range [startPc, endPc) it covers, where it starts, and
      the pool index of the Class entry it catches (none for catch-all). */
  datatype ExceptionHandler = ExceptionHandler(startPc: int, endPc: int, handlerPc: int, catchType: Option<nat>)

  /** `getCatchType`: index 0 is catch-all; any other index must hold a class
      reference. */
  function GetCatchType(index: u16, pool: Pool): (r: Result<Option<nat>>)
    ensures r == Ok(None) <==> index == 0
    ensures r.Ok? && r.value.Some? ==> r.value.value == index as nat && index < |pool| && pool[index].ClassRef?
    ensures r.Err? <==> index != 0 && !(index < |pool| && pool[index].ClassRef?)
  {
    if index == 0 then Ok(None)
    else
      var c :- GetConstant(pool, index);
      if c.ClassRef? then Ok(Some(index as nat)) else Err(BadAssertion)
  }

  function NewHandler(e: ExceptionTableEntry, pool: Pool): (r: Result<ExceptionHandler>)
    ensures r.Ok? <==> GetCatchType(e.catchType, pool).Ok?
    ensures r.Ok? ==> r.value == ExceptionHandler(e.startPc, e.endPc, e.handlerPc, GetCatchType(e.catchType, pool).value)
  {
    var t :- GetCatchType(e.catchType, pool);
    Ok(ExceptionHandler(e.startPc, e.endPc, e.handlerPc, t))
  }

  /** `newExceptionTable`: one handler per entry, in the same order. */
  function NewExceptionTable(es: seq<ExceptionTableEntry>, pool: Pool): (r: Result<seq<ExceptionHandler>>)
    ensures r.Ok? <==> forall i :: 0 <= i < |es| ==> NewHandler(es[i], pool).Ok?
    ensures r.Ok? ==> |r.value| == |es| && forall i :: 0 <= i < |es| ==> r.value[i] == NewHandler(es[i], pool).value
    decreases |es|
  {
    if |es| == 0 then Ok([])
    else
      var h :- NewHandler(es[0], pool);
      var rest := NewExceptionTable(es[1..], pool);
      assert forall i :: 1 <= i < |es| ==> es[i] == es[1..][i - 1];
      if rest.Err? then rest.PropagateFailure() else Ok([h] + rest.value)
  }

  /** Every handler of a table built from a pool names a class reference of
      that pool, or catches everything. */
  lemma ExceptionTableCatchTypes(es: seq<ExceptionTableEntry>, pool: Pool)
    requires NewExceptionTable(es, pool).Ok?
    ensures forall i :: 0 <= i < |es| ==>
      var t := NewExceptionTable(es, pool).value[i].catchType;
      (t.None? <==> es[i].catchType == 0) && (t.Some? ==> t.value < |pool| && pool[t.value].ClassRef?)
  {
  }

  // ---------------------------------------------------------------------------
  // Methods

  /** A method. `exceptionTable` and `lineNumbers` are filled from the Code
      attribute as well, for the exception handling and stack traces of the
      later chapters. */
  datatype Method = Method(
    accessFlags: u16,
    name: string,
    descriptor: string,
    maxStack: nat,
    maxLocals: nat,
    code: seq<u8>,
    argSlotCount: nat,
    exceptionTable: seq<ExceptionHandler>,
    lineNumbers: Option<seq<LineNumberEntry>>)

  /** The slots one parameter takes: two for a long or a double. */
  function ParamWidth(t: string): (w: nat)
    ensures w == 1 || w == 2
  {
    if t == "J" || t == "D" then 2 else 1
  }

  function ParamSlots(ps: seq<string>): (n: nat)
    decreases |ps|
  {
    if |ps| == 0 then 0 else ParamWidth(ps[0]) + ParamSlots(ps[1..])
  }

  /** `calcArgSlotCount`: the slots of the parameters, plus one for `this` when
      the method is not static. */
  function ArgSlotCount(ps: seq<string>, isStatic: bool): (n: nat)
  {
    ParamSlots(ps) + if isStatic then 0 else 1
  }

  /** The slots of a list of parameters are the sum of those of its parts; each
      parameter takes one or two slots. */
  lemma {:induction false} ParamSlotsAppend(a: seq<string>, b: seq<string>)
    ensures ParamSlots(a + b) == ParamSlots(a) + ParamSlots(b)
    decreases |a|
  {
    if |a| > 0 {
      assert (a + b)[0] == a[0] && (a + b)[1..] == a[1..] + b;
      ParamSlotsAppend(a[1..], b);
      assert ParamSlots(a + b) == ParamWidth(a[0]) + ParamSlots(a[1..] + b);
    } else {
      assert a + b == b;
    }
  }

  lemma {:induction false} ParamSlotsBounds(ps: seq<string>)
    ensures |ps| <= ParamSlots(ps) <= 2 * |ps|
    ensures ParamSlots(ps) == |ps| <==> forall i :: 0 <= i < |ps| ==> ps[i] != "J" && ps[i] != "D"
    decreases |ps|
  {
    if |ps| > 0 {
      ParamSlotsBounds(ps[1..]);
      assert forall i :: 1 <= i < |ps| ==> ps[i] == ps[1..][i - 1];
    }
  }

  /** The return instruction `injectCodeAttribute` puts after the 0xfe
      (`invokenative`) of a native method. */
  function ReturnOpcode(returnType: string): (op: u8)
    requires |returnType| > 0
  {
    match returnType[0]
    case 'V' => 0xb1
    case 'D' => 0xaf
    case 'F' => 0xae
    case 'J' => 0xad
    case 'L' => 0xb0
    case '[' => 0xb0
    case _ => 0xac
  }

  /** On the return types a descriptor can have, the injected return is the one
      for the kind of value returned: `return` for void, `areturn` for a
      reference, `ireturn` for the int-like types. */
  lemma ReturnOpcodeKinds(t: string)
    requires t == "V" || FieldType(t)
    ensures ReturnOpcode(t) == 0xb1 <==> t == "V"
    ensures ReturnOpcode(t) == 0xb0 <==> |t| >= 2
    ensures ReturnOpcode(t) == 0xad <==> t == "J"
    ensures ReturnOpcode(t) == 0xae <==> t == "F"
    ensures ReturnOpcode(t) == 0xaf <==> t == "D"
    ensures ReturnOpcode(t) == 0xac <==> t in {"Z", "B", "C", "S", "I"}
  {
    if |t| == 1 {
      assert t == [t[0]];
    }
  }

  /** `injectCodeAttribute`: a native method gets a four-slot operand stack,
      locals for exactly its arguments, and code that calls the native and
      returns. An empty return type is an index out of range. */
  function InjectCodeAttribute(m: Method, returnType: string): (r: Result<Method>)
    ensures r.Err? <==> |returnType| == 0
    ensures r.Ok? ==> r.value.maxStack == 4 && r.value.maxLocals == m.argSlotCount
    ensures r.Ok? ==> r.value.code == [0xfe, ReturnOpcode(returnType)]
    ensures r.Ok? ==> r.value.(maxStack := m.maxStack, maxLocals := m.maxLocals, code := m.code) == m
  {
    if |returnType| == 0 then Err(OutOfRange)
    else Ok(m.(maxStack := 4, maxLocals := m.argSlotCount, code := [0xfe, ReturnOpcode(returnType)]))
  }

  /** The parts `copyAttributes` takes from a method's Code attribute: stack and
      locals sizes, code, exception table and line numbers; all empty when the
      method has no Code attribute. */
  function CodeParts(m: MemberInfo, pool: Pool): (r: Result<(nat, nat, seq<u8>, seq<ExceptionHandler>, Option<seq<LineNumberEntry>>)>)
    ensures CodeAttribute(m).None? ==> r == Ok((0, 0, [], [], None))
    ensures CodeAttribute(m).Some? ==>
      var c := CodeAttribute(m).value;
      (r.Ok? <==> NewExceptionTable(c.exceptionTable, pool).Ok?) &&
      (r.Ok? ==> r.value.0 == c.maxStack && r.value.1 == c.maxLocals && r.value.2 == c.code &&
                 r.value.3 == NewExceptionTable(c.exceptionTable, pool).value)
  {
    var a := CodeAttribute(m);
    if a.None? then Ok((0, 0, [], [], None))
    else
      var c := a.value;
      var table :- NewExceptionTable(c.exceptionTable, pool);
      var lines := LineNumberTableOf(c);
      Ok((c.maxStack as nat, c.maxLocals as nat, c.code, table,
          if lines.Some? then Some(lines.value.lineNumbers) else None))
  }

  /** `newMethod`: member info, then the Code attribute, then the descriptor's
      argument slots; a native method then gets its code injected. */
  function NewMethod(cp: ConstantPool, pool: Pool, mi: MemberInfo): (r: Result<Method>)
    ensures r.Ok? ==> MemberName(mi, cp) == Ok(r.value.name) && MemberDescriptor(mi, cp) == Ok(r.value.descriptor)
    ensures r.Ok? ==> r.value.accessFlags == mi.accessFlags
    ensures r.Ok? ==> ParseMethodDescriptor(r.value.descriptor).Ok?
    ensures r.Ok? ==> (r.value.argSlotCount ==
      ArgSlotCount(ParseMethodDescriptor(r.value.descriptor).value.parameterTypes, IsStatic(mi.accessFlags)))
    ensures r.Ok? && IsNative(mi.accessFlags) ==>
      r.value.maxStack == 4 && r.value.maxLocals == r.value.argSlotCount &&
      r.value.code == [0xfe, ReturnOpcode(ParseMethodDescriptor(r.value.descriptor).value.returnType)]
    ensures r.Ok? && !IsNative(mi.accessFlags) && CodeAttribute(mi).Some? ==>
      r.value.maxStack == CodeAttribute(mi).value.maxStack &&
      r.value.maxLocals == CodeAttribute(mi).value.maxLocals &&
      r.value.code == CodeAttribute(mi).value.code
    ensures r.Ok? && !IsNative(mi.accessFlags) && CodeAttribute(mi).None? ==>
      r.value.maxStack == 0 && r.value.maxLocals == 0 && r.value.code == []
  {
    var name :- MemberName(mi, cp);
    var descriptor :- MemberDescriptor(mi, cp);
    var (maxStack, maxLocals, code, table, lines) :- CodeParts(mi, pool);
    var md :- ParseMethodDescriptor(descriptor);
    var m := Method(mi.accessFlags, name, descriptor, maxStack, maxLocals, code,
                    ArgSlotCount(md.parameterTypes, IsStatic(mi.accessFlags)), table, lines);
    if IsNative(mi.accessFlags) then InjectCodeAttribute(m, md.returnType) else Ok(m)
  }

  /** A native method's return type is never empty, so its code is always
      injected: building a native method fails only where building any method
      would. */
  lemma NativeInjectionTotal(cp: ConstantPool, pool: Pool, mi: MemberInfo)
    requires IsNative(mi.accessFlags)
    requires MemberName(mi, cp).Ok? && MemberDescriptor(mi, cp).Ok? && CodeParts(mi, pool).Ok?
    requires ParseMethodDescriptor(MemberDescriptor(mi, cp).value).Ok?
    ensures NewMethod(cp, pool, mi).Ok?
  {
  }

  /** `newMethods`: one method per member entry, in the same order. */
  function NewMethods(cp: ConstantPool, pool: Pool, ms: seq<MemberInfo>): (r: Result<seq<Method>>)
    ensures r.Ok? <==> forall i :: 0 <= i < |ms| ==> NewMethod(cp, pool, ms[i]).Ok?
    ensures r.Ok? ==> |r.value| == |ms| && forall i :: 0 <= i < |ms| ==> r.value[i] == NewMethod(cp, pool, ms[i]).value
    decreases |ms|
  {
    if |ms| == 0 then Ok([])
    else
      var m :- NewMethod(cp, pool, ms[0]);
      var rest := NewMethods(cp, pool, ms[1..]);
      assert forall i :: 1 <= i < |ms| ==> ms[i] == ms[1..][i - 1];
      if rest.Err? then rest.PropagateFailure() else Ok([m] + rest.value)
  }

  // ---------------------------------------------------------------------------
  // Line numbers

  /** Entry i is the last one that starts at or before pc. */
  predicate LastStartAtOrBefore(entries: seq<LineNumberEntry>, pc: int, i: int) {
    0 <= i < |entries| && entries[i].startPc <= pc && forall j :: i < j < |entries| ==> entries[j].startPc > pc
  }

  /** The line of the last entry whose start is at or before pc, or -1;
      `LineAtLast` states that this is what it computes. */
  function LineAt(entries: seq<LineNumberEntry>, pc: int): (line: int)
    ensures line == -1 || exists i :: 0 <= i < |entries| && entries[i].lineNumber == line
  {
    if |entries| == 0 then -1
    else
      var last := entries[|entries| - 1];
      if last.startPc <= pc then last.lineNumber
      else LineAt(entries[..|entries| - 1], pc)
  }

  /** No entry starts at or before pc exactly when `LineAt` gives -1;
      otherwise it gives the line of the last entry that does. */
  lemma {:induction false} LineAtLast(entries: seq<LineNumberEntry>, pc: int)
    ensures LineAt(entries, pc) == -1 <==> forall i :: 0 <= i < |entries| ==> entries[i].startPc > pc
    ensures LineAt(entries, pc) != -1 ==>
      exists i :: LastStartAtOrBefore(entries, pc, i) && entries[i].lineNumber == LineAt(entries, pc)
  {
    if |entries| > 0 && entries[|entries| - 1].startPc > pc {
      var front := entries[..|entries| - 1];
      LineAtLast(front, pc);
      assert forall i :: 0 <= i < |front| ==> front[i] == entries[i];
      if LineAt(front, pc) != -1 {
        var i :| LastStartAtOrBefore(front, pc, i) && front[i].lineNumber == LineAt(front, pc);
        assert LastStartAtOrBefore(entries, pc, i);
      }
    } else if |entries| > 0 {
      assert LastStartAtOrBefore(entries, pc, |entries| - 1);
    }
  }

  /** `GetLineNumber`: -2 for a native method, -1 when there is no line table. */
  function GetLineNumber(m: Method, pc: int): (line: int)
    ensures IsNative(m.accessFlags) ==> line == -2
    ensures !IsNative(m.accessFlags) && m.lineNumbers.None? ==> line == -1
    ensures !IsNative(m.accessFlags) && m.lineNumbers.Some? ==> line == LineAt(m.lineNumbers.value, pc)
  {
    if IsNative(m.accessFlags) then -2
    else if m.lineNumbers.None? then -1
    else LineAt(m.lineNumbers.value, pc)
  }
}

=== FILE: class_names.dfy ===
/** Class names and type descriptors (section 4.3 of the Java Virtual Machine
    Specification): the conversions between a class name, its descriptor and the
    name of its array class, the Java form of a name, and the package a name
    belongs to.

    Indexing the first character of an empty name is a Go runtime failure and
    becomes `Err(OutOfRange)`. */
module ClassNames {
  import opened Wrappers

  /** The `primitiveTypes` table: nine primitive type names, each with its
      one-letter descriptor. */
  function PrimitiveDescriptor(name: string): (r: Option<string>)
  {
    if name == "void" then Some("V")
    else if name == "boolean" then Some("Z")
    else if name == "byte" then Some("B")
    else if name == "short" then Some("S")
    else if name == "int" then Some("I")
    else if name == "long" then Some("J")
    else if name == "char" then Some("C")
    else if name == "float" then Some("F")
    else if name == "double" then Some("D")
    else None
  }

  /** The reverse lookup `toClassName` performs over the same table. */
  function PrimitiveName(code: string): (r: Option<string>)
  {
    if code == "V" then Some("void")
    else if code == "Z" then Some("boolean")
    else if code == "B" then Some("byte")
    else if code == "S" then Some("short")
    else if code == "I" then Some("int")
    else if code == "J" then Some("long")
    else if code == "C" then Some("char")
    else if code == "F" then Some("float")
    else if code == "D" then Some("double")
    else None
  }

  /** The two lookups are inverse, so the table maps distinct names to distinct codes
      and the reverse lookup does not depend on the order the table is walked in. */
  lemma PrimitiveTableInverse(name: string, code: string)
    ensures PrimitiveDescriptor(name) == Some(code) <==> PrimitiveName(code) == Some(name)
  {
  }

  lemma PrimitiveTableInjective(a: string, b: string)
    ensures PrimitiveDescriptor(a).Some? && PrimitiveDescriptor(a) == PrimitiveDescriptor(b) ==> a == b
  {
  }

  /** Every primitive code is a single letter that is neither '[' nor 'L'. */
  lemma PrimitiveCodeShape(name: string)
    ensures PrimitiveDescriptor(name).Some? ==>
      |PrimitiveDescriptor(name).value| == 1 && PrimitiveDescriptor(name).value[0] !in {'[', 'L'}
  {
  }

  predicate IsArrayName(name: string) {
    |name| > 0 && name[0] == '['
  }

  /** `toDescriptor`: array names are their own descriptors, primitive names map to
      their code, and any other name n becomes "L" + n + ";". */
  function ToDescriptor(className: string): (r: Result<string>)
    ensures r.Err? <==> |className| == 0
    ensures IsArrayName(className) ==> r == Ok(className)
    ensures |className| > 0 && !IsArrayName(className) && PrimitiveDescriptor(className).Some? ==>
      r == Ok(PrimitiveDescriptor(className).value)
    ensures |className| > 0 && !IsArrayName(className) && PrimitiveDescriptor(className).None? ==>
      r == Ok("L" + className + ";")
  {
    if |className| == 0 then Err(OutOfRange)
    else if className[0] == '[' then Ok(className)
    else
      var d := PrimitiveDescriptor(className);
      if d.Some? then Ok(d.value) else Ok("L" + className + ";")
  }

  /** `getArrayClassName`: "[" followed by the descriptor of the element class. */
  function ArrayClassName(className: string): (r: Result<string>)
    ensures r.Err? <==> |className| == 0
    ensures r.Ok? ==> IsArrayName(r.value) && Ok(r.value[1..]) == ToDescriptor(className)
  {
    var d :- ToDescriptor(className);
    assert ("[" + d)[1..] == d;
    Ok("[" + d)
  }

  /** `toClassName`: an array descriptor is its own name, "L" n ";" gives n, a
      primitive code gives its name, and anything else is an invalid descriptor. */
  function ToClassName(descriptor: string): (r: Result<string>)
    ensures |descriptor| == 0 ==> r == Err(OutOfRange)
    ensures IsArrayName(descriptor) ==> r == Ok(descriptor)
    ensures |descriptor| > 0 && descriptor[0] == 'L' ==>
      r == (if |descriptor| >= 2 then Ok(descriptor[1..|descriptor| - 1]) else Err(OutOfRange))
    ensures |descriptor| > 0 && descriptor[0] !in {'[', 'L'} ==>
      r == (if PrimitiveName(descriptor).Some? then Ok(PrimitiveName(descriptor).value)
            else Err(Panic("Invalid descriptor" + descriptor)))
  {
    if |descriptor| == 0 then Err(OutOfRange)
    else if descriptor[0] == '[' then Ok(descriptor)
    else if descriptor[0] == 'L' then
      if |descriptor| < 2 then Err(OutOfRange) else Ok(descriptor[1..|descriptor| - 1])
    else
      var n := PrimitiveName(descriptor);
      if n.Some? then Ok(n.value) else Err(Panic("Invalid descriptor" + descriptor))
  }

  /** `getComponentClassName`: the class name of the descriptor after the leading
      '['; a name that is not an array name is refused. */
  function ComponentClassName(className: string): (r: Result<string>)
    ensures |className| == 0 ==> r == Err(OutOfRange)
    ensures |className| > 0 && !IsArrayName(className) ==> r == Err(Panic("Not array: " + className))
    ensures IsArrayName(className) ==> r == ToClassName(className[1..])
  {
    if |className| == 0 then Err(OutOfRange)
    else if className[0] == '[' then ToClassName(className[1..])
    else Err(Panic("Not array: " + className))
  }

  /** The component class name of the array class of any non-empty name is that
      name: for array names, primitive names and all other class names alike. */
  lemma ComponentOfArrayClassName(className: string)
    requires |className| > 0
    ensures ArrayClassName(className).Ok?
    ensures ComponentClassName(ArrayClassName(className).value) == Ok(className)
  {
  }

  /** An array component that is itself an array has a shorter name than the array
      it comes from, so chains of component classes end. (A primitive component can
      be longer than its array's name: "[I" has component "int".) */
  lemma ArrayComponentShorter(className: string)
    requires ComponentClassName(className).Ok? && IsArrayName(ComponentClassName(className).value)
    ensures |ComponentClassName(className).value| < |className|
  {
  }

  // ---------------------------------------------------------------------------
  // Java names and packages

  /** `JavaName`: every '/' replaced by '.', every other character kept. */
  function JavaName(name: string): (r: string)
    ensures |r| == |name|
    ensures forall i :: 0 <= i < |name| ==> r[i] == (if name[i] == '/' then '.' else name[i])
  {
    seq(|name|, i requires 0 <= i < |name| => if name[i] == '/' then '.' else name[i])
  }

  /** The position of the last '/' in a name, if there is one. */
  function LastSlash(name: string): (r: Option<nat>)
    ensures r.Some? ==> r.value < |name| && name[r.value] == '/'
    ensures r.Some? ==> forall j :: r.value < j < |name| ==> name[j] != '/'
    ensures r.None? <==> forall j :: 0 <= j < |name| ==> name[j] != '/'
  {
    if |name| == 0 then None
    else if name[|name| - 1] == '/' then Some(|name| - 1)
    else
      var r := LastSlash(name[..|name| - 1]);
      assert forall j :: 0 <= j < |name| - 1 ==> name[..|name| - 1][j] == name[j];
      r
  }

  /** `GetPackageName`: the part of the name before its last '/', or "" when the
      name has no '/'. */
  function PackageName(name: string): (r: string)
    ensures (forall j :: 0 <= j < |name| ==> name[j] != '/') ==> r == ""
    ensures forall i :: 0 <= i < |name| && name[i] == '/' && (forall j :: i < j < |name| ==> name[j] != '/') ==>
      r == name[..i]
  {
    var i := LastSlash(name);
    if i.Some? then name[..i.value] else ""
  }
}

=== FILE: class_prepare.dfy ===
/** Defining and preparing a class (sections 5.3.5 and 5.4.2 of the Java
    Virtual Machine Specification): the class built from its class file, the
    slot numbers of its fields, and the values of its static final constants. */
module ClassPreparation {
  import opened Wrappers
  import opened MachineInts
  import opened AccessFlags
  import opened Slots
  import opened ClassFileAttributes
  import opened RuntimeConstantPool
  import opened ClassMembers
  import opened Heaps

  /** `newClass`: the parts of a class its class file determines. The
      superclass, interfaces and slot counts are left for linking to fill in. */
  function NewClass(cf: ClassFile): (r: Result<Class>)
    ensures r.Ok? ==> ClassName(cf) == Ok(r.value.name) && SuperClassName(cf) == Ok(r.value.superClassName)
    ensures r.Ok? ==> InterfaceNames(cf) == Ok(r.value.interfaceNames) && r.value.accessFlags == cf.accessFlags
    ensures r.Ok? ==> NewConstantPool(cf.constantPool) == Ok(r.value.constantPool)
    ensures r.Ok? ==> NewFields(cf.constantPool, cf.fields) == Ok(r.value.fields)
    ensures r.Ok? ==> NewMethods(cf.constantPool, r.value.constantPool, cf.methods) == Ok(r.value.methods)
    ensures r.Ok? ==> r.value.superClass.None? && r.value.interfaces == []
    ensures r.Ok? ==> r.value.instanceSlotCount == 0 && r.value.staticSlotCount == 0
    ensures ClassName(cf).Err? ==> r.Err?
  {
    var name :- ClassName(cf);
    var superName :- SuperClassName(cf);
    var interfaceNames :- InterfaceNames(cf);
    var pool :- NewConstantPool(cf.constantPool);
    var fields :- NewFields(cf.constantPool, cf.fields);
    var methods :- NewMethods(cf.constantPool, pool, cf.methods);
    var sourceFile :- SourceFileName(cf);
    Ok(Class(cf.accessFlags, name, superName, interfaceNames, pool, fields, methods, None, [], 0, 0, sourceFile))
  }

  // ---------------------------------------------------------------------------
  // Slot layout

  /** A long or a double takes two slots, anything else one. */
  function SlotWidth(f: Field): (w: nat)
    ensures w == 1 || w == 2
  {
    if IsLongOrDouble(f) then 2 else 1
  }

  predicate Selected(f: Field, wantStatic: bool) {
    IsStatic(f.accessFlags) == wantStatic
  }

  /** The number of slots the selected fields among fs need. */
  function SlotsNeeded(fs: seq<Field>, wantStatic: bool): (n: nat)
    decreases |fs|
  {
    if |fs| == 0 then 0
    else
      var last := fs[|fs| - 1];
      SlotsNeeded(fs[..|fs| - 1], wantStatic) + (if Selected(last, wantStatic) then SlotWidth(last) else 0)
  }

  /** Field k as laid out from slot `start` on: a selected field gets the
      first slot after those of the selected fields before it. */
  function LaidOut(fs: seq<Field>, wantStatic: bool, start: nat, k: nat): (f: Field)
    requires k < |fs|
  {
    if Selected(fs[k], wantStatic) then fs[k].(slotId := start + SlotsNeeded(fs[..k], wantStatic)) else fs[k]
  }

  /** The loop of `calcInstanceFieldSlotIds` / `calcStaticFieldSlotIds` from
      field i on, with `next` the next free slot. */
  function CalcSlotIdsFrom(fs: seq<Field>, wantStatic: bool, start: nat, i: nat, acc: seq<Field>, next: nat): (r: (seq<Field>, nat))
    requires i <= |fs| && |acc| == i && next == start + SlotsNeeded(fs[..i], wantStatic)
    requires forall k :: 0 <= k < i ==> acc[k] == LaidOut(fs, wantStatic, start, k)
    ensures |r.0| == |fs| && r.1 == start + SlotsNeeded(fs, wantStatic)
    ensures forall k :: 0 <= k < |fs| ==> r.0[k] == LaidOut(fs, wantStatic, start, k)
    decreases |fs| - i
  {
    if i == |fs| then
      assert fs[..i] == fs;
      (acc, next)
    else
      var sel := Selected(fs[i], wantStatic);
      var f := if sel then fs[i].(slotId := next) else fs[i];
      assert fs[..i + 1][..i] == fs[..i];
      CalcSlotIdsFrom(fs, wantStatic, start, i + 1, acc + [f], if sel then next + SlotWidth(fs[i]) else next)
  }

  /** Slot numbers for the static (or the instance) fields, counted from
      `start`, and the first slot after them. */
  function CalcSlotIds(fs: seq<Field>, wantStatic: bool, start: nat): (r: (seq<Field>, nat))
    ensures |r.0| == |fs| && r.1 == start + SlotsNeeded(fs, wantStatic)
    ensures forall k :: 0 <= k < |fs| ==> r.0[k] == LaidOut(fs, wantStatic, start, k)
  {
    assert fs[..0] == [];
    CalcSlotIdsFrom(fs, wantStatic, start, 0, [], start)
  }

  lemma {:induction false} SlotsNeededPrefix(fs: seq<Field>, wantStatic: bool, i: nat, j: nat)
    requires i < j <= |fs|
    ensures SlotsNeeded(fs[..i], wantStatic) + (if Selected(fs[i], wantStatic) then SlotWidth(fs[i]) else 0)
            <= SlotsNeeded(fs[..j], wantStatic)
    decreases j
  {
    assert fs[..j][..j - 1] == fs[..j - 1];
    if j - 1 > i {
      SlotsNeededPrefix(fs, wantStatic, i, j - 1);
    } else {
      assert fs[..j][j - 1] == fs[i];
    }
  }

  /** The layout gives every selected field its own slots: they start at
      `start`, end before the count, and two selected fields never share a
      slot. Only the slot numbers of selected fields change. */
  lemma SlotLayoutDisjoint(fs: seq<Field>, wantStatic: bool, start: nat)
    ensures var r := CalcSlotIds(fs, wantStatic, start);
      forall k :: 0 <= k < |fs| ==> r.0[k].(slotId := fs[k].slotId) == fs[k]
    ensures var r := CalcSlotIds(fs, wantStatic, start);
      forall k :: 0 <= k < |fs| && Selected(fs[k], wantStatic) ==>
        start <= r.0[k].slotId && r.0[k].slotId + SlotWidth(fs[k]) <= r.1
    ensures var r := CalcSlotIds(fs, wantStatic, start);
      forall i, j :: 0 <= i < j < |fs| && Selected(fs[i], wantStatic) && Selected(fs[j], wantStatic) ==>
        r.0[i].slotId + SlotWidth(fs[i]) <= r.0[j].slotId
  {
    var r := CalcSlotIds(fs, wantStatic, start);
    forall k | 0 <= k < |fs| && Selected(fs[k], wantStatic)
      ensures r.0[k].slotId + SlotWidth(fs[k]) <= r.1
    {
      SlotsNeededPrefix(fs, wantStatic, k, |fs|);
      assert fs[..|fs|] == fs;
    }
    forall i, j | 0 <= i < j < |fs| && Selected(fs[i], wantStatic) && Selected(fs[j], wantStatic)
      ensures r.0[i].slotId + SlotWidth(fs[i]) <= r.0[j].slotId
    {
      SlotsNeededPrefix(fs, wantStatic, i, j);
    }
  }

  /** The slots fields need depend on their flags and descriptors only. */
  lemma {:induction false} SlotsNeededIgnoresSlotIds(fs: seq<Field>, gs: seq<Field>, wantStatic: bool)
    requires |fs| == |gs|
    requires forall k :: 0 <= k < |fs| ==> gs[k].(slotId := fs[k].slotId) == fs[k]
    ensures SlotsNeeded(gs, wantStatic) == SlotsNeeded(fs, wantStatic)
    decreases |fs|
  {
    if |fs| > 0 {
      var n := |fs| - 1;
      assert gs[n].accessFlags == fs[n].accessFlags && gs[n].descriptor == fs[n].descriptor by {
        assert gs[n].(slotId := fs[n].slotId) == fs[n];
      }
      SlotsNeededIgnoresSlotIds(fs[..n], gs[..n], wantStatic);
    }
  }

  /** The slot layout of `prepare`: instance fields numbered from `superCount`,
      the slot count of the superclass, then static fields numbered from 0.
      Nothing but the slot numbers and the two counts changes, and the counts
      are what the fields of each kind need. */
  function Prepare(c: Class, superCount: nat): (p: Class)
    ensures |p.fields| == |c.fields|
    ensures forall k :: 0 <= k < |c.fields| ==> p.fields[k].(slotId := c.fields[k].slotId) == c.fields[k]
    ensures p.(fields := c.fields, instanceSlotCount := c.instanceSlotCount, staticSlotCount := c.staticSlotCount) == c
    ensures p.instanceSlotCount == superCount + SlotsNeeded(c.fields, false)
    ensures p.staticSlotCount == SlotsNeeded(c.fields, true)
  {
    var fs := c.fields;
    var inst := CalcSlotIds(fs, false, superCount);
    var stat := CalcSlotIds(inst.0, true, 0);
    SlotLayoutDisjoint(fs, false, superCount);
    SlotLayoutDisjoint(inst.0, true, 0);
    SlotsNeededIgnoresSlotIds(fs, inst.0, true);
    c.(fields := stat.0, instanceSlotCount := inst.1, staticSlotCount := stat.1)
  }

  /** Every field's slots lie within the count of its kind, instance fields
      after the inherited ones, and no two fields of the same kind share a
      slot. */
  lemma PrepareLayout(c: Class, superCount: nat)
    ensures var p := Prepare(c, superCount);
      forall k :: 0 <= k < |c.fields| && !IsStatic(c.fields[k].accessFlags) ==>
        superCount <= p.fields[k].slotId && p.fields[k].slotId + SlotWidth(c.fields[k]) <= p.instanceSlotCount
    ensures var p := Prepare(c, superCount);
      forall k :: 0 <= k < |c.fields| && IsStatic(c.fields[k].accessFlags) ==>
        p.fields[k].slotId + SlotWidth(c.fields[k]) <= p.staticSlotCount
    ensures var p := Prepare(c, superCount);
      forall i, j :: 0 <= i < j < |c.fields| && IsStatic(c.fields[i].accessFlags) == IsStatic(c.fields[j].accessFlags) ==>
        p.fields[i].slotId + SlotWidth(c.fields[i]) <= p.fields[j].slotId
  {
    var fs := c.fields;
    var inst := CalcSlotIds(fs, false, superCount);
    SlotLayoutDisjoint(fs, false, superCount);
    SlotLayoutDisjoint(inst.0, true, 0);
    SlotsNeededIgnoresSlotIds(fs, inst.0, true);
    assert forall k :: 0 <= k < |fs| ==> SlotWidth(inst.0[k]) == SlotWidth(fs[k]) && IsStatic(inst.0[k].accessFlags) == IsStatic(fs[k].accessFlags);
  }

  /** Slot j is one of the slots field f takes. */
  predicate OccupiesSlot(f: Field, j: int) {
    f.slotId <= j < f.slotId + SlotWidth(f)
  }

  /** Each static field's slots end before those of any later static field. */
  ghost predicate StaticSlotsDisjoint(fs: seq<Field>) {
    forall i, j :: 0 <= i < j < |fs| && IsStatic(fs[i].accessFlags) && IsStatic(fs[j].accessFlags) ==>
      fs[i].slotId + SlotWidth(fs[i]) <= fs[j].slotId
  }

  /** The static fields of a prepared class never share a slot. */
  lemma PreparedStaticsDisjoint(c: Class, superCount: nat)
    ensures StaticSlotsDisjoint(Prepare(c, superCount).fields)
  {
    var p := Prepare(c, superCount);
    PrepareLayout(c, superCount);
    assert forall k :: 0 <= k < |c.fields| ==>
      p.fields[k].accessFlags == c.fields[k].accessFlags && p.fields[k].descriptor == c.fields[k].descriptor by {
      forall k | 0 <= k < |c.fields|
        ensures p.fields[k].accessFlags == c.fields[k].accessFlags && p.fields[k].descriptor == c.fields[k].descriptor
      {
        assert p.fields[k].(slotId := c.fields[k].slotId) == c.fields[k];
      }
    }
  }

  /** A class with what linking and preparation add taken away: no superclass,
      no interfaces, every slot number and both slot counts 0. */
  function Unlinked(c: Class): (u: Class)
    ensures |u.fields| == |c.fields| && u.superClass.None? && u.interfaces == []
    ensures forall k :: 0 <= k < |c.fields| ==> u.fields[k] == c.fields[k].(slotId := 0)
  {
    c.(superClass := None, interfaces := [], instanceSlotCount := 0, staticSlotCount := 0,
       fields := seq(|c.fields|, k requires 0 <= k < |c.fields| => c.fields[k].(slotId := 0)))
  }

  /** A class as its class file defines it is unlinked, and linking and
      laying it out changes nothing that `Unlinked` keeps. */
  lemma LinkingKeepsDefinition(cf: ClassFile, superClass: Option<ClassId>, interfaces: seq<ClassId>, superCount: nat)
    requires NewClass(cf).Ok?
    ensures Unlinked(NewClass(cf).value) == NewClass(cf).value
    ensures var c := NewClass(cf).value;
      Unlinked(Prepare(c.(superClass := superClass, interfaces := interfaces), superCount)) == c
  {
  }

  /** Linking an unlinked class and unlinking it again gives it back. */
  lemma LinkingKeepsUnlinked(c: Class, superClass: Option<ClassId>, interfaces: seq<ClassId>, superCount: nat)
    requires Unlinked(c) == c
    ensures Unlinked(Prepare(c.(superClass := superClass, interfaces := interfaces), superCount)) == c
  {
  }

  // ---------------------------------------------------------------------------
  // Static final constants

  predicate IsIntKind(descriptor: string) {
    descriptor == "Z" || descriptor == "B" || descriptor == "C" || descriptor == "S" || descriptor == "I"
  }

  /** `initStaticFinalVar` for a field whose type is not `String`: a boolean,
      byte, char, short or int field takes an int constant, a long a long, a
      float a float and a double a double; a constant of another kind is a
      failed type assertion, and a field of any other type is left alone. */
  function InitPrimitiveStatic(vars: Slots, pool: Pool, f: Field): (r: Result<Slots>)
    requires f.constValueIndex > 0 && f.descriptor != "Ljava/lang/String;"
    ensures r.Ok? ==> |r.value| == |vars|
    ensures !IsIntKind(f.descriptor) && f.descriptor !in {"J", "F", "D"} ==> r == Ok(vars)
    ensures r.Ok? ==> forall j :: 0 <= j < |vars| && !OccupiesSlot(f, j) ==> r.value[j] == vars[j]
  {
    if IsIntKind(f.descriptor) then
      var c :- GetConstant(pool, f.constValueIndex);
      if c.IntConst? then SetInt(vars, f.slotId, c.intValue) else Err(BadAssertion)
    else if f.descriptor == "J" then
      var c :- GetConstant(pool, f.constValueIndex);
      if c.LongConst? then SetLong(vars, f.slotId, c.longValue) else Err(BadAssertion)
    else if f.descriptor == "F" then
      var c :- GetConstant(pool, f.constValueIndex);
      if c.FloatConst? then SetFloat(vars, f.slotId, c.floatBits) else Err(BadAssertion)
    else if f.descriptor == "D" then
      var c :- GetConstant(pool, f.constValueIndex);
      if c.DoubleConst? then SetDouble(vars, f.slotId, c.doubleBits) else Err(BadAssertion)
    else Ok(vars)
  }

  /** After initialisation, reading the field's slot with the getter of its
      type gives the constant from the pool; the initialisation fails exactly
      when the pool has no constant of the field's kind at the index or the
      slot is outside the static variables. */
  lemma InitPrimitiveStaticValue(vars: Slots, pool: Pool, f: Field)
    requires f.constValueIndex > 0 && f.descriptor != "Ljava/lang/String;"
    ensures var r := InitPrimitiveStatic(vars, pool, f);
      var c := GetConstant(pool, f.constValueIndex);
      && (IsIntKind(f.descriptor) ==>
            (r.Ok? <==> c.Ok? && c.value.IntConst? && f.slotId < |vars|) &&
            (r.Ok? ==> GetInt(r.value, f.slotId) == Ok(c.value.intValue)))
      && (f.descriptor == "J" ==>
            (r.Ok? <==> c.Ok? && c.value.LongConst? && f.slotId + 1 < |vars|) &&
            (r.Ok? ==> GetLong(r.value, f.slotId) == Ok(c.value.longValue)))
      && (f.descriptor == "F" ==>
            (r.Ok? <==> c.Ok? && c.value.FloatConst? && f.slotId < |vars|) &&
            (r.Ok? ==> GetFloat(r.value, f.slotId) == Ok(c.value.floatBits)))
      && (f.descriptor == "D" ==>
            (r.Ok? <==> c.Ok? && c.value.DoubleConst? && f.slotId + 1 < |vars|) &&
            (r.Ok? ==> GetDouble(r.value, f.slotId) == Ok(c.value.doubleBits)))
  {
    var c := GetConstant(pool, f.constValueIndex);
    if c.Ok? && f.slotId < |vars| {
      if IsIntKind(f.descriptor) && c.value.IntConst? {
        IntRoundTrip(vars, f.slotId, c.value.intValue);
      } else if f.descriptor == "F" && c.value.FloatConst? {
        FloatRoundTrip(vars, f.slotId, c.value.floatBits);
      } else if f.descriptor == "J" && c.value.LongConst? && f.slotId + 1 < |vars| {
        LongRoundTrip(vars, f.slotId, c.value.longValue);
      } else if f.descriptor == "D" && c.value.DoubleConst? && f.slotId + 1 < |vars| {
        DoubleRoundTrip(vars, f.slotId, c.value.doubleBits);
      }
    }
  }
}

=== FILE: class_reader.dfy ===
/** The class-file reader: big-endian decoding of u1, u2, u4 and u8 values and of
    counted u2 tables from the front of a byte sequence.

    The Go reader mutates a slice in place; here each read returns the value and
    the bytes that remain. Reading past the end is an index-out-of-range failure
    of the Go runtime and becomes `Err(OutOfRange)`. Each reader has an encoder as
    its partner, and the two are proved mutually inverse. */
module ClassReader {
  import opened Wrappers
  import opened MachineInts

  /** A decoded value together with the bytes after it. */
  datatype Read<+T> = Read(value: T, rest: seq<u8>)

  function Pow256(n: nat): (r: nat)
    ensures r >= 1
  {
    if n == 0 then 1 else 256 * Pow256(n - 1)
  }

  lemma Pow256Values()
    ensures Pow256(1) == TWO_8 && Pow256(2) == TWO_16
    ensures Pow256(4) == TWO_32 && Pow256(8) == TWO_64
  {
  }

  /** The unsigned big-endian value of a byte string. */
  function BigEndian(bs: seq<u8>): (v: nat)
  {
    if |bs| == 0 then 0 else BigEndian(bs[..|bs| - 1]) * 256 + bs[|bs| - 1]
  }

  /** The n-byte big-endian encoding of v (of its low 8n bits). */
  function Bytes(v: nat, n: nat): (bs: seq<u8>)
    ensures |bs| == n
  {
    if n == 0 then [] else Bytes(v / 256, n - 1) + [(v % 256) as u8]
  }

  lemma {:induction false} BigEndianBound(bs: seq<u8>)
    ensures BigEndian(bs) < Pow256(|bs|)
  {
    if |bs| > 0 {
      BigEndianBound(bs[..|bs| - 1]);
    }
  }

  /** Encoding then decoding gives back any value that fits in n bytes. */
  lemma {:induction false} BigEndianOfBytes(v: nat, n: nat)
    requires v < Pow256(n)
    ensures BigEndian(Bytes(v, n)) == v
  {
    if n > 0 {
      var bs := Bytes(v, n);
      assert bs[..n - 1] == Bytes(v / 256, n - 1);
      BigEndianOfBytes(v / 256, n - 1);
    }
  }

  /** Decoding then encoding gives back the bytes. */
  lemma {:induction false} BytesOfBigEndian(bs: seq<u8>)
    ensures Bytes(BigEndian(bs), |bs|) == bs
  {
    if |bs| > 0 {
      var init := bs[..|bs| - 1];
      var v := BigEndian(bs);
      assert v / 256 == BigEndian(init) && v % 256 == bs[|bs| - 1];
      BytesOfBigEndian(init);
    }
  }

  /** The first n bytes as a big-endian value, and the rest. */
  function ReadN(data: seq<u8>, n: nat): (r: Result<Read<nat>>)
    ensures r.Ok? <==> n <= |data|
    ensures r.Ok? ==> r.value.value < Pow256(n)
    ensures r.Ok? ==> data == Bytes(r.value.value, n) + r.value.rest
  {
    if |data| < n then Err(OutOfRange)
    else
      BigEndianBound(data[..n]);
      BytesOfBigEndian(data[..n]);
      Ok(Read(BigEndian(data[..n]), data[n..]))
  }

  /** Reading n bytes in front of any rest decodes the encoded value. */
  lemma ReadNBytes(v: nat, n: nat, rest: seq<u8>)
    requires v < Pow256(n)
    ensures ReadN(Bytes(v, n) + rest, n) == Ok(Read(v, rest))
  {
  }

  function ReadUint8(data: seq<u8>): (r: Result<Read<u8>>)
    ensures r.Ok? <==> |data| >= 1
    ensures r.Ok? ==> data == [r.value.value] + r.value.rest
  {
    if |data| < 1 then Err(OutOfRange) else Ok(Read(data[0], data[1..]))
  }

  function ReadUint16(data: seq<u8>): (r: Result<Read<u16>>)
    ensures r.Ok? <==> |data| >= 2
    ensures r.Ok? ==> data == U16Bytes(r.value.value) + r.value.rest
  {
    Pow256Values();
    var Read(v, rest) :- ReadN(data, 2);
    Ok(Read(v as u16, rest))
  }

  function ReadUint32(data: seq<u8>): (r: Result<Read<u32>>)
    ensures r.Ok? <==> |data| >= 4
    ensures r.Ok? ==> data == Bytes(r.value.value, 4) + r.value.rest
  {
    Pow256Values();
    var Read(v, rest) :- ReadN(data, 4);
    Ok(Read(v as u32, rest))
  }

  function ReadUint64(data: seq<u8>): (r: Result<Read<u64>>)
    ensures r.Ok? <==> |data| >= 8
    ensures r.Ok? ==> data == Bytes(r.value.value, 8) + r.value.rest
  {
    Pow256Values();
    var Read(v, rest) :- ReadN(data, 8);
    Ok(Read(v as u64, rest))
  }

  function U16Bytes(v: u16): (bs: seq<u8>)
    ensures |bs| == 2
  {
    Bytes(v, 2)
  }

  /** The readers of fixed-width values are left inverses of their encoders. */
  lemma ReadUintEncoded(b: u8, h: u16, w: u32, d: u64, rest: seq<u8>)
    ensures ReadUint8([b] + rest) == Ok(Read(b, rest))
    ensures ReadUint16(U16Bytes(h) + rest) == Ok(Read(h, rest))
    ensures ReadUint32(Bytes(w, 4) + rest) == Ok(Read(w, rest))
    ensures ReadUint64(Bytes(d, 8) + rest) == Ok(Read(d, rest))
  {
    assert ([b] + rest)[1..] == rest;
    Pow256Values();
    ReadNBytes(h, 2, rest);
    ReadNBytes(w, 4, rest);
    ReadNBytes(d, 8, rest);
  }

  /** The first n bytes, and the rest. */
  function ReadBytes(data: seq<u8>, n: u32): (r: Result<Read<seq<u8>>>)
    ensures r.Ok? <==> n as int <= |data|
    ensures r.Ok? ==> |r.value.value| == n as int && data == r.value.value + r.value.rest
  {
    if |data| < n as int then Err(OutOfRange) else Ok(Read(data[..n], data[n..]))
  }

  // ---------------------------------------------------------------------------
  // Counted tables of u2 values

  /** The concatenated encodings of a list of u2 values. */
  function U16sBody(vs: seq<u16>): (bs: seq<u8>)
    ensures |bs| == 2 * |vs|
  {
    if |vs| == 0 then [] else U16Bytes(vs[0]) + U16sBody(vs[1..])
  }

  /** A u2 count followed by the values: the layout `readUint16s` reads. */
  function U16sBytes(vs: seq<u16>): (bs: seq<u8>)
    requires |vs| < TWO_16
    ensures |bs| == 2 + 2 * |vs|
  {
    U16Bytes(|vs|) + U16sBody(vs)
  }

  /** n consecutive u2 values, in order. */
  function ReadU16Run(data: seq<u8>, n: nat): (r: Result<Read<seq<u16>>>)
    ensures r.Ok? <==> |data| >= 2 * n
    ensures r.Ok? ==> |r.value.value| == n && data == U16sBody(r.value.value) + r.value.rest
  {
    if n == 0 then Ok(Read([], data))
    else
      var Read(v, rest) :- ReadUint16(data);
      var Read(vs, rest') :- ReadU16Run(rest, n - 1);
      assert ([v] + vs)[1..] == vs;
      Ok(Read([v] + vs, rest'))
  }

  /** `readUint16s`: a u2 count n and then n u2 values. */
  function ReadUint16s(data: seq<u8>): (r: Result<Read<seq<u16>>>)
    ensures r.Ok? ==> |r.value.value| < TWO_16 && data == U16sBytes(r.value.value) + r.value.rest
  {
    var Read(n, rest) :- ReadUint16(data);
    var Read(vs, rest') :- ReadU16Run(rest, n);
    Ok(Read(vs, rest'))
  }

  /** The table reader fails exactly when the data is shorter than its count says. */
  lemma ReadUint16sFails(data: seq<u8>)
    ensures ReadUint16s(data).Err? <==>
      (|data| < 2 || |data| < 2 + 2 * BigEndian(data[..2]))
  {
  }

  lemma {:induction false} ReadU16RunEncoded(vs: seq<u16>, rest: seq<u8>)
    ensures ReadU16Run(U16sBody(vs) + rest, |vs|) == Ok(Read(vs, rest))
  {
    if |vs| > 0 {
      var data := U16sBody(vs) + rest;
      assert data == U16Bytes(vs[0]) + (U16sBody(vs[1..]) + rest);
      var tail := U16sBody(vs[1..]) + rest;
      ReadUintEncoded(0, vs[0], 0, 0, tail);
      assert ReadUint16(data) == Ok(Read(vs[0], tail));
      ReadU16RunEncoded(vs[1..], rest);
      assert ReadU16Run(tail, |vs| - 1) == Ok(Read(vs[1..], rest));
      assert [vs[0]] + vs[1..] == vs;
    } else {
      assert U16sBody(vs) + rest == rest;
    }
  }

  /** `readUint16s` decodes the encoding of any table of fewer than 2^16 values. */
  lemma ReadUint16sEncoded(vs: seq<u16>, rest: seq<u8>)
    requires |vs| < TWO_16
    ensures ReadUint16s(U16sBytes(vs) + rest) == Ok(Read(vs, rest))
  {
    var data := U16sBytes(vs) + rest;
    assert data == U16Bytes(|vs|) + (U16sBody(vs) + rest);
    ReadUintEncoded(0, |vs|, 0, 0, U16sBody(vs) + rest);
    ReadU16RunEncoded(vs, rest);
  }
}

=== FILE: classfile_attrs.dfy ===
/** Attributes and members of a class file (sections 4.6 and 4.7 of the Java
    Virtual Machine Specification, Java SE 8), and the decoded class file the
    loader turns into a class.

    An attribute is a u2 name index and a u4 length followed by a body. The name
    selects the kind; the body of a known kind is read by that kind's own reader
    from the same byte stream, and only an attribute of an unknown kind is read as
    exactly `length` raw bytes. */
module ClassFileAttributes {
  import opened Wrappers
  import opened MachineInts
  import opened ClassReader
  import opened ClassFilePool

  datatype ExceptionTableEntry = ExceptionTableEntry(startPc: u16, endPc: u16, handlerPc: u16, catchType: u16)
  datatype LineNumberEntry = LineNumberEntry(startPc: u16, lineNumber: u16)
  datatype LocalVariableEntry =
    LocalVariableEntry(startPc: u16, length: u16, nameIndex: u16, descriptorIndex: u16, index: u16)
  datatype LocalVariableTypeEntry =
    LocalVariableTypeEntry(startPc: u16, length: u16, nameIndex: u16, signatureIndex: u16, index: u16)

  datatype AttributeInfo =
    | Code(maxStack: u16, maxLocals: u16, code: seq<u8>,
           exceptionTable: seq<ExceptionTableEntry>, attributes: seq<AttributeInfo>)
    | ConstantValue(constantValueIndex: u16)
    | Deprecated
    | Exceptions(exceptionIndexTable: seq<u16>)
    | LineNumberTable(lineNumbers: seq<LineNumberEntry>)
    | LocalVariableTable(localVariables: seq<LocalVariableEntry>)
    | SourceFile(sourceFileIndex: u16)
    | Synthetic
    | Unparsed(name: string, length: u32, info: seq<u8>)

  /** The kinds `newAttributeInfo` distinguishes. */
  datatype AttrKind =
    | CodeKind | ConstantValueKind | DeprecatedKind | ExceptionsKind | LineNumberTableKind
    | LocalVariableTableKind | SourceFileKind | SyntheticKind | UnparsedKind

  /** The switch of `newAttributeInfo`: the attribute name selects the kind. */
  function KindOf(name: string): AttrKind {
    if name == "Code" then CodeKind
    else if name == "ConstantValue" then ConstantValueKind
    else if name == "Deprecated" then DeprecatedKind
    else if name == "Exceptions" then ExceptionsKind
    else if name == "LineNumberTable" then LineNumberTableKind
    else if name == "LocalVariableTable" then LocalVariableTableKind
    else if name == "SourceFile" then SourceFileKind
    else if name == "Synthetic" then SyntheticKind
    else UnparsedKind
  }

  /** The name of each known kind. */
  function KindName(k: AttrKind): string
    requires k != UnparsedKind
  {
    match k
    case CodeKind => "Code"
    case ConstantValueKind => "ConstantValue"
    case DeprecatedKind => "Deprecated"
    case ExceptionsKind => "Exceptions"
    case LineNumberTableKind => "LineNumberTable"
    case LocalVariableTableKind => "LocalVariableTable"
    case SourceFileKind => "SourceFile"
    case SyntheticKind => "Synthetic"
  }

  /** Exactly eight names have a kind of their own, one name per kind. */
  lemma KindNames(k: AttrKind, name: string)
    ensures k != UnparsedKind ==> KindOf(KindName(k)) == k
    ensures KindOf(name) != UnparsedKind ==> KindName(KindOf(name)) == name
  {
  }

  function Kind(a: AttributeInfo): AttrKind {
    match a
    case Code(_, _, _, _, _) => CodeKind
    case ConstantValue(_) => ConstantValueKind
    case Deprecated => DeprecatedKind
    case Exceptions(_) => ExceptionsKind
    case LineNumberTable(_) => LineNumberTableKind
    case LocalVariableTable(_) => LocalVariableTableKind
    case SourceFile(_) => SourceFileKind
    case Synthetic => SyntheticKind
    case Unparsed(_, _, _) => UnparsedKind
  }

  // ---------------------------------------------------------------------------
  // Tables of fixed-size entries made of u2 values

  /** Every group has w values. */
  predicate Uniform(gs: seq<seq<u16>>, w: nat) {
    forall i :: 0 <= i < |gs| ==> |gs[i]| == w
  }

  /** The concatenated encodings of groups of u2 values. */
  function GroupsBody(gs: seq<seq<u16>>): (bs: seq<u8>)
  {
    if |gs| == 0 then [] else U16sBody(gs[0]) + GroupsBody(gs[1..])
  }

  /** n groups of w u2 values each, in order. */
  function ReadGroups(data: seq<u8>, n: nat, w: nat): (r: Result<Read<seq<seq<u16>>>>)
    ensures r.Ok? ==> |r.value.value| == n && Uniform(r.value.value, w)
    ensures r.Ok? ==> data == GroupsBody(r.value.value) + r.value.rest
    decreases n
  {
    if n == 0 then Ok(Read([], data))
    else
      var Read(g, rest) :- ReadU16Run(data, w);
      var Read(gs, rest') :- ReadGroups(rest, n - 1, w);
      GroupsCons(g, gs, w);
      Ok(Read([g] + gs, rest'))
  }

  lemma GroupsCons(g: seq<u16>, gs: seq<seq<u16>>, w: nat)
    ensures GroupsBody([g] + gs) == U16sBody(g) + GroupsBody(gs)
    ensures |g| == w && Uniform(gs, w) ==> Uniform([g] + gs, w)
  {
  }

  lemma {:induction false} ReadGroupsEncoded(gs: seq<seq<u16>>, w: nat, rest: seq<u8>)
    requires Uniform(gs, w)
    ensures ReadGroups(GroupsBody(gs) + rest, |gs|, w) == Ok(Read(gs, rest))
  {
    if |gs| == 0 {
      assert GroupsBody(gs) + rest == rest;
    } else {
      var tail := GroupsBody(gs[1..]) + rest;
      assert GroupsBody(gs) + rest == U16sBody(gs[0]) + tail;
      ReadU16RunEncoded(gs[0], tail);
      assert Uniform(gs[1..], w) by {
        forall i | 0 <= i < |gs| - 1 ensures |gs[1..][i]| == w {
          assert gs[1..][i] == gs[i + 1];
        }
      }
      ReadGroupsEncoded(gs[1..], w, rest);
      assert [gs[0]] + gs[1..] == gs;
    }
  }

  /** A u2 count n followed by n groups of w values. */
  function ReadTable(data: seq<u8>, w: nat): (r: Result<Read<seq<seq<u16>>>>)
    ensures r.Ok? ==> |r.value.value| < TWO_16 && Uniform(r.value.value, w)
    ensures r.Ok? ==> data == U16Bytes(|r.value.value|) + GroupsBody(r.value.value) + r.value.rest
  {
    var Read(n, rest) :- ReadUint16(data);
    ReadGroups(rest, n, w)
  }

  lemma ReadTableEncoded(gs: seq<seq<u16>>, w: nat, rest: seq<u8>)
    requires |gs| < TWO_16 && Uniform(gs, w)
    ensures ReadTable(U16Bytes(|gs|) + GroupsBody(gs) + rest, w) == Ok(Read(gs, rest))
  {
    var tail := GroupsBody(gs) + rest;
    assert U16Bytes(|gs|) + GroupsBody(gs) + rest == U16Bytes(|gs|) + tail;
    ReadUintEncoded(0, |gs|, 0, 0, tail);
    ReadGroupsEncoded(gs, w, rest);
  }

  /** Ten bytes per group of five values. */
  lemma {:induction false} GroupsBodyLength(gs: seq<seq<u16>>)
    requires Uniform(gs, 5)
    ensures |GroupsBody(gs)| == 10 * |gs|
  {
    if |gs| > 0 {
      assert Uniform(gs[1..], 5) by {
        forall i | 0 <= i < |gs| - 1 ensures |gs[1..][i]| == 5 {
          assert gs[1..][i] == gs[i + 1];
        }
      }
      GroupsBodyLength(gs[1..]);
    }
  }

  // ---------------------------------------------------------------------------
  // Entry tables

  function ExceptionEntries(gs: seq<seq<u16>>): (es: seq<ExceptionTableEntry>)
    requires Uniform(gs, 4)
    ensures |es| == |gs|
  {
    seq(|gs|, i requires 0 <= i < |gs| => ExceptionTableEntry(gs[i][0], gs[i][1], gs[i][2], gs[i][3]))
  }

  function LineNumberEntries(gs: seq<seq<u16>>): (es: seq<LineNumberEntry>)
    requires Uniform(gs, 2)
    ensures |es| == |gs|
  {
    seq(|gs|, i requires 0 <= i < |gs| => LineNumberEntry(gs[i][0], gs[i][1]))
  }

  function LocalVariableEntries(gs: seq<seq<u16>>): (es: seq<LocalVariableEntry>)
    requires Uniform(gs, 5)
    ensures |es| == |gs|
  {
    seq(|gs|, i requires 0 <= i < |gs| => LocalVariableEntry(gs[i][0], gs[i][1], gs[i][2], gs[i][3], gs[i][4]))
  }

  function LocalVariableTypeEntries(gs: seq<seq<u16>>): (es: seq<LocalVariableTypeEntry>)
    requires Uniform(gs, 5)
    ensures |es| == |gs|
  {
    seq(|gs|, i requires 0 <= i < |gs| => LocalVariableTypeEntry(gs[i][0], gs[i][1], gs[i][2], gs[i][3], gs[i][4]))
  }

  /** The five u2 values of an entry, in file order. */
  function LocalVariableTypeGroups(es: seq<LocalVariableTypeEntry>): (gs: seq<seq<u16>>)
    ensures |gs| == |es| && Uniform(gs, 5)
  {
    seq(|es|, i requires 0 <= i < |es| =>
      [es[i].startPc, es[i].length, es[i].nameIndex, es[i].signatureIndex, es[i].index])
  }

  /** `LocalVariableTypeTableAttribute.readInfo`: a u2 length n, then n entries of
      five u2 values (startPc, length, nameIndex, signatureIndex, index). */
  function ReadLocalVariableTypeTable(data: seq<u8>): (r: Result<Read<seq<LocalVariableTypeEntry>>>)
    ensures r.Ok? ==> |r.value.value| < TWO_16 && |data| == 2 + 10 * |r.value.value| + |r.value.rest|
    ensures r.Ok? ==> r.value.rest == data[2 + 10 * |r.value.value|..]
  {
    var Read(gs, rest) :- ReadTable(data, 5);
    GroupsBodyLength(gs);
    Ok(Read(LocalVariableTypeEntries(gs), rest))
  }

  function EncodeLocalVariableTypeTable(es: seq<LocalVariableTypeEntry>): (bs: seq<u8>)
    requires |es| < TWO_16
  {
    U16Bytes(|es|) + GroupsBody(LocalVariableTypeGroups(es))
  }

  /** Entries come back in file order with every field in place. */
  lemma LocalVariableTypeTableRoundTrip(es: seq<LocalVariableTypeEntry>, rest: seq<u8>)
    requires |es| < TWO_16
    ensures ReadLocalVariableTypeTable(EncodeLocalVariableTypeTable(es) + rest) == Ok(Read(es, rest))
  {
    var gs := LocalVariableTypeGroups(es);
    ReadTableEncoded(gs, 5, rest);
    assert LocalVariableTypeEntries(gs) == es;
  }

  /** `ExceptionsAttribute.readInfo`: a counted table of u2 class indices. */
  function ReadExceptions(data: seq<u8>): (r: Result<Read<AttributeInfo>>)
    ensures r.Ok? ==> r.value.value.Exceptions? && |r.value.value.exceptionIndexTable| < TWO_16
    ensures r.Ok? ==> data == U16sBytes(r.value.value.exceptionIndexTable) + r.value.rest
  {
    var Read(table, rest) :- ReadUint16s(data);
    Ok(Read(Exceptions(table), rest))
  }

  /** `ExceptionIndexTable` returns the table that was read, in file order. */
  lemma ExceptionsRoundTrip(table: seq<u16>, rest: seq<u8>)
    requires |table| < TWO_16
    ensures ReadExceptions(U16sBytes(table) + rest) == Ok(Read(Exceptions(table), rest))
  {
    ReadUint16sEncoded(table, rest);
  }

  // ---------------------------------------------------------------------------
  // Attributes

  /** `readAttributes`: a u2 count, then exactly that many attributes. */
  function ReadAttributes(data: seq<u8>, cp: ConstantPool): (r: Result<Read<seq<AttributeInfo>>>)
    ensures r.Ok? ==> |r.value.rest| <= |data| - 2
    decreases |data|, 6
  {
    var Read(n, rest) :- ReadUint16(data);
    ReadAttributeRun(rest, cp, n)
  }

  /** n attributes one after another, in order. */
  function ReadAttributeRun(data: seq<u8>, cp: ConstantPool, n: nat): (r: Result<Read<seq<AttributeInfo>>>)
    ensures r.Ok? ==> |r.value.value| == n
    ensures r.Ok? ==> |r.value.rest| <= |data|
    decreases |data|, 5, n
  {
    if n == 0 then Ok(Read([], data))
    else
      var Read(a, rest) :- ReadAttribute(data, cp);
      var Read(attrs, rest') :- ReadAttributeRun(rest, cp, n - 1);
      Ok(Read([a] + attrs, rest'))
  }

  /** `readAttribute`: a u2 name index, a u4 length, and the body the name selects. */
  function ReadAttribute(data: seq<u8>, cp: ConstantPool): (r: Result<Read<AttributeInfo>>)
    ensures r.Ok? ==> |r.value.rest| < |data|
    decreases |data|, 4
  {
    var Read(nameIndex, rest) :- ReadUint16(data);
    var name :- GetUtf8(cp, nameIndex);
    var Read(length, rest') :- ReadUint32(rest);
    ReadAttributeBody(name, length, rest', cp)
  }

  /** `newAttributeInfo` followed by that kind's `readInfo`: a known name gets
      its own kind, any other name an unparsed attribute of `length` raw bytes. */
  function ReadAttributeBody(name: string, length: u32, data: seq<u8>, cp: ConstantPool)
    : (r: Result<Read<AttributeInfo>>)
    ensures r.Ok? ==> Kind(r.value.value) == KindOf(name)
    ensures r.Ok? && r.value.value.Unparsed? ==>
      r.value.value.name == name && r.value.value.length == length && |r.value.value.info| == length as int
    ensures r.Ok? ==> |r.value.rest| <= |data|
    decreases |data|, 3
  {
    var k := KindOf(name);
    if k == UnparsedKind then
      var Read(info, rest) :- ReadBytes(data, length);
      Ok(Read(Unparsed(name, length, info), rest))
    else
      ReadKnownBody(k, data, cp)
  }

  /** The body of an attribute of a known kind, read by that kind's reader. */
  function ReadKnownBody(k: AttrKind, data: seq<u8>, cp: ConstantPool): (r: Result<Read<AttributeInfo>>)
    requires k != UnparsedKind
    ensures r.Ok? ==> Kind(r.value.value) == k
    ensures r.Ok? ==> |r.value.rest| <= |data|
    decreases |data|, 2
  {
    if k == CodeKind then ReadCode(data, cp) else ReadFlatBody(k, data)
  }

  /** The bodies of the known kinds that hold no nested attributes. */
  function ReadFlatBody(k: AttrKind, data: seq<u8>): (r: Result<Read<AttributeInfo>>)
    requires k != UnparsedKind && k != CodeKind
    ensures r.Ok? ==> Kind(r.value.value) == k
    ensures r.Ok? ==> |r.value.rest| <= |data|
  {
    if IsTableKind(k) then ReadTableBody(k, data) else ReadFixedBody(k, data)
  }

  predicate IsTableKind(k: AttrKind) {
    k == ExceptionsKind || k == LineNumberTableKind || k == LocalVariableTableKind
  }

  /** Bodies that are a counted table. */
  function ReadTableBody(k: AttrKind, data: seq<u8>): (r: Result<Read<AttributeInfo>>)
    requires IsTableKind(k)
    ensures r.Ok? ==> Kind(r.value.value) == k
    ensures r.Ok? ==> |r.value.rest| <= |data|
  {
    if k == ExceptionsKind then ReadExceptions(data)
    else if k == LineNumberTableKind then ReadLineNumberTable(data)
    else ReadLocalVariableTable(data)
  }

  /** Bodies of a fixed size: a pool index, or nothing at all. */
  function ReadFixedBody(k: AttrKind, data: seq<u8>): (r: Result<Read<AttributeInfo>>)
    requires k == ConstantValueKind || k == DeprecatedKind || k == SourceFileKind || k == SyntheticKind
    ensures r.Ok? ==> Kind(r.value.value) == k
    ensures r.Ok? ==> |r.value.rest| <= |data|
  {
    if k == DeprecatedKind then Ok(Read(Deprecated, data))
    else if k == SyntheticKind then Ok(Read(Synthetic, data))
    else ReadIndexBody(data, k)
  }

  /** A body that is a single u2 pool index: ConstantValue and SourceFile. */
  function ReadIndexBody(data: seq<u8>, k: AttrKind): (r: Result<Read<AttributeInfo>>)
    requires k == ConstantValueKind || k == SourceFileKind
    ensures r.Ok? ==> Kind(r.value.value) == k
    ensures r.Ok? ==> |data| >= 2 && r.value.rest == data[2..]
  {
    var Read(i, rest) :- ReadUint16(data);
    Ok(Read(if k == ConstantValueKind then ConstantValue(i) else SourceFile(i), rest))
  }

  function ReadLineNumberTable(data: seq<u8>): (r: Result<Read<AttributeInfo>>)
    ensures r.Ok? ==> r.value.value.LineNumberTable? && |r.value.rest| <= |data|
  {
    var Read(gs, rest) :- ReadTable(data, 2);
    Ok(Read(LineNumberTable(LineNumberEntries(gs)), rest))
  }

  function ReadLocalVariableTable(data: seq<u8>): (r: Result<Read<AttributeInfo>>)
    ensures r.Ok? ==> r.value.value.LocalVariableTable? && |r.value.rest| <= |data|
  {
    var Read(gs, rest) :- ReadTable(data, 5);
    Ok(Read(LocalVariableTable(LocalVariableEntries(gs)), rest))
  }

  /** A u4 length and that many bytes of bytecode. */
  function ReadCodeBytes(data: seq<u8>): (r: Result<Read<seq<u8>>>)
    ensures r.Ok? ==> |r.value.rest| + 4 <= |data|
  {
    var Read(n, rest) :- ReadUint32(data);
    ReadBytes(rest, n)
  }

  /** The body of a Code attribute: max stack, max locals, the bytecode, the
      exception table and the nested attributes. */
  function ReadCode(data: seq<u8>, cp: ConstantPool): (r: Result<Read<AttributeInfo>>)
    ensures r.Ok? ==> r.value.value.Code? && |r.value.rest| <= |data|
    decreases |data|, 1
  {
    var Read(maxStack, d1) :- ReadUint16(data);
    var Read(maxLocals, d2) :- ReadUint16(d1);
    var Read(code, d3) :- ReadCodeBytes(d2);
    var Read(gs, d4) :- ReadTable(d3, 4);
    var Read(attrs, d5) :- ReadAttributes(d4, cp);
    Ok(Read(Code(maxStack, maxLocals, code, ExceptionEntries(gs), attrs), d5))
  }

  /** A count in front of the attributes is read first, and exactly that many follow. */
  lemma ReadAttributesCount(n: u16, tail: seq<u8>, cp: ConstantPool)
    ensures ReadAttributes(U16Bytes(n) + tail, cp) == ReadAttributeRun(tail, cp, n)
  {
    ReadUintEncoded(0, n, 0, 0, tail);
  }

  /** The header of an attribute is its name index and its length; the name
      chooses how the bytes after the header are read. */
  lemma ReadAttributeHeader(cp: ConstantPool, nameIndex: u16, length: u32, body: seq<u8>)
    ensures ReadAttribute(U16Bytes(nameIndex) + Bytes(length, 4) + body, cp)
         == (var name := GetUtf8(cp, nameIndex);
             if name.Ok? then ReadAttributeBody(name.value, length, body, cp) else Err(name.error))
  {
    var d1 := Bytes(length, 4) + body;
    assert U16Bytes(nameIndex) + Bytes(length, 4) + body == U16Bytes(nameIndex) + d1;
    ReadUintEncoded(0, nameIndex, length, 0, d1);
    ReadUintEncoded(0, 0, length, 0, body);
  }

  /** The header of an attribute followed by a body in two parts. */
  lemma ReadAttributeHeader2(cp: ConstantPool, nameIndex: u16, length: u32, a: seq<u8>, b: seq<u8>)
    ensures ReadAttribute(U16Bytes(nameIndex) + Bytes(length, 4) + a + b, cp)
         == (var name := GetUtf8(cp, nameIndex);
             if name.Ok? then ReadAttributeBody(name.value, length, a + b, cp) else Err(name.error))
  {
    assert U16Bytes(nameIndex) + Bytes(length, 4) + a + b == U16Bytes(nameIndex) + Bytes(length, 4) + (a + b);
    ReadAttributeHeader(cp, nameIndex, length, a + b);
  }

  lemma UnparsedBody(cp: ConstantPool, name: string, info: seq<u8>, rest: seq<u8>)
    requires KindOf(name) == UnparsedKind && |info| < TWO_32
    ensures ReadAttributeBody(name, |info| as u32, info + rest, cp) == Ok(Read(Unparsed(name, |info| as u32, info), rest))
  {
  }

  /** An attribute of a kind the reader does not know is kept as its name, its
      length and exactly that many bytes. */
  lemma UnparsedRoundTrip(cp: ConstantPool, nameIndex: u16, info: seq<u8>, rest: seq<u8>)
    requires nameIndex < |cp| && cp[nameIndex].Utf8? && KindOf(cp[nameIndex].str) == UnparsedKind
    requires |info| < TWO_32
    ensures ReadAttribute(U16Bytes(nameIndex) + Bytes(|info|, 4) + info + rest, cp)
         == Ok(Read(Unparsed(cp[nameIndex].str, |info|, info), rest))
  {
    ReadAttributeHeader2(cp, nameIndex, |info| as u32, info, rest);
    assert GetUtf8(cp, nameIndex) == Ok(cp[nameIndex].str);
    UnparsedBody(cp, cp[nameIndex].str, info, rest);
  }

  lemma IndexBody(cp: ConstantPool, name: string, index: u16, rest: seq<u8>)
    requires KindOf(name) == ConstantValueKind || KindOf(name) == SourceFileKind
    ensures ReadAttributeBody(name, 2, U16Bytes(index) + rest, cp)
         == Ok(Read(if KindOf(name) == ConstantValueKind then ConstantValue(index) else SourceFile(index), rest))
  {
    ReadUintEncoded(0, index, 0, 0, rest);
    assert ReadAttributeBody(name, 2, U16Bytes(index) + rest, cp) == ReadIndexBody(U16Bytes(index) + rest, KindOf(name));
  }

  /** A ConstantValue or SourceFile attribute keeps the pool index it holds. */
  lemma IndexAttributeRoundTrip(cp: ConstantPool, nameIndex: u16, index: u16, rest: seq<u8>)
    requires nameIndex < |cp| && cp[nameIndex].Utf8?
    requires KindOf(cp[nameIndex].str) == ConstantValueKind || KindOf(cp[nameIndex].str) == SourceFileKind
    ensures ReadAttribute(U16Bytes(nameIndex) + Bytes(2, 4) + U16Bytes(index) + rest, cp)
         == Ok(Read(if KindOf(cp[nameIndex].str) == ConstantValueKind then ConstantValue(index)
                    else SourceFile(index), rest))
  {
    ReadAttributeHeader2(cp, nameIndex, 2, U16Bytes(index), rest);
    assert GetUtf8(cp, nameIndex) == Ok(cp[nameIndex].str);
    IndexBody(cp, cp[nameIndex].str, index, rest);
  }

  // ---------------------------------------------------------------------------
  // Members

  /** A field or method as the class file lists it. */
  datatype MemberInfo = MemberInfo(accessFlags: u16, nameIndex: u16, descriptorIndex: u16,
                                   attributes: seq<AttributeInfo>)

  /** `readMember`: access flags, name index and descriptor index, then attributes. */
  function ReadMember(data: seq<u8>, cp: ConstantPool): (r: Result<Read<MemberInfo>>)
    ensures r.Ok? ==> |r.value.rest| + 8 <= |data|
  {
    var Read(flags, d1) :- ReadUint16(data);
    var Read(nameIndex, d2) :- ReadUint16(d1);
    var Read(descIndex, d3) :- ReadUint16(d2);
    var Read(attrs, rest) :- ReadAttributes(d3, cp);
    Ok(Read(MemberInfo(flags, nameIndex, descIndex, attrs), rest))
  }

  /** A member is its three u2 header values in file order, followed by what
      `readAttributes` makes of the bytes after them. */
  lemma ReadMemberHeader(flags: u16, nameIndex: u16, descIndex: u16, tail: seq<u8>, cp: ConstantPool)
    ensures ReadMember(U16Bytes(flags) + U16Bytes(nameIndex) + U16Bytes(descIndex) + tail, cp)
         == (var a := ReadAttributes(tail, cp);
             if a.Ok? then Ok(Read(MemberInfo(flags, nameIndex, descIndex, a.value.value), a.value.rest))
             else Err(a.error))
  {
    var d2 := U16Bytes(descIndex) + tail;
    var d1 := U16Bytes(nameIndex) + d2;
    assert U16Bytes(flags) + U16Bytes(nameIndex) + U16Bytes(descIndex) + tail == U16Bytes(flags) + d1;
    ReadUintEncoded(0, flags, 0, 0, d1);
    ReadUintEncoded(0, nameIndex, 0, 0, d2);
    ReadUintEncoded(0, descIndex, 0, 0, tail);
  }

  /** n members one after another, in order. */
  function ReadMemberRun(data: seq<u8>, cp: ConstantPool, n: nat): (r: Result<Read<seq<MemberInfo>>>)
    ensures r.Ok? ==> |r.value.value| == n
    ensures r.Ok? ==> |r.value.rest| <= |data|
    decreases n
  {
    if n == 0 then Ok(Read([], data))
    else
      var Read(m, rest) :- ReadMember(data, cp);
      var Read(ms, rest') :- ReadMemberRun(rest, cp, n - 1);
      Ok(Read([m] + ms, rest'))
  }

  /** `readMembers`: a u2 count, then exactly that many members. */
  function ReadMembers(data: seq<u8>, cp: ConstantPool): (r: Result<Read<seq<MemberInfo>>>)
    ensures r.Ok? ==> |r.value.rest| + 2 <= |data|
  {
    var Read(n, rest) :- ReadUint16(data);
    ReadMemberRun(rest, cp, n)
  }

  /** The count in front of the members is read first, and exactly that many follow. */
  lemma ReadMembersCount(n: u16, tail: seq<u8>, cp: ConstantPool)
    ensures ReadMembers(U16Bytes(n) + tail, cp) == ReadMemberRun(tail, cp, n)
  {
    ReadUintEncoded(0, n, 0, 0, tail);
  }

  /** `Name` and `Descriptor`: the Utf8 entries at the stored indices. */
  function MemberName(m: MemberInfo, cp: ConstantPool): (r: Result<string>)
    ensures r.Ok? <==> m.nameIndex < |cp| && cp[m.nameIndex].Utf8?
    ensures r.Ok? ==> r.value == cp[m.nameIndex].str
  {
    GetUtf8(cp, m.nameIndex)
  }

  function MemberDescriptor(m: MemberInfo, cp: ConstantPool): (r: Result<string>)
    ensures r.Ok? <==> m.descriptorIndex < |cp| && cp[m.descriptorIndex].Utf8?
    ensures r.Ok? ==> r.value == cp[m.descriptorIndex].str
  {
    GetUtf8(cp, m.descriptorIndex)
  }

  /** No attribute before index i has kind k. */
  predicate NoneOfKindBefore(attrs: seq<AttributeInfo>, k: AttrKind, i: nat)
    requires i <= |attrs|
  {
    forall j :: 0 <= j < i ==> Kind(attrs[j]) != k
  }

  /** The first attribute of kind k, if any. */
  function FirstOfKind(attrs: seq<AttributeInfo>, k: AttrKind): (r: Option<AttributeInfo>)
    ensures r.Some? ==> Kind(r.value) == k
    ensures r.Some? ==> exists i :: 0 <= i < |attrs| && attrs[i] == r.value && NoneOfKindBefore(attrs, k, i)
    ensures r.None? <==> NoneOfKindBefore(attrs, k, |attrs|)
  {
    if |attrs| == 0 then None
    else if Kind(attrs[0]) == k then
      assert NoneOfKindBefore(attrs, k, 0);
      Some(attrs[0])
    else
      var r := FirstOfKind(attrs[1..], k);
      ShiftNoneOfKind(attrs, k);
      if r.Some? then
        var i :| 0 <= i < |attrs[1..]| && attrs[1..][i] == r.value && NoneOfKindBefore(attrs[1..], k, i);
        assert attrs[i + 1] == r.value;
        r
      else
        r
  }

  lemma ShiftNoneOfKind(attrs: seq<AttributeInfo>, k: AttrKind)
    requires |attrs| > 0 && Kind(attrs[0]) != k
    ensures forall i :: 0 <= i <= |attrs| - 1 ==>
      (NoneOfKindBefore(attrs[1..], k, i) <==> NoneOfKindBefore(attrs, k, i + 1))
  {
  }

  /** `CodeAttribute`: the first Code attribute of a member, or none. */
  function CodeAttribute(m: MemberInfo): (r: Option<AttributeInfo>)
    ensures r.Some? ==> r.value.Code?
    ensures r.Some? ==> exists i :: 0 <= i < |m.attributes| && m.attributes[i] == r.value
                                    && NoneOfKindBefore(m.attributes, CodeKind, i)
    ensures r.None? <==> forall i :: 0 <= i < |m.attributes| ==> !m.attributes[i].Code?
  {
    FirstOfKind(m.attributes, CodeKind)
  }

  /** The first ConstantValue attribute of a member, or none. */
  function ConstantValueAttribute(m: MemberInfo): (r: Option<AttributeInfo>)
    ensures r.Some? ==> r.value.ConstantValue?
    ensures r.Some? ==> exists i :: 0 <= i < |m.attributes| && m.attributes[i] == r.value
                                    && NoneOfKindBefore(m.attributes, ConstantValueKind, i)
    ensures r.None? <==> forall i :: 0 <= i < |m.attributes| ==> !m.attributes[i].ConstantValue?
  {
    FirstOfKind(m.attributes, ConstantValueKind)
  }

  /** The first LineNumberTable attribute of a Code attribute, or none. */
  function LineNumberTableOf(code: AttributeInfo): (r: Option<AttributeInfo>)
    requires code.Code?
    ensures r.Some? ==> r.value.LineNumberTable?
    ensures r.Some? ==> exists i :: 0 <= i < |code.attributes| && code.attributes[i] == r.value
                                    && NoneOfKindBefore(code.attributes, LineNumberTableKind, i)
    ensures r.None? <==> forall i :: 0 <= i < |code.attributes| ==> !code.attributes[i].LineNumberTable?
  {
    FirstOfKind(code.attributes, LineNumberTableKind)
  }

  // ---------------------------------------------------------------------------
  // The decoded class file

  /** A class file after decoding; how its header is read from bytes is not part of this model. */
  datatype ClassFile = ClassFile(
    constantPool: ConstantPool,
    accessFlags: u16,
    thisClass: u16,
    superClass: u16,
    interfaces: seq<u16>,
    fields: seq<MemberInfo>,
    methods: seq<MemberInfo>,
    attributes: seq<AttributeInfo>)

  function ClassName(cf: ClassFile): Result<string> {
    GetClassName(cf.constantPool, cf.thisClass)
  }

  /** The superclass name; index 0 (only java/lang/Object) means there is none. */
  function SuperClassName(cf: ClassFile): (r: Result<string>)
    ensures cf.superClass == 0 ==> r == Ok("")
    ensures cf.superClass != 0 ==> r == GetClassName(cf.constantPool, cf.superClass)
  {
    if cf.superClass > 0 then GetClassName(cf.constantPool, cf.superClass) else Ok("")
  }

  /** The class names of the Class entries at the given indices, in order. */
  function InterfaceNamesFrom(cp: ConstantPool, indices: seq<u16>): (r: Result<seq<string>>)
    ensures r.Ok? <==> forall i :: 0 <= i < |indices| ==> GetClassName(cp, indices[i]).Ok?
    ensures r.Ok? ==> |r.value| == |indices|
    ensures r.Ok? ==> forall i :: 0 <= i < |indices| ==> GetClassName(cp, indices[i]) == Ok(r.value[i])
  {
    if |indices| == 0 then Ok([])
    else
      var n :- GetClassName(cp, indices[0]);
      var ns := InterfaceNamesFrom(cp, indices[1..]);
      assert forall i :: 1 <= i < |indices| ==> indices[i] == indices[1..][i - 1];
      if ns.Err? then ns.PropagateFailure()
      else Ok([n] + ns.value)
  }

  function InterfaceNames(cf: ClassFile): Result<seq<string>> {
    InterfaceNamesFrom(cf.constantPool, cf.interfaces)
  }

  /** The file name in the class's SourceFile attribute, or "Unknown". */
  function SourceFileName(cf: ClassFile): (r: Result<string>)
    ensures FirstOfKind(cf.attributes, SourceFileKind).None? ==> r == Ok("Unknown")
  {
    var a := FirstOfKind(cf.attributes, SourceFileKind);
    if a.Some? then GetUtf8(cf.constantPool, a.value.sourceFileIndex) else Ok("Unknown")
  }
}

=== FILE: classfile_pool.dfy ===
/** The constant pool of a class file (section 4.4 of the Java Virtual Machine
    Specification, Java SE 8): its entries, how the table is read, and the
    typed lookups by index.

    Entry 0 is never used, and a Long or Double entry takes two indices: the
    index after it is left empty. Lookups fail on an index outside the table, on
    an empty entry (a panic "Invalid constant pool index!"), and on an entry of
    the wrong kind (a failed Go type assertion). */
module ClassFilePool {
  import opened Wrappers
  import opened MachineInts
  import opened ClassReader

  const TAG_UTF8: u8 := 1
  const TAG_INTEGER: u8 := 3
  const TAG_FLOAT: u8 := 4
  const TAG_LONG: u8 := 5
  const TAG_DOUBLE: u8 := 6
  const TAG_CLASS: u8 := 7
  const TAG_STRING: u8 := 8
  const TAG_FIELDREF: u8 := 9
  const TAG_METHODREF: u8 := 10
  const TAG_INTERFACE_METHODREF: u8 := 11
  const TAG_NAME_AND_TYPE: u8 := 12
  const TAG_METHOD_HANDLE: u8 := 15
  const TAG_METHOD_TYPE: u8 := 16
  const TAG_INVOKE_DYNAMIC: u8 := 18

  const InvalidIndex := Panic("Invalid constant pool index!")
  const BadTag := Panic("java.lang.ClassFormatError: constant pool tag!")

  /** One constant-pool entry; `Empty` is an index nothing was read into.
      Float and Double constants are kept as their IEEE 754 bit patterns. */
  datatype ConstantInfo =
    | Empty
    | Utf8(str: string)
    | Integer(intValue: i32)
    | Float(floatBits: u32)
    | Long(longValue: i64)
    | Double(doubleBits: u64)
    | ClassInfo(nameIndex: u16)
    | StringInfo(stringIndex: u16)
    | Fieldref(classIndex: u16, nameAndTypeIndex: u16)
    | Methodref(classIndex: u16, nameAndTypeIndex: u16)
    | InterfaceMethodref(classIndex: u16, nameAndTypeIndex: u16)
    | NameAndType(nameIndex: u16, descriptorIndex: u16)
    | MethodHandle(referenceKind: u8, referenceIndex: u16)
    | MethodType(descriptorIndex: u16)
    | InvokeDynamic(bootstrapMethodAttrIndex: u16, nameAndTypeIndex: u16)
  {
    /** Long and Double take two pool indices. */
    predicate IsWide() {
      Long? || Double?
    }

    /** An entry a class file can carry: not empty, and a string of byte-sized characters. */
    predicate Encodable() {
      match this
      case Empty => false
      case Utf8(s) => |s| < TWO_16 && forall i :: 0 <= i < |s| ==> s[i] as int < 256
      case _ => true
    }
  }

  type ConstantPool = seq<ConstantInfo>

  /** The shape every pool read from a class file has: entry 0 is empty, and an
      entry is empty exactly when the entry before it is a Long or a Double. */
  predicate WellFormed(cp: ConstantPool) {
    && (|cp| > 0 ==> cp[0].Empty?)
    && forall k :: 1 <= k < |cp| ==> (cp[k].Empty? <==> cp[k - 1].IsWide())
  }

  // ---------------------------------------------------------------------------
  // Byte-level encoding of strings

  /** The Go string of a Utf8 entry: its bytes as they stand, one character
      per byte. Go strings are byte strings throughout the model; the bytes
      are read as UTF-8 only where Go takes the runes of a string
      (`Utf8.Decode`, used by `JString`). */
  function Chars(bs: seq<u8>): (s: string)
    ensures |s| == |bs| && forall i :: 0 <= i < |s| ==> s[i] as int == bs[i]
  {
    seq(|bs|, i requires 0 <= i < |bs| => (bs[i] as int) as char)
  }

  function CharBytes(s: string): (bs: seq<u8>)
    requires forall i :: 0 <= i < |s| ==> s[i] as int < 256
    ensures |bs| == |s| && forall i :: 0 <= i < |s| ==> bs[i] == s[i] as int
  {
    seq(|s|, i requires 0 <= i < |s| => s[i] as int as u8)
  }

  // ---------------------------------------------------------------------------
  // Reading one entry

  function ReadPair(data: seq<u8>): (r: Result<Read<(u16, u16)>>)
    ensures r.Ok? ==> data == U16Bytes(r.value.value.0) + U16Bytes(r.value.value.1) + r.value.rest
  {
    var Read(a, rest) :- ReadUint16(data);
    var Read(b, rest') :- ReadUint16(rest);
    Ok(Read((a, b), rest'))
  }

  /** `readConstantInfo`: a u1 tag selects the kind, whose body follows. */
  function ReadConstantInfo(data: seq<u8>): (r: Result<Read<ConstantInfo>>)
    ensures r.Ok? ==> !r.value.value.Empty? && |r.value.rest| < |data|
  {
    var Read(tag, body) :- ReadUint8(data);
    ReadConstantBody(tag, body)
  }

  /** The kinds whose body is one u2 index. */
  predicate IsIndexTag(tag: u8) {
    tag == TAG_STRING || tag == TAG_CLASS || tag == TAG_METHOD_TYPE
  }

  function IndexConstant(tag: u8, i: u16): (c: ConstantInfo)
    requires IsIndexTag(tag)
  {
    if tag == TAG_STRING then StringInfo(i)
    else if tag == TAG_CLASS then ClassInfo(i)
    else MethodType(i)
  }

  /** The kinds whose body is two u2 indices. */
  predicate IsPairTag(tag: u8) {
    || tag == TAG_FIELDREF || tag == TAG_METHODREF || tag == TAG_INTERFACE_METHODREF
    || tag == TAG_NAME_AND_TYPE || tag == TAG_INVOKE_DYNAMIC
  }

  function PairConstant(tag: u8, a: u16, b: u16): (c: ConstantInfo)
    requires IsPairTag(tag)
  {
    if tag == TAG_FIELDREF then Fieldref(a, b)
    else if tag == TAG_METHODREF then Methodref(a, b)
    else if tag == TAG_INTERFACE_METHODREF then InterfaceMethodref(a, b)
    else if tag == TAG_NAME_AND_TYPE then NameAndType(a, b)
    else InvokeDynamic(a, b)
  }

  /** The body of an entry of kind `tag`; an unknown tag is a class-format panic. */
  function ReadConstantBody(tag: u8, data: seq<u8>): (r: Result<Read<ConstantInfo>>)
    ensures r.Ok? ==> !r.value.value.Empty? && |r.value.rest| <= |data|
  {
    if tag == TAG_INTEGER then
      var Read(v, rest) :- ReadUint32(data);
      Ok(Read(Integer(Wrap32(v)), rest))
    else if tag == TAG_FLOAT then
      var Read(v, rest) :- ReadUint32(data);
      Ok(Read(Float(v), rest))
    else if tag == TAG_LONG then
      var Read(v, rest) :- ReadUint64(data);
      Ok(Read(Long(Wrap64(v)), rest))
    else if tag == TAG_DOUBLE then
      var Read(v, rest) :- ReadUint64(data);
      Ok(Read(Double(v), rest))
    else if tag == TAG_UTF8 then
      var Read(n, rest) :- ReadUint16(data);
      var Read(bs, rest') :- ReadBytes(rest, n);
      Ok(Read(Utf8(Chars(bs)), rest'))
    else if IsIndexTag(tag) then
      var Read(i, rest) :- ReadUint16(data);
      Ok(Read(IndexConstant(tag, i), rest))
    else if IsPairTag(tag) then
      var Read((a, b), rest) :- ReadPair(data);
      Ok(Read(PairConstant(tag, a, b), rest))
    else if tag == TAG_METHOD_HANDLE then
      var Read(k, rest) :- ReadUint8(data);
      var Read(i, rest') :- ReadUint16(rest);
      Ok(Read(MethodHandle(k, i), rest'))
    else
      Err(BadTag)
  }

  /** The tag a class file writes in front of an entry of this kind. */
  function Tag(c: ConstantInfo): u8
    requires !c.Empty?
  {
    match c
    case Utf8(_) => TAG_UTF8
    case Integer(_) => TAG_INTEGER
    case Float(_) => TAG_FLOAT
    case Long(_) => TAG_LONG
    case Double(_) => TAG_DOUBLE
    case ClassInfo(_) => TAG_CLASS
    case StringInfo(_) => TAG_STRING
    case Fieldref(_, _) => TAG_FIELDREF
    case Methodref(_, _) => TAG_METHODREF
    case InterfaceMethodref(_, _) => TAG_INTERFACE_METHODREF
    case NameAndType(_, _) => TAG_NAME_AND_TYPE
    case MethodHandle(_, _) => TAG_METHOD_HANDLE
    case MethodType(_) => TAG_METHOD_TYPE
    case InvokeDynamic(_, _) => TAG_INVOKE_DYNAMIC
  }

  /** The body a class file writes for an entry. */
  function Body(c: ConstantInfo): (bs: seq<u8>)
    requires c.Encodable()
  {
    match c
    case Utf8(s) => U16Bytes(|s|) + CharBytes(s)
    case Integer(v) => Bytes(ToU32(v), 4)
    case Float(b) => Bytes(b, 4)
    case Long(v) => Bytes(ToU64(v), 8)
    case Double(b) => Bytes(b, 8)
    case ClassInfo(i) => U16Bytes(i)
    case StringInfo(i) => U16Bytes(i)
    case Fieldref(a, b) => U16Bytes(a) + U16Bytes(b)
    case Methodref(a, b) => U16Bytes(a) + U16Bytes(b)
    case InterfaceMethodref(a, b) => U16Bytes(a) + U16Bytes(b)
    case NameAndType(a, b) => U16Bytes(a) + U16Bytes(b)
    case MethodHandle(k, i) => [k] + U16Bytes(i)
    case MethodType(i) => U16Bytes(i)
    case InvokeDynamic(a, b) => U16Bytes(a) + U16Bytes(b)
  }

  function EncodeConstant(c: ConstantInfo): (bs: seq<u8>)
    requires c.Encodable()
  {
    [Tag(c)] + Body(c)
  }

  lemma ReadPairEncoded(a: u16, b: u16, rest: seq<u8>)
    ensures ReadPair(U16Bytes(a) + U16Bytes(b) + rest) == Ok(Read((a, b), rest))
  {
    ReadUintEncoded(0, b, 0, 0, rest);
    assert U16Bytes(a) + U16Bytes(b) + rest == U16Bytes(a) + (U16Bytes(b) + rest);
    ReadUintEncoded(0, a, 0, 0, U16Bytes(b) + rest);
  }

  /** Decoding undoes the encoding of every entry a class file can carry. */
  lemma ReadConstantInfoEncoded(c: ConstantInfo, rest: seq<u8>)
    requires c.Encodable()
    ensures ReadConstantInfo(EncodeConstant(c) + rest) == Ok(Read(c, rest))
  {
    var body := Body(c) + rest;
    assert EncodeConstant(c) + rest == [Tag(c)] + body;
    assert ReadUint8([Tag(c)] + body) == Ok(Read(Tag(c), body)) by {
      ReadUintEncoded(Tag(c), 0, 0, 0, body);
    }
    ReadConstantBodyEncoded(c, rest);
  }

  lemma ReadConstantBodyEncoded(c: ConstantInfo, rest: seq<u8>)
    requires c.Encodable()
    ensures ReadConstantBody(Tag(c), Body(c) + rest) == Ok(Read(c, rest))
  {
    match c
    case Utf8(s) => Utf8BodyEncoded(s, rest);
    case Integer(v) => IntegerBodyEncoded(v, rest);
    case Float(b) => FloatBodyEncoded(b, rest);
    case Long(v) => LongBodyEncoded(v, rest);
    case Double(b) => DoubleBodyEncoded(b, rest);
    case ClassInfo(i) => IndexBodyEncoded(TAG_CLASS, i, rest);
    case StringInfo(i) => IndexBodyEncoded(TAG_STRING, i, rest);
    case MethodType(i) => IndexBodyEncoded(TAG_METHOD_TYPE, i, rest);
    case MethodHandle(k, i) => MethodHandleBodyEncoded(k, i, rest);
    case Fieldref(a, b) => PairBodyEncoded(TAG_FIELDREF, a, b, rest);
    case Methodref(a, b) => PairBodyEncoded(TAG_METHODREF, a, b, rest);
    case InterfaceMethodref(a, b) => PairBodyEncoded(TAG_INTERFACE_METHODREF, a, b, rest);
    case NameAndType(a, b) => PairBodyEncoded(TAG_NAME_AND_TYPE, a, b, rest);
    case InvokeDynamic(a, b) => PairBodyEncoded(TAG_INVOKE_DYNAMIC, a, b, rest);
  }

  /** An Integer entry is its 4-byte pattern read as an int32. */
  lemma IntegerBodyEncoded(v: i32, rest: seq<u8>)
    ensures ReadConstantBody(TAG_INTEGER, Bytes(ToU32(v), 4) + rest) == Ok(Read(Integer(v), rest))
  {
    ReadUintEncoded(0, 0, ToU32(v), 0, rest);
    U32RoundTrip(v, 0);
  }

  lemma FloatBodyEncoded(b: u32, rest: seq<u8>)
    ensures ReadConstantBody(TAG_FLOAT, Bytes(b, 4) + rest) == Ok(Read(Float(b), rest))
  {
    ReadUintEncoded(0, 0, b, 0, rest);
  }

  /** A Long entry is its 8-byte pattern read as an int64. */
  lemma LongBodyEncoded(v: i64, rest: seq<u8>)
    ensures ReadConstantBody(TAG_LONG, Bytes(ToU64(v), 8) + rest) == Ok(Read(Long(v), rest))
  {
    ReadUintEncoded(0, 0, 0, ToU64(v), rest);
    U64RoundTrip(v, 0);
  }

  lemma DoubleBodyEncoded(b: u64, rest: seq<u8>)
    ensures ReadConstantBody(TAG_DOUBLE, Bytes(b, 8) + rest) == Ok(Read(Double(b), rest))
  {
    ReadUintEncoded(0, 0, 0, b, rest);
  }

  lemma Utf8BodyEncoded(s: string, rest: seq<u8>)
    requires Utf8(s).Encodable()
    ensures ReadConstantBody(TAG_UTF8, U16Bytes(|s|) + CharBytes(s) + rest) == Ok(Read(Utf8(s), rest))
  {
    var tail := CharBytes(s) + rest;
    assert U16Bytes(|s|) + CharBytes(s) + rest == U16Bytes(|s|) + tail;
    ReadUintEncoded(0, |s|, 0, 0, tail);
    assert tail[..|s|] == CharBytes(s);
    assert tail[|s|..] == rest;
    assert Chars(CharBytes(s)) == s;
  }

  lemma IndexBodyEncoded(tag: u8, i: u16, rest: seq<u8>)
    requires IsIndexTag(tag)
    ensures ReadConstantBody(tag, U16Bytes(i) + rest) == Ok(Read(IndexConstant(tag, i), rest))
  {
    ReadUintEncoded(0, i, 0, 0, rest);
  }

  lemma MethodHandleBodyEncoded(k: u8, i: u16, rest: seq<u8>)
    ensures ReadConstantBody(TAG_METHOD_HANDLE, [k] + U16Bytes(i) + rest) == Ok(Read(MethodHandle(k, i), rest))
  {
    var tail := U16Bytes(i) + rest;
    assert [k] + U16Bytes(i) + rest == [k] + tail;
    ReadUintEncoded(k, i, 0, 0, rest);
    assert ([k] + tail)[1..] == tail;
  }

  lemma PairBodyEncoded(tag: u8, a: u16, b: u16, rest: seq<u8>)
    requires IsPairTag(tag)
    ensures ReadConstantBody(tag, U16Bytes(a) + U16Bytes(b) + rest) == Ok(Read(PairConstant(tag, a, b), rest))
  {
    ReadPairEncoded(a, b, rest);
  }

  // ---------------------------------------------------------------------------
  // Reading the table

  /** Entries i .. count-1 of a pool whose entries 0 .. i-1 are `acc`. */
  function ReadEntries(data: seq<u8>, i: nat, count: nat, acc: ConstantPool): (r: Result<Read<ConstantPool>>)
    requires 1 <= i <= count && |acc| == i && WellFormed(acc)
    requires i < count ==> !acc[i - 1].IsWide()
    ensures r.Ok? ==> |r.value.value| == count && WellFormed(r.value.value)
    ensures r.Ok? ==> acc <= r.value.value
    decreases count - i, 1
  {
    if i == count then Ok(Read(acc, data))
    else
      var Read(c, rest) :- ReadConstantInfo(data);
      ReadEntriesAfter(rest, i, count, acc, c)
  }

  /** The table after entry `c` was read into index i. After a Long or Double
      the next index is left empty; one in the last index simply ends the table. */
  function ReadEntriesAfter(data: seq<u8>, i: nat, count: nat, acc: ConstantPool, c: ConstantInfo)
    : (r: Result<Read<ConstantPool>>)
    requires 1 <= i < count && |acc| == i && WellFormed(acc) && !acc[i - 1].IsWide() && !c.Empty?
    ensures r.Ok? ==> |r.value.value| == count && WellFormed(r.value.value)
    ensures r.Ok? ==> acc + [c] <= r.value.value
    decreases count - i, 0
  {
    AppendEntry(acc, c);
    if c.IsWide() && i + 1 < count then
      var r := ReadEntries(data, i + 2, count, acc + [c, Empty]);
      assert r.Ok? ==> acc + [c] <= acc + [c, Empty] <= r.value.value;
      r
    else
      ReadEntries(data, i + 1, count, acc + [c])
  }

  /** Appending a non-empty entry after a narrow one, and an empty index after a
      wide one, keeps the shape of a pool. */
  lemma AppendEntry(acc: ConstantPool, c: ConstantInfo)
    requires |acc| >= 1 && WellFormed(acc) && !acc[|acc| - 1].IsWide() && !c.Empty?
    ensures WellFormed(acc + [c])
    ensures c.IsWide() ==> WellFormed(acc + [c, Empty])
  {
    var a := acc + [c];
    assert forall k :: 1 <= k < |a| ==> (a[k].Empty? <==> a[k - 1].IsWide()) by {
      forall k | 1 <= k < |a|
        ensures a[k].Empty? <==> a[k - 1].IsWide()
      {
        if k < |acc| {
          assert a[k] == acc[k] && a[k - 1] == acc[k - 1];
        }
      }
    }
    if c.IsWide() {
      var b := acc + [c, Empty];
      forall k | 1 <= k < |b|
        ensures b[k].Empty? <==> b[k - 1].IsWide()
      {
        if k < |a| {
          assert b[k] == a[k] && b[k - 1] == a[k - 1];
        }
      }
    }
  }

  /** `readConstantPool`: a u2 count, then entries from index 1 on. */
  function ReadConstantPool(data: seq<u8>): (r: Result<Read<ConstantPool>>)
    ensures r.Ok? ==> WellFormed(r.value.value)
    ensures r.Ok? ==> |data| >= 2 && |r.value.value| == BigEndian(data[..2])
  {
    var Read(n, rest) :- ReadUint16(data);
    assert BigEndian(data[..2]) == n by {
      assert data[..2] == U16Bytes(n);
      BigEndianOfBytes(n, 2);
      Pow256Values();
    }
    if n == 0 then Ok(Read([], rest)) else ReadEntries(rest, 1, n, [Empty])
  }

  /** The encoding of entries i .. |cp|-1, skipping the empty ones. */
  function EncodeEntries(cp: ConstantPool, i: nat): (bs: seq<u8>)
    requires forall k :: 0 <= k < |cp| && !cp[k].Empty? ==> cp[k].Encodable()
    decreases |cp| - i
  {
    if i >= |cp| then []
    else if cp[i].Empty? then EncodeEntries(cp, i + 1)
    else EncodeConstant(cp[i]) + EncodeEntries(cp, i + 1)
  }

  /** A well-formed pool whose entries a class file can carry. */
  predicate Encodable(cp: ConstantPool) {
    && WellFormed(cp)
    && |cp| < TWO_16
    && forall k :: 0 <= k < |cp| && !cp[k].Empty? ==> cp[k].Encodable()
  }

  function EncodeConstantPool(cp: ConstantPool): (bs: seq<u8>)
    requires Encodable(cp)
  {
    U16Bytes(|cp|) + EncodeEntries(cp, 1)
  }

  lemma {:induction false} ReadEntriesEncoded(cp: ConstantPool, i: nat, rest: seq<u8>)
    requires Encodable(cp) && 1 <= i <= |cp|
    requires i < |cp| ==> !cp[i - 1].IsWide()
    ensures ReadEntries(EncodeEntries(cp, i) + rest, i, |cp|, cp[..i]) == Ok(Read(cp, rest))
    decreases |cp| - i, 1
  {
    if i == |cp| {
      assert cp[..i] == cp;
      assert EncodeEntries(cp, i) + rest == rest;
    } else {
      var c := cp[i];
      var tail := EncodeEntries(cp, i + 1) + rest;
      assert EncodeEntries(cp, i) + rest == EncodeConstant(c) + tail;
      assert ReadEntries(EncodeConstant(c) + tail, i, |cp|, cp[..i])
          == ReadEntriesAfter(tail, i, |cp|, cp[..i], c) by {
        ReadConstantInfoEncoded(c, tail);
      }
      ReadEntriesAfterEncoded(cp, i, rest);
    }
  }

  /** The step after entry i: the index after a wide entry is skipped. */
  lemma {:induction false} ReadEntriesAfterEncoded(cp: ConstantPool, i: nat, rest: seq<u8>)
    requires Encodable(cp) && 1 <= i < |cp| && !cp[i - 1].IsWide()
    ensures ReadEntriesAfter(EncodeEntries(cp, i + 1) + rest, i, |cp|, cp[..i], cp[i]) == Ok(Read(cp, rest))
    decreases |cp| - i, 0
  {
    var c := cp[i];
    PrefixStep(cp, i);
    if c.IsWide() && i + 1 < |cp| {
      assert EncodeEntries(cp, i + 1) == EncodeEntries(cp, i + 2);
      ReadEntriesEncoded(cp, i + 2, rest);
    } else {
      ReadEntriesEncoded(cp, i + 1, rest);
    }
  }

  /** Reading the encoding of a pool gives back the pool, whatever follows it. */
  lemma ReadConstantPoolEncoded(cp: ConstantPool, rest: seq<u8>)
    requires Encodable(cp)
    ensures ReadConstantPool(EncodeConstantPool(cp) + rest) == Ok(Read(cp, rest))
  {
    var body := EncodeEntries(cp, 1) + rest;
    assert EncodeConstantPool(cp) + rest == U16Bytes(|cp|) + body;
    ReadUintEncoded(0, |cp|, 0, 0, body);
    if |cp| == 0 {
      assert EncodeEntries(cp, 1) == [];
      assert body == rest;
    } else {
      assert cp[..1] == [Empty];
      ReadEntriesEncoded(cp, 1, rest);
    }
  }

  // ---------------------------------------------------------------------------
  // Lookups

  /** `getConstantInfo` */
  function GetConstantInfo(cp: ConstantPool, index: u16): (r: Result<ConstantInfo>)
    ensures r.Ok? <==> index < |cp| && !cp[index].Empty?
    ensures r.Ok? ==> r.value == cp[index]
    ensures index < |cp| && cp[index].Empty? ==> r == Err(InvalidIndex)
  {
    if index as int >= |cp| then Err(OutOfRange)
    else if cp[index].Empty? then Err(InvalidIndex)
    else Ok(cp[index])
  }

  /** In a pool as read from a class file, index 0 and the index after each
      Long or Double are the ones a lookup refuses. */
  lemma InvalidIndices(cp: ConstantPool, index: u16)
    requires WellFormed(cp) && index < |cp|
    ensures GetConstantInfo(cp, index) == Err(InvalidIndex) <==>
      (index == 0 || cp[index - 1].IsWide())
  {
  }

  /** `getUtf8` */
  function GetUtf8(cp: ConstantPool, index: u16): (r: Result<string>)
    ensures r.Ok? <==> index < |cp| && cp[index].Utf8?
    ensures r.Ok? ==> r.value == cp[index].str
  {
    var c :- GetConstantInfo(cp, index);
    if c.Utf8? then Ok(c.str) else Err(BadAssertion)
  }

  /** `getClassName`: the Utf8 entry named by a Class entry. */
  function GetClassName(cp: ConstantPool, index: u16): (r: Result<string>)
    ensures r.Ok? <==> index < |cp| && cp[index].ClassInfo? && GetUtf8(cp, cp[index].nameIndex).Ok?
    ensures r.Ok? ==> r.value == cp[cp[index].nameIndex].str
  {
    var c :- GetConstantInfo(cp, index);
    if c.ClassInfo? then GetUtf8(cp, c.nameIndex) else Err(BadAssertion)
  }

  /** `getNameAndType`: the two Utf8 entries named by a NameAndType entry. */
  function GetNameAndType(cp: ConstantPool, index: u16): (r: Result<(string, string)>)
    ensures r.Ok? <==>
      && index < |cp| && cp[index].NameAndType?
      && GetUtf8(cp, cp[index].nameIndex).Ok? && GetUtf8(cp, cp[index].descriptorIndex).Ok?
    ensures r.Ok? ==> r.value == (cp[cp[index].nameIndex].str, cp[cp[index].descriptorIndex].str)
  {
    var c :- GetConstantInfo(cp, index);
    if !c.NameAndType? then Err(BadAssertion)
    else
      var name :- GetUtf8(cp, c.nameIndex);
      var desc :- GetUtf8(cp, c.descriptorIndex);
      Ok((name, desc))
  }
}

=== FILE: control_instructions.dfy ===
/** The branching instructions: the int and reference comparisons, the null
    tests, GOTO and GOTO_W, and the two switches.

    A branch sets the frame's next pc to the thread's pc (the pc of the
    instruction being executed) plus the offset; an instruction that does not
    branch leaves the next pc where operand fetching put it. */
module ControlInstructions {
  import opened Wrappers
  import opened MachineInts
  import opened Slots
  import opened Frames
  import opened Bytecode

  /** `base.Branch`: the next pc becomes the thread's pc plus the offset. */
  function Branch(f: Frame, threadPc: int, offset: int): (r: Frame)
    ensures r.nextPC == threadPc + offset
    ensures r.(nextPC := f.nextPC) == f
  {
    f.(nextPC := threadPc + offset)
  }

  /** The frame lost its n top operand slots and, apart from the next pc,
      nothing else. */
  predicate Popped(f: Frame, f': Frame, n: nat) {
    StackEffect(f, f'.(nextPC := f.nextPC), n, [])
  }

  /** Either f' is f after a branch by offset, or f' falls through. */
  function BranchIf(f: Frame, threadPc: int, taken: bool, offset: int): (r: Frame)
    ensures r.nextPC == if taken then threadPc + offset else f.nextPC
    ensures r.(nextPC := f.nextPC) == f
  {
    if taken then Branch(f, threadPc, offset) else f
  }

  // ---------------------------------------------------------------------------
  // IF_ICMP<cond>

  datatype Cond = Eq | Ne | Lt | Ge | Gt | Le

  predicate Holds(c: Cond, v1: i32, v2: i32) {
    match c
    case Eq => v1 == v2
    case Ne => v1 != v2
    case Lt => v1 < v2
    case Ge => v1 >= v2
    case Gt => v1 > v2
    case Le => v1 <= v2
  }

  /** The condition of the other instruction of a pair: EQ/NE, LT/GE, GT/LE. */
  function Negate(c: Cond): Cond {
    match c
    case Eq => Ne
    case Ne => Eq
    case Lt => Ge
    case Ge => Lt
    case Gt => Le
    case Le => Gt
  }

  /** `_getTwoNum` pops val2 and then val1; the instruction branches by the
      offset exactly when the condition holds for (val1, val2). Two ints are
      popped either way. */
  function ExecIfIcmp(f: Frame, threadPc: int, c: Cond, offset: int): (r: Result<Frame>)
    ensures r.Ok? <==> |f.stack.slots| >= 2
    ensures r.Ok? ==> Popped(f, r.value, 2)
    ensures r.Ok? ==> (r.value.nextPC ==
      if Holds(c, IntFromTop(f.stack, 1), IntFromTop(f.stack, 0)) then threadPc + offset else f.nextPC)
  {
    var p2 :- PopInt(f.stack);
    var p1 :- PopInt(p2.1);
    Ok(BranchIf(f.(stack := p1.1), threadPc, Holds(c, p1.0, p2.0), offset))
  }

  /** The two instructions of a pair pop the same operands, and exactly one
      of them branches: the other falls through. */
  lemma {:induction false} IfIcmpPairs(f: Frame, threadPc: int, c: Cond, offset: int)
    requires |f.stack.slots| >= 2
    ensures Negate(Negate(c)) == c
    ensures ExecIfIcmp(f, threadPc, c, offset).Ok? && ExecIfIcmp(f, threadPc, Negate(c), offset).Ok?
    ensures var a, b := ExecIfIcmp(f, threadPc, c, offset).value, ExecIfIcmp(f, threadPc, Negate(c), offset).value;
      a.(nextPC := 0) == b.(nextPC := 0) &&
      (if Holds(c, IntFromTop(f.stack, 1), IntFromTop(f.stack, 0))
       then a.nextPC == threadPc + offset && b.nextPC == f.nextPC
       else a.nextPC == f.nextPC && b.nextPC == threadPc + offset)
  {
  }

  // ---------------------------------------------------------------------------
  // IF_ACMPEQ, IF_ACMPNE, IFNULL, IFNONNULL

  /** IF_ACMPEQ (`eq`) and IF_ACMPNE: pop ref2 and ref1 and branch when they
      are the same reference, or when they differ. */
  function ExecIfAcmp(f: Frame, threadPc: int, eq: bool, offset: int): (r: Result<Frame>)
    ensures r.Ok? <==> |f.stack.slots| >= 2
    ensures r.Ok? ==> Popped(f, r.value, 2)
    ensures r.Ok? ==> (r.value.nextPC ==
      if (SlotFromTop(f.stack, 1).ref == SlotFromTop(f.stack, 0).ref) == eq then threadPc + offset else f.nextPC)
  {
    var p2 :- PopRef(f.stack);
    var p1 :- PopRef(p2.1);
    Ok(BranchIf(f.(stack := p1.1), threadPc, (p1.0 == p2.0) == eq, offset))
  }

  /** IFNULL (`isNull`) and IFNONNULL: pop a reference and branch when it is
      null, or when it is not. */
  function ExecIfNull(f: Frame, threadPc: int, isNull: bool, offset: int): (r: Result<Frame>)
    ensures r.Ok? <==> |f.stack.slots| >= 1
    ensures r.Ok? ==> Popped(f, r.value, 1)
    ensures r.Ok? ==> (r.value.nextPC ==
      if SlotFromTop(f.stack, 0).ref.Null? == isNull then threadPc + offset else f.nextPC)
  {
    var p :- PopRef(f.stack);
    Ok(BranchIf(f.(stack := p.1), threadPc, p.0.Null? == isNull, offset))
  }

  /** For the same operands exactly one of IF_ACMPEQ and IF_ACMPNE branches,
      and exactly one of IFNULL and IFNONNULL. */
  lemma RefTestPairs(f: Frame, threadPc: int, offset: int)
    requires |f.stack.slots| >= 1 && threadPc + offset != f.nextPC
    ensures ExecIfNull(f, threadPc, true, offset).value.nextPC == f.nextPC
      <==> ExecIfNull(f, threadPc, false, offset).value.nextPC != f.nextPC
    ensures |f.stack.slots| >= 2 ==>
      (ExecIfAcmp(f, threadPc, true, offset).value.nextPC == f.nextPC
      <==> ExecIfAcmp(f, threadPc, false, offset).value.nextPC != f.nextPC)
  {
  }

  // ---------------------------------------------------------------------------
  // GOTO_W

  /** `GOTO_W.FetchOperands`: a signed 32-bit offset in four bytes. */
  function FetchGotoW(r: Reader): (res: Result<(int, Reader)>)
    ensures res.Ok? <==> Available(r, 4)
    ensures res.Ok? ==> res.value.0 == Int32At(r.code, r.pc) && res.value.1 == r.(pc := r.pc + 4)
  {
    var p :- ReadInt32(r);
    ReadInt32Is(r, p.0);
    Ok((p.0 as int, p.1))
  }

  /** `GOTO_W.Execute` (and `GOTO`): always branches; the stack and the locals
      are left alone. */
  function ExecGoto(f: Frame, threadPc: int, offset: int): (r: Frame)
    ensures Popped(f, r, 0) && r.nextPC == threadPc + offset
  {
    Branch(f, threadPc, offset)
  }

  // ---------------------------------------------------------------------------
  // TABLESWITCH

  datatype TableSwitch = TableSwitch(defaultOffset: i32, low: i32, high: i32, jumpOffsets: seq<i32>)

  /** The pc of the default offset: after the padding. */
  function SwitchBase(r: Reader): int {
    r.pc + Padding(r.pc)
  }

  /** The number of jump offsets, `high - low + 1` in 32-bit arithmetic. */
  function JumpCount(low: i32, high: i32): i32 {
    Wrap32(high - low + 1)
  }

  /** `SkipPadding` followed by n ints: the header of a switch, read from the
      first multiple of 4 at or after the pc. */
  function SwitchHeader(r: Reader, n: nat): (res: Result<(seq<i32>, Reader)>)
    requires n > 0
    ensures res.Ok? <==> (r.pc % 4 == 0 || Available(r, Padding(r.pc))) && Available(r.(pc := SwitchBase(r)), 4 * n)
    ensures res.Ok? ==> |res.value.0| == n && Aligned(SwitchBase(r)) && IntsAt(r.code, SwitchBase(r), res.value.0)
    ensures res.Ok? ==> res.value.1 == r.(pc := SwitchBase(r) + 4 * n)
  {
    PaddingSpec(r.pc);
    var r1 :- SkipPadding(r);
    ReadInts(r1, n)
  }

  /** `TABLE_SWITCH.FetchOperands`: skip to a multiple of 4, read default, low
      and high, then `high - low + 1` jump offsets. */
  function FetchTableSwitch(r: Reader): (res: Result<(TableSwitch, Reader)>)
    ensures res.Ok? ==> SwitchHeader(r, 3).Ok?
    ensures res.Ok? ==> var b := SwitchBase(r); var t := res.value.0;
      && Aligned(b) && 0 <= b && b + 12 <= |r.code|
      && t.defaultOffset == Int32At(r.code, b) && t.low == Int32At(r.code, b + 4) && t.high == Int32At(r.code, b + 8)
      && |t.jumpOffsets| == JumpCount(t.low, t.high)
      && (|t.jumpOffsets| > 0 ==> IntsAt(r.code, b + 12, t.jumpOffsets))
      && res.value.1 == r.(pc := b + 12 + 4 * |t.jumpOffsets|)
    ensures SwitchHeader(r, 3).Ok? && JumpCount(SwitchHeader(r, 3).value.0[1], SwitchHeader(r, 3).value.0[2]) < 0
      ==> res == Err(BadLength)
  {
    var hd :- SwitchHeader(r, 3);
    var offsets :- ReadInt32s(hd.1, JumpCount(hd.0[1], hd.0[2]));
    Ok((TableSwitch(hd.0[0], hd.0[1], hd.0[2], offsets.0), offsets.1))
  }

  /** `TABLE_SWITCH.Execute`: pops the index; inside [low, high] it branches
      by the jump offset at `index - low` (a slice index out of range stops
      it), and otherwise by the default offset. */
  function ExecTableSwitch(f: Frame, threadPc: int, t: TableSwitch): (r: Result<Frame>)
    ensures |f.stack.slots| == 0 ==> r.Err?
    ensures r.Ok? ==> Popped(f, r.value, 1)
    ensures r.Ok? && !(t.low <= IntFromTop(f.stack, 0) <= t.high) ==> r.value.nextPC == threadPc + t.defaultOffset
  {
    var p :- PopInt(f.stack);
    var g := f.(stack := p.1);
    if t.low <= p.0 <= t.high then
      var k := Wrap32(p.0 - t.low);
      if 0 <= k < |t.jumpOffsets| then Ok(Branch(g, threadPc, t.jumpOffsets[k])) else Err(OutOfRange)
    else Ok(Branch(g, threadPc, t.defaultOffset))
  }

  /** On a table as fetched whose range does not wrap, an index in range
      branches by `jumpOffsets[index - low]`: popping one int and branching
      never fails. */
  lemma TableSwitchSelects(f: Frame, threadPc: int, t: TableSwitch)
    requires |f.stack.slots| >= 1 && t.low <= t.high && t.high - t.low + 1 < TWO_31
    requires |t.jumpOffsets| == JumpCount(t.low, t.high)
    ensures ExecTableSwitch(f, threadPc, t).Ok?
    ensures var i := IntFromTop(f.stack, 0);
      ExecTableSwitch(f, threadPc, t).value.nextPC ==
        threadPc + if t.low <= i <= t.high then t.jumpOffsets[i - t.low] else t.defaultOffset
  {
  }

  // ---------------------------------------------------------------------------
  // LOOKUPSWITCH

  datatype LookupSwitch = LookupSwitch(defaultOffset: i32, npairs: i32, matchOffsets: seq<i32>)

  /** The number of ints after npairs, `npairs * 2` in 32-bit arithmetic. */
  function PairInts(npairs: i32): i32 {
    Wrap32(npairs * 2)
  }

  /** `LOOKUP_SWITCH.FetchOperands`: skip to a multiple of 4, read default
      and npairs, then `npairs * 2` ints, keys and offsets alternating. */
  function FetchLookupSwitch(r: Reader): (res: Result<(LookupSwitch, Reader)>)
    ensures res.Ok? ==> SwitchHeader(r, 2).Ok?
    ensures res.Ok? ==> var b := SwitchBase(r); var t := res.value.0;
      && Aligned(b) && 0 <= b && b + 8 <= |r.code|
      && t.defaultOffset == Int32At(r.code, b) && t.npairs == Int32At(r.code, b + 4)
      && |t.matchOffsets| == PairInts(t.npairs)
      && (|t.matchOffsets| > 0 ==> IntsAt(r.code, b + 8, t.matchOffsets))
      && res.value.1 == r.(pc := b + 8 + 4 * |t.matchOffsets|)
    ensures SwitchHeader(r, 2).Ok? && PairInts(SwitchHeader(r, 2).value.0[1]) < 0 ==> res == Err(BadLength)
  {
    var hd :- SwitchHeader(r, 2);
    var ints :- ReadInt32s(hd.1, PairInts(hd.0[1]));
    Ok((LookupSwitch(hd.0[0], hd.0[1], ints.0), ints.1))
  }

  /** The key of pair k. */
  function PairKey(m: seq<i32>, k: nat): i32
    requires 2 * k < |m|
  {
    m[2 * k]
  }

  /** The loop `for i := 0; i < npairs*2; i += 2` from index i on: the offset
      after the first key equal to `key`, `None` when the loop ends without
      one, and a fault when it indexes past the ints. */
  function MatchFrom(m: seq<i32>, key: i32, i: nat, limit: int): (res: Result<Option<i32>>)
    decreases limit - i
  {
    if i >= limit then Ok(None)
    else if i >= |m| then Err(OutOfRange)
    else if m[i] == key then (if i + 1 < |m| then Ok(Some(m[i + 1])) else Err(OutOfRange))
    else MatchFrom(m, key, i + 2, limit)
  }

  /** Pair j is the first whose key is `key`. */
  predicate FirstMatch(m: seq<i32>, key: i32, j: nat) {
    2 * j + 1 < |m| && PairKey(m, j) == key && forall k :: 0 <= k < j ==> PairKey(m, k) != key
  }

  lemma FirstMatchUnique(m: seq<i32>, key: i32, i: nat, j: nat)
    requires FirstMatch(m, key, i) && FirstMatch(m, key, j)
    ensures i == j
  {
  }

  /** Over an even number of ints, the search finds the offset of the first
      pair with the key, or reports none when no pair has it. */
  lemma {:induction false} MatchFromSpec(m: seq<i32>, key: i32, p: nat)
    requires |m| % 2 == 0 && 2 * p <= |m|
    requires forall k :: 0 <= k < p ==> PairKey(m, k) != key
    ensures MatchFrom(m, key, 2 * p, |m|).Ok?
    ensures MatchFrom(m, key, 2 * p, |m|).value.Some? <==> exists j :: FirstMatch(m, key, j)
    ensures forall j :: FirstMatch(m, key, j) ==> MatchFrom(m, key, 2 * p, |m|) == Ok(Some(m[2 * j + 1]))
    decreases |m| - 2 * p
  {
    if 2 * p >= |m| {
      forall j: nat | FirstMatch(m, key, j)
        ensures false
      {
      }
    } else if PairKey(m, p) == key {
      assert FirstMatch(m, key, p);
      forall j: nat | FirstMatch(m, key, j)
        ensures j == p
      {
        FirstMatchUnique(m, key, j, p);
      }
    } else {
      MatchFromSpec(m, key, p + 1);
      assert 2 * (p + 1) == 2 * p + 2;
    }
  }

  /** `LOOKUP_SWITCH.Execute`: pops the key and branches once, by the offset
      of the first pair with that key or, with none, by the default offset. */
  function ExecLookupSwitch(f: Frame, threadPc: int, t: LookupSwitch): (r: Result<Frame>)
    ensures |f.stack.slots| == 0 ==> r.Err?
    ensures r.Ok? ==> Popped(f, r.value, 1)
  {
    var p :- PopInt(f.stack);
    var g := f.(stack := p.1);
    var found :- MatchFrom(t.matchOffsets, p.0, 0, PairInts(t.npairs));
    Ok(Branch(g, threadPc, if found.Some? then found.value else t.defaultOffset))
  }

  /** On a table as fetched (`npairs * 2` ints), the first pair with the key
      wins, and with no such pair the default offset is taken. */
  lemma LookupSwitchSelects(f: Frame, threadPc: int, t: LookupSwitch)
    requires |f.stack.slots| >= 1 && |t.matchOffsets| == PairInts(t.npairs)
    ensures ExecLookupSwitch(f, threadPc, t).Ok?
    ensures var key := IntFromTop(f.stack, 0);
      forall j :: FirstMatch(t.matchOffsets, key, j) ==>
        ExecLookupSwitch(f, threadPc, t).value.nextPC == threadPc + t.matchOffsets[2 * j + 1]
    ensures var key := IntFromTop(f.stack, 0);
      (forall j :: !FirstMatch(t.matchOffsets, key, j)) ==>
        ExecLookupSwitch(f, threadPc, t).value.nextPC == threadPc + t.defaultOffset
  {
    PairIntsEven(t.npairs);
    MatchFromSpec(t.matchOffsets, IntFromTop(f.stack, 0), 0);
  }

  /** `npairs * 2` stays even when it wraps. */
  lemma PairIntsEven(n: i32)
    ensures PairInts(n) % 2 == 0
  {
  }
}

=== FILE: decimal.dfy ===
/** Decimal rendering of integers, as Go's `%d` verb writes them in the panic
    message of `GetConstant` and in stack-trace lines. */
module Decimal {

  predicate IsDigit(c: char) {
    '0' <= c <= '9'
  }

  function DigitChar(d: nat): (c: char)
    requires d < 10
    ensures IsDigit(c) && (c as int) - ('0' as int) == d
  {
    ('0' as int + d) as char
  }

  /** The shortest decimal digit string of n. */
  function NatToString(n: nat): (s: string)
    ensures |s| > 0 && forall i :: 0 <= i < |s| ==> IsDigit(s[i])
    ensures |s| > 1 ==> s[0] != '0'
    decreases n
  {
    if n < 10 then [DigitChar(n)] else NatToString(n / 10) + [DigitChar(n % 10)]
  }

  /** `%d`: a minus sign before the digits of a negative number. */
  function IntToString(i: int): (s: string)
    ensures i >= 0 ==> s == NatToString(i)
    ensures i < 0 ==> s == "-" + NatToString(-i)
  {
    if i < 0 then "-" + NatToString(-i) else NatToString(i)
  }

  /** The number a digit string denotes. */
  function DigitsValue(s: string): (n: nat)
    requires forall i :: 0 <= i < |s| ==> IsDigit(s[i])
    decreases |s|
  {
    if |s| == 0 then 0
    else
      assert IsDigit(s[|s| - 1]);
      DigitsValue(s[..|s| - 1]) * 10 + ((s[|s| - 1] as int) - ('0' as int))
  }

  /** Reading the digits back gives the number, so distinct numbers render
      differently. */
  lemma {:induction false} NatToStringRoundTrip(n: nat)
    ensures DigitsValue(NatToString(n)) == n
    decreases n
  {
    if n >= 10 {
      NatToStringRoundTrip(n / 10);
      var s := NatToString(n);
      assert s[..|s| - 1] == NatToString(n / 10);
    }
  }

  lemma NatToStringInjective(a: nat, b: nat)
    ensures NatToString(a) == NatToString(b) ==> a == b
  {
    NatToStringRoundTrip(a);
    NatToStringRoundTrip(b);
  }
}

=== FILE: frames.dfy ===
/** Runtime data areas of a thread: the operand stack of a frame, the frame
    itself, the bounded stack of frames and the thread that owns it.

    The Go frames are linked through a `lower` pointer and mutated in place;
    here a frame stack is the sequence of its frames from the bottom up, and
    every operation returns the new value. A frame names its method by the
    `MemberKey` of the method in the heap, which also gives the class whose
    constant pool the frame's instructions use.

    The operand stack is a sequence of the live slots bounded by the method's
    `maxStack`: pushing onto a full stack or popping an empty one indexes
    outside the Go slice, which is `Err(OutOfRange)`. */
module Frames {
  import opened Wrappers
  import opened MachineInts
  import opened Slots
  import opened Heaps
  import opened ClassMembers

  /** Messages of the panics of the frame stack. */
  const StackEmpty := "jvm stack is empty"
  const StackEmptyAtTop := "jvm stack is empty!"

  /** The maximum depth of the frame stack of a new thread. */
  const MaxFrames: nat := 1024

  // ---------------------------------------------------------------------------
  // Operand stack

  datatype OperandStack = OperandStack(slots: Slots, maxStack: nat)

  predicate StackFits(s: OperandStack) {
    |s.slots| <= s.maxStack
  }

  /** `newOperandStack(maxStack)`: an empty stack of maxStack slots. */
  function NewOperandStack(maxStack: nat): (s: OperandStack)
    ensures StackFits(s) && |s.slots| == 0 && s.maxStack == maxStack
  {
    OperandStack([], maxStack)
  }

  function PushSlot(s: OperandStack, slot: Slot): (r: Result<OperandStack>)
    ensures r.Ok? <==> |s.slots| < s.maxStack
    ensures r.Ok? ==> r.value.slots == s.slots + [slot] && r.value.maxStack == s.maxStack
  {
    if |s.slots| < s.maxStack then Ok(s.(slots := s.slots + [slot])) else Err(OutOfRange)
  }

  function PopSlot(s: OperandStack): (r: Result<(Slot, OperandStack)>)
    ensures r.Ok? <==> |s.slots| > 0
    ensures r.Ok? ==> r.value.1.slots + [r.value.0] == s.slots && r.value.1.maxStack == s.maxStack
  {
    if |s.slots| > 0 then Ok((s.slots[|s.slots| - 1], s.(slots := s.slots[..|s.slots| - 1])))
    else Err(OutOfRange)
  }

  function PushInt(s: OperandStack, v: i32): (r: Result<OperandStack>)
  {
    PushSlot(s, Slot(v, Null))
  }

  function PopInt(s: OperandStack): (r: Result<(i32, OperandStack)>)
    ensures r.Ok? <==> |s.slots| > 0
  {
    var p :- PopSlot(s);
    Ok((p.0.num, p.1))
  }

  /** A float travels as its bit pattern reinterpreted as an int32. */
  function PushFloat(s: OperandStack, bits: u32): (r: Result<OperandStack>)
  {
    PushInt(s, Wrap32(bits))
  }

  function PopFloat(s: OperandStack): (r: Result<(u32, OperandStack)>)
    ensures r.Ok? <==> |s.slots| > 0
  {
    var p :- PopInt(s);
    Ok((ToU32(p.0), p.1))
  }

  /** A long takes two slots, the low half pushed first. */
  function PushLong(s: OperandStack, v: i64): (r: Result<OperandStack>)
  {
    var s1 :- PushInt(s, LongToHalves(v).0);
    PushInt(s1, LongToHalves(v).1)
  }

  function PopLong(s: OperandStack): (r: Result<(i64, OperandStack)>)
    ensures r.Ok? <==> |s.slots| > 1
  {
    var high :- PopInt(s);
    var low :- PopInt(high.1);
    Ok((HalvesToLong(low.0, high.0), low.1))
  }

  function PushDouble(s: OperandStack, bits: u64): (r: Result<OperandStack>)
  {
    PushLong(s, Wrap64(bits))
  }

  function PopDouble(s: OperandStack): (r: Result<(u64, OperandStack)>)
    ensures r.Ok? <==> |s.slots| > 1
  {
    var p :- PopLong(s);
    Ok((ToU64(p.0), p.1))
  }

  function PushRef(s: OperandStack, ref: Ref): (r: Result<OperandStack>)
  {
    PushSlot(s, Slot(0, ref))
  }

  function PopRef(s: OperandStack): (r: Result<(Ref, OperandStack)>)
    ensures r.Ok? <==> |s.slots| > 0
  {
    var p :- PopSlot(s);
    Ok((p.0.ref, p.1))
  }

  /** `GetRefFromTop(n)`: the reference n slots below the top, 0 being the top. */
  function GetRefFromTop(s: OperandStack, n: nat): (r: Result<Ref>)
    ensures r.Ok? <==> n < |s.slots|
    ensures r.Ok? ==> r.value == s.slots[|s.slots| - 1 - n].ref
  {
    if n < |s.slots| then Ok(s.slots[|s.slots| - 1 - n].ref) else Err(OutOfRange)
  }

  /** `Clear`: no live slot remains. */
  function ClearStack(s: OperandStack): (r: OperandStack)
    ensures r.slots == [] && r.maxStack == s.maxStack
  {
    s.(slots := [])
  }

  /** Pops the top n slots at once, returned in the order they were pushed. */
  function PopSlots(s: OperandStack, n: nat): (r: Result<(Slots, OperandStack)>)
    ensures r.Ok? <==> n <= |s.slots|
    ensures r.Ok? ==> |r.value.0| == n && r.value.1.slots + r.value.0 == s.slots
    ensures r.Ok? ==> r.value.1.maxStack == s.maxStack
  {
    if n <= |s.slots| then
      var k := |s.slots| - n;
      assert s.slots[..k] + s.slots[k..] == s.slots;
      Ok((s.slots[k..], s.(slots := s.slots[..k])))
    else Err(OutOfRange)
  }

  // ---------------------------------------------------------------------------
  // Every push is undone by the matching pop

  lemma SlotRoundTrip(s: OperandStack, slot: Slot)
    requires |s.slots| < s.maxStack
    ensures PopSlot(PushSlot(s, slot).value) == Ok((slot, s))
  {
    assert (s.slots + [slot])[..|s.slots|] == s.slots;
  }

  lemma IntRoundTrip(s: OperandStack, v: i32)
    requires |s.slots| < s.maxStack
    ensures PopInt(PushInt(s, v).value) == Ok((v, s))
  {
    SlotRoundTrip(s, Slot(v, Null));
  }

  lemma FloatRoundTrip(s: OperandStack, bits: u32)
    requires |s.slots| < s.maxStack
    ensures PopFloat(PushFloat(s, bits).value) == Ok((bits, s))
  {
    IntRoundTrip(s, Wrap32(bits));
    U32RoundTrip(0, bits);
  }

  lemma LongRoundTrip(s: OperandStack, v: i64)
    requires |s.slots| + 1 < s.maxStack
    ensures PushLong(s, v).Ok?
    ensures PopLong(PushLong(s, v).value) == Ok((v, s))
  {
    var s1 := PushInt(s, LongToHalves(v).0).value;
    IntRoundTrip(s, LongToHalves(v).0);
    IntRoundTrip(s1, LongToHalves(v).1);
    LongHalvesRoundTrip(v);
  }

  lemma DoubleRoundTrip(s: OperandStack, bits: u64)
    requires |s.slots| + 1 < s.maxStack
    ensures PushDouble(s, bits).Ok?
    ensures PopDouble(PushDouble(s, bits).value) == Ok((bits, s))
  {
    LongRoundTrip(s, Wrap64(bits));
    U64RoundTrip(0, bits);
  }

  lemma RefRoundTrip(s: OperandStack, ref: Ref)
    requires |s.slots| < s.maxStack
    ensures PopRef(PushRef(s, ref).value) == Ok((ref, s))
    ensures GetRefFromTop(PushRef(s, ref).value, 0) == Ok(ref)
  {
    SlotRoundTrip(s, Slot(0, ref));
  }

  /** A push onto a full stack fails and a long needs two free slots. */
  lemma PushBounds(s: OperandStack, v: i32, w: i64)
    ensures PushInt(s, v).Ok? <==> |s.slots| < s.maxStack
    ensures PushLong(s, w).Ok? <==> |s.slots| + 1 < s.maxStack
    ensures PushLong(s, w).Ok? ==> |PushLong(s, w).value.slots| == |s.slots| + 2
  {
  }

  /** The slot n below the top of the stack. */
  function SlotFromTop(s: OperandStack, n: nat): Slot
    requires n < |s.slots|
  {
    s.slots[|s.slots| - 1 - n]
  }

  function IntFromTop(s: OperandStack, n: nat): i32
    requires n < |s.slots|
  {
    SlotFromTop(s, n).num
  }

  /** The long whose high half is n slots below the top and whose low half is
      just under it, as `PopLong` reads it. */
  function LongFromTop(s: OperandStack, n: nat): i64
    requires n + 1 < |s.slots|
  {
    HalvesToLong(SlotFromTop(s, n + 1).num, SlotFromTop(s, n).num)
  }

  /** The slot an int is pushed as. */
  function IntSlot(v: i32): Slot {
    Slot(v, Null)
  }

  /** The two slots a long is pushed as, low half first. */
  function LongSlots(v: i64): Slots {
    [IntSlot(LongToHalves(v).0), IntSlot(LongToHalves(v).1)]
  }

  // ---------------------------------------------------------------------------
  // Frames

  datatype Frame = Frame(localVars: Slots, stack: OperandStack, methodKey: MemberKey, nextPC: int)

  /** `newFrame`: locals sized from the method's `maxLocals`, an empty operand
      stack of `maxStack` slots, and execution starting at pc 0. */
  function NewFrame(key: MemberKey, m: Method): (f: Frame)
    ensures f.localVars == NewLocalVars(m.maxLocals)
    ensures f.stack.slots == [] && f.stack.maxStack == m.maxStack
    ensures f.methodKey == key && f.nextPC == 0
  {
    Frame(NewLocalVars(m.maxLocals), NewOperandStack(m.maxStack), key, 0)
  }

  function SetNextPC(f: Frame, pc: int): (r: Frame)
  {
    f.(nextPC := pc)
  }

  /** `RevertNextPC`: the next pc goes back to the pc of the instruction the
      thread is executing, so that instruction runs again. */
  function RevertNextPC(f: Frame, threadPc: int): (r: Frame)
  {
    f.(nextPC := threadPc)
  }

  /** Setting the next pc touches nothing else, and reverting it undoes any
      change the current instruction made to it. */
  lemma NextPCAccessors(f: Frame, pc: int, threadPc: int)
    ensures SetNextPC(f, pc).nextPC == pc
    ensures SetNextPC(f, pc).(nextPC := f.nextPC) == f
    ensures RevertNextPC(SetNextPC(f, pc), threadPc) == RevertNextPC(f, threadPc)
    ensures RevertNextPC(f, threadPc).nextPC == threadPc
  {
  }

  /** The effect of an instruction that only works on the operand stack: it
      pops n slots and pushes `pushed`, and the locals, the method and the
      next pc are as they were. */
  predicate StackEffect(f: Frame, f': Frame, n: nat, pushed: Slots) {
    && n <= |f.stack.slots|
    && f'.stack.slots == f.stack.slots[..|f.stack.slots| - n] + pushed
    && f'.stack.maxStack == f.stack.maxStack
    && f'.localVars == f.localVars && f'.methodKey == f.methodKey && f'.nextPC == f.nextPC
  }

  // ---------------------------------------------------------------------------
  // The frame stack

  /** The frames from the bottom up; the last one is the top. */
  datatype JvmStack = JvmStack(maxSize: nat, frames: seq<Frame>)

  function NewStack(maxSize: nat): (s: JvmStack)
  {
    JvmStack(maxSize, [])
  }

  function Push(s: JvmStack, f: Frame): (r: Result<JvmStack>)
    ensures |s.frames| >= s.maxSize <==> r == Err(Panic(StackOverflow))
    ensures r.Ok? ==> r.value.frames == s.frames + [f] && r.value.maxSize == s.maxSize
  {
    if |s.frames| >= s.maxSize then Err(Panic(StackOverflow))
    else Ok(s.(frames := s.frames + [f]))
  }

  function Pop(s: JvmStack): (r: Result<(Frame, JvmStack)>)
    ensures |s.frames| == 0 <==> r == Err(Panic(StackEmpty))
    ensures r.Ok? ==> r.value.1.frames + [r.value.0] == s.frames && r.value.1.maxSize == s.maxSize
  {
    if |s.frames| == 0 then Err(Panic(StackEmpty))
    else Ok((s.frames[|s.frames| - 1], s.(frames := s.frames[..|s.frames| - 1])))
  }

  function Top(s: JvmStack): (r: Result<Frame>)
    ensures |s.frames| == 0 <==> r == Err(Panic(StackEmptyAtTop))
    ensures r.Ok? ==> r.value == s.frames[|s.frames| - 1]
  {
    if |s.frames| == 0 then Err(Panic(StackEmptyAtTop)) else Ok(s.frames[|s.frames| - 1])
  }

  predicate IsEmpty(s: JvmStack) {
    |s.frames| == 0
  }

  /** Replaces the top frame: the Go instructions update the current frame in
      place, which here is a new stack with a new top. */
  function SetTop(s: JvmStack, f: Frame): (r: Result<JvmStack>)
    ensures r.Ok? <==> !IsEmpty(s)
    ensures r.Ok? ==> r.value.frames == s.frames[..|s.frames| - 1] + [f] && r.value.maxSize == s.maxSize
  {
    if IsEmpty(s) then Err(Panic(StackEmptyAtTop))
    else Ok(s.(frames := s.frames[..|s.frames| - 1] + [f]))
  }

  /** `clear`: pops until the stack is empty. */
  function Clear(s: JvmStack): (r: JvmStack)
    ensures IsEmpty(r) && r.maxSize == s.maxSize
    decreases |s.frames|
  {
    if IsEmpty(s) then s else Clear(Pop(s).value.1)
  }

  /** `getFrames`: the frames from the top down. */
  function GetFrames(s: JvmStack): (r: seq<Frame>)
    ensures |r| == |s.frames|
    decreases |s.frames|
  {
    if IsEmpty(s) then [] else [Top(s).value] + GetFrames(Pop(s).value.1)
  }

  // ---------------------------------------------------------------------------
  // Stack discipline

  /** Popping after a push gives back the frame and the stack before it. */
  lemma PushPop(s: JvmStack, f: Frame)
    requires |s.frames| < s.maxSize
    ensures Pop(Push(s, f).value) == Ok((f, s))
    ensures Top(Push(s, f).value) == Ok(f)
  {
    assert (s.frames + [f])[..|s.frames|] == s.frames;
  }

  /** A failed push leaves the stack as it was, since no new stack exists. */
  lemma OverflowKeeps(s: JvmStack, f: Frame)
    ensures Push(s, f).Err? <==> |s.frames| >= s.maxSize
    ensures Push(s, f).Ok? ==> |Push(s, f).value.frames| == |s.frames| + 1
  {
  }

  /** The stack is empty exactly when it has no top. */
  lemma EmptyIffNoTop(s: JvmStack)
    ensures IsEmpty(s) <==> Top(s).Err?
    ensures IsEmpty(s) <==> Pop(s).Err?
  {
  }

  /** `getFrames` lists the frames in reverse order of the sequence, top first. */
  lemma {:induction false} GetFramesReverse(s: JvmStack)
    ensures forall i :: 0 <= i < |s.frames| ==> GetFrames(s)[i] == s.frames[|s.frames| - 1 - i]
    decreases |s.frames|
  {
    if !IsEmpty(s) {
      var s' := Pop(s).value.1;
      GetFramesReverse(s');
      assert forall i :: 0 < i < |s.frames| ==> GetFrames(s)[i] == GetFrames(s')[i - 1];
    }
  }

  /** After a push, `getFrames` starts with the new frame. */
  lemma {:induction false} GetFramesPush(s: JvmStack, f: Frame)
    requires |s.frames| < s.maxSize
    ensures GetFrames(Push(s, f).value) == [f] + GetFrames(s)
  {
    PushPop(s, f);
  }

  /** Clearing is popping every frame: the stack that remains is empty and
      keeps its bound, whatever was on it. */
  lemma {:induction false} ClearIsEmpty(s: JvmStack)
    ensures Clear(s) == NewStack(s.maxSize)
    decreases |s.frames|
  {
    if !IsEmpty(s) {
      ClearIsEmpty(Pop(s).value.1);
    }
  }

  // ---------------------------------------------------------------------------
  // Threads

  /** A thread: the pc of the instruction being executed and the frame stack. */
  datatype Thread = Thread(pc: int, stack: JvmStack)

  /** `NewThread`: pc 0 and an empty stack of at most 1024 frames. */
  function NewThread(): (t: Thread)
    ensures t.pc == 0 && IsEmpty(t.stack) && t.stack.maxSize == 1024
  {
    Thread(0, NewStack(MaxFrames))
  }

  function SetPC(t: Thread, pc: int): (r: Thread)
    ensures r.pc == pc && r.stack == t.stack
  {
    t.(pc := pc)
  }

  /** `PushFrame`: `push` on the thread's stack, the pc kept. */
  function PushFrame(t: Thread, f: Frame): (r: Result<Thread>)
    ensures |t.stack.frames| >= t.stack.maxSize <==> r == Err(Panic(StackOverflow))
    ensures r.Ok? ==> r.value.pc == t.pc && r.value.stack.maxSize == t.stack.maxSize
    ensures r.Ok? ==> r.value.stack.frames == t.stack.frames + [f]
  {
    var s :- Push(t.stack, f);
    Ok(t.(stack := s))
  }

  /** `PopFrame`: `pop` on the thread's stack, the pc kept. */
  function PopFrame(t: Thread): (r: Result<(Frame, Thread)>)
    ensures IsStackEmpty(t) <==> r == Err(Panic(StackEmpty))
    ensures r.Ok? ==> r.value.1.pc == t.pc && r.value.1.stack.maxSize == t.stack.maxSize
    ensures r.Ok? ==> r.value.1.stack.frames + [r.value.0] == t.stack.frames
  {
    var p :- Pop(t.stack);
    Ok((p.0, t.(stack := p.1)))
  }

  /** `CurrentFrame` and `TopFrame` are both the top of the stack. */
  function CurrentFrame(t: Thread): (r: Result<Frame>)
    ensures IsStackEmpty(t) <==> r == Err(Panic(StackEmptyAtTop))
    ensures r.Ok? ==> r.value == t.stack.frames[|t.stack.frames| - 1]
  {
    Top(t.stack)
  }

  /** An in-place update of the current frame: the top is replaced, the
      frames below and the pc are kept. */
  function SetCurrentFrame(t: Thread, f: Frame): (r: Result<Thread>)
    ensures IsStackEmpty(t) <==> r == Err(Panic(StackEmptyAtTop))
    ensures r.Ok? ==> r.value.pc == t.pc && r.value.stack.maxSize == t.stack.maxSize
    ensures r.Ok? ==> r.value.stack.frames == t.stack.frames[..|t.stack.frames| - 1] + [f]
  {
    var s :- SetTop(t.stack, f);
    Ok(t.(stack := s))
  }

  predicate IsStackEmpty(t: Thread) {
    IsEmpty(t.stack)
  }

  /** The thread's frame operations follow the stack discipline of its frame
      stack: a pushed frame is current and pops off again, leaving the pc. */
  lemma ThreadLifo(t: Thread, f: Frame)
    requires |t.stack.frames| < t.stack.maxSize
    ensures PushFrame(t, f).Ok? && CurrentFrame(PushFrame(t, f).value) == Ok(f)
    ensures PopFrame(PushFrame(t, f).value) == Ok((f, t))
    ensures !IsStackEmpty(PushFrame(t, f).value)
  {
    PushPop(t.stack, f);
  }

  /** Replacing the current frame keeps the depth and makes the new frame
      current. */
  lemma SetCurrentFrameTop(t: Thread, f: Frame)
    requires !IsStackEmpty(t)
    ensures SetCurrentFrame(t, f).Ok?
    ensures CurrentFrame(SetCurrentFrame(t, f).value) == Ok(f)
    ensures |SetCurrentFrame(t, f).value.stack.frames| == |t.stack.frames|
    ensures PopFrame(SetCurrentFrame(t, f).value).value.1 == PopFrame(t).value.1
  {
    var fs := t.stack.frames;
    assert (fs[..|fs| - 1] + [f])[..|fs| - 1] == fs[..|fs| - 1];
  }
}

=== FILE: heap.dfy ===
/** The method area and the object heap as one immutable value.

    Loaded classes live in an arena `classes`, indexed by `ClassId`; a class is
    appended once its superclass and interfaces are loaded, so every class's
    superclass and interfaces have smaller ids (`Linked`) and every walk up the
    hierarchy ends. The mutable per-class state of the Go `Class` (static
    variables, the init flag, the `java.lang.Class` mirror and the resolution
    caches of its constant pool) is kept apart in `states`. `classMap` is the
    class loader's name table, `objects` the object heap addressed by `Ref`, and
    `interned` the string pool. */
module Heaps {
  import opened Wrappers
  import opened MachineInts
  import opened AccessFlags
  import opened ClassNames
  import opened Slots
  import opened RuntimeConstantPool
  import opened ClassMembers

  type ClassId = nat

  /** A field or method: the class declaring it and its index among that
      class's fields or methods. */
  datatype MemberKey = MemberKey(owner: ClassId, index: nat)

  datatype Class = Class(
    accessFlags: u16,
    name: string,
    superClassName: string,
    interfaceNames: seq<string>,
    constantPool: Pool,
    fields: seq<Field>,
    methods: seq<Method>,
    superClass: Option<ClassId>,
    interfaces: seq<ClassId>,
    instanceSlotCount: nat,
    staticSlotCount: nat,
    sourceFile: string)

  /** What changes in a class after it is loaded: isStatic variables, the init
      flag, the mirror, and what each resolved pool index of its constant pool
      resolved to. */
  datatype ClassState = ClassState(
    staticVars: Slots,
    initStarted: bool,
    jClass: Ref,
    classRefs: map<nat, ClassId>,
    fieldRefs: map<nat, MemberKey>,
    methodRefs: map<nat, MemberKey>)

  function FreshState(staticSlotCount: nat, initStarted: bool): (st: ClassState)
  {
    ClassState(NewSlots(staticSlotCount), initStarted, Null, map[], map[], map[])
  }

  datatype StackTraceElement = StackTraceElement(fileName: string, className: string, methodName: string, lineNumber: int)

  /** The data of an object: its instance fields, or the elements of an array. */
  datatype ObjData =
    | FieldSlots(slots: Slots)
    | ByteArray(bytes: seq<i8>)
    | CharArray(chars: seq<u16>)
    | ShortArray(shorts: seq<i16>)
    | IntArray(ints: seq<i32>)
    | LongArray(longs: seq<i64>)
    | FloatArray(floats: seq<u32>)
    | DoubleArray(doubles: seq<u64>)
    | RefArray(refs: seq<Ref>)

  /** The `extra` of an object: the class a `java.lang.Class` mirror stands
      for, or the stack trace of a throwable. */
  datatype Extra = NoExtra | Mirror(of: ClassId) | StackTrace(elements: seq<StackTraceElement>)

  datatype Object = Object(classId: ClassId, data: ObjData, extra: Extra)

  datatype Heap = Heap(
    classes: seq<Class>,
    states: seq<ClassState>,
    classMap: map<string, ClassId>,
    objects: seq<Object>,
    interned: map<string, Ref>)

  const EmptyHeap := Heap([], [], map[], [], map[])

  // ---------------------------------------------------------------------------
  // Invariants

  predicate ClassLinked(c: Class, id: ClassId) {
    && (c.superClass.Some? ==> c.superClass.value < id)
    && forall k :: 0 <= k < |c.interfaces| ==> c.interfaces[k] < id
  }

  /** Every class's superclass and interfaces were loaded before it. */
  predicate Linked(cs: seq<Class>) {
    forall id :: 0 <= id < |cs| ==> ClassLinked(cs[id], id)
  }

  predicate KeyValid(cs: seq<Class>, k: MemberKey, methods: bool) {
    k.owner < |cs| && k.index < (if methods then |cs[k.owner].methods| else |cs[k.owner].fields|)
  }

  predicate CachesValid(cs: seq<Class>, st: ClassState) {
    && (forall i :: i in st.classRefs ==> st.classRefs[i] < |cs|)
    && (forall i :: i in st.fieldRefs ==> KeyValid(cs, st.fieldRefs[i], false))
    && (forall i :: i in st.methodRefs ==> KeyValid(cs, st.methodRefs[i], true))
  }

  predicate ObjectValid(o: Object, classCount: nat) {
    o.classId < classCount && (o.extra.Mirror? ==> o.extra.of < classCount)
  }

  predicate Valid(h: Heap) {
    && |h.states| == |h.classes|
    && Linked(h.classes)
    && (forall n :: n in h.classMap ==> h.classMap[n] < |h.classes| && h.classes[h.classMap[n]].name == n)
    && (forall a :: 0 <= a < |h.objects| ==> ObjectValid(h.objects[a], |h.classes|))
    && (forall id :: 0 <= id < |h.states| ==> CachesValid(h.classes, h.states[id]))
  }

  lemma EmptyHeapValid()
    ensures Valid(EmptyHeap)
  {
  }

  /** What loading and allocating never undo: loaded classes keep their ids and
      definitions, registered names stay registered, objects keep their
      addresses and contents, and pooled strings stay pooled. */
  predicate Grows(h: Heap, h': Heap) {
    && |h.classes| <= |h'.classes|
    && (forall id :: 0 <= id < |h.classes| ==> h'.classes[id] == h.classes[id])
    && h.classMap.Keys <= h'.classMap.Keys
    && |h.objects| <= |h'.objects|
    && (forall a :: 0 <= a < |h.objects| ==> h'.objects[a] == h.objects[a])
    && h.interned.Keys <= h'.interned.Keys
  }

  lemma GrowsTrans(h1: Heap, h2: Heap, h3: Heap)
    requires Grows(h1, h2) && Grows(h2, h3)
    ensures Grows(h1, h3)
  {
  }

  /** A class's state may change while the heap grows; its definition does not. */
  predicate StateOnly(h: Heap, h': Heap) {
    && h'.classes == h.classes && h'.classMap == h.classMap
    && h'.objects == h.objects && h'.interned == h.interned
  }

  // ---------------------------------------------------------------------------
  // Updates

  /** Registers a class under its name, as `classMap[name] = class` does (an
      earlier class of that name stays loaded but is no longer found by name). */
  function AddClass(h: Heap, c: Class, st: ClassState): (r: (ClassId, Heap))
    requires Valid(h) && ClassLinked(c, |h.classes|) && CachesValid(h.classes, st)
    ensures Valid(r.1) && Grows(h, r.1)
    ensures r.0 == |h.classes| && r.1.classes == h.classes + [c]
    ensures r.1.classMap == h.classMap[c.name := r.0] && r.1.states == h.states + [st]
    ensures r.1.objects == h.objects && r.1.interned == h.interned
  {
    var id := |h.classes|;
    var h' := h.(classes := h.classes + [c], states := h.states + [st], classMap := h.classMap[c.name := id]);
    AddedValid(h, c, st);
    (id, h')
  }

  lemma AddedValid(h: Heap, c: Class, st: ClassState)
    requires Valid(h) && ClassLinked(c, |h.classes|) && CachesValid(h.classes, st)
    ensures var h' := h.(classes := h.classes + [c], states := h.states + [st], classMap := h.classMap[c.name := |h.classes|]);
      Valid(h') && Grows(h, h')
  {
    var cs := h.classes + [c];
    var h' := h.(classes := cs, states := h.states + [st], classMap := h.classMap[c.name := |h.classes|]);
    assert forall i :: 0 <= i < |h.classes| ==> cs[i] == h.classes[i];
    assert forall i :: 0 <= i < |h.states| ==> h'.states[i] == h.states[i];
    forall i | 0 <= i < |h'.states|
      ensures CachesValid(cs, h'.states[i])
    {
      CachesValidExtend(h.classes, c, h'.states[i]);
    }
  }

  lemma CachesValidExtend(cs: seq<Class>, c: Class, st: ClassState)
    requires CachesValid(cs, st)
    ensures CachesValid(cs + [c], st)
  {
    var cs' := cs + [c];
    assert forall k :: 0 <= k < |cs| ==> cs'[k] == cs[k];
  }

  function SetState(h: Heap, id: ClassId, st: ClassState): (h': Heap)
    requires Valid(h) && id < |h.classes| && CachesValid(h.classes, st)
    ensures Valid(h') && Grows(h, h') && StateOnly(h, h')
    ensures h'.states == h.states[id := st]
  {
    h.(states := h.states[id := st])
  }

  /** Allocation: the new object gets the next address. */
  function Alloc(h: Heap, o: Object): (r: (Ref, Heap))
    requires Valid(h) && ObjectValid(o, |h.classes|)
    ensures r.0 == Addr(|h.objects|) && r.1 == h.(objects := h.objects + [o])
    ensures Valid(r.1) && Grows(h, r.1)
  {
    (Addr(|h.objects|), h.(objects := h.objects + [o]))
  }

  /** The object a reference points to. Null is a nil dereference; an address
      outside the heap is never produced by the model and is refused as an
      index out of range. */
  function Deref(h: Heap, r: Ref): (o: Result<Object>)
    ensures o.Ok? <==> r.Addr? && r.address < |h.objects|
    ensures o.Ok? ==> o.value == h.objects[r.address]
    ensures r.Null? ==> o == Err(NilDeref)
  {
    if r.Null? then Err(NilDeref)
    else if r.address < |h.objects| then Ok(h.objects[r.address])
    else Err(OutOfRange)
  }

  /** Records the pooled object of a string. */
  function SetInterned(h: Heap, s: string, jStr: Ref): (h': Heap)
    requires Valid(h)
    ensures Valid(h') && Grows(h, h')
    ensures h' == h.(interned := h.interned[s := jStr])
  {
    h.(interned := h.interned[s := jStr])
  }

  function SetObject(h: Heap, a: nat, o: Object): (h': Heap)
    requires Valid(h) && a < |h.objects| && ObjectValid(o, |h.classes|)
    ensures Valid(h')
    ensures h' == h.(objects := h.objects[a := o])
  {
    h.(objects := h.objects[a := o])
  }

  // ---------------------------------------------------------------------------
  // Classes

  predicate IsArray(c: Class) {
    IsArrayName(c.name)
  }

  /** `isAccessibleTo` of a class: public, or in the same package. */
  predicate ClassAccessibleTo(c: Class, d: Class) {
    IsPublic(c.accessFlags) || PackageName(c.name) == PackageName(d.name)
  }

  /** A class is accessible to itself and to every class of its package, and a
      public class to every class; a non-public class is accessible to no class
      of another package. */
  lemma ClassAccessibility(c: Class, d: Class)
    ensures ClassAccessibleTo(c, c)
    ensures PackageName(c.name) == PackageName(d.name) ==> ClassAccessibleTo(c, d) && ClassAccessibleTo(d, c)
    ensures IsPublic(c.accessFlags) ==> ClassAccessibleTo(c, d)
    ensures !IsPublic(c.accessFlags) && PackageName(c.name) != PackageName(d.name) ==> !ClassAccessibleTo(c, d)
  {
  }

  /** The first method declared by the class itself that is isStatic and has the
      name and descriptor. */
  function GetStaticMethod(c: Class, name: string, descriptor: string): (r: Option<nat>)
    ensures r.Some? ==> r.value < |c.methods| && IsStaticMatch(c.methods[r.value], name, descriptor)
    ensures r.Some? ==> forall j :: 0 <= j < r.value ==> !IsStaticMatch(c.methods[j], name, descriptor)
    ensures r.None? <==> forall j :: 0 <= j < |c.methods| ==> !IsStaticMatch(c.methods[j], name, descriptor)
  {
    FirstMethod(c.methods, name, descriptor, Some(true), 0)
  }

  predicate IsStaticMatch(m: Method, name: string, descriptor: string) {
    IsStatic(m.accessFlags) && m.name == name && m.descriptor == descriptor
  }

  /** `GetMainMethod`: the first static `main([Ljava/lang/String;)V` the class
      declares, and none exactly when it declares none. */
  function GetMainMethod(c: Class): (r: Option<nat>)
    ensures r.Some? ==> r.value < |c.methods| && IsStatic(c.methods[r.value].accessFlags)
    ensures r.Some? ==> c.methods[r.value].name == "main" && c.methods[r.value].descriptor == "([Ljava/lang/String;)V"
    ensures r.Some? ==> forall j :: 0 <= j < r.value ==> !IsStaticMatch(c.methods[j], "main", "([Ljava/lang/String;)V")
    ensures r.None? <==> forall j :: 0 <= j < |c.methods| ==> !IsStaticMatch(c.methods[j], "main", "([Ljava/lang/String;)V")
  {
    GetStaticMethod(c, "main", "([Ljava/lang/String;)V")
  }

  /** `GetClinitMethod`: the first static `<clinit>()V` the class declares, and
      none exactly when it declares none. */
  function GetClinitMethod(c: Class): (r: Option<nat>)
    ensures r.Some? ==> r.value < |c.methods| && IsStatic(c.methods[r.value].accessFlags)
    ensures r.Some? ==> c.methods[r.value].name == "<clinit>" && c.methods[r.value].descriptor == "()V"
    ensures r.Some? ==> forall j :: 0 <= j < r.value ==> !IsStaticMatch(c.methods[j], "<clinit>", "()V")
    ensures r.None? <==> forall j :: 0 <= j < |c.methods| ==> !IsStaticMatch(c.methods[j], "<clinit>", "()V")
  {
    GetStaticMethod(c, "<clinit>", "()V")
  }

  /** `StartInit`; nothing in the model ever clears the flag again. */
  function StartInit(h: Heap, id: ClassId): (h': Heap)
    requires Valid(h) && id < |h.classes|
    ensures Valid(h') && StateOnly(h, h')
    ensures h'.states[id].initStarted
    ensures h'.states[id] == h.states[id].(initStarted := true)
    ensures forall j :: 0 <= j < |h.states| && j != id ==> h'.states[j] == h.states[j]
  {
    SetState(h, id, h.states[id].(initStarted := true))
  }

  // ---------------------------------------------------------------------------
  // Member search along the superclass chain

  /** The class and its superclasses, nearest first. */
  function Chain(cs: seq<Class>, id: ClassId): (r: seq<ClassId>)
    requires Linked(cs) && id < |cs|
    ensures |r| > 0 && r[0] == id
    ensures forall k :: 0 <= k < |r| ==> r[k] <= id
    ensures forall k :: 0 < k < |r| ==> r[k] < id
    ensures forall k :: 0 <= k < |r| - 1 ==> cs[r[k]].superClass == Some(r[k + 1])
    ensures cs[r[|r| - 1]].superClass.None?
    decreases id
  {
    assert ClassLinked(cs[id], id);
    match cs[id].superClass
    case None => [id]
    case Some(p) => [id] + Chain(cs, p)
  }

  /** Whether a method or field has the name and descriptor, and, when `isStatic`
      is given, that static-ness. */
  predicate FieldMatches(f: Field, name: string, descriptor: string, isStatic: Option<bool>) {
    f.name == name && f.descriptor == descriptor && (isStatic.Some? ==> IsStatic(f.accessFlags) == isStatic.value)
  }

  predicate MethodMatches(m: Method, name: string, descriptor: string, isStatic: Option<bool>) {
    m.name == name && m.descriptor == descriptor && (isStatic.Some? ==> IsStatic(m.accessFlags) == isStatic.value)
  }

  /** The first matching field at or after index i. */
  function FirstField(fs: seq<Field>, name: string, descriptor: string, isStatic: Option<bool>, i: nat): (r: Option<nat>)
    requires i <= |fs|
    ensures r.Some? ==> i <= r.value < |fs| && FieldMatches(fs[r.value], name, descriptor, isStatic)
    ensures r.Some? ==> forall j :: i <= j < r.value ==> !FieldMatches(fs[j], name, descriptor, isStatic)
    ensures r.None? <==> forall j :: i <= j < |fs| ==> !FieldMatches(fs[j], name, descriptor, isStatic)
    decreases |fs| - i
  {
    if i == |fs| then None
    else if FieldMatches(fs[i], name, descriptor, isStatic) then Some(i)
    else FirstField(fs, name, descriptor, isStatic, i + 1)
  }

  function FirstMethod(ms: seq<Method>, name: string, descriptor: string, isStatic: Option<bool>, i: nat): (r: Option<nat>)
    requires i <= |ms|
    ensures r.Some? ==> i <= r.value < |ms| && MethodMatches(ms[r.value], name, descriptor, isStatic)
    ensures r.Some? ==> forall j :: i <= j < r.value ==> !MethodMatches(ms[j], name, descriptor, isStatic)
    ensures r.None? <==> forall j :: i <= j < |ms| ==> !MethodMatches(ms[j], name, descriptor, isStatic)
    decreases |ms| - i
  {
    if i == |ms| then None
    else if MethodMatches(ms[i], name, descriptor, isStatic) then Some(i)
    else FirstMethod(ms, name, descriptor, isStatic, i + 1)
  }

  predicate DeclaresField(c: Class, name: string, descriptor: string, isStatic: Option<bool>) {
    FirstField(c.fields, name, descriptor, isStatic, 0).Some?
  }

  predicate DeclaresMethod(c: Class, name: string, descriptor: string, isStatic: Option<bool>) {
    FirstMethod(c.methods, name, descriptor, isStatic, 0).Some?
  }

  /** Position p of the chain is the first class on it that declares a match. */
  predicate FirstFieldOwner(cs: seq<Class>, chain: seq<ClassId>, p: int, name: string, descriptor: string, isStatic: Option<bool>)
    requires forall k :: 0 <= k < |chain| ==> chain[k] < |cs|
  {
    && 0 <= p < |chain| && DeclaresField(cs[chain[p]], name, descriptor, isStatic)
    && forall q :: 0 <= q < p ==> !DeclaresField(cs[chain[q]], name, descriptor, isStatic)
  }

  predicate FirstMethodOwner(cs: seq<Class>, chain: seq<ClassId>, p: int, name: string, descriptor: string, isStatic: Option<bool>)
    requires forall k :: 0 <= k < |chain| ==> chain[k] < |cs|
  {
    && 0 <= p < |chain| && DeclaresMethod(cs[chain[p]], name, descriptor, isStatic)
    && forall q :: 0 <= q < p ==> !DeclaresMethod(cs[chain[q]], name, descriptor, isStatic)
  }

  /** `getField` (and, with `isStatic` none, a field search ignoring static-ness):
      the first match in the class, else in its superclass, and so on. */
  function GetField(cs: seq<Class>, id: ClassId, name: string, descriptor: string, isStatic: Option<bool>): (r: Option<MemberKey>)
    requires Linked(cs) && id < |cs|
    ensures r.Some? ==> KeyValid(cs, r.value, false)
    ensures r.Some? ==> FirstField(cs[r.value.owner].fields, name, descriptor, isStatic, 0) == Some(r.value.index)
    decreases id
  {
    assert ClassLinked(cs[id], id);
    var i := FirstField(cs[id].fields, name, descriptor, isStatic, 0);
    if i.Some? then Some(MemberKey(id, i.value))
    else if cs[id].superClass.None? then None
    else GetField(cs, cs[id].superClass.value, name, descriptor, isStatic)
  }

  /** The field `getField` finds is declared by the first class on the chain
      that declares a match. */
  lemma {:induction false} GetFieldFirstOwner(cs: seq<Class>, id: ClassId, name: string, descriptor: string, isStatic: Option<bool>)
    requires Linked(cs) && id < |cs| && GetField(cs, id, name, descriptor, isStatic).Some?
    ensures exists p :: (FirstFieldOwner(cs, Chain(cs, id), p, name, descriptor, isStatic)
                         && Chain(cs, id)[p] == GetField(cs, id, name, descriptor, isStatic).value.owner)
    decreases id
  {
    assert ClassLinked(cs[id], id);
    var chain := Chain(cs, id);
    var r := GetField(cs, id, name, descriptor, isStatic);
    if FirstField(cs[id].fields, name, descriptor, isStatic, 0).Some? {
      assert FirstFieldOwner(cs, chain, 0, name, descriptor, isStatic);
    } else {
      var sup := cs[id].superClass.value;
      GetFieldFirstOwner(cs, sup, name, descriptor, isStatic);
      ShiftChain(cs, id);
      var p :| FirstFieldOwner(cs, chain[1..], p, name, descriptor, isStatic) && chain[1..][p] == r.value.owner;
      assert FirstFieldOwner(cs, chain, p + 1, name, descriptor, isStatic);
    }
  }

  /** `getField` finds nothing exactly when no class on the chain declares a
      match. */
  lemma {:induction false} GetFieldNone(cs: seq<Class>, id: ClassId, name: string, descriptor: string, isStatic: Option<bool>)
    requires Linked(cs) && id < |cs|
    ensures GetField(cs, id, name, descriptor, isStatic).None? <==>
      forall q :: 0 <= q < |Chain(cs, id)| ==> !DeclaresField(cs[Chain(cs, id)[q]], name, descriptor, isStatic)
    decreases id
  {
    assert ClassLinked(cs[id], id);
    var chain := Chain(cs, id);
    if GetField(cs, id, name, descriptor, isStatic).Some? {
      GetFieldFirstOwner(cs, id, name, descriptor, isStatic);
    } else if cs[id].superClass.Some? {
      GetFieldNone(cs, cs[id].superClass.value, name, descriptor, isStatic);
      ShiftChain(cs, id);
      forall q | 0 <= q < |chain|
        ensures !DeclaresField(cs[chain[q]], name, descriptor, isStatic)
      {
        if q > 0 {
          assert chain[q] == chain[1..][q - 1];
        }
      }
    }
  }


  /** `getMethod` (static-ness given) and `LookupMethodInClass` (static-ness
      ignored): the first match in the class, else in its superclass, and so on. */
  function GetMethod(cs: seq<Class>, id: ClassId, name: string, descriptor: string, isStatic: Option<bool>): (r: Option<MemberKey>)
    requires Linked(cs) && id < |cs|
    ensures r.Some? ==> KeyValid(cs, r.value, true)
    ensures r.Some? ==> FirstMethod(cs[r.value.owner].methods, name, descriptor, isStatic, 0) == Some(r.value.index)
    decreases id
  {
    assert ClassLinked(cs[id], id);
    var i := FirstMethod(cs[id].methods, name, descriptor, isStatic, 0);
    if i.Some? then Some(MemberKey(id, i.value))
    else if cs[id].superClass.None? then None
    else GetMethod(cs, cs[id].superClass.value, name, descriptor, isStatic)
  }

  /** The method `getMethod` finds is declared by the first class on the chain
      that declares a match. */
  lemma {:induction false} GetMethodFirstOwner(cs: seq<Class>, id: ClassId, name: string, descriptor: string, isStatic: Option<bool>)
    requires Linked(cs) && id < |cs| && GetMethod(cs, id, name, descriptor, isStatic).Some?
    ensures exists p :: (FirstMethodOwner(cs, Chain(cs, id), p, name, descriptor, isStatic)
                         && Chain(cs, id)[p] == GetMethod(cs, id, name, descriptor, isStatic).value.owner)
    decreases id
  {
    assert ClassLinked(cs[id], id);
    var chain := Chain(cs, id);
    var r := GetMethod(cs, id, name, descriptor, isStatic);
    if FirstMethod(cs[id].methods, name, descriptor, isStatic, 0).Some? {
      assert FirstMethodOwner(cs, chain, 0, name, descriptor, isStatic);
    } else {
      var sup := cs[id].superClass.value;
      GetMethodFirstOwner(cs, sup, name, descriptor, isStatic);
      ShiftChain(cs, id);
      var p :| FirstMethodOwner(cs, chain[1..], p, name, descriptor, isStatic) && chain[1..][p] == r.value.owner;
      assert FirstMethodOwner(cs, chain, p + 1, name, descriptor, isStatic);
    }
  }

  /** `getMethod` finds nothing exactly when no class on the chain declares a
      match. */
  lemma {:induction false} GetMethodNone(cs: seq<Class>, id: ClassId, name: string, descriptor: string, isStatic: Option<bool>)
    requires Linked(cs) && id < |cs|
    ensures GetMethod(cs, id, name, descriptor, isStatic).None? <==>
      forall q :: 0 <= q < |Chain(cs, id)| ==> !DeclaresMethod(cs[Chain(cs, id)[q]], name, descriptor, isStatic)
    decreases id
  {
    assert ClassLinked(cs[id], id);
    var chain := Chain(cs, id);
    if GetMethod(cs, id, name, descriptor, isStatic).Some? {
      GetMethodFirstOwner(cs, id, name, descriptor, isStatic);
    } else if cs[id].superClass.Some? {
      GetMethodNone(cs, cs[id].superClass.value, name, descriptor, isStatic);
      ShiftChain(cs, id);
      forall q | 0 <= q < |chain|
        ensures !DeclaresMethod(cs[chain[q]], name, descriptor, isStatic)
      {
        if q > 0 {
          assert chain[q] == chain[1..][q - 1];
        }
      }
    }
  }


  lemma ShiftChain(cs: seq<Class>, id: ClassId)
    requires Linked(cs) && id < |cs| && cs[id].superClass.Some?
    ensures cs[id].superClass.value < id
    ensures Chain(cs, id)[1..] == Chain(cs, cs[id].superClass.value)
  {
    assert ClassLinked(cs[id], id);
  }

  /** The member search only looks at the classes on the chain, so a class
      loaded later does not change what it finds. */
  lemma {:induction false} GetMethodStable(cs: seq<Class>, cs': seq<Class>, id: ClassId, name: string, descriptor: string, isStatic: Option<bool>)
    requires Linked(cs) && Linked(cs') && id < |cs| <= |cs'|
    requires forall j :: 0 <= j < |cs| ==> cs'[j] == cs[j]
    ensures GetMethod(cs', id, name, descriptor, isStatic) == GetMethod(cs, id, name, descriptor, isStatic)
    decreases id
  {
    assert cs'[id] == cs[id];
    assert ClassLinked(cs[id], id);
    if cs[id].superClass.Some? {
      GetMethodStable(cs, cs', cs[id].superClass.value, name, descriptor, isStatic);
    }
  }

  lemma {:induction false} GetFieldStable(cs: seq<Class>, cs': seq<Class>, id: ClassId, name: string, descriptor: string, isStatic: Option<bool>)
    requires Linked(cs) && Linked(cs') && id < |cs| <= |cs'|
    requires forall j :: 0 <= j < |cs| ==> cs'[j] == cs[j]
    ensures GetField(cs', id, name, descriptor, isStatic) == GetField(cs, id, name, descriptor, isStatic)
    decreases id
  {
    assert cs'[id] == cs[id];
    assert ClassLinked(cs[id], id);
    if cs[id].superClass.Some? {
      GetFieldStable(cs, cs', cs[id].superClass.value, name, descriptor, isStatic);
    }
  }

  // ---------------------------------------------------------------------------
  // Objects

  /** `newObject`: zeroed instance fields, no extra. */
  function NewObject(h: Heap, id: ClassId): (r: (Ref, Heap))
    requires Valid(h) && id < |h.classes|
    ensures r.0 == Addr(|h.objects|) && Valid(r.1) && Grows(h, r.1)
    ensures r.1.objects == h.objects + [Object(id, FieldSlots(NewSlots(h.classes[id].instanceSlotCount)), NoExtra)]
    ensures r.1.classes == h.classes && r.1.states == h.states && r.1.classMap == h.classMap
  {
    Alloc(h, Object(id, FieldSlots(NewSlots(h.classes[id].instanceSlotCount)), NoExtra))
  }

  /** The instance field `getField(name, descriptor, false)` of an object's
      class; the fields must be slots, and a missing field is a nil dereference. */
  function InstanceFieldSlot(h: Heap, o: Object, name: string, descriptor: string): (r: Result<nat>)
    requires Valid(h) && o.classId < |h.classes|
    ensures r.Ok? ==> GetField(h.classes, o.classId, name, descriptor, Some(false)).Some?
  {
    if !o.data.FieldSlots? then Err(BadAssertion)
    else
      var k := GetField(h.classes, o.classId, name, descriptor, Some(false));
      if k.None? then Err(NilDeref) else Ok(h.classes[k.value.owner].fields[k.value.index].slotId)
  }

  /** `Object.SetRefVar`: writes the reference into the slot of the instance field. */
  function SetRefVar(h: Heap, obj: Ref, name: string, descriptor: string, v: Ref): (r: Result<Heap>)
    requires Valid(h)
    ensures r.Ok? ==> Valid(r.value) && r.value.classes == h.classes && r.value.states == h.states
    ensures r.Ok? ==> r.value.classMap == h.classMap && r.value.interned == h.interned
    ensures r.Ok? ==> obj.Addr? && obj.address < |h.objects| && |r.value.objects| == |h.objects|
    ensures r.Ok? ==> forall a :: 0 <= a < |h.objects| && a != obj.address ==> r.value.objects[a] == h.objects[a]
  {
    var o :- Deref(h, obj);
    var slot :- InstanceFieldSlot(h, o, name, descriptor);
    var slots :- SetRef(o.data.slots, slot, v);
    Ok(SetObject(h, obj.address, o.(data := FieldSlots(slots))))
  }

  /** `Object.GetRefVar` */
  function GetRefVar(h: Heap, obj: Ref, name: string, descriptor: string): (r: Result<Ref>)
    requires Valid(h)
  {
    var o :- Deref(h, obj);
    var slot :- InstanceFieldSlot(h, o, name, descriptor);
    GetRef(o.data.slots, slot)
  }

  /** Reading a reference field just written gives the value written, and no
      other slot of the object changes. */
  lemma RefVarRoundTrip(h: Heap, obj: Ref, name: string, descriptor: string, v: Ref)
    requires Valid(h) && SetRefVar(h, obj, name, descriptor, v).Ok?
    ensures GetRefVar(SetRefVar(h, obj, name, descriptor, v).value, obj, name, descriptor) == Ok(v)
    ensures var o := h.objects[obj.address];
            var o' := SetRefVar(h, obj, name, descriptor, v).value.objects[obj.address];
            var slot := InstanceFieldSlot(h, o, name, descriptor).value;
            o'.classId == o.classId && o'.extra == o.extra && o'.data.FieldSlots? && |o'.data.slots| == |o.data.slots| &&
            forall j :: 0 <= j < |o.data.slots| && j != slot ==> o'.data.slots[j] == o.data.slots[j]
  {
  }

  /** `Extra` */
  function GetExtra(h: Heap, obj: Ref): (r: Result<Extra>)
    ensures r.Ok? <==> Deref(h, obj).Ok?
    ensures r.Ok? ==> r.value == h.objects[obj.address].extra
  {
    var o :- Deref(h, obj);
    Ok(o.extra)
  }

  /** `SetExtra` */
  function SetExtra(h: Heap, obj: Ref, e: Extra): (r: Result<Heap>)
    requires Valid(h) && (e.Mirror? ==> e.of < |h.classes|)
    ensures r.Ok? <==> Deref(h, obj).Ok?
    ensures r.Ok? ==> Valid(r.value) && r.value == h.(objects := h.objects[obj.address := h.objects[obj.address].(extra := e)])
  {
    var o :- Deref(h, obj);
    Ok(SetObject(h, obj.address, o.(extra := e)))
  }

  lemma ExtraRoundTrip(h: Heap, obj: Ref, e: Extra)
    requires Valid(h) && (e.Mirror? ==> e.of < |h.classes|) && SetExtra(h, obj, e).Ok?
    ensures GetExtra(SetExtra(h, obj, e).value, obj) == Ok(e)
    ensures SetExtra(h, obj, e).value.objects[obj.address].data == h.objects[obj.address].data
  {
  }

  // ---------------------------------------------------------------------------
  // Arrays

  /** The zero-filled data of an array of the named class, chosen by name. */
  function ArrayData(name: string, count: nat): (d: ObjData)
    ensures !d.FieldSlots?
  {
    match name
    case "[Z" => ByteArray(seq(count, _ => 0))
    case "[B" => ByteArray(seq(count, _ => 0))
    case "[C" => CharArray(seq(count, _ => 0))
    case "[S" => ShortArray(seq(count, _ => 0))
    case "[I" => IntArray(seq(count, _ => 0))
    case "[J" => LongArray(seq(count, _ => 0))
    case "[F" => FloatArray(seq(count, _ => 0))
    case "[D" => DoubleArray(seq(count, _ => 0))
    case _ => RefArray(seq(count, _ => Null))
  }

  /** The number of elements; instance fields are not an array. */
  function ArrayLength(d: ObjData): (r: Result<nat>)
    ensures r.Err? <==> d.FieldSlots?
    ensures d.FieldSlots? ==> r == Err(Panic("Not array!"))
  {
    match d
    case FieldSlots(_) => Err(Panic("Not array!"))
    case ByteArray(xs) => Ok(|xs|)
    case CharArray(xs) => Ok(|xs|)
    case ShortArray(xs) => Ok(|xs|)
    case IntArray(xs) => Ok(|xs|)
    case LongArray(xs) => Ok(|xs|)
    case FloatArray(xs) => Ok(|xs|)
    case DoubleArray(xs) => Ok(|xs|)
    case RefArray(xs) => Ok(|xs|)
  }

  /** The zero element of each representation. */
  predicate AllZero(d: ObjData) {
    match d
    case FieldSlots(s) => forall i :: 0 <= i < |s| ==> s[i] == ZeroSlot
    case ByteArray(xs) => forall i :: 0 <= i < |xs| ==> xs[i] == 0
    case CharArray(xs) => forall i :: 0 <= i < |xs| ==> xs[i] == 0
    case ShortArray(xs) => forall i :: 0 <= i < |xs| ==> xs[i] == 0
    case IntArray(xs) => forall i :: 0 <= i < |xs| ==> xs[i] == 0
    case LongArray(xs) => forall i :: 0 <= i < |xs| ==> xs[i] == 0
    case FloatArray(xs) => forall i :: 0 <= i < |xs| ==> xs[i] == 0
    case DoubleArray(xs) => forall i :: 0 <= i < |xs| ==> xs[i] == 0
    case RefArray(xs) => forall i :: 0 <= i < |xs| ==> xs[i] == Null
  }

  /** Every array class gets `count` zero elements, of the representation its
      name selects; the char representation is chosen for "[C" only and the
      reference one for every name other than the eight primitive arrays. */
  lemma ArrayDataShape(name: string, count: nat)
    ensures ArrayLength(ArrayData(name, count)) == Ok(count)
    ensures AllZero(ArrayData(name, count))
    ensures ArrayData(name, count).CharArray? <==> name == "[C"
    ensures ArrayData(name, count).ByteArray? <==> name == "[Z" || name == "[B"
    ensures ArrayData(name, count).RefArray? <==> name !in {"[Z", "[B", "[C", "[S", "[I", "[J", "[F", "[D"}
  {
  }

  /** `NewArray`: a non-array class cannot make arrays. */
  function NewArray(h: Heap, id: ClassId, count: nat): (r: Result<(Ref, Heap)>)
    requires Valid(h) && id < |h.classes|
    ensures r.Err? <==> !IsArray(h.classes[id])
    ensures r.Err? ==> r.error == Panic("Not array class: " + h.classes[id].name)
    ensures r.Ok? ==> r.value.0 == Addr(|h.objects|) && Valid(r.value.1) && Grows(h, r.value.1)
    ensures r.Ok? ==> r.value.1 == h.(objects := h.objects + [Object(id, ArrayData(h.classes[id].name, count), NoExtra)])
  {
    if !IsArray(h.classes[id]) then Err(Panic("Not array class: " + h.classes[id].name))
    else Ok(Alloc(h, Object(id, ArrayData(h.classes[id].name, count), NoExtra)))
  }
}

=== FILE: interpreter.dfy ===
/** The interpreter loop: the current frame's next instruction is decoded
    and executed until the frame stack is empty; when an instruction fails the
    remaining frames are popped and logged before the failure is passed on.

    The table from opcodes to instructions is not part of this model, so the
    instruction set is a parameter: `fetch` stands for `NewInstruction`
    followed by `FetchOperands`, and `exec` for `Execute`. The loop runs at
    most `fuel` instructions. */
module Interpreter {
  import opened Wrappers
  import opened MachineInts
  import opened ClassMembers
  import opened Heaps
  import opened Frames
  import opened Bytecode
  import opened ReferenceInstructions

  /** An instruction set: the instruction an opcode stands for, with its
      operands read from the reader after the opcode, and the effect of
      executing one. */
  type Fetch<I> = (u8, Reader) -> Result<(I, Reader)>
  type Execute<!I> = (I, Heap, Thread) -> Result<(Heap, Thread)>

  /** How a run ends: the frame stack emptied; an instruction failed, after
      which the frames that were left, from the top down, are popped and
      logged; or the fuel ran out first. */
  datatype Outcome =
    | Finished(heap: Heap, thread: Thread)
    | Failed(error: Error, logged: seq<Frame>, thread: Thread)
    | OutOfFuel(heap: Heap, thread: Thread)

  // ---------------------------------------------------------------------------
  // Decoding

  /** The decode half of one iteration of `loop`: the thread's pc becomes the
      current frame's next pc, the opcode there is read and its operands
      fetched, and the frame's next pc moves past them. A frame whose method
      is not loaded is never produced by the model and is refused as a nil
      dereference. */
  function Decode<I>(h: Heap, t: Thread, fetch: Fetch<I>): (r: Result<(I, Thread)>)
    requires !IsStackEmpty(t)
    ensures r.Ok? ==> KeyValid(h.classes, Current(t).methodKey, true)
    ensures r.Ok? ==>
      var code := MethodAt(h.classes, Current(t).methodKey).code;
      var pc := Current(t).nextPC;
      && 0 <= pc < |code|
      && fetch(code[pc], Reader(code, pc + 1)).Ok?
      && r.value.0 == fetch(code[pc], Reader(code, pc + 1)).value.0
      && r.value.1 == WithFrame(t.(pc := pc), Current(t).(nextPC := fetch(code[pc], Reader(code, pc + 1)).value.1.pc))
    ensures KeyValid(h.classes, Current(t).methodKey, true) && !(0 <= Current(t).nextPC < |MethodAt(h.classes, Current(t).methodKey).code|) ==>
      r == Err(OutOfRange)
  {
    var f := Current(t);
    var pc := f.nextPC;
    var t1 := SetPC(t, pc);
    if !KeyValid(h.classes, f.methodKey, true) then Err(NilDeref)
    else
      var reader := Reset(MethodAt(h.classes, f.methodKey).code, pc);
      var op :- ReadUint8(reader);
      var inst :- fetch(op.0, op.1);
      Ok((inst.0, WithFrame(t1, SetNextPC(f, inst.1.pc))))
  }

  /** Decoding changes only the thread's pc and the current frame's next pc. */
  lemma DecodeKeeps<I>(h: Heap, t: Thread, fetch: Fetch<I>)
    requires !IsStackEmpty(t) && Decode(h, t, fetch).Ok?
    ensures var t' := Decode(h, t, fetch).value.1;
      && t'.pc == Current(t).nextPC
      && !IsStackEmpty(t') && Current(t') == Current(t).(nextPC := Current(t').nextPC)
      && t'.stack.maxSize == t.stack.maxSize
      && t'.stack.frames[..|t.stack.frames| - 1] == t.stack.frames[..|t.stack.frames| - 1]
  {
  }

  // ---------------------------------------------------------------------------
  // Failures

  /** `logFrames`: pops every frame, and gives them in the order popped. */
  function LogFrames(t: Thread): (r: (seq<Frame>, Thread))
    ensures |r.0| == |t.stack.frames|
    ensures forall i :: 0 <= i < |r.0| ==> r.0[i] == t.stack.frames[|t.stack.frames| - 1 - i]
    ensures IsStackEmpty(r.1) && r.1.pc == t.pc && r.1.stack.maxSize == t.stack.maxSize
    decreases |t.stack.frames|
  {
    if IsStackEmpty(t) then ([], t)
    else
      var p := PopFrame(t).value;
      var rest := LogFrames(p.1);
      ([p.0] + rest.0, rest.1)
  }

  /** The frames logged are the frames of the thread from the top down. */
  lemma {:induction false} LogFramesTopDown(t: Thread)
    ensures LogFrames(t).0 == GetFrames(t.stack)
    decreases |t.stack.frames|
  {
    if !IsStackEmpty(t) {
      LogFramesTopDown(PopFrame(t).value.1);
    }
  }

  /** `catchErr`: logs and pops the frames, and passes the failure on. */
  function CatchErr(e: Error, t: Thread): (o: Outcome)
    ensures o.Failed? && o.error == e && IsStackEmpty(o.thread)
    ensures o.logged == GetFrames(t.stack)
  {
    LogFramesTopDown(t);
    var logged := LogFrames(t);
    Failed(e, logged.0, logged.1)
  }

  // ---------------------------------------------------------------------------
  // The loop

  /** `loop`: decode and execute until the frame stack is empty. */
  function Loop<I>(h: Heap, t: Thread, fuel: nat, fetch: Fetch<I>, exec: Execute<I>): (o: Outcome)
    requires !IsStackEmpty(t)
    ensures o.Finished? || o.Failed? ==> IsStackEmpty(o.thread)
    ensures o.OutOfFuel? ==> !IsStackEmpty(o.thread)
    decreases fuel
  {
    if fuel == 0 then OutOfFuel(h, t)
    else
      match Decode(h, t, fetch)
      case Err(e) => CatchErr(e, t)
      case Ok((inst, t1)) =>
        match exec(inst, h, t1)
        case Err(e) => CatchErr(e, t1)
        case Ok((h2, t2)) =>
          if IsStackEmpty(t2) then Finished(h2, t2) else Loop(h2, t2, fuel - 1, fetch, exec)
  }

  /** One iteration, as the loop performs it. */
  function Iterate<I>(h: Heap, t: Thread, fetch: Fetch<I>, exec: Execute<I>): Result<(Heap, Thread)>
    requires !IsStackEmpty(t)
  {
    var d :- Decode(h, t, fetch);
    exec(d.0, h, d.1)
  }

  /** With fuel left, the loop performs one iteration, stops when it failed
      or emptied the stack, and otherwise goes on from where it left off. */
  lemma LoopUnfolds<I>(h: Heap, t: Thread, fuel: nat, fetch: Fetch<I>, exec: Execute<I>)
    requires !IsStackEmpty(t) && fuel > 0
    ensures Iterate(h, t, fetch, exec).Err? ==> Loop(h, t, fuel, fetch, exec).Failed?
    ensures Iterate(h, t, fetch, exec).Err? ==> Loop(h, t, fuel, fetch, exec).error == Iterate(h, t, fetch, exec).error
    ensures Iterate(h, t, fetch, exec).Ok? && IsStackEmpty(Iterate(h, t, fetch, exec).value.1) ==>
      Loop(h, t, fuel, fetch, exec) == Finished(Iterate(h, t, fetch, exec).value.0, Iterate(h, t, fetch, exec).value.1)
    ensures Iterate(h, t, fetch, exec).Ok? && !IsStackEmpty(Iterate(h, t, fetch, exec).value.1) ==>
      Loop(h, t, fuel, fetch, exec) == Loop(Iterate(h, t, fetch, exec).value.0, Iterate(h, t, fetch, exec).value.1, fuel - 1, fetch, exec)
  {
  }

  /** More fuel does not change a run that ended: the bound only cuts long
      runs short. */
  lemma {:induction false} FuelMonotone<I>(h: Heap, t: Thread, fuel: nat, more: nat, fetch: Fetch<I>, exec: Execute<I>)
    requires !IsStackEmpty(t) && fuel <= more
    requires !Loop(h, t, fuel, fetch, exec).OutOfFuel?
    ensures Loop(h, t, more, fetch, exec) == Loop(h, t, fuel, fetch, exec)
    decreases fuel
  {
    LoopUnfolds(h, t, fuel, fetch, exec);
    LoopUnfolds(h, t, more, fetch, exec);
    var step := Iterate(h, t, fetch, exec);
    if step.Ok? && !IsStackEmpty(step.value.1) {
      FuelMonotone(step.value.0, step.value.1, fuel - 1, more - 1, fetch, exec);
    }
  }

  /** `interpret`: a new thread with one frame for the method, run by the
      loop. */
  function Interpret<I>(h: Heap, key: MemberKey, m: Method, fuel: nat, fetch: Fetch<I>, exec: Execute<I>): (o: Outcome)
  {
    var t := PushFrame(NewThread(), NewFrame(key, m)).value;
    Loop(h, t, fuel, fetch, exec)
  }

  /** The run starts at pc 0 of the method, in the only frame of a thread
      whose stack holds at most 1024 frames. */
  lemma InterpretStarts<I>(h: Heap, key: MemberKey, m: Method, fuel: nat, fetch: Fetch<I>, exec: Execute<I>)
    ensures PushFrame(NewThread(), NewFrame(key, m)).Ok?
    ensures var t := PushFrame(NewThread(), NewFrame(key, m)).value;
      && t.stack.frames == [NewFrame(key, m)] && t.stack.maxSize == 1024 && t.pc == 0
      && Interpret(h, key, m, fuel, fetch, exec) == Loop(h, t, fuel, fetch, exec)
  {
  }
}

=== FILE: invoke.dfy ===
/** The logic the invoke and allocation instructions share: passing the
    arguments of a call into the new frame, and starting the initialisation of
    a class, which schedules its `<clinit>` and then its superclass's. */
module InvokeLogic {
  import opened Wrappers
  import opened AccessFlags
  import opened Slots
  import opened Heaps
  import opened ClassMembers
  import opened Frames

  // ---------------------------------------------------------------------------
  // Passing arguments

  /** What a call needs: a current frame, room for one more frame, as many
      slots on the caller's operand stack as the method takes, and as many
      locals in the new frame. */
  predicate ArgsFit(t: Thread, m: Method) {
    && !IsStackEmpty(t)
    && |t.stack.frames| < t.stack.maxSize
    && m.argSlotCount <= |Top(t.stack).value.stack.slots|
    && m.argSlotCount <= |NewLocalVars(m.maxLocals)|
  }

  /** The thread after a call: the caller has lost its top `argSlotCount`
      slots, and the callee's first locals hold them in the order they were
      pushed, above the caller, which is otherwise unchanged. */
  predicate Invoked(t: Thread, key: MemberKey, m: Method, t': Thread)
    requires ArgsFit(t, m)
  {
    var fs := t.stack.frames;
    var caller := fs[|fs| - 1];
    var n := |caller.stack.slots|;
    var argc := m.argSlotCount;
    var callee := NewFrame(key, m);
    && t'.pc == t.pc && t'.stack.maxSize == t.stack.maxSize
    && t'.stack.frames == fs[..|fs| - 1]
         + [caller.(stack := caller.stack.(slots := caller.stack.slots[..n - argc]))]
         + [callee.(localVars := caller.stack.slots[n - argc..] + callee.localVars[argc..])]
  }

  /** A call in closed form: the errors of `InvokeMethod` in the order it
      meets them, and otherwise the thread `Invoked` describes. */
  function Invocation(t: Thread, key: MemberKey, m: Method): (r: Result<Thread>)
    ensures r.Ok? <==> ArgsFit(t, m)
    ensures r.Ok? ==> Invoked(t, key, m, r.value)
  {
    if IsStackEmpty(t) then Err(Panic(StackEmptyAtTop))
    else if |t.stack.frames| >= t.stack.maxSize then Err(Panic(StackOverflow))
    else if !ArgsFit(t, m) then Err(OutOfRange)
    else
      var fs := t.stack.frames;
      var caller := fs[|fs| - 1];
      var n := |caller.stack.slots|;
      var argc := m.argSlotCount;
      var callee := NewFrame(key, m);
      Ok(Thread(t.pc, JvmStack(t.stack.maxSize,
        fs[..|fs| - 1]
        + [caller.(stack := caller.stack.(slots := caller.stack.slots[..n - argc]))]
        + [callee.(localVars := caller.stack.slots[n - argc..] + callee.localVars[argc..])])))
  }

  /** `InvokeMethod`: pushes a new frame for the method and then pops the
      arguments off the caller one at a time, the top slot into local
      `argSlotCount - 1` down to the deepest into local 0. */
  method InvokeMethod(t: Thread, key: MemberKey, m: Method) returns (r: Result<Thread>)
    ensures IsStackEmpty(t) ==> r == Err(Panic(StackEmptyAtTop))
    ensures !IsStackEmpty(t) && |t.stack.frames| >= t.stack.maxSize ==> r == Err(Panic(StackOverflow))
    ensures !IsStackEmpty(t) && |t.stack.frames| < t.stack.maxSize && !ArgsFit(t, m) ==> r == Err(OutOfRange)
    ensures r.Ok? <==> ArgsFit(t, m)
    ensures r.Ok? ==> ArgsFit(t, m) && Invoked(t, key, m, r.value)
    ensures r == Invocation(t, key, m)
  {
    var caller :- CurrentFrame(t);
    var callee := NewFrame(key, m);
    var pushed :- PushFrame(t, callee);
    var argc := m.argSlotCount;
    var n := |caller.stack.slots|;
    var stack := caller.stack;
    var locals := callee.localVars;
    var i := argc;
    while i > 0
      invariant 0 <= i <= argc && argc - i <= n
      invariant stack == caller.stack.(slots := caller.stack.slots[..n - (argc - i)])
      invariant |locals| == |callee.localVars|
      invariant i < argc ==> argc <= |locals|
      invariant forall j :: i <= j < argc ==> locals[j] == caller.stack.slots[n - argc + j]
      invariant forall j :: 0 <= j < |locals| && !(i <= j < argc) ==> locals[j] == callee.localVars[j]
    {
      i := i - 1;
      var p :- PopSlot(stack);
      locals :- SetSlot(locals, i, p.0);
      stack := p.1;
    }
    var caller' := caller.(stack := stack);
    var callee' := callee.(localVars := locals);
    assert locals == caller.stack.slots[n - argc..] + callee.localVars[argc..];
    match SetCurrentFrame(t, caller')
    case Ok(lowered) => r := PushFrame(lowered, callee');
    case Err(e) => r := Err(e);
  }

  /** Argument i of a call lands in local i: local 0 holds the deepest argument
      slot and local `argSlotCount - 1` the slot that was on top. A method
      without arguments leaves the caller as it was. */
  lemma InvokedArgs(t: Thread, key: MemberKey, m: Method, t': Thread)
    requires ArgsFit(t, m) && Invoked(t, key, m, t')
    ensures |t'.stack.frames| == |t.stack.frames| + 1
    ensures CurrentFrame(t').Ok? && CurrentFrame(t').value.methodKey == key && CurrentFrame(t').value.nextPC == 0
    ensures forall i :: 0 <= i < m.argSlotCount ==>
      CurrentFrame(t').value.localVars[i] == SlotFromTop(Top(t.stack).value.stack, m.argSlotCount - 1 - i)
    ensures m.argSlotCount == 0 ==> PopFrame(t').value.1 == t
  {
    var fs := t.stack.frames;
    if m.argSlotCount == 0 {
      var caller := fs[|fs| - 1];
      assert caller.stack.slots[..|caller.stack.slots|] == caller.stack.slots;
      assert fs[..|fs| - 1] + [caller] == fs;
      assert PopFrame(t').value.1.stack.frames == fs;
    }
  }

  // ---------------------------------------------------------------------------
  // Class initialisation

  /** Whether `initSuperClass` goes on to the superclass: the class is not an
      interface and has a superclass whose initialisation has not started. */
  predicate InitContinues(h: Heap, c: ClassId)
    requires Valid(h) && c < |h.classes|
  {
    var cl := h.classes[c];
    !IsInterface(cl.accessFlags) && cl.superClass.Some? && !h.states[cl.superClass.value].initStarted
  }

  /** The classes whose initialisation `InitClass(c)` starts: c, and then up the
      superclass chain while `InitContinues` holds. */
  function InitChain(h: Heap, c: ClassId): (r: seq<ClassId>)
    requires Valid(h) && c < |h.classes|
    ensures |r| > 0 && r[0] == c
    ensures forall k :: 0 < k < |r| ==> r[k] < c
    ensures forall i, j :: 0 <= i < j < |r| ==> r[i] > r[j]
    decreases c
  {
    assert ClassLinked(h.classes[c], c);
    if InitContinues(h, c) then [c] + InitChain(h, h.classes[c].superClass.value) else [c]
  }

  /** `InitChain(c)` is the start of the superclass chain of c: it stops at
      the first class that is an interface, has no superclass, or whose
      superclass has already started, and none of its classes after c had
      started. */
  lemma {:induction false} InitChainSpec(h: Heap, c: ClassId)
    requires Valid(h) && c < |h.classes|
    ensures |InitChain(h, c)| <= |Chain(h.classes, c)|
    ensures InitChain(h, c) == Chain(h.classes, c)[..|InitChain(h, c)|]
    ensures forall k :: 0 < k < |InitChain(h, c)| ==> !h.states[InitChain(h, c)[k]].initStarted
    ensures forall k :: 0 <= k < |InitChain(h, c)| - 1 ==> !IsInterface(h.classes[InitChain(h, c)[k]].accessFlags)
    ensures !InitContinues(h, InitChain(h, c)[|InitChain(h, c)| - 1])
    decreases c
  {
    assert ClassLinked(h.classes[c], c);
    var ic := InitChain(h, c);
    var ch := Chain(h.classes, c);
    if InitContinues(h, c) {
      var s := h.classes[c].superClass.value;
      InitChainSpec(h, s);
      var up := InitChain(h, s);
      assert ic == [c] + up;
      assert ch == [c] + Chain(h.classes, s);
      assert ic[|ic| - 1] == up[|up| - 1];
      forall k | 0 < k < |ic|
        ensures !h.states[ic[k]].initStarted
      {
        assert ic[k] == up[k - 1];
        if k == 1 {
          assert up[0] == s;
        }
      }
      forall k | 0 <= k < |ic| - 1
        ensures !IsInterface(h.classes[ic[k]].accessFlags)
      {
        if k > 0 {
          assert ic[k] == up[k - 1];
        }
      }
    }
  }

  /** The `<clinit>` frame of class c, if it has one. */
  function ClinitFrame(cs: seq<Class>, c: ClassId): (r: Option<Frame>)
    requires c < |cs|
    ensures r.Some? ==> GetClinitMethod(cs[c]).Some? && r.value.methodKey == MemberKey(c, GetClinitMethod(cs[c]).value)
    ensures r.Some? ==> r.value == NewFrame(r.value.methodKey, cs[c].methods[r.value.methodKey.index])
    ensures r.None? <==> GetClinitMethod(cs[c]).None?
  {
    match GetClinitMethod(cs[c])
    case None => None
    case Some(i) => Some(NewFrame(MemberKey(c, i), cs[c].methods[i]))
  }

  /** The `<clinit>` frame of class c as a sequence of none or one frame. */
  function ClinitFrameSeq(cs: seq<Class>, c: ClassId): (r: seq<Frame>)
    requires c < |cs|
    ensures |r| <= 1 && (|r| == 1 <==> ClinitFrame(cs, c).Some?)
    ensures |r| == 1 ==> r[0] == ClinitFrame(cs, c).value
  {
    match ClinitFrame(cs, c)
    case None => []
    case Some(f) => [f]
  }

  /** The `<clinit>` frames of the classes of a chain, in chain order. */
  function ClinitFrames(cs: seq<Class>, chain: seq<ClassId>): (r: seq<Frame>)
    requires forall k :: 0 <= k < |chain| ==> chain[k] < |cs|
  {
    if |chain| == 0 then [] else ClinitFrameSeq(cs, chain[0]) + ClinitFrames(cs, chain[1..])
  }

  /** Every frame of a chain's `<clinit>` frames is the `<clinit>` frame of
      a class of the chain. */
  lemma {:induction false} ClinitFramesOwners(cs: seq<Class>, chain: seq<ClassId>)
    requires forall k :: 0 <= k < |chain| ==> chain[k] < |cs|
    ensures |ClinitFrames(cs, chain)| <= |chain|
    ensures forall i :: 0 <= i < |ClinitFrames(cs, chain)| ==> ClinitOf(cs, chain, ClinitFrames(cs, chain)[i])
  {
    if |chain| > 0 {
      var rest := chain[1..];
      ClinitFramesOwners(cs, rest);
      var own := ClinitFrameSeq(cs, chain[0]);
      var tail := ClinitFrames(cs, rest);
      var fs := ClinitFrames(cs, chain);
      assert fs == own + tail;
      forall i | 0 <= i < |fs|
        ensures ClinitOf(cs, chain, fs[i])
      {
        if i >= |own| {
          assert ClinitOf(cs, rest, tail[i - |own|]);
        }
      }
    }
  }

  /** The frame is the `<clinit>` frame of one of the classes of the chain. */
  predicate ClinitOf(cs: seq<Class>, chain: seq<ClassId>, f: Frame) {
    f.methodKey.owner in chain && f.methodKey.owner < |cs| && ClinitFrame(cs, f.methodKey.owner) == Some(f)
  }

  /** No frame is pushed exactly when no class of the chain has a `<clinit>`. */
  lemma {:induction false} ClinitFramesEmpty(cs: seq<Class>, chain: seq<ClassId>)
    requires forall k :: 0 <= k < |chain| ==> chain[k] < |cs|
    ensures (forall k :: 0 <= k < |chain| ==> ClinitFrame(cs, chain[k]).None?) <==> ClinitFrames(cs, chain) == []
  {
    if |chain| > 0 {
      var rest := chain[1..];
      ClinitFramesEmpty(cs, rest);
      var own := ClinitFrameSeq(cs, chain[0]);
      var tail := ClinitFrames(cs, rest);
      assert ClinitFrames(cs, chain) == own + tail;
      var allNone := forall k :: 0 <= k < |chain| ==> ClinitFrame(cs, chain[k]).None?;
      var restNone := forall k :: 0 <= k < |rest| ==> ClinitFrame(cs, rest[k]).None?;
      assert allNone <==> ClinitFrame(cs, chain[0]).None? && restNone by {
        if ClinitFrame(cs, chain[0]).None? && restNone {
          forall k | 0 <= k < |chain|
            ensures ClinitFrame(cs, chain[k]).None?
          {
            if k > 0 {
              assert rest[k - 1] == chain[k];
            }
          }
        }
        if allNone {
          forall k | 0 <= k < |rest|
            ensures ClinitFrame(cs, rest[k]).None?
          {
            assert rest[k] == chain[k + 1];
          }
        }
      }
      assert own + tail == [] <==> own == [] && tail == [];
    }
  }

  predicate Decreasing(ids: seq<ClassId>) {
    forall i, j :: 0 <= i < j < |ids| ==> ids[i] > ids[j]
  }

  lemma DecreasingCons(x: ClassId, s: seq<ClassId>)
    requires Decreasing(s) && forall k :: 0 <= k < |s| ==> s[k] < x
    ensures Decreasing([x] + s)
  {
  }

  function Owners(fs: seq<Frame>): (r: seq<ClassId>)
    ensures |r| == |fs| && forall i :: 0 <= i < |fs| ==> r[i] == fs[i].methodKey.owner
  {
    seq(|fs|, i requires 0 <= i < |fs| => fs[i].methodKey.owner)
  }

  lemma OwnersAppend(a: seq<Frame>, b: seq<Frame>)
    ensures Owners(a + b) == Owners(a) + Owners(b)
  {
  }

  /** Along a chain of decreasing ids the frames belong to classes of
      decreasing ids: a superclass is loaded before its subclasses, so each
      frame pushed later belongs to a class further up the superclass
      chain. */
  lemma {:induction false} ClinitFramesOrdered(cs: seq<Class>, chain: seq<ClassId>)
    requires forall k :: 0 <= k < |chain| ==> chain[k] < |cs|
    requires Decreasing(chain)
    ensures Decreasing(Owners(ClinitFrames(cs, chain)))
  {
    if |chain| > 0 {
      var rest := chain[1..];
      ClinitFramesOrdered(cs, rest);
      ClinitFramesOwners(cs, rest);
      var own := ClinitFrameSeq(cs, chain[0]);
      var tail := ClinitFrames(cs, rest);
      var fs := ClinitFrames(cs, chain);
      assert fs == own + tail;
      if |own| == 1 {
        var ot := Owners(tail);
        forall j | 0 <= j < |ot|
          ensures ot[j] < chain[0]
        {
          assert ClinitOf(cs, rest, tail[j]);
          var k :| 0 <= k < |rest| && rest[k] == ot[j];
          assert chain[k + 1] == ot[j];
        }
        DecreasingCons(chain[0], ot);
        OwnersAppend(own, tail);
        assert Owners(own) == [chain[0]];
      } else {
        assert fs == tail;
      }
    }
  }

  /** `scheduleClinit`: pushes the frame of the class's `<clinit>` if it has
      one, so that it runs before the instruction that triggered the
      initialisation is executed again. */
  function ScheduleClinit(cs: seq<Class>, t: Thread, c: ClassId): (r: Result<Thread>)
    requires c < |cs|
    ensures r.Ok? <==> ClinitFrame(cs, c).None? || |t.stack.frames| < t.stack.maxSize
    ensures r.Err? ==> r == Err(Panic(StackOverflow))
    ensures r.Ok? ==> r.value.pc == t.pc && r.value.stack.maxSize == t.stack.maxSize
    ensures r.Ok? ==> r.value.stack.frames == t.stack.frames + ClinitFrameSeq(cs, c)
  {
    match ClinitFrame(cs, c)
    case None => Ok(t)
    case Some(f) => PushFrame(t, f)
  }

  /** The heap after initialisation of the classes of `chain` has started:
      their flag is set, and nothing else changed. */
  predicate Started(h: Heap, h': Heap, chain: seq<ClassId>) {
    && StateOnly(h, h') && |h'.states| == |h.states|
    && forall id :: 0 <= id < |h.states| ==>
         h'.states[id] == if id in chain then h.states[id].(initStarted := true) else h.states[id]
  }

  /** `InitClass`: starts the initialisation of class c, schedules its
      `<clinit>`, and then goes on with `InitSuperClass`. */
  function InitClass(h: Heap, t: Thread, c: ClassId): (r: Result<(Heap, Thread)>)
    requires Valid(h) && c < |h.classes|
    ensures r.Ok? ==> Valid(r.value.0)
    decreases c, 1
  {
    var h1 := StartInit(h, c);
    var t1 :- ScheduleClinit(h1.classes, t, c);
    InitSuperClass(h1, t1, c)
  }

  /** `initSuperClass`: initialises the superclass of c, unless c is an
      interface, has no superclass, or its superclass's initialisation has
      already started. */
  function InitSuperClass(h: Heap, t: Thread, c: ClassId): (r: Result<(Heap, Thread)>)
    requires Valid(h) && c < |h.classes|
    ensures r.Ok? ==> Valid(r.value.0)
    decreases c, 0
  {
    assert ClassLinked(h.classes[c], c);
    if InitContinues(h, c) then InitClass(h, t, h.classes[c].superClass.value) else Ok((h, t))
  }

  /** The outcome of starting the initialisation of the classes of `chain`
      from heap h and thread t: it fails, with a stack overflow, exactly when
      their `<clinit>` frames do not fit on the frame stack; otherwise the
      classes are started and their frames pushed in chain order. */
  predicate InitDone(h: Heap, t: Thread, chain: seq<ClassId>, r: Result<(Heap, Thread)>)
    requires forall k :: 0 <= k < |chain| ==> chain[k] < |h.classes|
  {
    && (r.Ok? <==> |t.stack.frames| + |ClinitFrames(h.classes, chain)| <= t.stack.maxSize)
    && (r.Err? ==> r == Err(Panic(StackOverflow)))
    && (r.Ok? ==> Started(h, r.value.0, chain))
    && (r.Ok? ==> r.value.1.pc == t.pc && r.value.1.stack.maxSize == t.stack.maxSize)
    && (r.Ok? ==> r.value.1.stack.frames == t.stack.frames + ClinitFrames(h.classes, chain))
  }

  /** What `InitClass(c)` does: it sets the init flag of every class of
      `InitChain` and of no other, and pushes the `<clinit>` frames of those
      classes in chain order, so that the frame of the furthest superclass is
      on top and runs first. The only failure is a frame stack that
      overflows. (A frame stack never holds more frames than its bound.) */
  lemma {:induction false} InitClassSpec(h: Heap, t: Thread, c: ClassId)
    requires Valid(h) && c < |h.classes| && |t.stack.frames| <= t.stack.maxSize
    ensures InitDone(h, t, InitChain(h, c), InitClass(h, t, c))
    decreases c, 1
  {
    var h1 := StartInit(h, c);
    var chain := InitChain(h, c);
    var st := ScheduleClinit(h1.classes, t, c);
    if st.Ok? {
      InitSuperClassSpec(h, h1, st.value, c);
    }
    InitStep(h, h1, t, c, chain[1..], st, InitClass(h, t, c));
  }

  /** `initSuperClass` starts the rest of the chain after c. */
  lemma {:induction false} InitSuperClassSpec(h: Heap, h1: Heap, t1: Thread, c: ClassId)
    requires Valid(h) && c < |h.classes| && h1 == StartInit(h, c) && |t1.stack.frames| <= t1.stack.maxSize
    ensures InitDone(h1, t1, InitChain(h, c)[1..], InitSuperClass(h1, t1, c))
    decreases c, 0
  {
    assert ClassLinked(h.classes[c], c);
    var chain := InitChain(h, c);
    assert InitContinues(h1, c) == InitContinues(h, c);
    if InitContinues(h, c) {
      var s := h.classes[c].superClass.value;
      InitChainStable(h, h1, s);
      assert chain[1..] == InitChain(h1, s);
      InitClassSpec(h1, t1, s);
    } else {
      assert chain[1..] == [];
      assert Started(h1, h1, []);
    }
  }

  /** Putting c's own step in front of the outcome for the rest of the chain. */
  lemma InitStep(h: Heap, h1: Heap, t: Thread, c: ClassId, rest: seq<ClassId>,
                 st: Result<Thread>, r: Result<(Heap, Thread)>)
    requires Valid(h) && c < |h.classes| && h1 == StartInit(h, c) && |t.stack.frames| <= t.stack.maxSize
    requires InitChain(h, c) == [c] + rest && forall k :: 0 <= k < |rest| ==> rest[k] < c
    requires st == ScheduleClinit(h1.classes, t, c)
    requires st.Err? ==> r == Err(st.error)
    requires st.Ok? ==> InitDone(h1, st.value, rest, r)
    ensures InitDone(h, t, [c] + rest, r)
  {
    var chain := [c] + rest;
    assert chain[0] == c && chain[1..] == rest;
    assert ClinitFrames(h.classes, chain) == ClinitFrameSeq(h.classes, c) + ClinitFrames(h.classes, rest);
    if st.Err? {
      assert |ClinitFrameSeq(h.classes, c)| == 1;
    } else if r.Ok? {
      assert StartedOne(h, h1, c);
      assert c !in rest;
      StartedStep(h, h1, r.value.0, c, rest);
      InitStepOk(h, h1, t, c, rest, st.value, r.value);
    }
  }

  /** On success the frames pushed for the chain c, rest are c's own frame
      followed by the frames for rest, and they fit under the bound. */
  lemma InitStepOk(h: Heap, h1: Heap, t: Thread, c: ClassId, rest: seq<ClassId>, t1: Thread, r: (Heap, Thread))
    requires c < |h.classes| && h1.classes == h.classes
    requires forall k :: 0 <= k < |rest| ==> rest[k] < c
    requires t1.pc == t.pc && t1.stack.maxSize == t.stack.maxSize
    requires t1.stack.frames == t.stack.frames + ClinitFrameSeq(h.classes, c)
    requires ClinitFrames(h.classes, [c] + rest) == ClinitFrameSeq(h.classes, c) + ClinitFrames(h.classes, rest)
    requires |t1.stack.frames| + |ClinitFrames(h1.classes, rest)| <= t1.stack.maxSize
    requires r.1.pc == t1.pc && r.1.stack.maxSize == t1.stack.maxSize
    requires r.1.stack.frames == t1.stack.frames + ClinitFrames(h1.classes, rest)
    ensures |t.stack.frames| + |ClinitFrames(h.classes, [c] + rest)| <= t.stack.maxSize
    ensures r.1.pc == t.pc && r.1.stack.maxSize == t.stack.maxSize
    ensures r.1.stack.frames == t.stack.frames + ClinitFrames(h.classes, [c] + rest)
  {
    AppendFits(t.stack.frames, ClinitFrameSeq(h.classes, c), ClinitFrames(h.classes, rest),
               t1.stack.frames, r.1.stack.frames, t.stack.maxSize);
  }

  /** Pushing own and then tail onto base pushes own + tail. */
  lemma AppendFits(base: seq<Frame>, own: seq<Frame>, tail: seq<Frame>, mid: seq<Frame>, fin: seq<Frame>, max: int)
    requires mid == base + own && |mid| + |tail| <= max && fin == mid + tail
    ensures |base| + |own + tail| <= max && fin == base + (own + tail)
  {
  }

  /** What `StartInit` does to the heap. */
  predicate StartedOne(h: Heap, h1: Heap, c: ClassId)
    requires c < |h.states|
  {
    StateOnly(h, h1) && h1.states == h.states[c := h.states[c].(initStarted := true)]
  }

  /** Starting c and then the classes of `rest` starts the classes of c followed
      by `rest`. */
  lemma StartedStep(h: Heap, h1: Heap, h': Heap, c: ClassId, rest: seq<ClassId>)
    requires c < |h.states| && StartedOne(h, h1, c)
    requires Started(h1, h', rest) && c !in rest
    ensures Started(h, h', [c] + rest)
  {
  }

  /** `InitChain` only reads the flags of the classes up to c, so starting the
      initialisation of a later class does not change it. */
  lemma {:induction false} InitChainStable(h: Heap, h': Heap, c: ClassId)
    requires Valid(h) && Valid(h') && c < |h.classes| && h'.classes == h.classes
    requires forall id :: 0 <= id <= c ==> h'.states[id].initStarted == h.states[id].initStarted
    ensures InitChain(h', c) == InitChain(h, c)
    decreases c
  {
    assert ClassLinked(h.classes[c], c);
    if InitContinues(h, c) {
      InitChainStable(h, h', h.classes[c].superClass.value);
    }
  }
}

=== FILE: loader_init.dfy ===
/** Starting a class loader: `NewClassLoader` loads `java.lang.Class`, gives
    every class loaded so far its mirror (`loadBasicClasses`), and then
    registers the nine primitive classes (`loadPrimitiveClasses`).

    The Go code walks maps here, in no fixed order; the model walks the
    classes by id and the primitive types in the order of the `primitiveTypes`
    table. Only the addresses of the mirror objects depend on that order. */
module ClassLoaderInit {
  import opened Wrappers
  import opened AccessFlags
  import opened ClassNames
  import opened Slots
  import opened Heaps
  import opened ClassLoader

  /** The names of the `primitiveTypes` table. */
  const PrimitiveNames: seq<string> := ["void", "boolean", "byte", "short", "int", "long", "char", "float", "double"]

  lemma PrimitiveNamesTable(n: string)
    ensures n in PrimitiveNames <==> PrimitiveDescriptor(n).Some?
    ensures n in PrimitiveNames ==> n != JlClass && !IsArrayName(n)
  {
  }

  /** Every registered class has a mirror. */
  predicate AllMirrored(h: Heap)
    requires Valid(h)
  {
    forall n :: n in h.classMap ==> h.states[h.classMap[n]].jClass.Addr?
  }

  lemma EmptyHeapMirrors()
    ensures Valid(EmptyHeap) && MirrorsValid(EmptyHeap) && AllMirrored(EmptyHeap)
  {
  }

  /** Registering a class without a mirror keeps every mirror valid. */
  lemma MirrorsAdded(h: Heap, c: Class, st: ClassState)
    requires MirrorsValid(h) && ClassLinked(c, |h.classes|) && CachesValid(h.classes, st) && st.jClass.Null?
    ensures MirrorsValid(AddClass(h, c, st).1)
  {
    var h' := AddClass(h, c, st).1;
    forall id
      ensures MirrorValid(h', id)
    {
      if 0 <= id < |h'.states| && h'.states[id].jClass.Addr? {
        assert id < |h.states| && h'.states[id] == h.states[id];
        assert MirrorValid(h, id);
      }
    }
  }

  /** `loadBasicClasses`: loads `java.lang.Class` and gives a mirror to every
      registered class that has none yet. */
  method LoadBasicClasses(defs: Defs, h: Heap) returns (r: Result<Heap>)
    requires Valid(h)
    ensures r.Ok? ==> Valid(r.value) && Grows(h, r.value)
    ensures r.Ok? && Consistent(defs) ==> Step(defs, {}, h, r.value)
    ensures r.Ok? && Consistent(defs) ==> JlClass in r.value.classMap && AllMirrored(r.value)
  {
    var loaded :- LoadClass(defs, h, {}, JlClass);
    var (jl, h1) := loaded;
    var cur := h1;
    for id := 0 to |h1.classes|
      invariant BasicDone(defs, h, jl, h1, cur, id)
    {
      BasicStep(defs, h, jl, h1, cur, id);
      cur := MirrorIfNone(cur, jl, id);
    }
    if Consistent(defs) {
      forall n | n in cur.classMap
        ensures cur.states[cur.classMap[n]].jClass.Addr?
      {
        assert cur.classMap[n] in cur.classMap.Values;
      }
    }
    r := Ok(cur);
  }

  /** One turn of the loop of `loadBasicClasses`. */
  function MirrorIfNone(h: Heap, jl: ClassId, id: ClassId): (h': Heap)
    requires Valid(h) && jl < |h.classes| && id < |h.classes|
  {
    if h.states[id].jClass.Null? && id in h.classMap.Values then GiveMirror(h, jl, id) else h
  }

  /** What holds once the classes below id have been visited. */
  ghost predicate BasicDone(defs: Defs, h: Heap, jl: ClassId, h1: Heap, cur: Heap, id: nat) {
    var done :=
      && Valid(h) && Valid(cur) && Grows(h1, cur) && Grows(h, h1) && jl < |h1.classes| && id <= |h1.classes|
      && cur.classes == h1.classes && cur.classMap == h1.classMap
      && (Consistent(defs) ==> Step(defs, {}, h, cur) && Registered(cur, JlClass, jl))
      && (Consistent(defs) ==> forall j :: 0 <= j < id && j in cur.classMap.Values ==> cur.states[j].jClass.Addr?);
    done
  }

  lemma BasicStep(defs: Defs, h: Heap, jl: ClassId, h1: Heap, cur: Heap, id: nat)
    requires BasicDone(defs, h, jl, h1, cur, id) && id < |h1.classes|
    ensures BasicDone(defs, h, jl, h1, MirrorIfNone(cur, jl, id), id + 1)
  {
    var next := MirrorIfNone(cur, jl, id);
    if next != cur {
      if Consistent(defs) {
        ConsistentMirrorStep(defs, h, jl, cur, id);
      }
      GrowsTrans(h1, cur, next);
    }
  }

  lemma ConsistentMirrorStep(defs: Defs, h: Heap, jl: ClassId, cur: Heap, id: nat)
    requires Valid(cur) && id < |cur.classes| && Registered(cur, JlClass, jl) && Step(defs, {}, h, cur)
    requires forall j :: 0 <= j < id && j in cur.classMap.Values ==> cur.states[j].jClass.Addr?
    ensures Step(defs, {}, h, MirrorIfNone(cur, jl, id))
    ensures forall j :: 0 <= j < id + 1 && j in cur.classMap.Values ==> MirrorIfNone(cur, jl, id).states[j].jClass.Addr?
  {
    var next := MirrorIfNone(cur, jl, id);
    if next != cur {
      MirrorStep(defs, {}, cur, id);
      StepTrans(defs, {}, h, cur, next);
    }
  }

  /** The class `loadPrimitiveClass` makes: public, without members or
      superclass, its initialisation already started. */
  function PrimitiveClass(name: string): Class {
    Class(ACC_PUBLIC, name, "", [], [], [], [], None, [], 0, 0, "")
  }

  /** `loadPrimitiveClass`: registers the primitive class with its mirror,
      replacing whatever was registered under its name. Without a
      `java.lang.Class` to make the mirror from, Go dereferences nil. */
  method LoadPrimitiveClass(h: Heap, name: string) returns (r: Result<(ClassId, Heap)>)
    requires Valid(h) && name in PrimitiveNames
    ensures r.Ok? <==> JlClass in h.classMap
    ensures r.Err? ==> r.error == NilDeref
    ensures r.Ok? ==> r.value.0 == |h.classes| && PrimitiveAdded(h, r.value.1, name)
  {
    if JlClass !in h.classMap {
      return Err(NilDeref);
    }
    var c := PrimitiveClass(name);
    var (id, h1) := AddClass(h, c, FreshState(0, true));
    PrimitiveNamesTable(name);
    assert h1.classMap[JlClass] == h.classMap[JlClass];
    MirrorStep(map[], {}, h1, id);
    if MirrorsValid(h) {
      MirrorsAdded(h, c, FreshState(0, true));
    }
    var h' := GiveMirror(h1, h.classMap[JlClass], id);
    assert PrimitiveRegistered(h', name);
    r := Ok((id, h'));
  }

  /** The primitive class is added as the last class and registered under its
      name, replacing any earlier class of that name; nothing loaded before
      changes and mirrors stay valid. */
  ghost predicate PrimitiveAdded(h: Heap, h': Heap, name: string) {
    var added :=
      && Valid(h) && Valid(h') && Grows(h, h')
      && h'.classes == h.classes + [PrimitiveClass(name)]
      && h'.classMap == h.classMap[name := |h.classes|]
      && PrimitiveRegistered(h', name)
      && (forall j :: 0 <= j < |h.states| ==> h'.states[j] == h.states[j])
      && (MirrorsValid(h) ==> MirrorsValid(h'));
    added
  }

  /** `loadPrimitiveClasses`: registers the primitive classes, each with its
      mirror and with its initialisation started. */
  method LoadPrimitiveClasses(h: Heap) returns (r: Result<Heap>)
    requires Valid(h)
    ensures r.Ok? <==> JlClass in h.classMap
    ensures r.Err? ==> r.error == NilDeref
    ensures r.Ok? ==> Valid(r.value) && Grows(h, r.value)
    ensures r.Ok? && MirrorsValid(h) ==> MirrorsValid(r.value)
    ensures r.Ok? && AllMirrored(h) ==> AllMirrored(r.value)
    ensures r.Ok? ==> forall n :: n in h.classMap && n !in PrimitiveNames ==> n in r.value.classMap && r.value.classMap[n] == h.classMap[n]
    ensures r.Ok? ==> forall k :: 0 <= k < |PrimitiveNames| ==> PrimitiveRegistered(r.value, PrimitiveNames[k])
  {
    if JlClass !in h.classMap {
      return Err(NilDeref);
    }
    var cur := h;
    for k := 0 to |PrimitiveNames|
      invariant PrimitivesDone(h, cur, k)
    {
      var added := LoadPrimitiveClass(cur, PrimitiveNames[k]);
      PrimitiveStep(h, cur, added.value.1, k);
      cur := added.value.1;
    }
    r := Ok(cur);
  }

  /** What holds once the first k primitive classes are registered. */
  ghost predicate PrimitivesDone(h: Heap, cur: Heap, k: nat) {
    var done :=
      && Valid(h) && Valid(cur) && Grows(h, cur) && JlClass in cur.classMap && k <= |PrimitiveNames|
      && (MirrorsValid(h) ==> MirrorsValid(cur))
      && (AllMirrored(h) ==> AllMirrored(cur))
      && (forall n :: n in h.classMap && n !in PrimitiveNames ==> n in cur.classMap && cur.classMap[n] == h.classMap[n])
      && (forall j :: 0 <= j < k ==> PrimitiveRegistered(cur, PrimitiveNames[j]));
    done
  }

  lemma PrimitiveStep(h: Heap, cur: Heap, next: Heap, k: nat)
    requires PrimitivesDone(h, cur, k) && k < |PrimitiveNames| && PrimitiveAdded(cur, next, PrimitiveNames[k])
    ensures PrimitivesDone(h, next, k + 1)
  {
    PrimitiveNamesTable(PrimitiveNames[k]);
    if AllMirrored(h) {
      PrimitiveAllMirrored(cur, next, PrimitiveNames[k]);
    }
    PrimitivesRegistered(cur, next, k);
    GrowsTrans(h, cur, next);
  }

  lemma PrimitiveAllMirrored(cur: Heap, next: Heap, name: string)
    requires PrimitiveAdded(cur, next, name) && AllMirrored(cur)
    ensures AllMirrored(next)
  {
  }

  lemma PrimitivesRegistered(cur: Heap, next: Heap, k: nat)
    requires k < |PrimitiveNames| && PrimitiveAdded(cur, next, PrimitiveNames[k])
    requires forall j :: 0 <= j < k ==> PrimitiveRegistered(cur, PrimitiveNames[j])
    ensures forall j :: 0 <= j < k + 1 ==> PrimitiveRegistered(next, PrimitiveNames[j])
  {
  }

  lemma PrimitiveNamesDistinct()
    ensures forall i, j :: 0 <= i < j < |PrimitiveNames| ==> PrimitiveNames[i] != PrimitiveNames[j]
  {
  }

  /** The primitive class is registered under its name, has started its
      initialisation and has its mirror. */
  predicate PrimitiveRegistered(h: Heap, name: string)
    requires Valid(h)
  {
    && name in h.classMap
    && h.classes[h.classMap[name]] == PrimitiveClass(name)
    && h.states[h.classMap[name]].initStarted
    && h.states[h.classMap[name]].jClass.Addr?
    && MirrorOf(h, h.states[h.classMap[name]].jClass.address, h.classMap[name])
  }

  lemma PrimitiveRegisteredKept(h: Heap, h': Heap, name: string, other: string)
    requires Valid(h) && Valid(h') && Grows(h, h') && PrimitiveRegistered(h, name) && name != other
    requires h'.classMap == h.classMap[other := |h.classes|]
    requires forall j :: 0 <= j < |h.states| ==> h'.states[j] == h.states[j]
    ensures PrimitiveRegistered(h', name)
  {
  }

  /** `NewClassLoader`: the basic classes, then the primitive classes. On a
      consistent class path every registered class ends with a valid mirror,
      and the primitive classes are registered. */
  method NewClassLoader(defs: Defs) returns (r: Result<Heap>)
    ensures r.Ok? ==> Valid(r.value)
    ensures r.Ok? && Consistent(defs) ==> MirrorsValid(r.value) && AllMirrored(r.value)
    ensures r.Ok? ==> forall k :: 0 <= k < |PrimitiveNames| ==> PrimitiveRegistered(r.value, PrimitiveNames[k])
  {
    EmptyHeapMirrors();
    var h1 :- LoadBasicClasses(defs, EmptyHeap);
    r := LoadPrimitiveClasses(h1);
  }
}

=== FILE: machine_ints.dfy ===
/** Fixed-width integers of the Go implementation (int8 … int64, uint8 … uint64)
    over Dafny's unbounded `int`, with every wrap-around written out.

    Bitwise operators are defined bit by bit on the unsigned representation, so
    the facts the instructions rely on (xor is its own inverse, `x & (2^k - 1)` is
    `x mod 2^k`, …) are proved rather than assumed. */
module MachineInts {

  const TWO_7: int := 0x80
  const TWO_8: int := 0x100
  const TWO_15: int := 0x8000
  const TWO_16: int := 0x1_0000
  const TWO_31: int := 0x8000_0000
  const TWO_32: int := 0x1_0000_0000
  const TWO_63: int := 0x8000_0000_0000_0000
  const TWO_64: int := 0x1_0000_0000_0000_0000

  type u8 = x: int | 0 <= x < 0x100
  type u16 = x: int | 0 <= x < 0x1_0000
  type u32 = x: int | 0 <= x < 0x1_0000_0000
  type u64 = x: int | 0 <= x < 0x1_0000_0000_0000_0000
  type i8 = x: int | -0x80 <= x < 0x80
  type i16 = x: int | -0x8000 <= x < 0x8000
  type i32 = x: int | -0x8000_0000 <= x < 0x8000_0000
  type i64 = x: int | -0x8000_0000_0000_0000 <= x < 0x8000_0000_0000_0000

  /** Go's conversion to a signed type: keep the low bits, read them as two's complement. */
  function Wrap8(x: int): (r: i8)
    ensures (r - x) % TWO_8 == 0
  {
    var u := x % TWO_8;
    if u < TWO_7 then u else u - TWO_8
  }

  function Wrap16(x: int): (r: i16)
    ensures (r - x) % TWO_16 == 0
  {
    var u := x % TWO_16;
    if u < TWO_15 then u else u - TWO_16
  }

  function Wrap32(x: int): (r: i32)
    ensures (r - x) % TWO_32 == 0
  {
    var u := x % TWO_32;
    if u < TWO_31 then u else u - TWO_32
  }

  function Wrap64(x: int): (r: i64)
    ensures (r - x) % TWO_64 == 0
  {
    var u := x % TWO_64;
    if u < TWO_63 then u else u - TWO_64
  }

  /** Go's conversion to an unsigned type: keep the low bits. */
  function ToU16(x: int): (r: u16)
    ensures (r - x) % TWO_16 == 0
  {
    x % TWO_16
  }

  function ToU32(x: int): (r: u32)
    ensures (r - x) % TWO_32 == 0
  {
    x % TWO_32
  }

  function ToU64(x: int): (r: u64)
    ensures (r - x) % TWO_64 == 0
  {
    x % TWO_64
  }

  /** A value that already fits the signed width is left alone by the wrap. */
  lemma Wrap32Id(x: i32)
    ensures Wrap32(x) == x
  {
  }

  lemma Wrap64Id(x: i64)
    ensures Wrap64(x) == x
  {
  }

  /** int32(uint32(x)) == x and uint32(int32(u)) == u: the signed/unsigned
      reinterpretations of one 32-bit pattern are mutually inverse. */
  lemma U32RoundTrip(x: i32, u: u32)
    ensures Wrap32(ToU32(x)) == x
    ensures ToU32(Wrap32(u)) == u
  {
  }

  lemma U64RoundTrip(x: i64, u: u64)
    ensures Wrap64(ToU64(x)) == x
    ensures ToU64(Wrap64(u)) == u
  {
  }

  function Pow2(n: nat): (r: nat)
    ensures r >= 1
  {
    if n == 0 then 1 else 2 * Pow2(n - 1)
  }

  lemma Pow2Values()
    ensures Pow2(5) == 32 && Pow2(6) == 64
    ensures Pow2(8) == TWO_8 && Pow2(16) == TWO_16
    ensures Pow2(32) == TWO_32 && Pow2(64) == TWO_64
  {
    Pow2At64();
  }

  lemma Pow2Small()
    ensures Pow2(5) == 32 && Pow2(6) == 64
    ensures Pow2(8) == TWO_8 && Pow2(16) == TWO_16
  {
  }

  lemma Pow2At32()
    ensures Pow2(5) == 32 && Pow2(6) == 64 && Pow2(8) == TWO_8 && Pow2(16) == TWO_16
    ensures Pow2(32) == TWO_32
  {
    Pow2Small();
    Pow2Add(16, 16);
  }

  lemma Pow2At64()
    ensures Pow2(5) == 32 && Pow2(6) == 64 && Pow2(8) == TWO_8 && Pow2(16) == TWO_16
    ensures Pow2(32) == TWO_32 && Pow2(64) == TWO_64
  {
    Pow2At32();
    Pow2Add(32, 32);
  }

  lemma {:induction false} Pow2Add(a: nat, b: nat)
    ensures Pow2(a + b) == Pow2(a) * Pow2(b)
  {
    if a > 0 {
      Pow2Add(a - 1, b);
    }
  }

  // ---------------------------------------------------------------------------
  // Bitwise operators on n-bit unsigned values

  /** The low n bits of a, rebuilt bit by bit (equal to a mod 2^n). */
  function Low(a: nat, n: nat): (r: nat)
  {
    if n == 0 then 0 else a % 2 + 2 * Low(a / 2, n - 1)
  }

  function BitXor(a: nat, b: nat, n: nat): (r: nat)
  {
    if n == 0 then 0
    else (if a % 2 != b % 2 then 1 else 0) + 2 * BitXor(a / 2, b / 2, n - 1)
  }

  function BitOr(a: nat, b: nat, n: nat): (r: nat)
  {
    if n == 0 then 0
    else (if a % 2 == 1 || b % 2 == 1 then 1 else 0) + 2 * BitOr(a / 2, b / 2, n - 1)
  }

  function BitAnd(a: nat, b: nat, n: nat): (r: nat)
  {
    if n == 0 then 0
    else (if a % 2 == 1 && b % 2 == 1 then 1 else 0) + 2 * BitAnd(a / 2, b / 2, n - 1)
  }

  /** A value below 2^n is its own low n bits. */
  lemma {:induction false} LowId(a: nat, n: nat)
    requires a < Pow2(n)
    ensures Low(a, n) == a
  {
    if n > 0 {
      LowId(a / 2, n - 1);
    }
  }

  lemma {:induction false} LowBound(a: nat, n: nat)
    ensures Low(a, n) < Pow2(n)
  {
    if n > 0 {
      LowBound(a / 2, n - 1);
    }
  }

  /** The low 1 … 6 bits are the remainders by 2 … 64. */
  lemma LowIsMod(a: nat)
    ensures Low(a, 5) == a % 32
    ensures Low(a, 6) == a % 64
  {
    Low6(a);
    Low5(a);
  }

  lemma Low1(a: nat)
    ensures Low(a, 1) == a % 2
  {
  }

  lemma Low2(a: nat)
    ensures Low(a, 2) == a % 4
  {
    Low1(a / 2);
  }

  lemma Low3(a: nat)
    ensures Low(a, 3) == a % 8
  {
    Low2(a / 2);
    ModHalves(a);
  }

  lemma Low4(a: nat)
    ensures Low(a, 4) == a % 16
  {
    Low3(a / 2);
    ModHalves(a);
  }

  lemma Low5(a: nat)
    ensures Low(a, 5) == a % 32
  {
    Low4(a / 2);
    ModHalves(a);
  }

  lemma Low6(a: nat)
    ensures Low(a, 6) == a % 64
  {
    Low5(a / 2);
    ModHalves(a);
  }

  /** A multiple of 8, 16, 32 or 64 plus a smaller remainder leaves that
      remainder. */
  lemma Remainders(k: int, r: nat)
    ensures r < 8 ==> (8 * k + r) % 8 == r
    ensures r < 16 ==> (16 * k + r) % 16 == r
    ensures r < 32 ==> (32 * k + r) % 32 == r
    ensures r < 64 ==> (64 * k + r) % 64 == r
  {
  }

  /** The remainder by 8, 16, 32 or 64 is the low bit followed by the
      remainder of the rest by half as much. */
  lemma ModHalves(a: nat)
    ensures a % 8 == a % 2 + 2 * ((a / 2) % 4)
    ensures a % 16 == a % 2 + 2 * ((a / 2) % 8)
    ensures a % 32 == a % 2 + 2 * ((a / 2) % 16)
    ensures a % 64 == a % 2 + 2 * ((a / 2) % 32)
  {
    var q := a / 2;
    assert a == 2 * q + a % 2;
    assert a % 8 == a % 2 + 2 * (q % 4) by {
      assert q == 4 * (q / 4) + q % 4;
      assert a == 8 * (q / 4) + (2 * (q % 4) + a % 2);
      Remainders(q / 4, 2 * (q % 4) + a % 2);
    }
    assert a % 16 == a % 2 + 2 * (q % 8) by {
      assert q == 8 * (q / 8) + q % 8;
      assert a == 16 * (q / 8) + (2 * (q % 8) + a % 2);
      Remainders(q / 8, 2 * (q % 8) + a % 2);
    }
    assert a % 32 == a % 2 + 2 * (q % 16) by {
      assert q == 16 * (q / 16) + q % 16;
      assert a == 32 * (q / 16) + (2 * (q % 16) + a % 2);
      Remainders(q / 16, 2 * (q % 16) + a % 2);
    }
    assert a % 64 == a % 2 + 2 * (q % 32) by {
      assert q == 32 * (q / 32) + q % 32;
      assert a == 64 * (q / 32) + (2 * (q % 32) + a % 2);
      Remainders(q / 32, 2 * (q % 32) + a % 2);
    }
  }

  lemma {:induction false} BitXorBound(a: nat, b: nat, n: nat)
    ensures BitXor(a, b, n) < Pow2(n)
  {
    if n > 0 {
      BitXorBound(a / 2, b / 2, n - 1);
    }
  }

  lemma {:induction false} BitOrBound(a: nat, b: nat, n: nat)
    ensures BitOr(a, b, n) < Pow2(n)
  {
    if n > 0 {
      BitOrBound(a / 2, b / 2, n - 1);
    }
  }

  lemma {:induction false} BitXorComm(a: nat, b: nat, n: nat)
    ensures BitXor(a, b, n) == BitXor(b, a, n)
  {
    if n > 0 {
      BitXorComm(a / 2, b / 2, n - 1);
    }
  }

  lemma {:induction false} BitOrComm(a: nat, b: nat, n: nat)
    ensures BitOr(a, b, n) == BitOr(b, a, n)
  {
    if n > 0 {
      BitOrComm(a / 2, b / 2, n - 1);
    }
  }

  /** Xoring twice with the same value gives back the low n bits. */
  lemma {:induction false} BitXorTwice(a: nat, b: nat, n: nat)
    ensures BitXor(BitXor(a, b, n), b, n) == Low(a, n)
  {
    if n > 0 {
      var x := BitXor(a, b, n);
      var y := BitXor(a / 2, b / 2, n - 1);
      var d := if a % 2 != b % 2 then 1 else 0;
      assert x == d + 2 * y;
      assert x % 2 == d && x / 2 == y;
      BitXorTwice(a / 2, b / 2, n - 1);
    }
  }

  /** x | x keeps the low n bits of x. */
  lemma {:induction false} BitOrIdem(a: nat, n: nat)
    ensures BitOr(a, a, n) == Low(a, n)
  {
    if n > 0 {
      BitOrIdem(a / 2, n - 1);
    }
  }

  /** Masking with 2^k - 1 keeps the low k bits. */
  lemma {:induction false} BitAndLowMask(a: nat, k: nat, n: nat)
    requires k <= n
    ensures BitAnd(a, Pow2(k) - 1, n) == Low(a, k)
  {
    if k == 0 {
      BitAndZero(a, n);
    } else {
      var mask := Pow2(k) - 1;
      assert mask % 2 == 1 && mask / 2 == Pow2(k - 1) - 1;
      BitAndLowMask(a / 2, k - 1, n - 1);
    }
  }

  lemma {:induction false} BitAndZero(a: nat, n: nat)
    ensures BitAnd(a, 0, n) == 0
  {
    if n > 0 {
      BitAndZero(a / 2, n - 1);
    }
  }

  /** Repeated halving, rounding toward minus infinity: an arithmetic right shift. */
  function Halve(v: int, s: nat): (r: int)
    decreases s
  {
    if s == 0 then v else Halve(v / 2, s - 1)
  }

  /** Halving keeps the sign and never grows the magnitude. */
  lemma {:induction false} HalveBounds(v: int, s: nat)
    ensures v >= 0 ==> 0 <= Halve(v, s) <= v
    ensures v < 0 ==> v <= Halve(v, s) < 0
    decreases s
  {
    if s > 0 {
      HalveBounds(v / 2, s - 1);
    }
  }

  // ---------------------------------------------------------------------------
  // 32- and 64-bit operations as the instructions perform them

  function Xor32(v1: i32, v2: i32): i32 {
    Wrap32(BitXor(ToU32(v1), ToU32(v2), 32))
  }

  function Xor64(v1: i64, v2: i64): i64 {
    Wrap64(BitXor(ToU64(v1), ToU64(v2), 64))
  }

  function Or32(v1: i32, v2: i32): i32 {
    Wrap32(BitOr(ToU32(v1), ToU32(v2), 32))
  }

  function Or64(v1: i64, v2: i64): i64 {
    Wrap64(BitOr(ToU64(v1), ToU64(v2), 64))
  }

  /** `uint32(v2) & 0x1f` and `uint32(v2) & 0x3f`: the shift distance. */
  function ShiftMask32(v2: i32): nat {
    BitAnd(ToU32(v2), 0x1f, 32)
  }

  function ShiftMask64(v2: i32): nat {
    BitAnd(ToU32(v2), 0x3f, 32)
  }

  /** `v1 << s` on a signed width: the product wraps. */
  function Shl32(v1: i32, s: nat): i32 {
    Wrap32(v1 * Pow2(s))
  }

  function Shl64(v1: i64, s: nat): i64 {
    Wrap64(v1 * Pow2(s))
  }

  /** `v1 >> s` on a signed operand: arithmetic shift. */
  function Shr32(v1: i32, s: nat): i32 {
    HalveBounds(v1, s);
    Halve(v1, s)
  }

  function Shr64(v1: i64, s: nat): i64 {
    HalveBounds(v1, s);
    Halve(v1, s)
  }

  /** `int32(uint32(v1) >> s)`: shift the unsigned pattern, reinterpret. */
  function Ushr32(v1: i32, s: nat): i32 {
    Wrap32(Halve(ToU32(v1), s))
  }

  function Ushr64(v1: i64, s: nat): i64 {
    Wrap64(Halve(ToU64(v1), s))
  }

  /** The masks the shift instructions apply are remainders. */
  lemma ShiftMaskIsMod(v2: i32)
    ensures ShiftMask32(v2) == v2 % 32 && ShiftMask32(v2) < 32
    ensures ShiftMask64(v2) == v2 % 64 && ShiftMask64(v2) < 64
  {
    MaskLow(ToU32(v2));
    ToU32KeepsLowBits(v2);
  }

  lemma ToU32KeepsLowBits(v: i32)
    ensures ToU32(v) % 32 == v % 32
    ensures ToU32(v) % 64 == v % 64
  {
  }

  lemma MaskLow(u: nat)
    ensures BitAnd(u, 0x1f, 32) == u % 32
    ensures BitAnd(u, 0x3f, 32) == u % 64
  {
    MaskLowK(u, 5);
    MaskLowK(u, 6);
    assert Pow2(5) == 32 && Pow2(6) == 64;
    LowIsMod(u);
  }

  lemma MaskLowK(u: nat, k: nat)
    requires k <= 32
    ensures BitAnd(u, Pow2(k) - 1, 32) == Low(u, k)
  {
    BitAndLowMask(u, k, 32);
  }

  /** ISHR propagates the sign bit: the result has the operand's sign, and it
      agrees with the logical shift on non-negative operands. */
  lemma ShrKeepsSign(v1: i32, s: nat)
    ensures v1 < 0 <==> Shr32(v1, s) < 0
    ensures v1 >= 0 ==> Shr32(v1, s) == Ushr32(v1, s)
  {
    HalveBounds(v1, s);
  }

  lemma Shr64KeepsSign(v1: i64, s: nat)
    ensures v1 < 0 <==> Shr64(v1, s) < 0
    ensures v1 >= 0 ==> Shr64(v1, s) == Ushr64(v1, s)
  {
    HalveBounds(v1, s);
  }

  /** A logical right shift by a positive distance never yields a negative value. */
  lemma UshrNonNegative(v1: i32, w1: i64, s: nat)
    requires s >= 1
    ensures Ushr32(v1, s) >= 0
    ensures Ushr64(w1, s) >= 0
  {
    HalveBounds(ToU32(v1) / 2, s - 1);
    HalveBounds(ToU64(w1) / 2, s - 1);
  }

  /** On n-bit values, xor with b twice is the identity and x | x is x. */
  lemma BitOpsBelow(u: nat, b: nat, n: nat)
    requires u < Pow2(n)
    ensures BitXor(BitXor(u, b, n), b, n) == u
    ensures BitXor(u, b, n) < Pow2(n)
    ensures BitOr(u, u, n) == u
  {
  }

  /** Xoring twice with the same operand restores the first (IXOR/LXOR). */
  lemma Xor32Twice(a: i32, b: i32)
    ensures Xor32(Xor32(a, b), b) == a
  {
    var x := BitXor(ToU32(a), ToU32(b), 32);
    Pow2At32();
    BitOpsBelow(ToU32(a), ToU32(b), 32);
    assert Xor32(a, b) == Wrap32(x);
    U32RoundTrip(a, x);
    assert Xor32(Wrap32(x), b) == Wrap32(BitXor(x, ToU32(b), 32));
  }

  lemma Xor64Twice(a: i64, b: i64)
    ensures Xor64(Xor64(a, b), b) == a
  {
    var x := BitXor(ToU64(a), ToU64(b), 64);
    Pow2At64();
    BitOpsBelow(ToU64(a), ToU64(b), 64);
    assert Xor64(a, b) == Wrap64(x);
    U64RoundTrip(a, x);
    assert Xor64(Wrap64(x), b) == Wrap64(BitXor(x, ToU64(b), 64));
  }

  /** x | x == x (IOR/LOR). */
  lemma Or32Idem(a: i32)
    ensures Or32(a, a) == a
  {
    Pow2At32();
    BitOpsBelow(ToU32(a), 0, 32);
    assert Or32(a, a) == Wrap32(ToU32(a));
    U32RoundTrip(a, 0);
  }

  lemma Or64Idem(a: i64)
    ensures Or64(a, a) == a
  {
    Pow2At64();
    BitOpsBelow(ToU64(a), 0, 64);
    U64RoundTrip(a, 0);
  }

  // ---------------------------------------------------------------------------
  // Narrowing conversions (I2B, I2C, I2S) and negation

  function I2B(i: i32): (r: i32)
    ensures -128 <= r <= 127 && (r - i) % TWO_8 == 0
  {
    Wrap8(i)
  }

  function I2C(i: i32): (r: i32)
    ensures 0 <= r <= 65535 && (r - i) % TWO_16 == 0
  {
    ToU16(i)
  }

  function I2S(i: i32): (r: i32)
    ensures -32768 <= r <= 32767 && (r - i) % TWO_16 == 0
  {
    Wrap16(i)
  }

  /** Each narrowing conversion is idempotent. */
  lemma NarrowingIdempotent(i: i32)
    ensures I2B(I2B(i)) == I2B(i)
    ensures I2C(I2C(i)) == I2C(i)
    ensures I2S(I2S(i)) == I2S(i)
  {
  }

  function Neg32(v: i32): i32 {
    Wrap32(-(v as int))
  }

  function Neg64(v: i64): i64 {
    Wrap64(-(v as int))
  }

  /** Two's-complement negation is an involution; the minimum value is its own negation. */
  lemma NegInvolution(v: i32, w: i64)
    ensures Neg32(Neg32(v)) == v
    ensures Neg64(Neg64(w)) == w
    ensures Neg32(-TWO_31) == -TWO_31
    ensures Neg64(-TWO_63) == -TWO_63
  {
  }

  lemma Neg32Involution(v: i32)
    ensures Neg32(Neg32(v)) == v
    ensures Neg32(-TWO_31) == -TWO_31
  {
  }

  lemma Neg64Involution(w: i64)
    ensures Neg64(Neg64(w)) == w
    ensures Neg64(-TWO_63) == -TWO_63
  {
  }
}

=== FILE: math_instructions.dfy ===
/** The integer arithmetic instructions: shifts, negation, xor, or, the
    local-variable increment and the int conversions.

    Each instruction is a function from the frame it executes in to the frame
    it leaves, or the error it stops with. The operand stack pops the second
    operand first, so for a binary instruction the first operand, v1, is the
    one deeper in the stack. */
module MathInstructions {
  import opened Wrappers
  import opened MachineInts
  import opened Slots
  import opened Frames
  import opened Bytecode

  // ---------------------------------------------------------------------------
  // Binary int instructions (ISHL, ISHR, IUSHR, IXOR, IOR)

  datatype IntOp = IShl | IShr | IUshr | IXor | IOr

  /** The value each binary int instruction pushes for operands v1 and v2;
      shifts use the low five bits of v2 as the distance. */
  function ApplyInt(op: IntOp, v1: i32, v2: i32): i32 {
    match op
    case IShl => Shl32(v1, ShiftMask32(v2))
    case IShr => Shr32(v1, ShiftMask32(v2))
    case IUshr => Ushr32(v1, ShiftMask32(v2))
    case IXor => Xor32(v1, v2)
    case IOr => Or32(v1, v2)
  }

  /** Pops v2, then v1, and pushes one int: the stack is one slot shorter. */
  function ExecIntOp(f: Frame, op: IntOp): (r: Result<Frame>)
    ensures StackFits(f.stack) ==> (r.Ok? <==> |f.stack.slots| >= 2)
    ensures r.Ok? ==> |f.stack.slots| >= 2
    ensures r.Ok? ==> StackEffect(f, r.value, 2, [IntSlot(ApplyInt(op, IntFromTop(f.stack, 1), IntFromTop(f.stack, 0)))])
  {
    var p2 :- PopInt(f.stack);
    var p1 :- PopInt(p2.1);
    var s :- PushInt(p1.1, ApplyInt(op, p1.0, p2.0));
    Ok(f.(stack := s))
  }

  /** The shifts take the distance modulo 32; ISHR keeps the sign of v1 and
      IUSHR, by a non-zero distance, never yields a negative value. */
  lemma IntShifts(v1: i32, v2: i32)
    ensures ApplyInt(IShl, v1, v2) == Wrap32(v1 * Pow2(v2 % 32))
    ensures ApplyInt(IShr, v1, v2) < 0 <==> v1 < 0
    ensures v1 >= 0 ==> ApplyInt(IShr, v1, v2) == ApplyInt(IUshr, v1, v2)
    ensures v2 % 32 != 0 ==> ApplyInt(IUshr, v1, v2) >= 0
  {
    ShiftMaskIsMod(v2);
    ShrKeepsSign(v1, ShiftMask32(v2));
    if v2 % 32 != 0 {
      UshrNonNegative(v1, 0, ShiftMask32(v2));
    }
  }

  /** IXOR and IOR do not depend on the order of their operands; xoring twice
      with the same operand restores the first, and or-ing a value with
      itself gives it back. */
  lemma IntBitOps(a: i32, b: i32)
    ensures ApplyInt(IXor, a, b) == ApplyInt(IXor, b, a)
    ensures ApplyInt(IOr, a, b) == ApplyInt(IOr, b, a)
    ensures ApplyInt(IXor, ApplyInt(IXor, a, b), b) == a
    ensures ApplyInt(IOr, a, a) == a
  {
    BitXorComm(ToU32(a), ToU32(b), 32);
    BitOrComm(ToU32(a), ToU32(b), 32);
    Xor32Twice(a, b);
    Or32Idem(a);
  }

  // ---------------------------------------------------------------------------
  // Binary long instructions (LSHL, LSHR, LUSHR, LXOR, LOR)

  datatype LongOp = LShl | LShr | LUshr | LXor | LOr

  /** Whether the second operand is an int shift distance rather than a long. */
  predicate IsShift(op: LongOp) {
    op.LShl? || op.LShr? || op.LUshr?
  }

  /** The long each instruction pushes; shifts use the low six bits of the
      int distance v2, xor and or the whole long v2. */
  function ApplyLong(op: LongOp, v1: i64, v2: i64): i64 {
    match op
    case LShl => Shl64(v1, ShiftMask64(Wrap32(v2)))
    case LShr => Shr64(v1, ShiftMask64(Wrap32(v2)))
    case LUshr => Ushr64(v1, ShiftMask64(Wrap32(v2)))
    case LXor => Xor64(v1, v2)
    case LOr => Or64(v1, v2)
  }

  /** The slots the second operand takes: one for a shift distance, two for a long. */
  function SecondWidth(op: LongOp): nat {
    if IsShift(op) then 1 else 2
  }

  /** The second operand as the instruction reads it off the top of the stack. */
  function SecondOperand(s: OperandStack, op: LongOp): i64
    requires SecondWidth(op) <= |s.slots|
  {
    if IsShift(op) then IntFromTop(s, 0) else LongFromTop(s, 0)
  }

  function PopSecond(s: OperandStack, op: LongOp): (r: Result<(i64, OperandStack)>)
    ensures r.Ok? <==> |s.slots| >= SecondWidth(op)
    ensures r.Ok? ==> r.value.0 == SecondOperand(s, op)
    ensures r.Ok? ==> r.value.1 == s.(slots := s.slots[..|s.slots| - SecondWidth(op)])
  {
    if IsShift(op) then
      var p :- PopInt(s);
      Ok((p.0 as i64, p.1))
    else PopLong(s)
  }

  /** Pops the second operand (an int distance or a long), then the long v1,
      and pushes one long: the stack is one slot shorter after a shift and two
      after LXOR or LOR. */
  function ExecLongOp(f: Frame, op: LongOp): (r: Result<Frame>)
    ensures StackFits(f.stack) ==> (r.Ok? <==> |f.stack.slots| >= SecondWidth(op) + 2)
    ensures r.Ok? ==> |f.stack.slots| >= SecondWidth(op) + 2
    ensures r.Ok? ==> StackEffect(f, r.value, SecondWidth(op) + 2,
      LongSlots(ApplyLong(op, LongFromTop(f.stack, SecondWidth(op)), SecondOperand(f.stack, op))))
  {
    var p2 :- PopSecond(f.stack, op);
    var p1 :- PopLong(p2.1);
    var s :- PushLong(p1.1, ApplyLong(op, p1.0, p2.0));
    Ok(f.(stack := s))
  }

  /** The long shifts take the distance modulo 64, and LSHR keeps the sign. */
  lemma LongShifts(v1: i64, v2: i32)
    ensures ApplyLong(LShl, v1, v2) == Wrap64(v1 * Pow2(v2 % 64))
    ensures ApplyLong(LShr, v1, v2) < 0 <==> v1 < 0
    ensures v1 >= 0 ==> ApplyLong(LShr, v1, v2) == ApplyLong(LUshr, v1, v2)
    ensures v2 % 64 != 0 ==> ApplyLong(LUshr, v1, v2) >= 0
  {
    Wrap32Id(v2);
    ShiftMaskIsMod(v2);
    Shr64KeepsSign(v1, ShiftMask64(v2));
    if v2 % 64 != 0 {
      UshrNonNegative(0, v1, ShiftMask64(v2));
    }
  }

  /** LXOR and LOR do not depend on operand order; xor twice restores, and
      or-ing a long with itself gives it back. */
  lemma LongBitOps(a: i64, b: i64)
    ensures ApplyLong(LXor, a, b) == ApplyLong(LXor, b, a)
    ensures ApplyLong(LOr, a, b) == ApplyLong(LOr, b, a)
    ensures ApplyLong(LXor, ApplyLong(LXor, a, b), b) == a
    ensures ApplyLong(LOr, a, a) == a
  {
    BitXorComm(ToU64(a), ToU64(b), 64);
    BitOrComm(ToU64(a), ToU64(b), 64);
    Xor64Twice(a, b);
    Or64Idem(a);
  }

  // ---------------------------------------------------------------------------
  // Negation (INEG, LNEG)

  /** INEG: replaces the int on top by its two's-complement negation. */
  function ExecINeg(f: Frame): (r: Result<Frame>)
    ensures StackFits(f.stack) ==> (r.Ok? <==> |f.stack.slots| >= 1)
    ensures r.Ok? ==> |f.stack.slots| >= 1 && StackEffect(f, r.value, 1, [IntSlot(Neg32(IntFromTop(f.stack, 0)))])
  {
    var p :- PopInt(f.stack);
    var s :- PushInt(p.1, Neg32(p.0));
    Ok(f.(stack := s))
  }

  /** LNEG: replaces the long on top by its negation. */
  function ExecLNeg(f: Frame): (r: Result<Frame>)
    ensures StackFits(f.stack) ==> (r.Ok? <==> |f.stack.slots| >= 2)
    ensures r.Ok? ==> |f.stack.slots| >= 2 && StackEffect(f, r.value, 2, LongSlots(Neg64(LongFromTop(f.stack, 0))))
  {
    var p :- PopLong(f.stack);
    var s :- PushLong(p.1, Neg64(p.0));
    Ok(f.(stack := s))
  }

  /** INEG twice restores a frame whose top slot holds an int. */
  lemma INegTwice(f: Frame)
    requires StackFits(f.stack) && |f.stack.slots| >= 1 && SlotFromTop(f.stack, 0).ref == Null
    ensures ExecINeg(f).Ok? && ExecINeg(ExecINeg(f).value) == Ok(f)
  {
  }

  /** LNEG twice gives back the same long, with the same depth. */
  lemma LNegTwice(f: Frame)
    requires StackFits(f.stack) && |f.stack.slots| >= 2
    ensures ExecLNeg(f).Ok? && ExecLNeg(ExecLNeg(f).value).Ok?
    ensures var g := ExecLNeg(ExecLNeg(f).value).value;
      |g.stack.slots| == |f.stack.slots| && LongFromTop(g.stack, 0) == LongFromTop(f.stack, 0)
  {
    var w := LongFromTop(f.stack, 0);
    var g1 := ExecLNeg(f).value;
    HalvesLongRoundTrip(LongToHalves(Neg64(w)).0, LongToHalves(Neg64(w)).1);
    LongHalvesRoundTrip(Neg64(w));
    assert LongFromTop(g1.stack, 0) == Neg64(w);
    Neg64Involution(w);
    LongHalvesRoundTrip(w);
  }

  // ---------------------------------------------------------------------------
  // IINC

  /** `IINC.FetchOperands`: an unsigned byte index, then a signed byte constant. */
  function FetchIinc(r: Reader): (res: Result<(nat, i8, Reader)>)
    ensures res.Ok? <==> Available(r, 2)
    ensures res.Ok? ==> res.value.0 < 256 && res.value.0 == r.code[r.pc]
    ensures res.Ok? ==> ToU8(res.value.1) == r.code[r.pc + 1] && res.value.2 == r.(pc := r.pc + 2)
  {
    var index :- ReadUint8(r);
    var c :- ReadInt8(index.1);
    Ok((index.0 as nat, c.0, c.1))
  }

  /** `IINC.Execute`: adds the constant to the int in local `index`, wrapping
      at 32 bits; no other local, nor the operand stack, changes. */
  function ExecIinc(f: Frame, index: nat, c: i8): (r: Result<Frame>)
    ensures r.Ok? <==> index < |f.localVars|
    ensures r.Ok? ==> |r.value.localVars| == |f.localVars|
    ensures r.Ok? ==> r.value.localVars[index].num == Wrap32(f.localVars[index].num + c)
    ensures r.Ok? ==> r.value.localVars[index].ref == f.localVars[index].ref
    ensures r.Ok? ==> forall j :: 0 <= j < |f.localVars| && j != index ==> r.value.localVars[j] == f.localVars[j]
    ensures r.Ok? ==> r.value.stack == f.stack && r.value.methodKey == f.methodKey && r.value.nextPC == f.nextPC
  {
    var v :- GetInt(f.localVars, index);
    match SetInt(f.localVars, index, Wrap32(v + c))
    case Ok(vars) => Ok(f.(localVars := vars))
    case Err(e) => Err(e)
  }

  /** Two increments of the same local add up, modulo 2^32, and an increment
      by c followed by one by -c restores the frame. */
  lemma {:induction false} IincComposes(f: Frame, index: nat, c: i8, d: i8)
    requires index < |f.localVars|
    ensures ExecIinc(f, index, c).Ok? && ExecIinc(ExecIinc(f, index, c).value, index, d).Ok?
    ensures ExecIinc(ExecIinc(f, index, c).value, index, d).value.localVars[index].num
      == Wrap32(f.localVars[index].num + c + d)
    ensures c + d == 0 ==> ExecIinc(ExecIinc(f, index, c).value, index, d) == Ok(f)
  {
    var x := f.localVars[index].num;
    WrapAddTwice(x, c, d);
    if c + d == 0 {
      var g := ExecIinc(ExecIinc(f, index, c).value, index, d).value;
      Wrap32Id(x);
      assert g.localVars[index] == f.localVars[index];
      assert g.localVars == f.localVars;
    }
  }

  lemma WrapAddTwice(x: i32, c: int, d: int)
    ensures Wrap32(Wrap32(x + c) + d) == Wrap32(x + c + d)
  {
  }

  lemma WrapCongruent(a: int, b: int)
    requires (a - b) % TWO_32 == 0
    ensures Wrap32(a) == Wrap32(b)
  {
  }

  // ---------------------------------------------------------------------------
  // Conversions (I2L, I2B, I2C, I2S)

  /** I2L: the int on top becomes the long of the same value. */
  function ExecI2L(f: Frame): (r: Result<Frame>)
    ensures StackFits(f.stack) ==> (r.Ok? <==> 1 <= |f.stack.slots| < f.stack.maxStack)
    ensures r.Ok? ==> |f.stack.slots| >= 1 && StackEffect(f, r.value, 1, LongSlots(IntFromTop(f.stack, 0)))
  {
    var p :- PopInt(f.stack);
    var s :- PushLong(p.1, p.0 as i64);
    Ok(f.(stack := s))
  }

  /** Pushing the long I2L makes gives the int back, sign-extended. */
  lemma I2LSignExtends(f: Frame)
    requires StackFits(f.stack) && 1 <= |f.stack.slots| < f.stack.maxStack
    ensures ExecI2L(f).Ok? && LongFromTop(ExecI2L(f).value.stack, 0) == IntFromTop(f.stack, 0) as i64
  {
  }

  datatype Narrowing = ToByte | ToChar | ToShort

  function Narrow(n: Narrowing, i: i32): i32 {
    match n
    case ToByte => I2B(i)
    case ToChar => I2C(i)
    case ToShort => I2S(i)
  }

  /** I2B, I2C, I2S: the int on top is replaced by its low 8 bits sign-extended,
      its low 16 bits zero-extended, or its low 16 bits sign-extended. */
  function ExecNarrow(f: Frame, n: Narrowing): (r: Result<Frame>)
    ensures StackFits(f.stack) ==> (r.Ok? <==> |f.stack.slots| >= 1)
    ensures r.Ok? ==> |f.stack.slots| >= 1 && StackEffect(f, r.value, 1, [IntSlot(Narrow(n, IntFromTop(f.stack, 0)))])
  {
    var p :- PopInt(f.stack);
    var s :- PushInt(p.1, Narrow(n, p.0));
    Ok(f.(stack := s))
  }

  /** The ranges of the narrowed values, each of which agrees with the int in
      the bits it keeps. */
  lemma NarrowRanges(i: i32)
    ensures -128 <= Narrow(ToByte, i) <= 127 && (Narrow(ToByte, i) - i) % 256 == 0
    ensures 0 <= Narrow(ToChar, i) <= 65535 && (Narrow(ToChar, i) - i) % 65536 == 0
    ensures -32768 <= Narrow(ToShort, i) <= 32767 && (Narrow(ToShort, i) - i) % 65536 == 0
  {
  }

  /** A narrowing conversion applied to its own result changes nothing. */
  lemma NarrowIdempotent(f: Frame, n: Narrowing)
    requires StackFits(f.stack) && |f.stack.slots| >= 1
    ensures ExecNarrow(f, n).Ok? && ExecNarrow(ExecNarrow(f, n).value, n) == ExecNarrow(f, n)
  {
  }
}

=== FILE: method_descriptors.dfy ===
/** Method descriptors (section 4.3.3 of the Java Virtual Machine Specification,
    Java SE 8): "(" ParameterDescriptor* ")" ReturnDescriptor, where every
    parameter is a field type (section 4.3.2) and the return descriptor is a
    field type or "V".

    The descriptor parser of the program (`parseMethodDescriptor`) is not part of
    this model's source text; it is modelled here from the grammar, failing with
    one panic on any malformed descriptor. The parameter list is grown by
    `addParameterType`, whose slice capacity is modelled explicitly. */
module MethodDescriptors {
  import opened Wrappers

  /** A parsed descriptor. `capacity` is the capacity of the Go slice holding
      the parameter types. */
  datatype MethodDescriptor = MethodDescriptor(parameterTypes: seq<string>, capacity: nat, returnType: string)
  {
    predicate Valid() {
      |parameterTypes| <= capacity
    }
  }

  const EmptyDescriptor := MethodDescriptor([], 0, "")

  /** `addParameterType`: appends t, first moving a full list into one with
      four more places. */
  function AddParameterType(md: MethodDescriptor, t: string): (r: MethodDescriptor)
    requires md.Valid()
    ensures r.Valid()
    ensures r.parameterTypes == md.parameterTypes + [t]
    ensures r.returnType == md.returnType
    ensures r.capacity == if |md.parameterTypes| == md.capacity then md.capacity + 4 else md.capacity
  {
    var grown := if |md.parameterTypes| == md.capacity then md.(capacity := md.capacity + 4) else md;
    grown.(parameterTypes := grown.parameterTypes + [t])
  }

  /** Adding parameters one after another never loses room: the capacity is
      the smallest multiple of 4 that holds them all. */
  lemma {:induction false} CapacityAfterAdds(md: MethodDescriptor, ts: seq<string>)
    requires md.Valid() && md.capacity % 4 == 0 && md.capacity < |md.parameterTypes| + 4
    ensures AddAll(md, ts).capacity % 4 == 0
    ensures |AddAll(md, ts).parameterTypes| <= AddAll(md, ts).capacity < |AddAll(md, ts).parameterTypes| + 4
    decreases |ts|
  {
    if |ts| > 0 {
      CapacityAfterAdds(AddParameterType(md, ts[0]), ts[1..]);
    }
  }

  function AddAll(md: MethodDescriptor, ts: seq<string>): (r: MethodDescriptor)
    requires md.Valid()
    ensures r.Valid()
    decreases |ts|
  {
    if |ts| == 0 then md else AddAll(AddParameterType(md, ts[0]), ts[1..])
  }

  /** Adding a list of parameters appends them in order and keeps the return type. */
  lemma {:induction false} AddAllAppends(md: MethodDescriptor, ts: seq<string>)
    requires md.Valid()
    ensures AddAll(md, ts).parameterTypes == md.parameterTypes + ts
    ensures AddAll(md, ts).returnType == md.returnType
    decreases |ts|
  {
    if |ts| > 0 {
      AddAllAppends(AddParameterType(md, ts[0]), ts[1..]);
      assert md.parameterTypes + [ts[0]] + ts[1..] == md.parameterTypes + ts;
    }
  }

  // ---------------------------------------------------------------------------
  // The grammar

  predicate IsBaseType(c: char) {
    c == 'B' || c == 'C' || c == 'D' || c == 'F' || c == 'I' || c == 'J' || c == 'S' || c == 'Z'
  }

  /** A field type: a base type letter, "L" class-name ";" with no ';' inside
      the name, or "[" followed by a field type. */
  predicate FieldType(t: string)
    decreases |t|
  {
    if |t| == 1 then IsBaseType(t[0])
    else if |t| >= 2 && t[0] == 'L' then
      t[|t| - 1] == ';' && forall k :: 1 <= k < |t| - 1 ==> t[k] != ';'
    else |t| >= 2 && t[0] == '[' && FieldType(t[1..])
  }

  lemma FieldTypeStart(t: string)
    requires FieldType(t)
    ensures |t| > 0 && t[0] != ')' && t[0] != 'V'
  {
  }

  function Concat(ts: seq<string>): (s: string)
    decreases |ts|
  {
    if |ts| == 0 then "" else ts[0] + Concat(ts[1..])
  }

  /** The descriptor text of a parameter list and return type. */
  function Encode(params: seq<string>, ret: string): (d: string)
  {
    "(" + Concat(params) + ")" + ret
  }

  // ---------------------------------------------------------------------------
  // The parser

  function BadDescriptor(d: string): Error {
    Panic("BAD descriptor: " + d)
  }

  /** The first ';' at or after position i. */
  function FindSemicolon(d: string, i: nat): (r: Option<nat>)
    ensures r.Some? ==> i <= r.value < |d| && d[r.value] == ';'
    ensures r.Some? ==> forall k :: i <= k < r.value ==> d[k] != ';'
    ensures r.None? ==> forall k :: i <= k < |d| ==> d[k] != ';'
    decreases |d| - i
  {
    if i >= |d| then None
    else if d[i] == ';' then Some(i)
    else FindSemicolon(d, i + 1)
  }

  /** The end of the field type that starts at position i, if one does. */
  function ParseFieldType(d: string, i: nat): (r: Option<nat>)
    ensures r.Some? ==> i < r.value <= |d|
    decreases |d| - i
  {
    if i >= |d| then None
    else if IsBaseType(d[i]) then Some(i + 1)
    else if d[i] == 'L' then
      var k := FindSemicolon(d, i + 1);
      if k.Some? then Some(k.value + 1) else None
    else if d[i] == '[' then ParseFieldType(d, i + 1)
    else None
  }

  /** The parameter types from position i up to and including the closing ')'. */
  function ParseParams(d: string, i: nat, md: MethodDescriptor): (r: Option<(MethodDescriptor, nat)>)
    requires md.Valid()
    ensures r.Some? ==> r.value.0.Valid() && i < r.value.1 <= |d|
    decreases |d| - i
  {
    if i >= |d| then None
    else if d[i] == ')' then Some((md, i + 1))
    else
      var j := ParseFieldType(d, i);
      if j.None? then None
      else ParseParams(d, j.value, AddParameterType(md, d[i..j.value]))
  }

  /** `parseMethodDescriptor` */
  function ParseMethodDescriptor(d: string): (r: Result<MethodDescriptor>)
    ensures r.Err? ==> r.error == BadDescriptor(d)
    ensures r.Ok? ==> r.value.Valid()
  {
    if |d| == 0 || d[0] != '(' then Err(BadDescriptor(d))
    else
      var p := ParseParams(d, 1, EmptyDescriptor);
      if p.None? then Err(BadDescriptor(d))
      else
        var (md, j) := p.value;
        if j < |d| && d[j] == 'V' && j + 1 == |d| then Ok(md.(returnType := "V"))
        else
          var k := ParseFieldType(d, j);
          if k == Some(|d|) then Ok(md.(returnType := d[j..])) else Err(BadDescriptor(d))
  }

  // ---------------------------------------------------------------------------
  // The parser accepts exactly the grammar

  lemma FindSemicolonFirst(d: string, i: nat, k: nat)
    requires i <= k < |d| && d[k] == ';'
    requires forall m :: i <= m < k ==> d[m] != ';'
    ensures FindSemicolon(d, i) == Some(k)
  {
  }

  /** The two halves of a concatenation written at position i. */
  lemma SliceSplit(d: string, i: nat, a: string, b: string)
    requires i + |a| + |b| <= |d| && d[i..i + |a| + |b|] == a + b
    ensures d[i..i + |a|] == a && d[i + |a|..i + |a| + |b|] == b
  {
    assert d[i..i + |a|] == d[i..i + |a| + |b|][..|a|];
    assert d[i + |a|..i + |a| + |b|] == d[i..i + |a| + |b|][|a|..];
  }

  /** A field type written at position i is read back whole. */
  lemma {:induction false} FieldTypeParses(d: string, i: nat, t: string)
    requires FieldType(t) && i + |t| <= |d| && d[i..i + |t|] == t
    ensures ParseFieldType(d, i) == Some(i + |t|)
    decreases |t|
  {
    assert d[i] == t[0];
    if |t| == 1 {
    } else if t[0] == 'L' {
      forall m | i + 1 <= m < i + |t| - 1
        ensures d[m] != ';'
      {
        assert d[m] == t[m - i];
      }
      assert d[i + |t| - 1] == t[|t| - 1];
      FindSemicolonFirst(d, i + 1, i + |t| - 1);
    } else {
      assert d[i + 1..i + |t|] == t[1..];
      FieldTypeParses(d, i + 1, t[1..]);
    }
  }

  /** Whatever the field-type reader accepts is a field type. */
  lemma {:induction false} ParsedFieldType(d: string, i: nat)
    requires ParseFieldType(d, i).Some?
    ensures FieldType(d[i..ParseFieldType(d, i).value])
    decreases |d| - i
  {
    var j := ParseFieldType(d, i).value;
    var t := d[i..j];
    if IsBaseType(d[i]) {
    } else if d[i] == 'L' {
      assert |t| >= 2 && t[0] == 'L' && t[|t| - 1] == ';';
      assert forall k :: 1 <= k < |t| - 1 ==> t[k] == d[i + k];
    } else {
      ParsedFieldType(d, i + 1);
      assert t[1..] == d[i + 1..j];
    }
  }

  /** A parameter list written at position i and closed by ')' is read back in order. */
  lemma {:induction false} ParamsParse(d: string, i: nat, md: MethodDescriptor, ps: seq<string>)
    requires md.Valid()
    requires forall k :: 0 <= k < |ps| ==> FieldType(ps[k])
    requires i + |Concat(ps)| < |d| && d[i..i + |Concat(ps)|] == Concat(ps) && d[i + |Concat(ps)|] == ')'
    ensures ParseParams(d, i, md) == Some((AddAll(md, ps), i + |Concat(ps)| + 1))
    decreases |ps|
  {
    if |ps| > 0 {
      var t, tail := ps[0], ps[1..];
      var rest := Concat(tail);
      assert Concat(ps) == t + rest;
      SliceSplit(d, i, t, rest);
      var j := i + |t| + |rest|;
      assert j == i + |Concat(ps)| && d[j] == ')';
      FieldTypesTail(ps);
      ParamsParse(d, i + |t|, AddParameterType(md, t), tail);
      ParamsCons(d, i, md, ps);
    }
  }

  lemma FieldTypesTail(ps: seq<string>)
    requires |ps| > 0 && forall k :: 0 <= k < |ps| ==> FieldType(ps[k])
    ensures forall k :: 0 <= k < |ps[1..]| ==> FieldType(ps[1..][k])
  {
    forall k | 0 <= k < |ps[1..]|
      ensures FieldType(ps[1..][k])
    {
      assert ps[1..][k] == ps[k + 1];
    }
  }

  /** Reading the first parameter and then the rest reads them all. */
  lemma ParamsCons(d: string, i: nat, md: MethodDescriptor, ps: seq<string>)
    requires md.Valid() && |ps| > 0 && FieldType(ps[0])
    requires i + |ps[0]| <= |d| && d[i..i + |ps[0]|] == ps[0]
    requires ParseParams(d, i + |ps[0]|, AddParameterType(md, ps[0]))
             == Some((AddAll(AddParameterType(md, ps[0]), ps[1..]), i + |ps[0]| + |Concat(ps[1..])| + 1))
    ensures ParseParams(d, i, md) == Some((AddAll(md, ps), i + |Concat(ps)| + 1))
  {
    ParamStep(d, i, md, ps[0]);
  }

  /** A parameter type written at position i is read, and the list goes on
      after it. */
  lemma ParamStep(d: string, i: nat, md: MethodDescriptor, t: string)
    requires md.Valid() && FieldType(t) && i + |t| <= |d| && d[i..i + |t|] == t
    ensures ParseParams(d, i, md) == ParseParams(d, i + |t|, AddParameterType(md, t))
  {
    FieldTypeParses(d, i, t);
    FieldTypeStart(t);
    assert d[i] == t[0];
  }

  /** Every well-formed descriptor is parsed into its parameter types, in order,
      and its return type. */
  lemma DescriptorRoundTrip(params: seq<string>, ret: string)
    requires forall k :: 0 <= k < |params| ==> FieldType(params[k])
    requires ret == "V" || FieldType(ret)
    ensures ParseMethodDescriptor(Encode(params, ret)).Ok?
    ensures ParseMethodDescriptor(Encode(params, ret)).value.parameterTypes == params
    ensures ParseMethodDescriptor(Encode(params, ret)).value.returnType == ret
  {
    var d := Encode(params, ret);
    var j := |Concat(params)| + 2;
    var md := AddAll(EmptyDescriptor, params);
    EncodeShape(params, ret);
    assert ParseParams(d, 1, EmptyDescriptor) == Some((md, j)) by {
      ParamsParse(d, 1, EmptyDescriptor, params);
    }
    AddAllAppends(EmptyDescriptor, params);
    if ret == "V" {
      ReturnParses(d, md, j);
    } else {
      ReturnTypeParses(d, j, ret);
      ReturnParses(d, md, j);
    }
  }

  /** A return field type written at the end of a descriptor is read back
      whole, and is not "V". */
  lemma ReturnTypeParses(d: string, j: nat, ret: string)
    requires FieldType(ret) && j + |ret| == |d| && d[j..] == ret
    ensures j < |d| && d[j] != 'V' && ParseFieldType(d, j) == Some(|d|)
  {
    FieldTypeStart(ret);
    assert d[j] == ret[0];
    FieldTypeParses(d, j, ret);
  }

  /** Once the parameters are read up to position j, what follows is the
      return type. */
  lemma ReturnParses(d: string, md: MethodDescriptor, j: nat)
    requires |d| > 0 && d[0] == '(' && ParseParams(d, 1, EmptyDescriptor) == Some((md, j))
    ensures j < |d| && d[j] == 'V' && j + 1 == |d| ==> ParseMethodDescriptor(d) == Ok(md.(returnType := "V"))
    ensures !(j < |d| && d[j] == 'V') && ParseFieldType(d, j) == Some(|d|) ==>
      ParseMethodDescriptor(d) == Ok(md.(returnType := d[j..]))
  {
  }

  lemma EncodeShape(params: seq<string>, ret: string)
    ensures var d := Encode(params, ret); var c := Concat(params);
      && |d| == |c| + 2 + |ret| && d[0] == '(' && d[1..1 + |c|] == c && d[1 + |c|] == ')'
      && d[|c| + 2..] == ret
  {
  }

  /** Every parameter and return type the parser produces is well formed. */
  lemma {:induction false} ParsedParamsAreFieldTypes(d: string, i: nat, md: MethodDescriptor)
    requires md.Valid() && ParseParams(d, i, md).Some?
    requires forall k :: 0 <= k < |md.parameterTypes| ==> FieldType(md.parameterTypes[k])
    ensures forall k :: 0 <= k < |ParseParams(d, i, md).value.0.parameterTypes| ==>
      FieldType(ParseParams(d, i, md).value.0.parameterTypes[k])
    decreases |d| - i
  {
    if d[i] != ')' {
      var j := ParseFieldType(d, i).value;
      ParsedFieldType(d, i);
      ParsedParamsAreFieldTypes(d, j, AddParameterType(md, d[i..j]));
    }
  }

  lemma ParsedDescriptorWellFormed(d: string)
    requires ParseMethodDescriptor(d).Ok?
    ensures forall k :: 0 <= k < |ParseMethodDescriptor(d).value.parameterTypes| ==>
      FieldType(ParseMethodDescriptor(d).value.parameterTypes[k])
    ensures ParseMethodDescriptor(d).value.returnType == "V" || FieldType(ParseMethodDescriptor(d).value.returnType)
  {
    ParsedParamsAreFieldTypes(d, 1, EmptyDescriptor);
    var j := ParseParams(d, 1, EmptyDescriptor).value.1;
    if !(j < |d| && d[j] == 'V' && j + 1 == |d|) {
      ParsedFieldType(d, j);
      assert d[j..|d|] == d[j..];
    }
  }
}

=== FILE: multi_arrays.dfy ===
/** MULTIANEWARRAY: a new array of arrays, as many levels deep as the
    instruction's dimension count, each level as long as the count popped for
    it. The outer array is allocated first and its elements after it, so every
    array of the tree sits at a higher address than the array holding it. */
module MultiArrays {
  import opened Wrappers
  import opened MachineInts
  import opened Slots
  import opened Heaps
  import opened ClassNames
  import opened ClassLoader
  import opened Resolution
  import opened Assignability
  import opened Frames
  import opened ReferenceInstructions
  import ClassReader
  import opened Bytecode

  /** `MULTI_ANEW_ARRAY.FetchOperands`: a two-byte class index, then the
      one-byte dimension count. */
  function FetchMultiANewArray(r: Reader): (res: Result<(nat, nat, Reader)>)
    ensures res.Ok? <==> Available(r, 3)
    ensures res.Ok? ==> res.value.0 < TWO_16 && Ahead(r, 2) == ClassReader.Bytes(res.value.0, 2)
    ensures res.Ok? ==> res.value.1 == r.code[r.pc + 2] as nat
    ensures res.Ok? ==> res.value.2 == r.(pc := r.pc + 3)
  {
    var i :- FetchIndex16(r);
    var dims :- ReadUint8(i.1);
    Ok((i.0, dims.0 as nat, dims.1))
  }

  // ---------------------------------------------------------------------------
  // The counts

  /** The top dims slots are all there and hold no negative int. */
  predicate CountsFit(s: OperandStack, dims: nat) {
    dims <= |s.slots| && forall j :: 0 <= j < dims ==> IntFromTop(s, j) >= 0
  }

  /** One of the top dims slots that are there holds a negative int. */
  predicate NegativeWithin(s: OperandStack, dims: nat) {
    exists j :: 0 <= j < dims && j < |s.slots| && IntFromTop(s, j) < 0
  }

  /** Below a non-negative top, the negative ints among the top dims slots are
      those among the top dims - 1 once the top is popped. */
  lemma NegativeShift(s: OperandStack, dims: nat)
    requires 0 < dims && 0 < |s.slots| && IntFromTop(s, 0) >= 0
    ensures var s' := s.(slots := s.slots[..|s.slots| - 1]);
      && (NegativeWithin(s, dims) <==> NegativeWithin(s', dims - 1))
      && (CountsFit(s, dims) <==> CountsFit(s', dims - 1))
  {
    var s' := s.(slots := s.slots[..|s.slots| - 1]);
    assert forall j :: 0 <= j < |s'.slots| ==> IntFromTop(s', j) == IntFromTop(s, j + 1);
    if NegativeWithin(s, dims) {
      var j :| 0 <= j < dims && j < |s.slots| && IntFromTop(s, j) < 0;
      assert IntFromTop(s', j - 1) < 0;
    }
    if NegativeWithin(s', dims - 1) {
      var j :| 0 <= j < dims - 1 && j < |s'.slots| && IntFromTop(s', j) < 0;
      assert IntFromTop(s, j + 1) < 0;
    }
    if CountsFit(s', dims - 1) {
      forall j | 0 <= j < dims
        ensures IntFromTop(s, j) >= 0
      {
        if j > 0 {
          assert IntFromTop(s', j - 1) >= 0;
        }
      }
    }
  }

  /** `popAndCheackCounts`: pops dims ints, the top one into the last place,
      so that counts[0] is the deepest. The pops stop at the first negative
      count. */
  function PopCounts(s: OperandStack, dims: nat): (r: Result<(seq<i32>, OperandStack)>)
    ensures r.Ok? <==> CountsFit(s, dims)
    ensures r.Ok? ==> |r.value.0| == dims && r.value.1 == s.(slots := s.slots[..|s.slots| - dims])
    ensures r.Ok? ==> forall i :: 0 <= i < dims ==> r.value.0[i] == s.slots[|s.slots| - dims + i].num
    ensures r.Ok? ==> forall i :: 0 <= i < dims ==> r.value.0[i] >= 0
    ensures NegativeWithin(s, dims) ==> r == Err(Panic(NegativeArraySize))
    ensures !NegativeWithin(s, dims) && dims > |s.slots| ==> r == Err(OutOfRange)
    decreases dims
  {
    if dims == 0 then Ok(([], s))
    else
      var p :- PopInt(s);
      assert p.1.slots == s.slots[..|s.slots| - 1] && p.0 == IntFromTop(s, 0);
      if p.0 < 0 then Err(Panic(NegativeArraySize))
      else
        NegativeShift(s, dims);
        var rest :- PopCounts(p.1, dims - 1);
        assert p.1.slots[..|p.1.slots| - (dims - 1)] == s.slots[..|s.slots| - dims];
        Ok((rest.0 + [p.0], rest.1))
  }

  /** The counts as lengths; `PopCounts` gives no negative one. */
  function Lengths(counts: seq<i32>): (ns: seq<nat>)
    requires forall i :: 0 <= i < |counts| ==> counts[i] >= 0
    ensures |ns| == |counts| && forall i :: 0 <= i < |counts| ==> ns[i] == counts[i] as int
  {
    seq(|counts|, i requires 0 <= i < |counts| => counts[i] as nat)
  }

  // ---------------------------------------------------------------------------
  // The tree of arrays

  /** From ref, heap h holds the arrays MULTIANEWARRAY makes for the counts:
      an array of the class named name with counts[0] elements, at an address
      of at least lo; with one count left its elements are the zero elements
      of its class, and with more left each element refers to such an array
      of the component class for the remaining counts, at a higher address. */
  predicate MultiShaped(h: Heap, ref: Ref, name: string, counts: seq<nat>, lo: nat)
    requires Valid(h)
    decreases |counts|
  {
    && |counts| > 0 && ref.Addr? && lo <= ref.address < |h.objects|
    && var o := h.objects[ref.address];
       && h.classes[o.classId].name == name && o.extra == NoExtra
       && if |counts| == 1 then o.data == ArrayData(name, counts[0])
          else
            && o.data.RefArray? && |o.data.refs| == counts[0]
            && (counts[0] > 0 ==> ComponentClassName(name).Ok?)
            && forall j :: 0 <= j < counts[0] ==>
                 MultiShaped(h, o.data.refs[j], ComponentClassName(name).value, counts[1..], ref.address + 1)
  }

  /** The tree stays in a heap that keeps the loaded classes and every object
      from lo on. */
  lemma {:induction false} MultiShapedKept(h: Heap, h': Heap, ref: Ref, name: string, counts: seq<nat>, lo: nat)
    requires Valid(h) && Valid(h') && MultiShaped(h, ref, name, counts, lo)
    requires |h.classes| <= |h'.classes| && forall id :: 0 <= id < |h.classes| ==> h'.classes[id] == h.classes[id]
    requires |h.objects| <= |h'.objects| && forall a :: lo <= a < |h.objects| ==> h'.objects[a] == h.objects[a]
    ensures MultiShaped(h', ref, name, counts, lo)
    decreases |counts|
  {
    var o := h.objects[ref.address];
    assert h'.objects[ref.address] == o;
    assert ObjectValid(o, |h.classes|);
    assert h'.classes[o.classId] == h.classes[o.classId];
    if |counts| > 1 {
      forall j | 0 <= j < counts[0]
        ensures MultiShaped(h', o.data.refs[j], ComponentClassName(name).value, counts[1..], ref.address + 1)
      {
        MultiShapedKept(h, h', o.data.refs[j], ComponentClassName(name).value, counts[1..], ref.address + 1);
      }
    } else {
      assert o.data == ArrayData(name, counts[0]);
    }
  }

  /** The tree is at an address of at least any lower bound too. */
  lemma MultiShapedBelow(h: Heap, ref: Ref, name: string, counts: seq<nat>, lo: nat, lo': nat)
    requires Valid(h) && MultiShaped(h, ref, name, counts, lo) && lo' <= lo
    ensures MultiShaped(h, ref, name, counts, lo')
  {
  }

  /** Filling in the elements of a newly allocated array that no mirror
      refers to keeps the step from the heap before the allocation. */
  lemma FillStep(defs: Defs, h: Heap, h2: Heap, a: nat, o: Object)
    requires Step(defs, {}, h, h2) && |h.objects| <= a < |h2.objects|
    requires h2.objects[a].extra == NoExtra && o.extra == NoExtra && o.classId < |h2.classes|
    ensures Step(defs, {}, h, h2.(objects := h2.objects[a := o]))
  {
    var h3 := h2.(objects := h2.objects[a := o]);
    assert Valid(h3);
    if MirrorsValid(h) {
      forall id
        ensures MirrorValid(h3, id)
      {
        if 0 <= id < |h3.states| && h3.states[id].jClass.Addr? {
          assert MirrorValid(h2, id);
        }
      }
    }
  }

  /** The refs are addresses, each higher than the one before it, so no
      two of them are the same object. */
  predicate AddressesIncrease(refs: seq<Ref>) {
    && (forall j :: 0 <= j < |refs| ==> refs[j].Addr?)
    && forall j, k :: 0 <= j < k < |refs| ==> refs[j].address < refs[k].address
  }

  /** Each of refs is the root of a tree of arrays of the class named by comp
      for the counts, at an address of at least lo. */
  predicate ElementsShaped(h: Heap, refs: seq<Ref>, comp: Result<string>, counts: seq<nat>, lo: nat)
    requires Valid(h)
  {
    && (|refs| > 0 ==> comp.Ok?)
    && forall j :: 0 <= j < |refs| ==> MultiShaped(h, refs[j], comp.value, counts, lo)
  }

  lemma ElementsKept(h: Heap, h': Heap, refs: seq<Ref>, comp: Result<string>, counts: seq<nat>, lo: nat)
    requires Valid(h) && Valid(h') && ElementsShaped(h, refs, comp, counts, lo)
    requires |h.classes| <= |h'.classes| && forall id :: 0 <= id < |h.classes| ==> h'.classes[id] == h.classes[id]
    requires |h.objects| <= |h'.objects| && forall a :: lo <= a < |h.objects| ==> h'.objects[a] == h.objects[a]
    ensures ElementsShaped(h', refs, comp, counts, lo)
  {
    forall j | 0 <= j < |refs|
      ensures MultiShaped(h', refs[j], comp.value, counts, lo)
    {
      MultiShapedKept(h, h', refs[j], comp.value, counts, lo);
    }
  }

  /** `newMultiDimensionalArray`: an array of class c with counts[0] elements;
      with more counts, each element is a new array of c's component class
      for the remaining counts. An empty counts has no first count, and only
      an array of references holds arrays. */
  method NewMultiArray(defs: Defs, h: Heap, c: ClassId, counts: seq<nat>) returns (r: Result<(Ref, Heap)>)
    requires Valid(h) && c < |h.classes|
    ensures |counts| == 0 ==> r == Err(OutOfRange)
    ensures |counts| > 0 && !IsArray(h.classes[c]) ==> r == Err(Panic("Not array class: " + h.classes[c].name))
    ensures |counts| > 1 && IsArray(h.classes[c]) && !ArrayData(h.classes[c].name, counts[0]).RefArray? ==> r == Err(BadAssertion)
    ensures r.Ok? ==> Step(defs, {}, h, r.value.1) && r.value.0 == Addr(|h.objects|) && |h.objects| < |r.value.1.objects|
    ensures r.Ok? && (|counts| == 1 || Consistent(defs)) ==> MultiShaped(r.value.1, r.value.0, h.classes[c].name, counts, |h.objects|)
    ensures r.Ok? && |counts| > 1 ==> var o := r.value.1.objects[|h.objects|];
      o.data.RefArray? && |o.data.refs| == counts[0] && AddressesIncrease(o.data.refs)
    decreases |counts|, 2
  {
    if |counts| == 0 {
      return Err(OutOfRange);
    }
    var arr :- NewArray(h, c, counts[0]);
    var (ref, h1) := arr;
    PlainStep(defs, {}, h, h1);
    var a := |h.objects|;
    if |counts| == 1 {
      return Ok(arr);
    }
    if !h1.objects[a].data.RefArray? {
      return Err(BadAssertion);
    }
    var elems :- NewElements(defs, h1, c, counts[0], counts[1..], a + 1);
    var (refs, cur) := elems;
    StepTrans(defs, {}, h, h1, cur);
    var o := Object(c, RefArray(refs), NoExtra);
    var filled := cur.(objects := cur.objects[a := o]);
    FillStep(defs, h, cur, a, o);
    if Consistent(defs) {
      ElementsKept(cur, filled, refs, ComponentClassName(h.classes[c].name), counts[1..], a + 1);
    }
    r := Ok((ref, filled));
  }

  /** The loop of `newMultiDimensionalArray`: n new arrays of the component
      class of c for the counts, the component class being loaded again for
      each of them. */
  method NewElements(defs: Defs, h: Heap, c: ClassId, n: nat, counts: seq<nat>, lo: nat) returns (r: Result<(seq<Ref>, Heap)>)
    requires Valid(h) && c < |h.classes| && lo <= |h.objects|
    ensures r.Ok? ==> Step(defs, {}, h, r.value.1) && |r.value.0| == n
    ensures r.Ok? ==> AddressesIncrease(r.value.0) && forall j :: 0 <= j < n ==> lo <= r.value.0[j].address
    ensures r.Ok? && Consistent(defs) ==> ElementsShaped(r.value.1, r.value.0, ComponentClassName(h.classes[c].name), counts, lo)
    decreases |counts| + 1, 1
  {
    var comp := ComponentClassName(h.classes[c].name);
    var refs: seq<Ref> := [];
    var cur := h;
    StepRefl(defs, {}, h);
    for i := 0 to n
      invariant |refs| == i && Step(defs, {}, h, cur)
      invariant Consistent(defs) ==> ElementsShaped(cur, refs, comp, counts, lo)
      invariant AddressesIncrease(refs) && forall j :: 0 <= j < i ==> lo <= refs[j].address < |cur.objects|
    {
      var sub :- NewElement(defs, cur, c, counts, lo);
      var (child, next) := sub;
      if Consistent(defs) {
        ElementsKept(cur, next, refs, comp, counts, lo);
      }
      StepTrans(defs, {}, h, cur, next);
      refs := refs + [child];
      cur := next;
    }
    r := Ok((refs, cur));
  }

  /** One element: `arrClass.ComponentClass()`, then a new tree of arrays of
      it for the counts. */
  method NewElement(defs: Defs, h: Heap, c: ClassId, counts: seq<nat>, lo: nat) returns (r: Result<(Ref, Heap)>)
    requires Valid(h) && c < |h.classes| && lo <= |h.objects|
    ensures r.Ok? ==> Step(defs, {}, h, r.value.1) && ComponentClassName(h.classes[c].name).Ok?
    ensures r.Ok? ==> r.value.0.Addr? && |h.objects| <= r.value.0.address < |r.value.1.objects|
    ensures r.Ok? && Consistent(defs) ==> MultiShaped(r.value.1, r.value.0, ComponentClassName(h.classes[c].name).value, counts, lo)
    decreases |counts| + 1, 0
  {
    var loaded :- ComponentClass(defs, h, c);
    var (cc, h2) := loaded;
    var sub :- NewMultiArray(defs, h2, cc, counts);
    StepTrans(defs, {}, h, h2, sub.1);
    if Consistent(defs) {
      assert Registered(h2, ComponentClassName(h.classes[c].name).value, cc);
      assert h2.classes[cc].name == ComponentClassName(h.classes[c].name).value;
      MultiShapedBelow(sub.1, sub.0, h2.classes[cc].name, counts, |h2.objects|, lo);
    }
    r := Ok(sub);
  }

  // ---------------------------------------------------------------------------
  // The instruction

  /** Thread t' and heap h' after MULTIANEWARRAY of array class c made from
      heap h: the counts of t's top dims slots, all of them non-negative, are
      replaced by a reference to a new array at the first address h did not
      use, and, when the class path is consistent or there is one count, that
      array is the root of a tree of arrays of the counts. */
  predicate MultiPushed(defs: Defs, h: Heap, h': Heap, t: Thread, c: ClassId, dims: nat, t': Thread)
    requires Valid(h') && !IsStackEmpty(t)
  {
    var ok :=
      && CountsFit(Current(t).stack, dims)
      && var counts := PopCounts(Current(t).stack, dims).value.0;
         && c < |h.classes| && |h.objects| < |h'.objects|
         && (dims == 1 || Consistent(defs) ==>
               MultiShaped(h', Addr(|h.objects|), h.classes[c].name, Lengths(counts), |h.objects|))
         && Replaced(t, t', dims, [Slot(0, Addr(|h.objects|))]);
    ok
  }

  /** MULTIANEWARRAY once the array class c is resolved. */
  method MultiANewArrayResolved(defs: Defs, h: Heap, t: Thread, c: ClassId, dims: nat) returns (r: Result<Thread>, h': Heap)
    requires Valid(h) && c < |h.classes| && !IsStackEmpty(t)
    ensures Step(defs, {}, h, h')
    ensures PopCounts(Current(t).stack, dims).Err? ==> r == Err(PopCounts(Current(t).stack, dims).error) && h' == h
    ensures dims == 0 ==> r == Err(OutOfRange)
    ensures r.Ok? ==> MultiPushed(defs, h, h', t, c, dims, r.value)
  {
    var f := Current(t);
    h' := h;
    StepRefl(defs, {}, h);
    var p :- PopCounts(f.stack, dims);
    var made := NewMultiArray(defs, h, c, Lengths(p.0));
    if made.Err? {
      r := Err(made.error);
      return;
    }
    var (ref, h1) := made.value;
    h' := h1;
    var s :- PushRef(p.1, ref);
    r := Ok(WithFrame(t, f.(stack := s)));
  }

  /** MULTIANEWARRAY: resolves the array class at index, pops dims counts and
      pushes a tree of new arrays. `hr` is the heap resolution reached. */
  method ExecMultiANewArray(defs: Defs, h: Heap, t: Thread, index: nat, dims: nat) returns (r: Result<Thread>, h': Heap, ghost hr: Heap)
    requires Valid(h) && Running(h, t)
    ensures Step(defs, {}, h, hr) && CachesGrow(h, hr, CurrentClass(t)) && Step(defs, {}, h, h')
    ensures !(Entry(h, t, index).Ok? && Entry(h, t, index).value.ClassRef?) ==> r.Err? && h' == h && hr == h
    ensures r.Ok? ==> index in hr.states[CurrentClass(t)].classRefs
    ensures Entry(h, t, index).Ok? && Entry(h, t, index).value.ClassRef? && index in hr.states[CurrentClass(t)].classRefs ==>
      && (PopCounts(Current(t).stack, dims).Err? ==> r == Err(PopCounts(Current(t).stack, dims).error) && h' == hr)
      && (r.Ok? ==> Valid(h') && MultiPushed(defs, hr, h', t, CachedClass(hr, CurrentClass(t), index), dims, r.value))
  {
    var d := CurrentClass(t);
    h' := h;
    hr := h;
    StepRefl(defs, {}, h);
    var e := Entry(h, t, index);
    if e.Err? {
      r := Err(e.error);
      return;
    }
    if !e.value.ClassRef? {
      r := Err(BadAssertion);
      return;
    }
    var res := ResolveClass(defs, h, d, index);
    if res.Err? {
      r := Err(res.error);
      return;
    }
    var (c, h1) := res.value;
    hr := h1;
    r, h' := MultiANewArrayResolved(defs, h1, t, c, dims);
    StepTrans(defs, {}, h, h1, h');
  }

  /** Two counts make an array of count[0] arrays, each of count[1] zero
      elements of the component class. */
  lemma TwoLevels(h: Heap, ref: Ref, name: string, m: nat, n: nat, lo: nat)
    requires Valid(h) && MultiShaped(h, ref, name, [m, n], lo)
    ensures var o := h.objects[ref.address];
      && o.data.RefArray? && |o.data.refs| == m
      && forall j :: 0 <= j < m ==>
           var e := o.data.refs[j];
           && e.Addr? && ref.address < e.address < |h.objects|
           && h.objects[e.address].data == ArrayData(ComponentClassName(name).value, n)
  {
  }
}

=== FILE: natives.dfy ===
/** Native methods: the registry keyed by class name, method name and
    descriptor, the INVOKE_NATIVE instruction that looks the current method up
    in it, and `Throwable.fillInStackTrace`, which records the frames below
    the throwable's constructors as its stack trace. The natives whose bodies
    depend on the host (identity hash codes, cloning, float bit conversions,
    the mirror and string wrappers) are named by their registry key only, and
    their effect is a parameter. */
module Natives {
  import opened Wrappers
  import opened Slots
  import opened AccessFlags
  import opened ClassMembers
  import opened Heaps
  import opened ClassNames
  import opened Decimal
  import opened Frames
  import opened ReferenceInstructions
  import opened ThrowInstruction

  // ---------------------------------------------------------------------------
  // The registry

  /** A native method: the do-nothing method, `fillInStackTrace`, or a native
      whose body is not part of this model. */
  datatype Native = EmptyNative | FillInStackTrace | HostNative(key: string)

  type Registry = map<string, Native>

  /** The registry key of a method. */
  function Key(className: string, methodName: string, descriptor: string): string {
    className + "~" + methodName + "~" + descriptor
  }

  /** `Register`: the method under the triple's key, replacing an earlier one. */
  function Register(reg: Registry, className: string, methodName: string, descriptor: string, m: Native): (reg': Registry)
    ensures reg'.Keys == reg.Keys + {Key(className, methodName, descriptor)}
    ensures reg'[Key(className, methodName, descriptor)] == m
    ensures forall k :: k in reg && k != Key(className, methodName, descriptor) ==> reg'[k] == reg[k]
  {
    reg[Key(className, methodName, descriptor) := m]
  }

  /** `FindNativeMethod`: the registered method; otherwise the do-nothing
      method for `registerNatives()V`, and nothing for any other triple. */
  function FindNativeMethod(reg: Registry, className: string, methodName: string, descriptor: string): (r: Option<Native>)
    ensures Key(className, methodName, descriptor) in reg ==> r == Some(reg[Key(className, methodName, descriptor)])
    ensures Key(className, methodName, descriptor) !in reg ==>
      (r.Some? <==> descriptor == "()V" && methodName == "registerNatives")
    ensures Key(className, methodName, descriptor) !in reg && r.Some? ==> r.value == EmptyNative
  {
    var key := Key(className, methodName, descriptor);
    if key in reg then Some(reg[key])
    else if descriptor == "()V" && methodName == "registerNatives" then Some(EmptyNative)
    else None
  }

  /** The registration made by the `init` of the Throwable natives. */
  function ThrowableNatives(reg: Registry): (reg': Registry)
    ensures FindNativeMethod(reg', "java/lang/Throwable", "fillInStackTrace", "(I)Ljava/lang/Throwable;") == Some(FillInStackTrace)
  {
    Register(reg, "java/lang/Throwable", "fillInStackTrace", "(I)Ljava/lang/Throwable;", FillInStackTrace)
  }

  /** A method just registered is the one found, whatever was registered
      under its triple before. */
  lemma FindAfterRegister(reg: Registry, className: string, methodName: string, descriptor: string, m: Native, m': Native)
    ensures FindNativeMethod(Register(reg, className, methodName, descriptor, m), className, methodName, descriptor) == Some(m)
    ensures Register(Register(reg, className, methodName, descriptor, m'), className, methodName, descriptor, m)
         == Register(reg, className, methodName, descriptor, m)
  {
  }

  /** In a name without '~' followed by '~', the first '~' ends the name. */
  lemma FirstTilde(a: string, b: string)
    requires '~' !in a
    ensures (a + "~" + b)[|a|] == '~'
    ensures forall j :: 0 <= j < |a| ==> (a + "~" + b)[j] != '~'
  {
  }

  /** Two names without '~' glued around a '~' can be split apart again. */
  lemma {:induction false} SplitAtTilde(a1: string, b1: string, a2: string, b2: string)
    requires '~' !in a1 && '~' !in a2
    requires a1 + "~" + b1 == a2 + "~" + b2
    ensures a1 == a2 && b1 == b2
  {
    var k := a1 + "~" + b1;
    assert k == a2 + "~" + b2;
    FirstTilde(a1, b1);
    FirstTilde(a2, b2);
    if |a1| < |a2| {
      assert false;
    } else if |a2| < |a1| {
      assert false;
    }
    assert a1 == k[..|a1|] == a2;
    assert b1 == k[|a1| + 1..] == b2;
  }

  /** Class and method names without '~' give distinct triples distinct
      keys. */
  lemma KeyInjective(c1: string, n1: string, d1: string, c2: string, n2: string, d2: string)
    requires '~' !in c1 && '~' !in n1 && '~' !in c2 && '~' !in n2
    requires Key(c1, n1, d1) == Key(c2, n2, d2)
    ensures c1 == c2 && n1 == n2 && d1 == d2
  {
    assert Key(c1, n1, d1) == c1 + "~" + (n1 + "~" + d1);
    assert Key(c2, n2, d2) == c2 + "~" + (n2 + "~" + d2);
    SplitAtTilde(c1, n1 + "~" + d1, c2, n2 + "~" + d2);
    SplitAtTilde(n1, d1, n2, d2);
  }

  /** With a '~' inside a name two different triples share a key, so
      registering one replaces the other. */
  lemma KeyCollision()
    ensures Key("a~b", "c", "()V") == Key("a", "b~c", "()V")
    ensures FindNativeMethod(Register(map[], "a~b", "c", "()V", FillInStackTrace), "a", "b~c", "()V") == Some(FillInStackTrace)
  {
    assert Key("a~b", "c", "()V") == "a~b~c~()V";
    assert Key("a", "b~c", "()V") == "a~b~c~()V";
  }

  /** Registering one triple leaves what is found for every other triple
      alone, as long as the names have no '~'. */
  lemma RegisterElsewhere(reg: Registry, c: string, n: string, d: string, m: Native, c': string, n': string, d': string)
    requires '~' !in c && '~' !in n && '~' !in c' && '~' !in n'
    requires (c, n, d) != (c', n', d')
    ensures FindNativeMethod(Register(reg, c, n, d, m), c', n', d') == FindNativeMethod(reg, c', n', d')
  {
    if Key(c, n, d) == Key(c', n', d') {
      KeyInjective(c, n, d, c', n', d');
      assert false;
    }
  }

  // ---------------------------------------------------------------------------
  // Stack traces

  /** `distanceToObject`: the number of superclasses above a class. */
  function DistanceToObject(cs: seq<Class>, id: ClassId): (r: nat)
    requires Linked(cs) && id < |cs|
    ensures r <= id
    ensures r == 0 <==> cs[id].superClass.None?
    decreases id
  {
    assert ClassLinked(cs[id], id);
    match cs[id].superClass
    case None => 0
    case Some(p) => DistanceToObject(cs, p) + 1
  }

  /** The distance is the length of the superclass chain above the class. */
  lemma {:induction false} DistanceIsChain(cs: seq<Class>, id: ClassId)
    requires Linked(cs) && id < |cs|
    ensures DistanceToObject(cs, id) == |Chain(cs, id)| - 1
    decreases id
  {
    assert ClassLinked(cs[id], id);
    if cs[id].superClass.Some? {
      DistanceIsChain(cs, cs[id].superClass.value);
    }
  }

  /** `createStackTraceElement`: the source file and Java name of the frame's
      class, its method's name, and the line of the instruction it is
      executing. */
  function ElementOf(h: Heap, f: Frame): (e: StackTraceElement)
    requires KeyValid(h.classes, f.methodKey, true)
    ensures |e.className| == |h.classes[f.methodKey.owner].name| && '/' !in e.className
    ensures var name := h.classes[f.methodKey.owner].name;
      forall i :: 0 <= i < |name| ==> e.className[i] == (if name[i] == '/' then '.' else name[i])
    ensures e.methodName == MethodAt(h.classes, f.methodKey).name
    ensures e.fileName == h.classes[f.methodKey.owner].sourceFile
    ensures var m := MethodAt(h.classes, f.methodKey);
      && (IsNative(m.accessFlags) ==> e.lineNumber == -2)
      && (!IsNative(m.accessFlags) && m.lineNumbers.None? ==> e.lineNumber == -1)
      && (!IsNative(m.accessFlags) && m.lineNumbers.Some? ==> e.lineNumber == LineAt(m.lineNumbers.value, f.nextPC - 1))
  {
    var c := h.classes[f.methodKey.owner];
    var m := MethodAt(h.classes, f.methodKey);
    StackTraceElement(c.sourceFile, JavaName(c.name), m.name, GetLineNumber(m, f.nextPC - 1))
  }

  /** The frames a throwable of class exClass skips: `fillInStackTrace(int)`,
      `fillInStackTrace()` and one constructor per superclass. */
  function Skipped(h: Heap, exClass: ClassId): nat
    requires Valid(h) && exClass < |h.classes|
  {
    DistanceToObject(h.classes, exClass) + 2
  }

  /** `createStackTraceElements`: one element per frame below the skipped
      ones, from the top of the frame stack down. Skipping more frames than
      there are is an out-of-range slice. */
  function StackTraceElements(h: Heap, t: Thread, exClass: ClassId): (r: Result<seq<StackTraceElement>>)
    requires Valid(h) && FramesValid(h, t) && exClass < |h.classes|
    ensures r.Ok? <==> Skipped(h, exClass) <= |t.stack.frames|
    ensures r.Err? ==> r.error == OutOfRange
    ensures r.Ok? ==> |r.value| == |t.stack.frames| - Skipped(h, exClass)
    ensures r.Ok? ==> forall i :: 0 <= i < |r.value| ==>
      r.value[i] == ElementOf(h, t.stack.frames[|t.stack.frames| - 1 - Skipped(h, exClass) - i])
  {
    var skip := Skipped(h, exClass);
    var all := GetFrames(t.stack);
    GetFramesReverse(t.stack);
    if skip > |all| then Err(OutOfRange)
    else Ok(seq(|all| - skip, i requires 0 <= i < |all| - skip => ElementOf(h, all[skip + i])))
  }

  /** The last element of a stack trace is the bottom frame, the one that
      started the thread. */
  lemma TraceEndsAtBottom(h: Heap, t: Thread, exClass: ClassId)
    requires Valid(h) && FramesValid(h, t) && exClass < |h.classes|
    requires Skipped(h, exClass) < |t.stack.frames|
    ensures var es := StackTraceElements(h, t, exClass).value;
      |es| > 0 && es[|es| - 1] == ElementOf(h, t.stack.frames[0])
  {
  }

  /** `StackTraceElement.String`: `class.method(file:line)`, each part at
      the offset the parts before it leave. */
  function ElementString(e: StackTraceElement): (s: string)
    ensures var c, m, f := |e.className|, |e.methodName|, |e.fileName|;
      && |s| == c + m + f + 4 + |IntToString(e.lineNumber)|
      && s[..c] == e.className && s[c] == '.'
      && s[c + 1..c + 1 + m] == e.methodName && s[c + 1 + m] == '('
      && s[c + 2 + m..c + 2 + m + f] == e.fileName && s[c + 2 + m + f] == ':'
      && s[c + m + f + 3..|s| - 1] == IntToString(e.lineNumber) && s[|s| - 1] == ')'
  {
    e.className + "." + e.methodName + "(" + e.fileName + ":" + IntToString(e.lineNumber) + ")"
  }

  /** Distinct numbers print differently. */
  lemma IntToStringInjective(a: int, b: int)
    requires IntToString(a) == IntToString(b)
    ensures a == b
  {
    if a < 0 && b >= 0 {
      assert false;
    } else if a >= 0 && b < 0 {
      assert false;
    } else if a < 0 {
      assert NatToString(-a) == IntToString(a)[1..];
      assert NatToString(-b) == IntToString(b)[1..];
      NatToStringInjective(-a, -b);
    } else {
      NatToStringInjective(a, b);
    }
  }

  /** The printed element determines its line number. */
  lemma ElementStringLine(e1: StackTraceElement, e2: StackTraceElement)
    requires e2 == e1.(lineNumber := e2.lineNumber)
    requires ElementString(e1) == ElementString(e2)
    ensures e1 == e2
  {
    var p := e1.className + "." + e1.methodName + "(" + e1.fileName + ":";
    var s1, s2 := ElementString(e1), ElementString(e2);
    assert s1 == p + (IntToString(e1.lineNumber) + ")");
    assert s2 == p + (IntToString(e2.lineNumber) + ")");
    assert IntToString(e1.lineNumber) == s1[|p|..|s1| - 1];
    assert IntToString(e2.lineNumber) == s2[|p|..|s2| - 1];
    IntToStringInjective(e1.lineNumber, e2.lineNumber);
  }

  // ---------------------------------------------------------------------------
  // fillInStackTrace

  /** The thread and heap after `fillInStackTrace`: `this` is pushed on the
      native frame's operand stack, and only `this`'s extra changes, to the
      stack trace of the frames below the skipped ones. */
  predicate Filled(h: Heap, t: Thread, h': Heap, t': Thread)
    requires Valid(h) && FramesValid(h, t) && !IsStackEmpty(t)
  {
    var f := Current(t);
    var ok :=
      && |f.localVars| > 0 && f.localVars[0].ref.Addr? && f.localVars[0].ref.address < |h.objects|
      && var a := f.localVars[0].ref.address;
         var es := StackTraceElements(h, t, h.objects[a].classId);
         && es.Ok?
         && h' == h.(objects := h.objects[a := h.objects[a].(extra := StackTrace(es.value))])
         && t' == WithFrame(t, f.(stack := f.stack.(slots := f.stack.slots + [Slot(0, f.localVars[0].ref)])));
    ok
  }

  /** `fillInStackTrace`: pushes `this` and stores the stack trace in its
      extra. No local is an out-of-range index and a null `this` a nil
      dereference. */
  function ExecFillInStackTrace(h: Heap, t: Thread): (r: Result<(Heap, Thread)>)
    requires Valid(h) && FramesValid(h, t) && !IsStackEmpty(t)
    ensures |Current(t).localVars| == 0 ==> r == Err(OutOfRange)
    ensures |Current(t).localVars| > 0 && |Current(t).stack.slots| < Current(t).stack.maxStack && Current(t).localVars[0].ref.Null? ==>
      r == Err(NilDeref)
  {
    var f := Current(t);
    var self :- GetThis(f.localVars);
    var s :- PushRef(f.stack, self);
    var o :- Deref(h, self);
    var es :- StackTraceElements(h, t, o.classId);
    var h' :- SetExtra(h, self, StackTrace(es));
    Ok((h', WithFrame(t, f.(stack := s))))
  }

  /** A successful `fillInStackTrace` has the effect `Filled` describes. */
  lemma FillIsFilled(h: Heap, t: Thread)
    requires Valid(h) && FramesValid(h, t) && !IsStackEmpty(t)
    requires ExecFillInStackTrace(h, t).Ok?
    ensures Valid(ExecFillInStackTrace(h, t).value.0)
    ensures Filled(h, t, ExecFillInStackTrace(h, t).value.0, ExecFillInStackTrace(h, t).value.1)
  {
  }

  /** After `fillInStackTrace` the throwable's extra is the stack trace, and
      its fields are kept. */
  lemma FillReadsBack(h: Heap, t: Thread)
    requires Valid(h) && FramesValid(h, t) && !IsStackEmpty(t)
    requires ExecFillInStackTrace(h, t).Ok?
    ensures var obj := Current(t).localVars[0].ref;
      var h' := ExecFillInStackTrace(h, t).value.0;
      && Deref(h, obj).Ok?
      && GetExtra(h', obj) == Ok(StackTrace(StackTraceElements(h, t, Deref(h, obj).value.classId).value))
      && h'.objects[obj.address].data == h.objects[obj.address].data
      && TopRef(Current(ExecFillInStackTrace(h, t).value.1)) == obj
  {
  }

  // ---------------------------------------------------------------------------
  // INVOKE_NATIVE

  /** The `UnsatisfiedLinkError` message naming the method. */
  function LinkError(className: string, methodName: string, descriptor: string): string {
    UnsatisfiedLinkPrefix + className + "." + methodName + descriptor
  }

  /** What running a native does to the heap and the thread; the host
      natives' effect is the parameter `host`. */
  function RunNative(n: Native, h: Heap, t: Thread, host: (string, Heap, Thread) -> Result<(Heap, Thread)>): (r: Result<(Heap, Thread)>)
    requires Valid(h) && FramesValid(h, t) && !IsStackEmpty(t)
    ensures n == EmptyNative ==> r == Ok((h, t))
    ensures n == FillInStackTrace && r.Ok? ==> Filled(h, t, r.value.0, r.value.1)
  {
    match n
    case EmptyNative => Ok((h, t))
    case FillInStackTrace => ExecFillInStackTrace(h, t)
    case HostNative(key) => host(key, h, t)
  }

  /** `INVOKE_NATIVE.Execute`: the native registered for the current method's
      class name, name and descriptor runs on the current frame; a method
      without one panics with an `UnsatisfiedLinkError`. It has no operands. */
  function ExecInvokeNative(reg: Registry, h: Heap, t: Thread, host: (string, Heap, Thread) -> Result<(Heap, Thread)>): (r: Result<(Heap, Thread)>)
    requires Valid(h) && Running(h, t) && FramesValid(h, t)
    ensures var m := MethodAt(h.classes, Current(t).methodKey);
      var c := h.classes[CurrentClass(t)].name;
      && (FindNativeMethod(reg, c, m.name, m.descriptor).None? ==> r == Err(Panic(LinkError(c, m.name, m.descriptor))))
      && (FindNativeMethod(reg, c, m.name, m.descriptor).Some? ==> r == RunNative(FindNativeMethod(reg, c, m.name, m.descriptor).value, h, t, host))
  {
    var m := MethodAt(h.classes, Current(t).methodKey);
    var c := h.classes[CurrentClass(t)].name;
    match FindNativeMethod(reg, c, m.name, m.descriptor)
    case None => Err(Panic(LinkError(c, m.name, m.descriptor)))
    case Some(n) => RunNative(n, h, t, host)
  }

  /** Once the Throwable natives are registered, INVOKE_NATIVE in
      `java/lang/Throwable.fillInStackTrace(I)Ljava/lang/Throwable;` fills in
      the stack trace. */
  lemma InvokeFillInStackTrace(reg: Registry, h: Heap, t: Thread, host: (string, Heap, Thread) -> Result<(Heap, Thread)>)
    requires Valid(h) && Running(h, t) && FramesValid(h, t)
    requires h.classes[CurrentClass(t)].name == "java/lang/Throwable"
    requires MethodAt(h.classes, Current(t).methodKey).name == "fillInStackTrace"
    requires MethodAt(h.classes, Current(t).methodKey).descriptor == "(I)Ljava/lang/Throwable;"
    ensures ExecInvokeNative(ThrowableNatives(reg), h, t, host) == ExecFillInStackTrace(h, t)
  {
  }

  /** An unregistered `registerNatives()V` does nothing, and any other
      unregistered method fails to link. */
  lemma InvokeUnregistered(reg: Registry, h: Heap, t: Thread, host: (string, Heap, Thread) -> Result<(Heap, Thread)>)
    requires Valid(h) && Running(h, t) && FramesValid(h, t)
    requires var m := MethodAt(h.classes, Current(t).methodKey);
      Key(h.classes[CurrentClass(t)].name, m.name, m.descriptor) !in reg
    ensures var m := MethodAt(h.classes, Current(t).methodKey);
      ExecInvokeNative(reg, h, t, host) ==
        if m.name == "registerNatives" && m.descriptor == "()V" then Ok((h, t))
        else Err(Panic(LinkError(h.classes[CurrentClass(t)].name, m.name, m.descriptor)))
  {
  }
}

=== FILE: reference_instructions.dfy ===
/** The reference instructions (section 6.5 of the Java Virtual Machine
    Specification, Java SE 8): object and array creation, field access, the
    type tests, the invocation instructions and ATHROW.

    An instruction that uses the constant pool is a method over the class
    path, the heap and the thread, since resolving the entry may load classes.
    It gives its outcome together with the heap it leaves behind, which is the
    heap it started from when the entry cannot be resolved. What an instruction
    does once its entry is resolved is a function of the heap at that point
    (the `...Resolved` functions), and each method's contract says that its
    outcome is that function's, for the heap the resolution reached. */
module ReferenceInstructions {
  import opened Wrappers
  import opened MachineInts
  import opened AccessFlags
  import opened Slots
  import opened ClassMembers
  import opened Heaps
  import opened ClassHierarchy
  import opened ClassNames
  import opened ClassLoader
  import opened RuntimeConstantPool
  import opened Resolution
  import opened Assignability
  import opened Frames
  import opened InvokeLogic
  import ClassReader
  import opened Bytecode

  // ---------------------------------------------------------------------------
  // The running method

  function Current(t: Thread): Frame
    requires !IsStackEmpty(t)
  {
    t.stack.frames[|t.stack.frames| - 1]
  }

  /** The current frame runs a method of a loaded class, on a frame stack
      within its bound. */
  predicate Running(h: Heap, t: Thread) {
    !IsStackEmpty(t) && Bounded(t) && KeyValid(h.classes, Current(t).methodKey, true)
  }

  /** The frame stack is within its bound, as pushing keeps it. */
  predicate Bounded(t: Thread) {
    |t.stack.frames| <= t.stack.maxSize
  }

  function CurrentClass(t: Thread): ClassId
    requires !IsStackEmpty(t)
  {
    Current(t).methodKey.owner
  }

  function MethodAt(cs: seq<Class>, k: MemberKey): Method
    requires KeyValid(cs, k, true)
  {
    cs[k.owner].methods[k.index]
  }

  function FieldAt(cs: seq<Class>, k: MemberKey): Field
    requires KeyValid(cs, k, false)
  {
    cs[k.owner].fields[k.index]
  }

  /** Entry index of the current class's constant pool. */
  function Entry(h: Heap, t: Thread, index: nat): Result<Constant>
    requires Running(h, t)
  {
    GetConstant(h.classes[CurrentClass(t)].constantPool, index)
  }

  /** The thread with its current frame replaced; the Go instructions change
      the current frame in place. */
  function WithFrame(t: Thread, f: Frame): (r: Thread)
    requires !IsStackEmpty(t)
    ensures SetCurrentFrame(t, f) == Ok(r)
    ensures !IsStackEmpty(r) && Current(r) == f
    ensures r.pc == t.pc && r.stack.maxSize == t.stack.maxSize && |r.stack.frames| == |t.stack.frames|
    ensures r.stack.frames[..|t.stack.frames| - 1] == t.stack.frames[..|t.stack.frames| - 1]
  {
    var fs := t.stack.frames;
    t.(stack := t.stack.(frames := fs[..|fs| - 1] + [f]))
  }

  /** t' is t with only the operand stack of the current frame changed: n
      slots popped and `pushed` pushed. */
  predicate Replaced(t: Thread, t': Thread, n: nat, pushed: Slots) {
    && !IsStackEmpty(t) && !IsStackEmpty(t')
    && t' == WithFrame(t, Current(t'))
    && StackEffect(Current(t), Current(t'), n, pushed)
  }

  /** Loading classes and filling in caches keep the running method and the
      current class's pool. */
  lemma RunningKept(h: Heap, h': Heap, t: Thread, index: nat)
    requires Running(h, t) && Grows(h, h')
    ensures Running(h', t)
    ensures MethodAt(h'.classes, Current(t).methodKey) == MethodAt(h.classes, Current(t).methodKey)
    ensures Entry(h', t, index) == Entry(h, t, index)
  {
  }

  /** The key cached for a resolved field or method is a member of a loaded
      class. */
  function CachedField(h: Heap, d: ClassId, index: nat): (k: MemberKey)
    requires Valid(h) && d < |h.classes| && index in h.states[d].fieldRefs
    ensures KeyValid(h.classes, k, false) && FieldResolved(h, d, index, k)
  {
    assert CachesValid(h.classes, h.states[d]);
    h.states[d].fieldRefs[index]
  }

  function CachedMethod(h: Heap, d: ClassId, index: nat): (k: MemberKey)
    requires Valid(h) && d < |h.classes| && index in h.states[d].methodRefs
    ensures KeyValid(h.classes, k, true) && MethodResolved(h, d, index, k)
  {
    assert CachesValid(h.classes, h.states[d]);
    h.states[d].methodRefs[index]
  }

  function CachedClass(h: Heap, d: ClassId, index: nat): (c: ClassId)
    requires Valid(h) && d < |h.classes| && index in h.states[d].classRefs
    ensures c < |h.classes| && ClassResolved(h, d, index, c)
  {
    assert CachesValid(h.classes, h.states[d]);
    h.states[d].classRefs[index]
  }

  /** The reference on top of the operand stack. */
  function TopRef(f: Frame): Ref
    requires |f.stack.slots| > 0
  {
    SlotFromTop(f.stack, 0).ref
  }

  // ---------------------------------------------------------------------------
  // Values by descriptor

  /** What the first character of a field descriptor selects. */
  datatype ValueKind = IntValue | FloatValue | LongValue | DoubleValue | RefValue | NoValue

  /** `descriptor[0]`: the boolean, byte, char, short and int types are ints;
      an object or array type is a reference; any other character moves no
      value. An empty descriptor has no first character. */
  function KindOf(descriptor: string): (r: Result<ValueKind>)
    ensures r.Err? <==> |descriptor| == 0
    ensures r.Err? ==> r == Err(OutOfRange)
    ensures r.Ok? ==> (r.value == NoValue <==> descriptor[0] !in {'Z', 'B', 'C', 'S', 'I', 'F', 'J', 'D', 'L', '['})
  {
    if |descriptor| == 0 then Err(OutOfRange)
    else match descriptor[0]
      case 'Z' => Ok(IntValue)
      case 'B' => Ok(IntValue)
      case 'C' => Ok(IntValue)
      case 'S' => Ok(IntValue)
      case 'I' => Ok(IntValue)
      case 'F' => Ok(FloatValue)
      case 'J' => Ok(LongValue)
      case 'D' => Ok(DoubleValue)
      case 'L' => Ok(RefValue)
      case '[' => Ok(RefValue)
      case _ => Ok(NoValue)
  }

  /** The number of slots a value of the kind takes. */
  function Width(k: ValueKind): nat {
    match k
    case LongValue => 2
    case DoubleValue => 2
    case NoValue => 0
    case _ => 1
  }

  /** Slot id holds a value of kind k; no value fits anywhere. */
  predicate Fits(vars: Slots, id: nat, k: ValueKind) {
    k == NoValue || id + Width(k) <= |vars|
  }

  /** The slots a value of kind k stored at slot id is pushed as: the int
      halves of slots id and id + 1 for a long or double, the int half for an
      int or float, the reference half for a reference. */
  function Loaded(vars: Slots, id: nat, k: ValueKind): Slots
    requires Fits(vars, id, k)
  {
    match k
    case IntValue => [IntSlot(vars[id].num)]
    case FloatValue => [IntSlot(vars[id].num)]
    case LongValue => [IntSlot(vars[id].num), IntSlot(vars[id + 1].num)]
    case DoubleValue => [IntSlot(vars[id].num), IntSlot(vars[id + 1].num)]
    case RefValue => [Slot(0, vars[id].ref)]
    case NoValue => []
  }

  /** The slot vector once the popped slots `top` (deepest first) are stored
      as a value of kind k at slot id: the int halves for numbers, the
      reference half for a reference. */
  function Stored(vars: Slots, id: nat, k: ValueKind, top: Slots): Slots
    requires |top| == Width(k) && Fits(vars, id, k)
  {
    match k
    case IntValue => vars[id := vars[id].(num := top[0].num)]
    case FloatValue => vars[id := vars[id].(num := top[0].num)]
    case LongValue => vars[id := vars[id].(num := top[0].num)][id + 1 := vars[id + 1].(num := top[1].num)]
    case DoubleValue => vars[id := vars[id].(num := top[0].num)][id + 1 := vars[id + 1].(num := top[1].num)]
    case RefValue => vars[id := vars[id].(ref := top[0].ref)]
    case NoValue => vars
  }

  /** The getter and pusher of the kind, as the `switch` of GETFIELD calls
      them: the value at slot id pushed with its width. */
  function PushValue(s: OperandStack, vars: Slots, id: nat, k: ValueKind): (r: Result<OperandStack>)
    ensures r.Ok? <==> k == NoValue || (id + Width(k) <= |vars| && |s.slots| + Width(k) <= s.maxStack)
    ensures r.Ok? ==> Fits(vars, id, k) && r.value.slots == s.slots + Loaded(vars, id, k) && r.value.maxStack == s.maxStack
  {
    match k
    case IntValue =>
      var v :- GetInt(vars, id);
      PushInt(s, v)
    case FloatValue =>
      var v :- GetFloat(vars, id);
      U32RoundTrip(vars[id].num, 0);
      PushFloat(s, v)
    case LongValue =>
      var v :- GetLong(vars, id);
      HalvesLongRoundTrip(vars[id].num, vars[id + 1].num);
      PushLong(s, v)
    case DoubleValue =>
      var v :- GetDouble(vars, id);
      U64RoundTrip(HalvesToLong(vars[id].num, vars[id + 1].num), 0);
      HalvesLongRoundTrip(vars[id].num, vars[id + 1].num);
      PushDouble(s, v)
    case RefValue =>
      var v :- GetRef(vars, id);
      PushRef(s, v)
    case NoValue => Ok(s)
  }

  /** What the popper and setter of a kind must do: pop the value's slots
      and store them at slot id. */
  predicate StoredAs(vars: Slots, id: nat, s: OperandStack, k: ValueKind, r: Result<(Slots, OperandStack)>) {
    && (r.Ok? <==> Width(k) <= |s.slots| && id + Width(k) <= |vars|)
    && (r.Ok? ==> Width(k) <= |s.slots| && Fits(vars, id, k) && var n := |s.slots| - Width(k);
         r.value.1 == s.(slots := s.slots[..n]) && r.value.0 == Stored(vars, id, k, s.slots[n..]))
  }

  function StoreInt(vars: Slots, id: nat, s: OperandStack): (r: Result<(Slots, OperandStack)>)
    ensures StoredAs(vars, id, s, IntValue, r)
  {
    var p :- PopInt(s);
    var vs :- SetInt(vars, id, p.0);
    Ok((vs, p.1))
  }

  function StoreFloat(vars: Slots, id: nat, s: OperandStack): (r: Result<(Slots, OperandStack)>)
    ensures StoredAs(vars, id, s, FloatValue, r)
  {
    var p :- PopFloat(s);
    U32RoundTrip(SlotFromTop(s, 0).num, 0);
    var vs :- SetFloat(vars, id, p.0);
    Ok((vs, p.1))
  }

  function StoreLong(vars: Slots, id: nat, s: OperandStack): (r: Result<(Slots, OperandStack)>)
    ensures StoredAs(vars, id, s, LongValue, r)
  {
    var p :- PopLong(s);
    assert |s.slots| >= 2;
    HalvesLongRoundTrip(SlotFromTop(s, 1).num, SlotFromTop(s, 0).num);
    var vs :- SetLong(vars, id, p.0);
    Ok((vs, p.1))
  }

  function StoreDouble(vars: Slots, id: nat, s: OperandStack): (r: Result<(Slots, OperandStack)>)
    ensures StoredAs(vars, id, s, DoubleValue, r)
  {
    var p :- PopDouble(s);
    assert |s.slots| >= 2;
    HalvesLongRoundTrip(SlotFromTop(s, 1).num, SlotFromTop(s, 0).num);
    U64RoundTrip(HalvesToLong(SlotFromTop(s, 1).num, SlotFromTop(s, 0).num), 0);
    var vs :- SetDouble(vars, id, p.0);
    Ok((vs, p.1))
  }

  function StoreRef(vars: Slots, id: nat, s: OperandStack): (r: Result<(Slots, OperandStack)>)
    ensures StoredAs(vars, id, s, RefValue, r)
  {
    var p :- PopRef(s);
    var vs :- SetRef(vars, id, p.0);
    Ok((vs, p.1))
  }

  /** The popper and setter of the kind, as the `switch` of PUTSTATIC calls
      them: the top value popped with its width and stored at slot id. */
  function StoreValue(vars: Slots, id: nat, s: OperandStack, k: ValueKind): (r: Result<(Slots, OperandStack)>)
    ensures r.Ok? <==> k == NoValue || (Width(k) <= |s.slots| && id + Width(k) <= |vars|)
    ensures r.Ok? ==> Width(k) <= |s.slots| && Fits(vars, id, k) && var n := |s.slots| - Width(k);
      r.value.1 == s.(slots := s.slots[..n]) && r.value.0 == Stored(vars, id, k, s.slots[n..])
  {
    match k
    case IntValue => StoreInt(vars, id, s)
    case FloatValue => StoreFloat(vars, id, s)
    case LongValue => StoreLong(vars, id, s)
    case DoubleValue => StoreDouble(vars, id, s)
    case RefValue => StoreRef(vars, id, s)
    case NoValue => assert s.slots[..|s.slots|] == s.slots; Ok((vars, s))
  }

  /** A value stored and loaded again comes back as it was pushed, with the
      other half of each slot cleared, and no slot outside the value's slots
      changes. */
  lemma StoreThenLoad(vars: Slots, id: nat, k: ValueKind, top: Slots)
    requires |top| == Width(k) && Fits(vars, id, k)
    ensures |Stored(vars, id, k, top)| == |vars|
    ensures k != RefValue ==> Loaded(Stored(vars, id, k, top), id, k) == seq(|top|, i requires 0 <= i < |top| => IntSlot(top[i].num))
    ensures k == RefValue ==> Loaded(Stored(vars, id, k, top), id, k) == [Slot(0, top[0].ref)]
    ensures forall j :: 0 <= j < |vars| && !(id <= j < id + Width(k)) ==> Stored(vars, id, k, top)[j] == vars[j]
  {
  }

  // ---------------------------------------------------------------------------
  // ARRAYLENGTH

  /** ARRAYLENGTH: pops an array reference and pushes the array's length,
      which is an int32 in Go. */
  function ExecArrayLength(h: Heap, f: Frame): (r: Result<Frame>)
    ensures |f.stack.slots| == 0 ==> r == Err(OutOfRange)
    ensures |f.stack.slots| > 0 && TopRef(f).Null? ==> r == Err(Panic(NullPointer))
    ensures |f.stack.slots| > 0 && Deref(h, TopRef(f)).Ok? && Deref(h, TopRef(f)).value.data.FieldSlots? ==>
      r == Err(Panic("Not array!"))
    ensures StackFits(f.stack) ==>
      (r.Ok? <==> |f.stack.slots| > 0 && Deref(h, TopRef(f)).Ok? && !Deref(h, TopRef(f)).value.data.FieldSlots?)
    ensures r.Ok? ==>
      && |f.stack.slots| > 0 && Deref(h, TopRef(f)).Ok? && ArrayLength(Deref(h, TopRef(f)).value.data).Ok?
      && StackEffect(f, r.value, 1, [IntSlot(Wrap32(ArrayLength(Deref(h, TopRef(f)).value.data).value))])
  {
    var p :- PopRef(f.stack);
    if p.0.Null? then Err(Panic(NullPointer))
    else
      var o :- Deref(h, p.0);
      var n :- ArrayLength(o.data);
      var s :- PushInt(p.1, Wrap32(n));
      Ok(f.(stack := s))
  }

  /** The length of an array just made with count elements is count. */
  lemma LengthOfNewArray(h: Heap, id: ClassId, count: nat, f: Frame)
    requires Valid(h) && id < |h.classes| && IsArray(h.classes[id]) && count < TWO_31
    requires StackFits(f.stack) && |f.stack.slots| > 0 && TopRef(f) == NewArray(h, id, count).value.0
    ensures ExecArrayLength(NewArray(h, id, count).value.1, f).Ok?
    ensures IntFromTop(ExecArrayLength(NewArray(h, id, count).value.1, f).value.stack, 0) == count
  {
    ArrayDataShape(h.classes[id].name, count);
    Wrap32Id(count);
  }

  // ---------------------------------------------------------------------------
  // GETFIELD

  /** GETFIELD once the field is resolved: an instance field is read from the
      object popped off the stack and pushed with the width its descriptor
      gives; the object is not changed. */
  function GetFieldResolved(h: Heap, f: Frame, fd: Field): (r: Result<Frame>)
    ensures IsStatic(fd.accessFlags) ==> r == Err(Panic(IncompatibleClassChange))
    ensures !IsStatic(fd.accessFlags) && |f.stack.slots| == 0 ==> r == Err(OutOfRange)
    ensures !IsStatic(fd.accessFlags) && |f.stack.slots| > 0 && TopRef(f).Null? ==> r == Err(Panic(NullPointer))
    ensures r.Ok? ==>
      && !IsStatic(fd.accessFlags) && |f.stack.slots| > 0
      && Deref(h, TopRef(f)).Ok? && Deref(h, TopRef(f)).value.data.FieldSlots? && KindOf(fd.descriptor).Ok?
      && var vars := Deref(h, TopRef(f)).value.data.slots;
         var k := KindOf(fd.descriptor).value;
         Fits(vars, fd.slotId, k) && StackEffect(f, r.value, 1, Loaded(vars, fd.slotId, k))
    ensures StackFits(f.stack) && !IsStatic(fd.accessFlags) && |f.stack.slots| > 0
            && Deref(h, TopRef(f)).Ok? && Deref(h, TopRef(f)).value.data.FieldSlots? && KindOf(fd.descriptor).Ok? ==>
      var vars := Deref(h, TopRef(f)).value.data.slots;
      var k := KindOf(fd.descriptor).value;
      (r.Ok? <==> k == NoValue || (fd.slotId + Width(k) <= |vars| && |f.stack.slots| - 1 + Width(k) <= f.stack.maxStack))
  {
    if IsStatic(fd.accessFlags) then Err(Panic(IncompatibleClassChange))
    else
      var p :- PopRef(f.stack);
      if p.0.Null? then Err(Panic(NullPointer))
      else
        var o :- Deref(h, p.0);
        if !o.data.FieldSlots? then Err(BadAssertion)
        else
          var k :- KindOf(fd.descriptor);
          var s :- PushValue(p.1, o.data.slots, fd.slotId, k);
          Ok(f.(stack := s))
  }

  /** GETFIELD: resolves the field reference at index and reads the field.
      The heap is changed by resolution only. */
  method ExecGetField(defs: Defs, h: Heap, t: Thread, index: nat) returns (r: Result<Thread>, h': Heap)
    requires Valid(h) && Running(h, t)
    ensures Step(defs, {}, h, h') && CachesGrow(h, h', CurrentClass(t))
    ensures !(Entry(h, t, index).Ok? && Entry(h, t, index).value.FieldRef?) ==> r.Err? && h' == h
    ensures r.Ok? ==> index in h'.states[CurrentClass(t)].fieldRefs
    ensures Entry(h, t, index).Ok? && Entry(h, t, index).value.FieldRef? && index in h'.states[CurrentClass(t)].fieldRefs ==>
      var fd := FieldAt(h'.classes, CachedField(h', CurrentClass(t), index));
      && (r.Ok? <==> GetFieldResolved(h', Current(t), fd).Ok?)
      && (r.Ok? ==> r.value == WithFrame(t, GetFieldResolved(h', Current(t), fd).value))
      && (r.Err? ==> r.error == GetFieldResolved(h', Current(t), fd).error)
  {
    var d := CurrentClass(t);
    h' := h;
    StepRefl(defs, {}, h);
    var e := Entry(h, t, index);
    if e.Err? {
      r := Err(e.error);
      return;
    }
    if !e.value.FieldRef? {
      r := Err(BadAssertion);
      return;
    }
    var res := ResolveField(defs, h, d, index);
    if res.Err? {
      r := Err(res.error);
      return;
    }
    h' := res.value.1;
    RunningKept(h, h', t, index);
    var fd := FieldAt(h'.classes, CachedField(h', d, index));
    var f := GetFieldResolved(h', Current(t), fd);
    if f.Err? {
      r := Err(f.error);
    } else {
      r := Ok(WithFrame(t, f.value));
    }
  }

  // ---------------------------------------------------------------------------
  // PUTSTATIC

  /** A final field may be written only by the `<clinit>` of its own class. */
  predicate MayWrite(h: Heap, t: Thread, k: MemberKey)
    requires Running(h, t) && KeyValid(h.classes, k, false)
  {
    IsFinal(FieldAt(h.classes, k).accessFlags) ==>
      CurrentClass(t) == k.owner && MethodAt(h.classes, Current(t).methodKey).name == "<clinit>"
  }

  /** The heap with the static slots of class c replaced. */
  function WithStatics(h: Heap, c: ClassId, vars: Slots): (h': Heap)
    requires Valid(h) && c < |h.classes|
    ensures Valid(h') && Grows(h, h') && StateOnly(h, h') && |h'.states| == |h.states|
    ensures h'.states == h.states[c := h.states[c].(staticVars := vars)]
  {
    assert CachesValid(h.classes, h.states[c]);
    SetState(h, c, h.states[c].(staticVars := vars))
  }

  /** PUTSTATIC once the field is resolved: the value on top, as wide as the
      descriptor says, is popped and written into the static slots of the
      field's class. */
  function PutStaticResolved(h: Heap, t: Thread, k: MemberKey): (r: Result<(Heap, Thread)>)
    requires Valid(h) && Running(h, t) && KeyValid(h.classes, k, false)
    ensures !IsStatic(FieldAt(h.classes, k).accessFlags) ==> r == Err(Panic(IncompatibleClassChange))
    ensures IsStatic(FieldAt(h.classes, k).accessFlags) && !MayWrite(h, t, k) ==> r == Err(Panic(IllegalAccess))
    ensures IsStatic(FieldAt(h.classes, k).accessFlags) && MayWrite(h, t, k) && |FieldAt(h.classes, k).descriptor| == 0 ==>
      r == Err(OutOfRange)
    ensures IsStatic(FieldAt(h.classes, k).accessFlags) && MayWrite(h, t, k) && KindOf(FieldAt(h.classes, k).descriptor).Ok? ==>
      var kind := KindOf(FieldAt(h.classes, k).descriptor).value;
      (r.Ok? <==> kind == NoValue ||
                  (Width(kind) <= |Current(t).stack.slots| && FieldAt(h.classes, k).slotId + Width(kind) <= |h.states[k.owner].staticVars|))
    ensures r.Ok? ==>
      && IsStatic(FieldAt(h.classes, k).accessFlags) && MayWrite(h, t, k) && KindOf(FieldAt(h.classes, k).descriptor).Ok?
      && var fd := FieldAt(h.classes, k);
         var kind := KindOf(fd.descriptor).value;
         var slots := Current(t).stack.slots;
         && Width(kind) <= |slots| && Fits(h.states[k.owner].staticVars, fd.slotId, kind)
         && r.value.0 == WithStatics(h, k.owner, Stored(h.states[k.owner].staticVars, fd.slotId, kind, slots[|slots| - Width(kind)..]))
         && Replaced(t, r.value.1, Width(kind), [])
  {
    var fd := FieldAt(h.classes, k);
    if !IsStatic(fd.accessFlags) then Err(Panic(IncompatibleClassChange))
    else if !MayWrite(h, t, k) then Err(Panic(IllegalAccess))
    else
      var kind :- KindOf(fd.descriptor);
      var p :- StoreValue(h.states[k.owner].staticVars, fd.slotId, Current(t).stack, kind);
      Ok((WithStatics(h, k.owner, p.0), WithFrame(t, Current(t).(stack := p.1))))
  }

  /** PUTSTATIC writes only the field's own slots: every other class's state,
      and every other static slot of its class, is kept; reading the field
      back gives the popped slots (their int halves, or the reference half).
      `kind` is the field's descriptor kind and `top` the slots popped. */
  lemma PutStaticWritesField(h: Heap, t: Thread, k: MemberKey, h': Heap, t': Thread, kind: ValueKind, top: Slots)
    requires Valid(h) && Running(h, t) && KeyValid(h.classes, k, false)
    requires PutStaticResolved(h, t, k) == Ok((h', t'))
    requires KindOf(FieldAt(h.classes, k).descriptor) == Ok(kind)
    requires var slots := Current(t).stack.slots; Width(kind) <= |slots| && top == slots[|slots| - Width(kind)..]
    ensures |h'.states| == |h.states| && h'.classes == h.classes && h'.objects == h.objects
    ensures forall c :: 0 <= c < |h.states| && c != k.owner ==> h'.states[c] == h.states[c]
    ensures |h'.states[k.owner].staticVars| == |h.states[k.owner].staticVars|
    ensures forall j :: 0 <= j < |h.states[k.owner].staticVars| && !(FieldAt(h.classes, k).slotId <= j < FieldAt(h.classes, k).slotId + Width(kind)) ==>
      h'.states[k.owner].staticVars[j] == h.states[k.owner].staticVars[j]
    ensures Fits(h'.states[k.owner].staticVars, FieldAt(h.classes, k).slotId, kind)
    ensures kind != RefValue ==>
      Loaded(h'.states[k.owner].staticVars, FieldAt(h.classes, k).slotId, kind) == seq(|top|, i requires 0 <= i < |top| => IntSlot(top[i].num))
    ensures kind == RefValue ==> Loaded(h'.states[k.owner].staticVars, FieldAt(h.classes, k).slotId, kind) == [Slot(0, top[0].ref)]
  {
    StoreThenLoad(h.states[k.owner].staticVars, FieldAt(h.classes, k).slotId, kind, top);
  }

  /** PUTSTATIC changes static slots only. */
  lemma PutStaticStep(defs: Defs, h: Heap, t: Thread, k: MemberKey)
    requires Valid(h) && Running(h, t) && KeyValid(h.classes, k, false) && PutStaticResolved(h, t, k).Ok?
    ensures Step(defs, {}, h, PutStaticResolved(h, t, k).value.0)
  {
    PlainStep(defs, {}, h, PutStaticResolved(h, t, k).value.0);
  }

  /** PUTSTATIC: resolves the field reference at index and writes the field.
      `hr` is the heap resolution reached. */
  method ExecPutStatic(defs: Defs, h: Heap, t: Thread, index: nat) returns (r: Result<Thread>, h': Heap, ghost hr: Heap)
    requires Valid(h) && Running(h, t)
    ensures Step(defs, {}, h, hr) && CachesGrow(h, hr, CurrentClass(t)) && Step(defs, {}, h, h')
    ensures !(Entry(h, t, index).Ok? && Entry(h, t, index).value.FieldRef?) ==> r.Err? && h' == h && hr == h
    ensures r.Ok? ==> index in hr.states[CurrentClass(t)].fieldRefs
    ensures Entry(h, t, index).Ok? && Entry(h, t, index).value.FieldRef? && index in hr.states[CurrentClass(t)].fieldRefs ==>
      Running(hr, t) &&
      var res := PutStaticResolved(hr, t, CachedField(hr, CurrentClass(t), index));
      && (r.Ok? <==> res.Ok?)
      && (r.Ok? ==> r.value == res.value.1 && h' == res.value.0)
      && (r.Err? ==> r.error == res.error && h' == hr)
  {
    var d := CurrentClass(t);
    h' := h;
    hr := h;
    StepRefl(defs, {}, h);
    var e := Entry(h, t, index);
    if e.Err? {
      r := Err(e.error);
      return;
    }
    if !e.value.FieldRef? {
      r := Err(BadAssertion);
      return;
    }
    var res := ResolveField(defs, h, d, index);
    if res.Err? {
      r := Err(res.error);
      return;
    }
    var h1 := res.value.1;
    hr := h1;
    h' := h1;
    RunningKept(h, h1, t, index);
    var put := PutStaticResolved(h1, t, CachedField(h1, d, index));
    if put.Err? {
      r := Err(put.error);
    } else {
      h' := put.value.0;
      PutStaticStep(defs, h1, t, CachedField(h1, d, index));
      StepTrans(defs, {}, h, h1, h');
      r := Ok(put.value.1);
    }
  }

  // ---------------------------------------------------------------------------
  // INSTANCEOF, CHECKCAST

  /** The class of the object at the reference on top, which is not null. */
  function TopClass(h: Heap, f: Frame): ClassId
    requires |f.stack.slots| > 0 && TopRef(f).Addr? && TopRef(f).address < |h.objects|
  {
    h.objects[TopRef(f).address].classId
  }

  /** INSTANCEOF: pops a reference and pushes 1 if it is an instance of the
      class at index and 0 if not; null is an instance of nothing, and is
      answered before the class is resolved. `hr` is the heap resolution
      reached. */
  method ExecInstanceOf(defs: Defs, h: Heap, t: Thread, index: nat) returns (r: Result<Thread>, h': Heap, ghost hr: Heap)
    requires Valid(h) && Running(h, t)
    ensures Step(defs, {}, h, hr) && Step(defs, {}, h, h')
    ensures |Current(t).stack.slots| == 0 ==> r == Err(OutOfRange) && h' == h
    ensures |Current(t).stack.slots| > 0 && TopRef(Current(t)).Null? ==>
      h' == h && (StackFits(Current(t).stack) ==> r.Ok?) && (r.Ok? ==> Replaced(t, r.value, 1, [IntSlot(0)]))
    ensures |Current(t).stack.slots| > 0 && TopRef(Current(t)).Addr? && !(Entry(h, t, index).Ok? && Entry(h, t, index).value.ClassRef?) ==>
      r.Err? && h' == h
    ensures r.Ok? && TopRef(Current(t)).Addr? ==>
      && index in hr.states[CurrentClass(t)].classRefs && TopRef(Current(t)).address < |h'.objects|
      && var c := CachedClass(hr, CurrentClass(t), index);
         var s := TopClass(h', Current(t));
         && c < |h'.classes|
         && (Replaced(t, r.value, 1, [IntSlot(0)]) || Replaced(t, r.value, 1, [IntSlot(1)]))
         && (Consistent(defs) || !IsArray(h'.classes[s]) ==>
               AssignableIn(h', s, c).Some?
               && Replaced(t, r.value, 1, [IntSlot(if AssignableIn(h', s, c).value then 1 else 0)]))
  {
    var d := CurrentClass(t);
    var f := Current(t);
    h' := h;
    hr := h;
    StepRefl(defs, {}, h);
    var p :- PopRef(f.stack);
    assert p.1.slots == f.stack.slots[..|f.stack.slots| - 1] && p.0 == TopRef(f);
    if p.0.Null? {
      var s :- PushInt(p.1, 0);
      r := Ok(WithFrame(t, f.(stack := s)));
      return;
    }
    var e := Entry(h, t, index);
    if e.Err? {
      r := Err(e.error);
      return;
    }
    if !e.value.ClassRef? {
      r := Err(BadAssertion);
      return;
    }
    var res := ResolveClass(defs, h, d, index);
    if res.Err? {
      r := Err(res.error);
      return;
    }
    var (c, h1) := res.value;
    hr := h1;
    r, h' := InstanceOfTest(defs, h1, t, c);
    StepTrans(defs, {}, h, h1, h');
  }

  /** INSTANCEOF once the class c is resolved, for a reference on top that is
      not null: 1 replaces it when its object is an instance of c, 0 when not. */
  method InstanceOfTest(defs: Defs, h: Heap, t: Thread, c: ClassId) returns (r: Result<Thread>, h': Heap)
    requires Valid(h) && !IsStackEmpty(t) && c < |h.classes|
    requires |Current(t).stack.slots| > 0 && TopRef(Current(t)).Addr?
    ensures Step(defs, {}, h, h')
    ensures TopRef(Current(t)).address >= |h.objects| ==> r == Err(OutOfRange) && h' == h
    ensures r.Ok? ==> TopRef(Current(t)).address < |h'.objects|
    ensures r.Ok? ==> Replaced(t, r.value, 1, [IntSlot(0)]) || Replaced(t, r.value, 1, [IntSlot(1)])
    ensures r.Ok? && (Consistent(defs) || !IsArray(h'.classes[TopClass(h', Current(t))])) ==>
      var s := TopClass(h', Current(t));
      AssignableIn(h', s, c).Some? && Replaced(t, r.value, 1, [IntSlot(if AssignableIn(h', s, c).value then 1 else 0)])
  {
    var f := Current(t);
    h' := h;
    StepRefl(defs, {}, h);
    var p := PopRef(f.stack).value;
    assert p.1.slots == f.stack.slots[..|f.stack.slots| - 1] && p.0 == TopRef(f);
    var o := Deref(h, p.0);
    if o.Err? {
      r := Err(o.error);
      return;
    }
    var test := IsInstanceOf(defs, h, p.0.address, c);
    if test.Err? {
      r := Err(test.error);
      return;
    }
    h' := test.value.1;
    var s :- PushInt(p.1, if test.value.0 then 1 else 0);
    r := Ok(WithFrame(t, f.(stack := s)));
  }

  /** CHECKCAST: the reference on top stays where it is; null passes, and any
      other reference passes exactly when its object is an instance of the
      class at index. `tested` says the test was reached and `hr` is the
      heap resolution reached. */
  method ExecCheckCast(defs: Defs, h: Heap, t: Thread, index: nat) returns (r: Result<Thread>, h': Heap, ghost hr: Heap, ghost tested: bool)
    requires Valid(h) && Running(h, t)
    ensures Step(defs, {}, h, hr) && Step(defs, {}, h, h')
    ensures |Current(t).stack.slots| == 0 ==> r == Err(OutOfRange) && h' == h
    ensures r.Ok? ==> r.value == t
    ensures |Current(t).stack.slots| > 0 && TopRef(Current(t)).Null? && StackFits(Current(t).stack) ==> r == Ok(t) && h' == h
    ensures |Current(t).stack.slots| > 0 && TopRef(Current(t)).Addr? && !(Entry(h, t, index).Ok? && Entry(h, t, index).value.ClassRef?) ==>
      r.Err? && h' == h
    ensures tested || (r.Ok? && TopRef(Current(t)).Addr?) ==>
      && |Current(t).stack.slots| > 0 && TopRef(Current(t)).Addr?
      && index in hr.states[CurrentClass(t)].classRefs && TopRef(Current(t)).address < |h'.objects|
      && var c := CachedClass(hr, CurrentClass(t), index);
         var s := TopClass(h', Current(t));
         && c < |h'.classes| && (r.Ok? || r == Err(Panic(ClassCast)))
         && (Consistent(defs) || !IsArray(h'.classes[s]) ==>
               && AssignableIn(h', s, c).Some?
               && (r.Ok? ==> AssignableIn(h', s, c).value)
               && (!AssignableIn(h', s, c).value ==> r == Err(Panic(ClassCast))))
    ensures tested && StackFits(Current(t).stack) && (Consistent(defs) || !IsArray(h'.classes[TopClass(h', Current(t))])) ==>
      (r.Ok? <==> AssignableIn(h', TopClass(h', Current(t)), CachedClass(hr, CurrentClass(t), index)).value)
  {
    var d := CurrentClass(t);
    var f := Current(t);
    h' := h;
    hr := h;
    tested := false;
    StepRefl(defs, {}, h);
    var p :- PopSlot(f.stack);
    var s :- PushSlot(p.1, p.0);
    assert s == f.stack;
    if p.0.ref.Null? {
      r := Ok(t);
      return;
    }
    var e := Entry(h, t, index);
    if e.Err? {
      r := Err(e.error);
      return;
    }
    if !e.value.ClassRef? {
      r := Err(BadAssertion);
      return;
    }
    var res := ResolveClass(defs, h, d, index);
    if res.Err? {
      r := Err(res.error);
      return;
    }
    var (c, h1) := res.value;
    hr := h1;
    var o := Deref(h1, p.0.ref);
    if o.Err? {
      r := Err(o.error);
      return;
    }
    var test := IsInstanceOf(defs, h1, p.0.ref.address, c);
    if test.Err? {
      r := Err(test.error);
      return;
    }
    h' := test.value.1;
    tested := true;
    StepTrans(defs, {}, h, h1, h');
    if !test.value.0 {
      r := Err(Panic(ClassCast));
      return;
    }
    r := Ok(t);
  }

  // ---------------------------------------------------------------------------
  // Class initialisation from an instruction

  /** The path NEW and INVOKESTATIC take when the class's initialisation has
      not started: the next pc goes back to this instruction, so that it runs
      again once the `<clinit>` frames pushed on top of it have returned, and
      `InitClass` starts the class and its superclasses. */
  function InitFirst(h: Heap, t: Thread, c: ClassId): (r: (Result<Thread>, Heap))
    requires Valid(h) && c < |h.classes| && !IsStackEmpty(t) && Bounded(t)
    ensures Valid(r.1)
    ensures r.0.Ok? <==> |t.stack.frames| + |ClinitFrames(h.classes, InitChain(h, c))| <= t.stack.maxSize
    ensures r.0.Err? ==> r == (Err(Panic(StackOverflow)), h)
    ensures r.0.Ok? ==> Started(h, r.1, InitChain(h, c))
    ensures r.0.Ok? ==> r.0.value.pc == t.pc && r.0.value.stack.maxSize == t.stack.maxSize
    ensures r.0.Ok? ==>
      r.0.value.stack.frames == t.stack.frames[..|t.stack.frames| - 1] + [Current(t).(nextPC := t.pc)] + ClinitFrames(h.classes, InitChain(h, c))
  {
    var t1 := WithFrame(t, RevertNextPC(Current(t), t.pc));
    InitClassSpec(h, t1, c);
    match InitClass(h, t1, c)
    case Ok((h', t')) => (Ok(t'), h')
    case Err(e) => (Err(e), h)
  }

  /** The class of the instruction is started once the path succeeds. */
  lemma InitFirstStarts(h: Heap, t: Thread, c: ClassId)
    requires Valid(h) && c < |h.classes| && !IsStackEmpty(t) && Bounded(t) && InitFirst(h, t, c).0.Ok?
    ensures InitFirst(h, t, c).1.states[c].initStarted
    ensures InitFirst(h, t, c).1.classes == h.classes
  {
    assert InitChain(h, c)[0] == c;
  }

  // ---------------------------------------------------------------------------
  // NEW

  /** NEW once the class is resolved: initialisation first, then the refusal
      of interfaces and abstract classes, then a fresh object with zeroed
      fields pushed. */
  function NewResolved(h: Heap, t: Thread, c: ClassId): (r: (Result<Thread>, Heap))
    requires Valid(h) && c < |h.classes| && !IsStackEmpty(t) && Bounded(t)
    ensures !h.states[c].initStarted ==> r == InitFirst(h, t, c)
    ensures h.states[c].initStarted && (IsInterface(h.classes[c].accessFlags) || IsAbstract(h.classes[c].accessFlags)) ==>
      r == (Err(Panic(Instantiation)), h)
    ensures h.states[c].initStarted && !IsInterface(h.classes[c].accessFlags) && !IsAbstract(h.classes[c].accessFlags) ==>
      && r.1 == NewObject(h, c).1
      && r.1.objects[|h.objects|] == Object(c, FieldSlots(NewSlots(h.classes[c].instanceSlotCount)), NoExtra)
      && (r.0.Ok? <==> |Current(t).stack.slots| < Current(t).stack.maxStack)
      && (r.0.Ok? ==> Replaced(t, r.0.value, 0, [Slot(0, Addr(|h.objects|))]))
  {
    if !h.states[c].initStarted then InitFirst(h, t, c)
    else if IsInterface(h.classes[c].accessFlags) || IsAbstract(h.classes[c].accessFlags) then (Err(Panic(Instantiation)), h)
    else
      var (ref, h') := NewObject(h, c);
      match PushRef(Current(t).stack, ref)
      case Ok(s) => (Ok(WithFrame(t, Current(t).(stack := s))), h')
      case Err(e) => (Err(e), h')
  }

  /** A NEW that started the initialisation of its class allocates when it
      runs again: the class is then started, so the initialisation is not
      repeated. */
  lemma NewAfterInit(h: Heap, t: Thread, c: ClassId)
    requires Valid(h) && c < |h.classes| && !IsStackEmpty(t) && Bounded(t)
    requires !h.states[c].initStarted && NewResolved(h, t, c).0.Ok?
    ensures var h1 := NewResolved(h, t, c).1;
      && Valid(h1) && c < |h1.classes| && h1.states[c].initStarted && h1.classes == h.classes
      && (IsInterface(h.classes[c].accessFlags) || IsAbstract(h.classes[c].accessFlags) ==> NewResolved(h1, t, c) == (Err(Panic(Instantiation)), h1))
      && (!IsInterface(h.classes[c].accessFlags) && !IsAbstract(h.classes[c].accessFlags) ==> NewResolved(h1, t, c).1 == NewObject(h1, c).1)
  {
    InitFirstStarts(h, t, c);
  }

  /** Starting classes is a step of the heap. */
  lemma InitFirstStep(defs: Defs, h: Heap, t: Thread, c: ClassId)
    requires Valid(h) && c < |h.classes| && !IsStackEmpty(t) && Bounded(t)
    ensures Step(defs, {}, h, InitFirst(h, t, c).1)
  {
    var h' := InitFirst(h, t, c).1;
    if InitFirst(h, t, c).0.Ok? {
      assert forall j :: 0 <= j < |h.states| ==> h'.states[j].jClass == h.states[j].jClass by {
        assert Started(h, h', InitChain(h, c));
      }
      PlainStep(defs, {}, h, h');
    } else {
      StepRefl(defs, {}, h);
    }
  }

  /** NEW changes the heap by starting classes or allocating only. */
  lemma NewStep(defs: Defs, h: Heap, t: Thread, c: ClassId)
    requires Valid(h) && c < |h.classes| && !IsStackEmpty(t) && Bounded(t)
    ensures Step(defs, {}, h, NewResolved(h, t, c).1)
  {
    if !h.states[c].initStarted {
      InitFirstStep(defs, h, t, c);
    } else {
      PlainStep(defs, {}, h, NewResolved(h, t, c).1);
    }
  }

  /** NEW: resolves the class reference at index and creates an object of it.
      `hr` is the heap resolution reached. */
  method ExecNew(defs: Defs, h: Heap, t: Thread, index: nat) returns (r: Result<Thread>, h': Heap, ghost hr: Heap)
    requires Valid(h) && Running(h, t)
    ensures Step(defs, {}, h, hr) && CachesGrow(h, hr, CurrentClass(t)) && Step(defs, {}, h, h')
    ensures !(Entry(h, t, index).Ok? && Entry(h, t, index).value.ClassRef?) ==> r.Err? && h' == h && hr == h
    ensures r.Ok? ==> index in hr.states[CurrentClass(t)].classRefs
    ensures Entry(h, t, index).Ok? && Entry(h, t, index).value.ClassRef? && index in hr.states[CurrentClass(t)].classRefs ==>
      Valid(hr) && (r, h') == NewResolved(hr, t, CachedClass(hr, CurrentClass(t), index))
  {
    var d := CurrentClass(t);
    h' := h;
    hr := h;
    StepRefl(defs, {}, h);
    var e := Entry(h, t, index);
    if e.Err? {
      r := Err(e.error);
      return;
    }
    if !e.value.ClassRef? {
      r := Err(BadAssertion);
      return;
    }
    var res := ResolveClass(defs, h, d, index);
    if res.Err? {
      r := Err(res.error);
      return;
    }
    var (c, h1) := res.value;
    hr := h1;
    RunningKept(h, h1, t, index);
    var out := NewResolved(h1, t, c);
    r, h' := out.0, out.1;
    NewStep(defs, h1, t, c);
    StepTrans(defs, {}, h, h1, h');
  }

  // ---------------------------------------------------------------------------
  // INVOKESTATIC

  /** INVOKESTATIC once the method is resolved: a static method only, its
      class initialised first, then the call. */
  function InvokeStaticResolved(h: Heap, t: Thread, k: MemberKey): (r: (Result<Thread>, Heap))
    requires Valid(h) && KeyValid(h.classes, k, true) && !IsStackEmpty(t) && Bounded(t)
    ensures !IsStatic(MethodFlags(h.classes, k)) ==> r == (Err(Panic(IncompatibleClassChange)), h)
    ensures IsStatic(MethodFlags(h.classes, k)) && !h.states[k.owner].initStarted ==> r == InitFirst(h, t, k.owner)
    ensures IsStatic(MethodFlags(h.classes, k)) && h.states[k.owner].initStarted ==>
      && r.1 == h
      && (r.0.Ok? <==> ArgsFit(t, MethodAt(h.classes, k)))
      && (r.0.Ok? ==> Invoked(t, k, MethodAt(h.classes, k), r.0.value))
  {
    if !IsStatic(MethodFlags(h.classes, k)) then (Err(Panic(IncompatibleClassChange)), h)
    else if !h.states[k.owner].initStarted then InitFirst(h, t, k.owner)
    else (Invocation(t, k, MethodAt(h.classes, k)), h)
  }

  /** INVOKESTATIC: resolves the method reference at index and calls the
      method. `hr` is the heap resolution reached. */
  method ExecInvokeStatic(defs: Defs, h: Heap, t: Thread, index: nat) returns (r: Result<Thread>, h': Heap, ghost hr: Heap)
    requires Valid(h) && Running(h, t)
    ensures Step(defs, {}, h, hr) && CachesGrow(h, hr, CurrentClass(t)) && Step(defs, {}, h, h')
    ensures !(Entry(h, t, index).Ok? && Entry(h, t, index).value.MethodRef?) ==> r.Err? && h' == h && hr == h
    ensures r.Ok? ==> index in hr.states[CurrentClass(t)].methodRefs
    ensures Entry(h, t, index).Ok? && Entry(h, t, index).value.MethodRef? && index in hr.states[CurrentClass(t)].methodRefs ==>
      Valid(hr) && (r, h') == InvokeStaticResolved(hr, t, CachedMethod(hr, CurrentClass(t), index))
  {
    var d := CurrentClass(t);
    h' := h;
    hr := h;
    StepRefl(defs, {}, h);
    var e := Entry(h, t, index);
    if e.Err? {
      r := Err(e.error);
      return;
    }
    if !e.value.MethodRef? {
      r := Err(BadAssertion);
      return;
    }
    var res := ResolveMethod(defs, h, d, index);
    if res.Err? {
      r := Err(res.error);
      return;
    }
    var (k, h1) := res.value;
    hr := h1;
    h' := h1;
    RunningKept(h, h1, t, index);
    var m := MethodAt(h1.classes, k);
    if !IsStatic(m.accessFlags) {
      r := Err(Panic(IncompatibleClassChange));
      return;
    }
    if !h1.states[k.owner].initStarted {
      var out := InitFirst(h1, t, k.owner);
      r, h' := out.0, out.1;
      InitFirstStep(defs, h1, t, k.owner);
      StepTrans(defs, {}, h, h1, h');
      return;
    }
    r := InvokeMethod(t, k, m);
  }

  // ---------------------------------------------------------------------------
  // ANEWARRAY

  /** The array of a class that is not a primitive type is an array of
      references, and a new one holds count nulls. */
  lemma ReferenceArrayOf(name: string, count: nat)
    requires |name| > 0 && PrimitiveDescriptor(name).None?
    ensures ArrayData(ArrayClassName(name).value, count) == RefArray(seq(count, _ => Null))
  {
    var a := ArrayClassName(name).value;
    assert |a| >= 2 && a[0] == '[' && a[1] in {'[', 'L'} by {
      if IsArrayName(name) {
        assert a[1..] == name;
      } else {
        assert a[1..] == "L" + name + ";";
      }
    }
    assert a !in {"[Z", "[B", "[C", "[S", "[I", "[J", "[F", "[D"};
  }

  /** The thread t' and heap h' after a new array of the array class of comp,
      with as many elements as the int on top of t says, has been made from
      heap h and pushed in place of that int. */
  predicate NewArrayPushed(h: Heap, h': Heap, t: Thread, comp: ClassId, t': Thread)
    requires !IsStackEmpty(t)
  {
    // bound to a name so that it is proved as one fact
    var ok :=
      && |Current(t).stack.slots| > 0 && IntFromTop(Current(t).stack, 0) >= 0
      && |h.objects| < |h'.objects|
      && var a := |h'.objects| - 1;
         var o := h'.objects[a];
         && comp < |h.classes| <= |h'.classes| && o.classId < |h'.classes| && o.extra == NoExtra
         && h'.classes[comp] == h.classes[comp]
         && Ok(h'.classes[o.classId].name) == ArrayClassName(h.classes[comp].name)
         && o.data == ArrayData(h'.classes[o.classId].name, IntFromTop(Current(t).stack, 0) as nat)
         && Replaced(t, t', 1, [Slot(0, Addr(a))]);
    ok
  }

  /** ANEWARRAY once the component class comp is resolved. */
  method ANewArrayResolved(defs: Defs, h: Heap, t: Thread, comp: ClassId) returns (r: Result<Thread>, h': Heap)
    requires Valid(h) && comp < |h.classes| && !IsStackEmpty(t)
    ensures Step(defs, {}, h, h')
    ensures |Current(t).stack.slots| == 0 ==> r == Err(OutOfRange) && h' == h
    ensures |Current(t).stack.slots| > 0 && IntFromTop(Current(t).stack, 0) < 0 ==> r == Err(Panic(NegativeArraySize)) && h' == h
    ensures r.Ok? ==> NewArrayPushed(h, h', t, comp, r.value)
  {
    var f := Current(t);
    h' := h;
    StepRefl(defs, {}, h);
    var p :- PopInt(f.stack);
    assert p.1.slots == f.stack.slots[..|f.stack.slots| - 1] && p.0 == IntFromTop(f.stack, 0);
    if p.0 < 0 {
      r := Err(Panic(NegativeArraySize));
      return;
    }
    var arrClass := ArrayClassOf(defs, h, comp);
    if arrClass.Err? {
      r := Err(arrClass.error);
      return;
    }
    var (ac, h2) := arrClass.value;
    assert IsArray(h2.classes[ac]);
    var (ref, h3) := NewArray(h2, ac, p.0 as nat).value;
    h' := h3;
    PlainStep(defs, {}, h2, h3);
    StepTrans(defs, {}, h, h2, h3);
    var s :- PushRef(p.1, ref);
    r := Ok(WithFrame(t, f.(stack := s)));
  }

  /** ANEWARRAY: resolves the component class at index, pops the count and
      pushes a new array of the component's array class. `hr` is the heap
      resolution reached. */
  method ExecANewArray(defs: Defs, h: Heap, t: Thread, index: nat) returns (r: Result<Thread>, h': Heap, ghost hr: Heap)
    requires Valid(h) && Running(h, t)
    ensures Step(defs, {}, h, hr) && CachesGrow(h, hr, CurrentClass(t)) && Step(defs, {}, h, h')
    ensures !(Entry(h, t, index).Ok? && Entry(h, t, index).value.ClassRef?) ==> r.Err? && h' == h && hr == h
    ensures r.Ok? ==> index in hr.states[CurrentClass(t)].classRefs
    ensures Entry(h, t, index).Ok? && Entry(h, t, index).value.ClassRef? && index in hr.states[CurrentClass(t)].classRefs ==>
      && (|Current(t).stack.slots| == 0 ==> r == Err(OutOfRange) && h' == hr)
      && (|Current(t).stack.slots| > 0 && IntFromTop(Current(t).stack, 0) < 0 ==> r == Err(Panic(NegativeArraySize)) && h' == hr)
      && (r.Ok? ==> Valid(hr) && NewArrayPushed(hr, h', t, CachedClass(hr, CurrentClass(t), index), r.value))
  {
    var d := CurrentClass(t);
    h' := h;
    hr := h;
    StepRefl(defs, {}, h);
    var e := Entry(h, t, index);
    if e.Err? {
      r := Err(e.error);
      return;
    }
    if !e.value.ClassRef? {
      r := Err(BadAssertion);
      return;
    }
    var res := ResolveClass(defs, h, d, index);
    if res.Err? {
      r := Err(res.error);
      return;
    }
    var (c, h1) := res.value;
    hr := h1;
    r, h' := ANewArrayResolved(defs, h1, t, c);
    StepTrans(defs, {}, h, h1, h');
  }

  /** The array ANEWARRAY pushes for a class or array component holds count
      nulls, count being the int it popped. */
  lemma ANewArrayNulls(h: Heap, h': Heap, t: Thread, comp: ClassId, t': Thread)
    requires !IsStackEmpty(t) && NewArrayPushed(h, h', t, comp, t')
    requires |h.classes[comp].name| > 0 && PrimitiveDescriptor(h.classes[comp].name).None?
    ensures h'.objects[|h'.objects| - 1].data == RefArray(seq(IntFromTop(Current(t).stack, 0) as nat, _ => Null))
  {
    ReferenceArrayOf(h.classes[comp].name, IntFromTop(Current(t).stack, 0) as nat);
  }

  // ---------------------------------------------------------------------------
  // Receivers

  /** `GetRefFromTop(ArgSlotCount() - 1)`: the receiver, below the other
      arguments. A method without argument slots has no receiver: the
      unsigned count wraps around in Go and the slot index is out of range. */
  function Receiver(f: Frame, m: Method): (r: Result<Ref>)
    ensures r.Ok? <==> 0 < m.argSlotCount <= |f.stack.slots|
    ensures r.Ok? ==> r.value == SlotFromTop(f.stack, m.argSlotCount - 1).ref
    ensures r.Err? ==> r == Err(OutOfRange)
  {
    if m.argSlotCount == 0 then Err(OutOfRange) else GetRefFromTop(f.stack, m.argSlotCount - 1)
  }

  /** The message INVOKESPECIAL panics with for a null receiver, spelled as
      the Go code spells it. */
  const NullPointersMessage := "java.lang.NullPointersException"

  // ---------------------------------------------------------------------------
  // INVOKESPECIAL

  /** The protected-access rule of INVOKESPECIAL: a protected method of a
      superclass in another package may be called on an object of the current
      class or of one of its subclasses only. */
  predicate ProtectedDenied(cs: seq<Class>, cur: ClassId, k: MemberKey, objClass: ClassId)
    requires Linked(cs) && cur < |cs| && KeyValid(cs, k, true) && objClass < |cs|
  {
    && IsProtected(MethodFlags(cs, k))
    && IsSuperClassOf(cs, k.owner, cur)
    && PackageName(cs[k.owner].name) != PackageName(cs[cur].name)
    && objClass != cur
    && !IsSubClassOf(cs, objClass, cur)
  }

  /** Whether INVOKESPECIAL looks the method up again: the current class has
      ACC_SUPER set, the resolved class c is one of its superclasses, and the
      method is not a constructor. */
  predicate SuperCall(cs: seq<Class>, cur: ClassId, c: ClassId, k: MemberKey)
    requires Linked(cs) && cur < |cs| && KeyValid(cs, k, true)
  {
    IsSuper(cs[cur].accessFlags) && IsSuperClassOf(cs, c, cur) && MethodAt(cs, k).name != "<init>"
  }

  /** The method INVOKESPECIAL calls: for a super call, the method with the
      reference's name and descriptor on the superclass chain of the current
      class's superclass; otherwise the resolved method. */
  function SpecialTarget(cs: seq<Class>, cur: ClassId, c: ClassId, k: MemberKey, name: string, descriptor: string): (r: Option<MemberKey>)
    requires Linked(cs) && cur < |cs| && KeyValid(cs, k, true)
    ensures r.Some? ==> KeyValid(cs, r.value, true)
    ensures !SuperCall(cs, cur, c, k) ==> r == Some(k)
  {
    if !SuperCall(cs, cur, c, k) then Some(k)
    else
      assert ClassLinked(cs[cur], cur);
      match cs[cur].superClass
      case None => None
      case Some(s) => GetMethod(cs, s, name, descriptor, None)
  }

  /** A super call finds a method exactly when a class on the superclass
      chain of the current class's superclass declares one with the
      reference's name and descriptor; the one found is the first such
      declaration up the chain. */
  lemma SuperCallTarget(cs: seq<Class>, cur: ClassId, c: ClassId, k: MemberKey, name: string, descriptor: string)
    requires Linked(cs) && cur < |cs| && KeyValid(cs, k, true) && SuperCall(cs, cur, c, k)
    ensures cs[cur].superClass.Some? && cs[cur].superClass.value < cur
    ensures SpecialTarget(cs, cur, c, k, name, descriptor).Some? <==> ChainDeclares(cs, cs[cur].superClass.value, name, descriptor)
    ensures SpecialTarget(cs, cur, c, k, name, descriptor) == GetMethod(cs, cs[cur].superClass.value, name, descriptor, None)
  {
    assert ClassLinked(cs[cur], cur);
    ChainMatch(cs, cs[cur].superClass.value, name, descriptor);
  }

  /** Every check of INVOKESPECIAL passes: the constructor belongs to the
      resolved class, the method is not static, the receiver is an object,
      the protected rule allows the call and the method to call is there and
      not abstract. */
  predicate SpecialAllowed(h: Heap, t: Thread, c: ClassId, k: MemberKey, name: string, descriptor: string)
    requires Valid(h) && Running(h, t) && KeyValid(h.classes, k, true)
  {
    var m := MethodAt(h.classes, k);
    var recv := Receiver(Current(t), m);
    && !(m.name == "<init>" && k.owner != c) && !IsStatic(m.accessFlags)
    && recv.Ok? && recv.value.Addr? && recv.value.address < |h.objects|
    && !ProtectedDenied(h.classes, CurrentClass(t), k, h.objects[recv.value.address].classId)
    && var target := SpecialTarget(h.classes, CurrentClass(t), c, k, name, descriptor);
       target.Some? && !IsAbstract(MethodFlags(h.classes, target.value))
  }

  /** INVOKESPECIAL once the class c and the method k of the reference, with
      the reference's name and descriptor, are resolved. */
  function InvokeSpecialResolved(h: Heap, t: Thread, c: ClassId, k: MemberKey, name: string, descriptor: string): (r: Result<Thread>)
    requires Valid(h) && Running(h, t) && KeyValid(h.classes, k, true)
    ensures MethodAt(h.classes, k).name == "<init>" && k.owner != c ==> r == Err(Panic(NoSuchMethod))
    ensures !(MethodAt(h.classes, k).name == "<init>" && k.owner != c) && IsStatic(MethodFlags(h.classes, k)) ==>
      r == Err(Panic(IncompatibleClassChange))
    ensures !(MethodAt(h.classes, k).name == "<init>" && k.owner != c) && !IsStatic(MethodFlags(h.classes, k)) ==>
      var recv := Receiver(Current(t), MethodAt(h.classes, k));
      && (recv.Err? ==> r == Err(OutOfRange))
      && (recv.Ok? && recv.value.Null? ==> r == Err(Panic(NullPointersMessage)))
      && ((recv.Ok? && recv.value.Addr? && recv.value.address < |h.objects|
           && ProtectedDenied(h.classes, CurrentClass(t), k, h.objects[recv.value.address].classId))
          ==> r == Err(Panic(IllegalAccess)))
      && ((recv.Ok? && recv.value.Addr? && recv.value.address < |h.objects|
           && !ProtectedDenied(h.classes, CurrentClass(t), k, h.objects[recv.value.address].classId)
           && var target := SpecialTarget(h.classes, CurrentClass(t), c, k, name, descriptor);
              target.None? || IsAbstract(MethodFlags(h.classes, target.value)))
          ==> r == Err(Panic(AbstractMethod)))
    ensures SpecialAllowed(h, t, c, k, name, descriptor) ==>
      var target := SpecialTarget(h.classes, CurrentClass(t), c, k, name, descriptor).value;
      r == Invocation(t, target, MethodAt(h.classes, target))
    ensures r.Ok? ==> SpecialAllowed(h, t, c, k, name, descriptor)
  {
    var m := MethodAt(h.classes, k);
    var cur := CurrentClass(t);
    if m.name == "<init>" && k.owner != c then Err(Panic(NoSuchMethod))
    else if IsStatic(m.accessFlags) then Err(Panic(IncompatibleClassChange))
    else
      var ref :- Receiver(Current(t), m);
      if ref.Null? then Err(Panic(NullPointersMessage))
      else
        var o :- Deref(h, ref);
        if ProtectedDenied(h.classes, cur, k, o.classId) then Err(Panic(IllegalAccess))
        else
          var target := SpecialTarget(h.classes, cur, c, k, name, descriptor);
          if target.None? || IsAbstract(MethodFlags(h.classes, target.value)) then Err(Panic(AbstractMethod))
          else Invocation(t, target.value, MethodAt(h.classes, target.value))
  }

  /** INVOKESPECIAL: resolves the class and then the method of the method
      reference at index, and calls the method the checks select. The heap is
      changed by resolution only. */
  method ExecInvokeSpecial(defs: Defs, h: Heap, t: Thread, index: nat) returns (r: Result<Thread>, h': Heap)
    requires Valid(h) && Running(h, t)
    ensures Step(defs, {}, h, h') && CachesGrow(h, h', CurrentClass(t))
    ensures !(Entry(h, t, index).Ok? && Entry(h, t, index).value.MethodRef?) ==> r.Err? && h' == h
    ensures r.Ok? ==> index in h'.states[CurrentClass(t)].classRefs && index in h'.states[CurrentClass(t)].methodRefs
    ensures Entry(h, t, index).Ok? && Entry(h, t, index).value.MethodRef? &&
            index in h'.states[CurrentClass(t)].classRefs && index in h'.states[CurrentClass(t)].methodRefs ==>
      Running(h', t) &&
      r == InvokeSpecialResolved(h', t, CachedClass(h', CurrentClass(t), index), CachedMethod(h', CurrentClass(t), index),
                                 Entry(h, t, index).value.name, Entry(h, t, index).value.descriptor)
  {
    var d := CurrentClass(t);
    h' := h;
    StepRefl(defs, {}, h);
    var e := Entry(h, t, index);
    if e.Err? {
      r := Err(e.error);
      return;
    }
    if !e.value.MethodRef? {
      r := Err(BadAssertion);
      return;
    }
    var rc := ResolveClass(defs, h, d, index);
    if rc.Err? {
      r := Err(rc.error);
      return;
    }
    var (c, h1) := rc.value;
    RunningKept(h, h1, t, index);
    var rm := ResolveMethod(defs, h1, d, index);
    if rm.Err? {
      r := Err(rm.error);
      h' := h1;
      return;
    }
    var (k, h2) := rm.value;
    h' := h2;
    StepTrans(defs, {}, h, h1, h2);
    CachesGrowTrans(h, h1, h2, d);
    RunningKept(h1, h2, t, index);
    var name, descriptor := e.value.name, e.value.descriptor;
    if SpecialAllowed(h2, t, c, k, name, descriptor) {
      var target := SpecialTarget(h2.classes, d, c, k, name, descriptor).value;
      r := InvokeMethod(t, target, MethodAt(h2.classes, target));
    } else {
      r := InvokeSpecialResolved(h2, t, c, k, name, descriptor);
    }
  }

  // ---------------------------------------------------------------------------
  // INVOKEINTERFACE

  /** `INVOKE_INTERFACE.FetchOperands`: a two-byte pool index, then the count
      and zero bytes, which are read and dropped. */
  function FetchInvokeInterface(r: Reader): (res: Result<(nat, Reader)>)
    ensures res.Ok? <==> Available(r, 4)
    ensures res.Ok? ==> res.value.0 < TWO_16 && Ahead(r, 2) == ClassReader.Bytes(res.value.0, 2)
    ensures res.Ok? ==> res.value.1 == r.(pc := r.pc + 4)
  {
    var i :- FetchIndex16(r);
    var count :- ReadUint8(i.1);
    var zero :- ReadUint8(count.1);
    Ok((i.0, zero.1))
  }

  /** The checks INVOKEINTERFACE makes before it resolves the interface: the
      method is neither static nor private, and the receiver is not null. */
  function InterfaceReceiver(f: Frame, m: Method): (r: Result<Ref>)
    ensures IsStatic(m.accessFlags) || IsPrivate(m.accessFlags) ==> r == Err(Panic(IncompatibleClassChange))
    ensures !IsStatic(m.accessFlags) && !IsPrivate(m.accessFlags) ==>
      && (Receiver(f, m).Err? ==> r == Err(OutOfRange))
      && (Receiver(f, m).Ok? && Receiver(f, m).value.Null? ==> r == Err(Panic(NullPointer)))
      && (Receiver(f, m).Ok? && Receiver(f, m).value.Addr? ==> r == Receiver(f, m))
    ensures r.Ok? ==> r.value.Addr?
  {
    if IsStatic(m.accessFlags) || IsPrivate(m.accessFlags) then Err(Panic(IncompatibleClassChange))
    else
      var ref :- Receiver(f, m);
      if ref.Null? then Err(Panic(NullPointer)) else Ok(ref)
  }

  /** `LookupMethodInClass` on the receiver's class: the first method with the
      name and descriptor up its superclass chain, found exactly when the
      chain declares one. */
  function VirtualTarget(cs: seq<Class>, c: ClassId, name: string, descriptor: string): (r: Option<MemberKey>)
    requires Linked(cs) && c < |cs|
    ensures r.Some? ==> KeyValid(cs, r.value, true)
    ensures r.Some? <==> ChainDeclares(cs, c, name, descriptor)
  {
    ChainMatch(cs, c, name, descriptor);
    GetMethod(cs, c, name, descriptor, None)
  }

  /** INVOKEINTERFACE once the receiver ref and the interface iface are known:
      the receiver's class must implement the interface, and the method found
      from that class must be concrete and public. */
  function InterfaceDispatch(h: Heap, t: Thread, ref: Ref, iface: ClassId, name: string, descriptor: string): (r: Result<Thread>)
    requires Valid(h) && !IsStackEmpty(t)
    ensures Deref(h, ref).Err? ==> r == Err(Deref(h, ref).error)
    ensures Deref(h, ref).Ok? && !IsImplements(h.classes, Deref(h, ref).value.classId, iface) ==>
      r == Err(Panic(IncompatibleClassChange))
    ensures Deref(h, ref).Ok? && IsImplements(h.classes, Deref(h, ref).value.classId, iface) ==>
      var target := VirtualTarget(h.classes, Deref(h, ref).value.classId, name, descriptor);
      && (target.None? || IsAbstract(MethodFlags(h.classes, target.value)) ==> r == Err(Panic(AbstractMethod)))
      && (target.Some? && !IsAbstract(MethodFlags(h.classes, target.value)) && !IsPublic(MethodFlags(h.classes, target.value)) ==>
            r == Err(Panic(IllegalAccess)))
      && (target.Some? && !IsAbstract(MethodFlags(h.classes, target.value)) && IsPublic(MethodFlags(h.classes, target.value)) ==>
            r == Invocation(t, target.value, MethodAt(h.classes, target.value)))
  {
    var o :- Deref(h, ref);
    if !IsImplements(h.classes, o.classId, iface) then Err(Panic(IncompatibleClassChange))
    else
      var target := VirtualTarget(h.classes, o.classId, name, descriptor);
      if target.None? || IsAbstract(MethodFlags(h.classes, target.value)) then Err(Panic(AbstractMethod))
      else if !IsPublic(MethodFlags(h.classes, target.value)) then Err(Panic(IllegalAccess))
      else Invocation(t, target.value, MethodAt(h.classes, target.value))
  }

  /** INVOKEINTERFACE: resolves the interface method reference at index, checks
      it and the receiver, resolves the reference's interface, and calls the
      method the receiver's class selects. The heap is changed by resolution
      only. */
  method ExecInvokeInterface(defs: Defs, h: Heap, t: Thread, index: nat) returns (r: Result<Thread>, h': Heap)
    requires Valid(h) && Running(h, t)
    ensures Step(defs, {}, h, h') && CachesGrow(h, h', CurrentClass(t))
    ensures !(Entry(h, t, index).Ok? && Entry(h, t, index).value.InterfaceMethodRef?) ==> r.Err? && h' == h
    ensures r.Ok? ==> index in h'.states[CurrentClass(t)].methodRefs && index in h'.states[CurrentClass(t)].classRefs
    ensures Entry(h, t, index).Ok? && Entry(h, t, index).value.InterfaceMethodRef? && index in h'.states[CurrentClass(t)].methodRefs ==>
      var m := MethodAt(h'.classes, CachedMethod(h', CurrentClass(t), index));
      var pre := InterfaceReceiver(Current(t), m);
      && (pre.Err? ==> r == Err(pre.error))
      && (pre.Ok? && index in h'.states[CurrentClass(t)].classRefs ==>
            r == InterfaceDispatch(h', t, pre.value, CachedClass(h', CurrentClass(t), index),
                                   Entry(h, t, index).value.name, Entry(h, t, index).value.descriptor))
  {
    var d := CurrentClass(t);
    h' := h;
    StepRefl(defs, {}, h);
    var e := Entry(h, t, index);
    if e.Err? {
      r := Err(e.error);
      return;
    }
    if !e.value.InterfaceMethodRef? {
      r := Err(BadAssertion);
      return;
    }
    var rm := ResolveInterfaceMethod(defs, h, d, index);
    if rm.Err? {
      r := Err(rm.error);
      return;
    }
    var (k, h1) := rm.value;
    h' := h1;
    RunningKept(h, h1, t, index);
    var pre := InterfaceReceiver(Current(t), MethodAt(h1.classes, k));
    if pre.Err? {
      r := Err(pre.error);
      return;
    }
    var rc := ResolveClass(defs, h1, d, index);
    if rc.Err? {
      r := Err(rc.error);
      return;
    }
    var (iface, h2) := rc.value;
    h' := h2;
    StepTrans(defs, {}, h, h1, h2);
    CachesGrowTrans(h, h1, h2, d);
    r := InterfaceDispatch(h2, t, pre.value, iface, e.value.name, e.value.descriptor);
  }
}

=== FILE: resolution.dfy ===
/** Resolution of the symbolic references of a run-time constant pool
    (sections 5.4.3.1 to 5.4.3.4 of the Java Virtual Machine Specification),
    the method and field lookups behind it, and the search of an exception
    table for a handler.

    A reference is resolved at most once: what it resolves to is kept in the
    state of the class d that owns the pool, under the pool index of the
    reference (`classRefs` for the class a reference names, `fieldRefs` and
    `methodRefs` for the member), and a resolution that fails keeps nothing,
    since the Go code panics before it stores anything. The access check and
    the caching are pure functions of the heap the loads leave; the methods
    thread the heap through the class loader. */
module Resolution {
  import opened Wrappers
  import opened MachineInts
  import opened AccessFlags
  import opened Heaps
  import opened ClassHierarchy
  import opened ClassLoader
  import opened RuntimeConstantPool
  import opened ClassMembers

  /** Every id listed lies below bound. */
  predicate Below(ids: seq<ClassId>, bound: nat) {
    forall k :: 0 <= k < |ids| ==> ids[k] < bound
  }

  lemma InterfacesBelow(cs: seq<Class>, c: ClassId)
    requires Linked(cs) && c < |cs|
    ensures Below(cs[c].interfaces, c)
  {
    assert ClassLinked(cs[c], c);
  }

  // ---------------------------------------------------------------------------
  // Method lookup

  /** `lookupMethodInInterfaces`: depth first over the interfaces in order,
      each interface's own methods, then its superinterfaces, before the next
      interface. Static-ness is not looked at. */
  function LookupMethodInInterfaces(cs: seq<Class>, ifaces: seq<ClassId>, bound: nat, name: string, descriptor: string): (r: Option<MemberKey>)
    requires Linked(cs) && bound <= |cs| && Below(ifaces, bound)
    ensures r.Some? ==> KeyValid(cs, r.value, true)
    ensures r.Some? ==> FirstMethod(cs[r.value.owner].methods, name, descriptor, None, 0) == Some(r.value.index)
    decreases bound, |ifaces|
  {
    if |ifaces| == 0 then None
    else
      var i := ifaces[0];
      InterfacesBelow(cs, i);
      var own := FirstMethod(cs[i].methods, name, descriptor, None, 0);
      if own.Some? then Some(MemberKey(i, own.value))
      else
        var up := LookupMethodInInterfaces(cs, cs[i].interfaces, i, name, descriptor);
        if up.Some? then up else LookupMethodInInterfaces(cs, ifaces[1..], bound, name, descriptor)
  }

  /** Interface j is one of ifaces or one of their superinterfaces, at any
      depth: the interfaces the depth-first search can visit. */
  predicate InInterfaceTree(cs: seq<Class>, ifaces: seq<ClassId>, bound: nat, j: ClassId)
    requires Linked(cs) && bound <= |cs| && Below(ifaces, bound)
    decreases bound, |ifaces|
  {
    && |ifaces| > 0
    && (InterfacesBelow(cs, ifaces[0]);
        || ifaces[0] == j
        || InInterfaceTree(cs, cs[ifaces[0]].interfaces, ifaces[0], j)
        || InInterfaceTree(cs, ifaces[1..], bound, j))
  }

  /** What the depth-first search finds is declared by an interface in the
      tree, and it finds nothing exactly when no interface in the tree
      declares a method of that name and descriptor. */
  lemma {:induction false} InterfaceLookupSpec(cs: seq<Class>, ifaces: seq<ClassId>, bound: nat, name: string, descriptor: string)
    requires Linked(cs) && bound <= |cs| && Below(ifaces, bound)
    ensures var r := LookupMethodInInterfaces(cs, ifaces, bound, name, descriptor);
      r.Some? ==> InInterfaceTree(cs, ifaces, bound, r.value.owner)
    ensures LookupMethodInInterfaces(cs, ifaces, bound, name, descriptor).None? <==>
      forall j :: 0 <= j < |cs| && InInterfaceTree(cs, ifaces, bound, j) ==> !DeclaresMethod(cs[j], name, descriptor, None)
    decreases bound, |ifaces|
  {
    if |ifaces| > 0 {
      var i := ifaces[0];
      InterfacesBelow(cs, i);
      InterfaceLookupSpec(cs, cs[i].interfaces, i, name, descriptor);
      InterfaceLookupSpec(cs, ifaces[1..], bound, name, descriptor);
    }
  }

  /** `lookupMethod`: `LookupMethodInClass` over the superclass chain first,
      and the interfaces of the class only when the chain has no match. */
  function LookupMethod(cs: seq<Class>, c: ClassId, name: string, descriptor: string): (r: Option<MemberKey>)
    requires Linked(cs) && c < |cs|
    ensures r.Some? ==> KeyValid(cs, r.value, true)
    ensures r.Some? ==> FirstMethod(cs[r.value.owner].methods, name, descriptor, None, 0) == Some(r.value.index)
  {
    InterfacesBelow(cs, c);
    var m := GetMethod(cs, c, name, descriptor, None);
    if m.Some? then m else LookupMethodInInterfaces(cs, cs[c].interfaces, c, name, descriptor)
  }

  /** Some class on the superclass chain of c declares a match. */
  predicate ChainDeclares(cs: seq<Class>, c: ClassId, name: string, descriptor: string)
    requires Linked(cs) && c < |cs|
  {
    exists q :: 0 <= q < |Chain(cs, c)| && DeclaresMethod(cs[Chain(cs, c)[q]], name, descriptor, None)
  }

  /** A match on the chain wins over the interfaces; without one, the
      interfaces of c are searched; and nothing is found exactly when neither
      the chain nor the interface tree of c declares a match. */
  lemma LookupMethodSpec(cs: seq<Class>, c: ClassId, name: string, descriptor: string)
    requires Linked(cs) && c < |cs|
    ensures Below(cs[c].interfaces, c)
    ensures ChainDeclares(cs, c, name, descriptor) ==>
      LookupMethod(cs, c, name, descriptor) == GetMethod(cs, c, name, descriptor, None) && LookupMethod(cs, c, name, descriptor).Some?
    ensures !ChainDeclares(cs, c, name, descriptor) ==>
      LookupMethod(cs, c, name, descriptor) == LookupMethodInInterfaces(cs, cs[c].interfaces, c, name, descriptor)
    ensures LookupMethod(cs, c, name, descriptor).None? <==>
      && !ChainDeclares(cs, c, name, descriptor)
      && forall j :: 0 <= j < |cs| && InInterfaceTree(cs, cs[c].interfaces, c, j) ==> !DeclaresMethod(cs[j], name, descriptor, None)
  {
    InterfacesBelow(cs, c);
    ChainMatch(cs, c, name, descriptor);
    InterfaceLookupSpec(cs, cs[c].interfaces, c, name, descriptor);
  }

  /** `LookupMethodInClass` finds a method exactly when a class on the chain
      declares one. */
  lemma ChainMatch(cs: seq<Class>, c: ClassId, name: string, descriptor: string)
    requires Linked(cs) && c < |cs|
    ensures ChainDeclares(cs, c, name, descriptor) <==> GetMethod(cs, c, name, descriptor, None).Some?
  {
    GetMethodNone(cs, c, name, descriptor, None);
    if GetMethod(cs, c, name, descriptor, None).Some? {
      assert !forall q :: 0 <= q < |Chain(cs, c)| ==> !DeclaresMethod(cs[Chain(cs, c)[q]], name, descriptor, None);
      assert ChainDeclares(cs, c, name, descriptor);
    } else {
      assert forall q :: 0 <= q < |Chain(cs, c)| ==> !DeclaresMethod(cs[Chain(cs, c)[q]], name, descriptor, None);
      assert !ChainDeclares(cs, c, name, descriptor);
    }
  }

  /** `lookupInterfaceMethod`: the interface's own methods, then the
      depth-first search of its superinterfaces. */
  function LookupInterfaceMethod(cs: seq<Class>, c: ClassId, name: string, descriptor: string): (r: Option<MemberKey>)
    requires Linked(cs) && c < |cs|
    ensures r.Some? ==> KeyValid(cs, r.value, true)
    ensures r.Some? ==> FirstMethod(cs[r.value.owner].methods, name, descriptor, None, 0) == Some(r.value.index)
  {
    InterfacesBelow(cs, c);
    var own := FirstMethod(cs[c].methods, name, descriptor, None, 0);
    if own.Some? then Some(MemberKey(c, own.value))
    else LookupMethodInInterfaces(cs, cs[c].interfaces, c, name, descriptor)
  }

  /** Looking a method up in an interface is the depth-first search started
      at the interface itself: a method the interface declares wins, and
      otherwise the match comes from its superinterfaces. */
  lemma InterfaceMethodIsTreeSearch(cs: seq<Class>, c: ClassId, name: string, descriptor: string)
    requires Linked(cs) && c < |cs|
    ensures LookupInterfaceMethod(cs, c, name, descriptor) == LookupMethodInInterfaces(cs, [c], c + 1, name, descriptor)
    ensures DeclaresMethod(cs[c], name, descriptor, None) ==> LookupInterfaceMethod(cs, c, name, descriptor).value.owner == c
  {
    InterfacesBelow(cs, c);
    assert [c][1..] == [];
  }

  // ---------------------------------------------------------------------------
  // Field lookup

  /** `lookupField`: the class's own fields, then each direct interface
      searched the same way, then the superclass. Static-ness is not looked
      at. */
  function LookupField(cs: seq<Class>, c: ClassId, name: string, descriptor: string): (r: Option<MemberKey>)
    requires Linked(cs) && c < |cs|
    ensures r.Some? ==> KeyValid(cs, r.value, false)
    ensures r.Some? ==> FirstField(cs[r.value.owner].fields, name, descriptor, None, 0) == Some(r.value.index)
    decreases c, 1, 0
  {
    InterfacesBelow(cs, c);
    assert ClassLinked(cs[c], c);
    var own := FirstField(cs[c].fields, name, descriptor, None, 0);
    if own.Some? then Some(MemberKey(c, own.value))
    else
      var viaInterfaces := LookupFieldInInterfaces(cs, cs[c].interfaces, c, name, descriptor);
      if viaInterfaces.Some? then viaInterfaces
      else if cs[c].superClass.Some? then LookupField(cs, cs[c].superClass.value, name, descriptor)
      else None
  }

  /** The loop of `lookupField` over the interfaces, in order. */
  function LookupFieldInInterfaces(cs: seq<Class>, ifaces: seq<ClassId>, bound: nat, name: string, descriptor: string): (r: Option<MemberKey>)
    requires Linked(cs) && bound <= |cs| && Below(ifaces, bound)
    ensures r.Some? ==> KeyValid(cs, r.value, false)
    ensures r.Some? ==> FirstField(cs[r.value.owner].fields, name, descriptor, None, 0) == Some(r.value.index)
    decreases bound, 0, |ifaces|
  {
    if |ifaces| == 0 then None
    else
      var f := LookupField(cs, ifaces[0], name, descriptor);
      if f.Some? then f else LookupFieldInInterfaces(cs, ifaces[1..], bound, name, descriptor)
  }

  /** Class j is one `lookupField` may look at from c: c itself, whatever
      it looks at from the interfaces of c, and whatever it looks at from the
      superclass. */
  predicate FieldScope(cs: seq<Class>, c: ClassId, j: ClassId)
    requires Linked(cs) && c < |cs|
    decreases c, 1, 0
  {
    InterfacesBelow(cs, c);
    assert ClassLinked(cs[c], c);
    || j == c
    || FieldScopeFrom(cs, cs[c].interfaces, c, j)
    || (cs[c].superClass.Some? && FieldScope(cs, cs[c].superClass.value, j))
  }

  predicate FieldScopeFrom(cs: seq<Class>, ifaces: seq<ClassId>, bound: nat, j: ClassId)
    requires Linked(cs) && bound <= |cs| && Below(ifaces, bound)
    decreases bound, 0, |ifaces|
  {
    |ifaces| > 0 && (FieldScope(cs, ifaces[0], j) || FieldScopeFrom(cs, ifaces[1..], bound, j))
  }

  /** The field found is declared by a class in scope, and nothing is found
      exactly when no class in scope declares a field of that name and
      descriptor. */
  lemma {:induction false} LookupFieldSpec(cs: seq<Class>, c: ClassId, name: string, descriptor: string)
    requires Linked(cs) && c < |cs|
    ensures var r := LookupField(cs, c, name, descriptor);
      r.Some? ==> FieldScope(cs, c, r.value.owner)
    ensures LookupField(cs, c, name, descriptor).None? <==>
      forall j :: 0 <= j < |cs| && FieldScope(cs, c, j) ==> !DeclaresField(cs[j], name, descriptor, None)
    decreases c, 1, 0
  {
    InterfacesBelow(cs, c);
    assert ClassLinked(cs[c], c);
    LookupFieldFromSpec(cs, cs[c].interfaces, c, name, descriptor);
    if cs[c].superClass.Some? {
      LookupFieldSpec(cs, cs[c].superClass.value, name, descriptor);
    }
  }

  lemma {:induction false} LookupFieldFromSpec(cs: seq<Class>, ifaces: seq<ClassId>, bound: nat, name: string, descriptor: string)
    requires Linked(cs) && bound <= |cs| && Below(ifaces, bound)
    ensures var r := LookupFieldInInterfaces(cs, ifaces, bound, name, descriptor);
      r.Some? ==> FieldScopeFrom(cs, ifaces, bound, r.value.owner)
    ensures LookupFieldInInterfaces(cs, ifaces, bound, name, descriptor).None? <==>
      forall j :: 0 <= j < |cs| && FieldScopeFrom(cs, ifaces, bound, j) ==> !DeclaresField(cs[j], name, descriptor, None)
    decreases bound, 0, |ifaces|
  {
    if |ifaces| > 0 {
      LookupFieldSpec(cs, ifaces[0], name, descriptor);
      LookupFieldFromSpec(cs, ifaces[1..], bound, name, descriptor);
    }
  }

  /** A field the class declares itself is the one found, whatever its
      interfaces and superclasses declare. */
  lemma OwnFieldFirst(cs: seq<Class>, c: ClassId, name: string, descriptor: string)
    requires Linked(cs) && c < |cs| && DeclaresField(cs[c], name, descriptor, None)
    ensures LookupField(cs, c, name, descriptor) == Some(MemberKey(c, FirstField(cs[c].fields, name, descriptor, None, 0).value))
  {
  }

  // ---------------------------------------------------------------------------
  // The caches

  predicate MapGrows<K, V(==)>(m: map<K, V>, m': map<K, V>) {
    forall i :: i in m ==> i in m' && m'[i] == m[i]
  }

  /** Resolution only fills in the caches of class d: every other class's
      state is kept, and so is everything d's state held before. */
  predicate CachesGrow(h: Heap, h': Heap, d: ClassId) {
    // bound to a name so that it is proved as one fact
    var kept :=
      && d < |h.states| <= |h'.states|
      && (forall j :: 0 <= j < |h.states| && j != d ==> h'.states[j] == h.states[j])
      && h'.states[d].staticVars == h.states[d].staticVars
      && h'.states[d].initStarted == h.states[d].initStarted
      && h'.states[d].jClass == h.states[d].jClass
      && MapGrows(h.states[d].classRefs, h'.states[d].classRefs)
      && MapGrows(h.states[d].fieldRefs, h'.states[d].fieldRefs)
      && MapGrows(h.states[d].methodRefs, h'.states[d].methodRefs);
    kept
  }

  lemma CachesGrowTrans(h1: Heap, h2: Heap, h3: Heap, d: ClassId)
    requires CachesGrow(h1, h2, d) && CachesGrow(h2, h3, d)
    ensures CachesGrow(h1, h3, d)
  {
  }

  lemma StatesKeptCachesGrow(h: Heap, h': Heap, d: ClassId)
    requires StatesKept(h, h') && d < |h.states|
    ensures CachesGrow(h, h', d)
  {
  }

  /** Pool entry index of class d is a class, field, method or interface
      method reference, the kinds that name a class. */
  predicate RefAt(h: Heap, d: ClassId, index: nat)
    requires d < |h.classes|
  {
    var pool := h.classes[d].constantPool;
    index < |pool| && (pool[index].ClassRef? || pool[index].IsMemberRef())
  }

  predicate ClassResolved(h: Heap, d: ClassId, index: nat, c: ClassId) {
    d < |h.states| && index in h.states[d].classRefs && h.states[d].classRefs[index] == c
  }

  predicate FieldResolved(h: Heap, d: ClassId, index: nat, k: MemberKey) {
    d < |h.states| && index in h.states[d].fieldRefs && h.states[d].fieldRefs[index] == k
  }

  predicate MethodResolved(h: Heap, d: ClassId, index: nat, k: MemberKey) {
    d < |h.states| && index in h.states[d].methodRefs && h.states[d].methodRefs[index] == k
  }

  /** Stores into d's state what pool index resolved to. */
  function Remember(h: Heap, d: ClassId, st: ClassState): (h': Heap)
    requires Valid(h) && d < |h.classes| && CachesValid(h.classes, st)
    requires st.staticVars == h.states[d].staticVars && st.initStarted == h.states[d].initStarted
    requires st.jClass == h.states[d].jClass
    requires MapGrows(h.states[d].classRefs, st.classRefs)
    requires MapGrows(h.states[d].fieldRefs, st.fieldRefs)
    requires MapGrows(h.states[d].methodRefs, st.methodRefs)
    ensures Valid(h') && Grows(h, h') && StateOnly(h, h') && CachesGrow(h, h', d)
    ensures h'.states[d] == st
  {
    SetState(h, d, st)
  }

  // ---------------------------------------------------------------------------
  // Class references

  /** The end of `resolveClassRef` once class c is loaded: the access check,
      then the cache. */
  function CacheClass(h: Heap, d: ClassId, index: nat, c: ClassId): (r: Result<Heap>)
    requires Valid(h) && d < |h.classes| && c < |h.classes| && index !in h.states[d].classRefs
    ensures r.Err? <==> !ClassAccessibleTo(h.classes[c], h.classes[d])
    ensures r.Err? ==> r.error == Panic(IllegalAccess)
    ensures r.Ok? ==> Valid(r.value) && Grows(h, r.value) && StateOnly(h, r.value) && CachesGrow(h, r.value, d)
    ensures r.Ok? ==> r.value.states[d].classRefs == h.states[d].classRefs[index := c]
    ensures r.Ok? ==> r.value.states[d].fieldRefs == h.states[d].fieldRefs && r.value.states[d].methodRefs == h.states[d].methodRefs
  {
    if !ClassAccessibleTo(h.classes[c], h.classes[d]) then Err(Panic(IllegalAccess))
    else
      var st := h.states[d];
      assert CachesValid(h.classes, st);
      Ok(Remember(h, d, st.(classRefs := st.classRefs[index := c])))
  }

  /** `SymRef.ResolveClass`: the cached class, or else the class loaded by
      name through the class loader and, if accessible to d, cached. */
  method ResolveClass(defs: Defs, h: Heap, d: ClassId, index: nat) returns (r: Result<(ClassId, Heap)>)
    requires Valid(h) && d < |h.classes| && RefAt(h, d, index)
    ensures index in h.states[d].classRefs ==> r == Ok((h.states[d].classRefs[index], h))
    ensures r.Ok? ==> Step(defs, {}, h, r.value.1) && CachesGrow(h, r.value.1, d)
    ensures r.Ok? ==> r.value.0 < |r.value.1.classes| && ClassResolved(r.value.1, d, index, r.value.0)
    ensures r.Ok? ==> r.value.1.states[d].fieldRefs == h.states[d].fieldRefs && r.value.1.states[d].methodRefs == h.states[d].methodRefs
    ensures r.Ok? && index !in h.states[d].classRefs ==>
      ClassAccessibleTo(r.value.1.classes[r.value.0], h.classes[d])
    ensures r.Ok? && index !in h.states[d].classRefs && Consistent(defs) ==>
      Registered(r.value.1, h.classes[d].constantPool[index].className, r.value.0)
  {
    if index in h.states[d].classRefs {
      StepRefl(defs, {}, h);
      return Ok((h.states[d].classRefs[index], h));
    }
    var loaded :- LoadClass(defs, h, {}, h.classes[d].constantPool[index].className);
    var (c, h1) := loaded;
    StatesKeptCachesGrow(h, h1, d);
    var h2 :- CacheClass(h1, d, index, c);
    PlainStep(defs, {}, h1, h2);
    StepTrans(defs, {}, h, h1, h2);
    CachesGrowTrans(h, h1, h2, d);
    r := Ok((c, h2));
  }

  // ---------------------------------------------------------------------------
  // Field references

  /** The end of `resolvedFieldRef` once the class c of the reference is
      resolved: the lookup, the access check, then the cache. */
  function CacheField(h: Heap, d: ClassId, index: nat, c: ClassId, name: string, descriptor: string): (r: Result<Heap>)
    requires Valid(h) && d < |h.classes| && c < |h.classes| && index !in h.states[d].fieldRefs
    ensures LookupField(h.classes, c, name, descriptor).None? <==> r == Err(Panic(NoSuchField))
    ensures r == Err(Panic(IllegalAccess)) <==>
      var k := LookupField(h.classes, c, name, descriptor);
      k.Some? && !MemberAccessibleTo(h.classes, h.classes[k.value.owner].fields[k.value.index].accessFlags, k.value.owner, d)
    ensures r.Ok? ==> Valid(r.value) && Grows(h, r.value) && StateOnly(h, r.value) && CachesGrow(h, r.value, d)
    ensures r.Ok? ==> r.value.states[d].fieldRefs == h.states[d].fieldRefs[index := LookupField(h.classes, c, name, descriptor).value]
    ensures r.Ok? ==> r.value.states[d].classRefs == h.states[d].classRefs && r.value.states[d].methodRefs == h.states[d].methodRefs
  {
    var k := LookupField(h.classes, c, name, descriptor);
    if k.None? then Err(Panic(NoSuchField))
    else if !MemberAccessibleTo(h.classes, h.classes[k.value.owner].fields[k.value.index].accessFlags, k.value.owner, d) then
      Err(Panic(IllegalAccess))
    else
      var st := h.states[d];
      assert CachesValid(h.classes, st);
      Ok(Remember(h, d, st.(fieldRefs := st.fieldRefs[index := k.value])))
  }

  /** k is the field found from the class the reference at index resolved
      to, and d may access it. */
  predicate FieldFound(h: Heap, d: ClassId, index: nat, name: string, descriptor: string, k: MemberKey)
    requires Valid(h) && d < |h.classes|
  {
    // bound to a name so that it is proved as one fact
    var found :=
      && index in h.states[d].classRefs
      && LookupField(h.classes, h.states[d].classRefs[index], name, descriptor) == Some(k)
      && MemberAccessibleTo(h.classes, h.classes[k.owner].fields[k.index].accessFlags, k.owner, d);
    found
  }

  /** `CacheField` with the field it found: on success a step that stores
      the field, found from the resolved class and accessible to d. */
  function StoreField(defs: Defs, h: Heap, d: ClassId, index: nat, c: ClassId, name: string, descriptor: string)
    : (r: Result<(MemberKey, Heap)>)
    requires Valid(h) && d < |h.classes| && c < |h.classes| && index !in h.states[d].fieldRefs
    requires ClassResolved(h, d, index, c)
    ensures r.Ok? ==> Step(defs, {}, h, r.value.1) && CachesGrow(h, r.value.1, d)
    ensures r.Ok? ==> KeyValid(r.value.1.classes, r.value.0, false) && FieldResolved(r.value.1, d, index, r.value.0)
    ensures r.Ok? ==> FieldFound(r.value.1, d, index, name, descriptor, r.value.0)
  {
    var h' :- CacheField(h, d, index, c, name, descriptor);
    PlainStep(defs, {}, h, h');
    Ok((LookupField(h.classes, c, name, descriptor).value, h'))
  }

  /** `FieldRef.ResolvedField`: the cached field, or else the field looked up
      from the resolved class of the reference and, if accessible to d,
      cached. */
  method ResolveField(defs: Defs, h: Heap, d: ClassId, index: nat) returns (r: Result<(MemberKey, Heap)>)
    requires Valid(h) && d < |h.classes| && index < |h.classes[d].constantPool| && h.classes[d].constantPool[index].FieldRef?
    ensures index in h.states[d].fieldRefs ==> r == Ok((h.states[d].fieldRefs[index], h))
    ensures r.Ok? ==> Step(defs, {}, h, r.value.1) && CachesGrow(h, r.value.1, d)
    ensures r.Ok? ==> KeyValid(r.value.1.classes, r.value.0, false) && FieldResolved(r.value.1, d, index, r.value.0)
    ensures r.Ok? && index !in h.states[d].fieldRefs ==>
      FieldFound(r.value.1, d, index, h.classes[d].constantPool[index].name, h.classes[d].constantPool[index].descriptor, r.value.0)
  {
    if index in h.states[d].fieldRefs {
      StepRefl(defs, {}, h);
      return Ok((h.states[d].fieldRefs[index], h));
    }
    var ref := h.classes[d].constantPool[index];
    var resolved :- ResolveClass(defs, h, d, index);
    var (c, h1) := resolved;
    var stored :- StoreField(defs, h1, d, index, c, ref.name, ref.descriptor);
    StepTrans(defs, {}, h, h1, stored.1);
    CachesGrowTrans(h, h1, stored.1, d);
    r := Ok(stored);
  }

  // ---------------------------------------------------------------------------
  // Method and interface method references

  function MethodFlags(cs: seq<Class>, k: MemberKey): u16
    requires KeyValid(cs, k, true)
  {
    cs[k.owner].methods[k.index].accessFlags
  }

  /** k is the method found from the class the reference at index resolved
      to, which is an interface exactly when iface is set, and d may access
      it. */
  predicate MethodFound(h: Heap, d: ClassId, index: nat, name: string, descriptor: string, k: MemberKey, iface: bool)
    requires Valid(h) && d < |h.classes|
  {
    // bound to a name so that it is proved as one fact
    var found :=
      index in h.states[d].classRefs &&
      var c := h.states[d].classRefs[index];
      && IsInterface(h.classes[c].accessFlags) == iface
      && (if iface then LookupInterfaceMethod(h.classes, c, name, descriptor) else LookupMethod(h.classes, c, name, descriptor)) == Some(k)
      && MemberAccessibleTo(h.classes, MethodFlags(h.classes, k), k.owner, d);
    found
  }

  /** The end of `resolveMethodRef` once the class c of the reference is
      resolved: an interface is refused, then the lookup, the access check
      and the cache. */
  function CacheMethod(h: Heap, d: ClassId, index: nat, c: ClassId, name: string, descriptor: string): (r: Result<Heap>)
    requires Valid(h) && d < |h.classes| && c < |h.classes| && index !in h.states[d].methodRefs
    ensures IsInterface(h.classes[c].accessFlags) <==> r == Err(Panic(IncompatibleClassChange))
    ensures r == Err(Panic(NoSuchMethod)) <==>
      !IsInterface(h.classes[c].accessFlags) && LookupMethod(h.classes, c, name, descriptor).None?
    ensures r == Err(Panic(IllegalAccess)) <==>
      var k := LookupMethod(h.classes, c, name, descriptor);
      !IsInterface(h.classes[c].accessFlags) && k.Some? && !MemberAccessibleTo(h.classes, MethodFlags(h.classes, k.value), k.value.owner, d)
    ensures r.Ok? ==> Valid(r.value) && Grows(h, r.value) && StateOnly(h, r.value) && CachesGrow(h, r.value, d)
    ensures r.Ok? ==> r.value.states[d].methodRefs == h.states[d].methodRefs[index := LookupMethod(h.classes, c, name, descriptor).value]
    ensures r.Ok? ==> r.value.states[d].classRefs == h.states[d].classRefs && r.value.states[d].fieldRefs == h.states[d].fieldRefs
  {
    if IsInterface(h.classes[c].accessFlags) then Err(Panic(IncompatibleClassChange))
    else
      var k := LookupMethod(h.classes, c, name, descriptor);
      if k.None? then Err(Panic(NoSuchMethod))
      else if !MemberAccessibleTo(h.classes, MethodFlags(h.classes, k.value), k.value.owner, d) then Err(Panic(IllegalAccess))
      else
        var st := h.states[d];
        assert CachesValid(h.classes, st);
        Ok(Remember(h, d, st.(methodRefs := st.methodRefs[index := k.value])))
  }

  /** The end of `resolveInterfaceMethodRef`: a class that is not an
      interface is refused, then the lookup, the access check and the cache. */
  function CacheInterfaceMethod(h: Heap, d: ClassId, index: nat, c: ClassId, name: string, descriptor: string): (r: Result<Heap>)
    requires Valid(h) && d < |h.classes| && c < |h.classes| && index !in h.states[d].methodRefs
    ensures !IsInterface(h.classes[c].accessFlags) <==> r == Err(Panic(IncompatibleClassChange))
    ensures r == Err(Panic(NoSuchMethod)) <==>
      IsInterface(h.classes[c].accessFlags) && LookupInterfaceMethod(h.classes, c, name, descriptor).None?
    ensures r == Err(Panic(IllegalAccess)) <==>
      var k := LookupInterfaceMethod(h.classes, c, name, descriptor);
      IsInterface(h.classes[c].accessFlags) && k.Some? && !MemberAccessibleTo(h.classes, MethodFlags(h.classes, k.value), k.value.owner, d)
    ensures r.Ok? ==> Valid(r.value) && Grows(h, r.value) && StateOnly(h, r.value) && CachesGrow(h, r.value, d)
    ensures r.Ok? ==> r.value.states[d].methodRefs == h.states[d].methodRefs[index := LookupInterfaceMethod(h.classes, c, name, descriptor).value]
    ensures r.Ok? ==> r.value.states[d].classRefs == h.states[d].classRefs && r.value.states[d].fieldRefs == h.states[d].fieldRefs
  {
    if !IsInterface(h.classes[c].accessFlags) then Err(Panic(IncompatibleClassChange))
    else
      var k := LookupInterfaceMethod(h.classes, c, name, descriptor);
      if k.None? then Err(Panic(NoSuchMethod))
      else if !MemberAccessibleTo(h.classes, MethodFlags(h.classes, k.value), k.value.owner, d) then Err(Panic(IllegalAccess))
      else
        var st := h.states[d];
        assert CachesValid(h.classes, st);
        Ok(Remember(h, d, st.(methodRefs := st.methodRefs[index := k.value])))
  }

  /** `CacheMethod` with the method it found. */
  function StoreMethod(defs: Defs, h: Heap, d: ClassId, index: nat, c: ClassId, name: string, descriptor: string)
    : (r: Result<(MemberKey, Heap)>)
    requires Valid(h) && d < |h.classes| && c < |h.classes| && index !in h.states[d].methodRefs
    requires ClassResolved(h, d, index, c)
    ensures r.Ok? ==> Step(defs, {}, h, r.value.1) && CachesGrow(h, r.value.1, d)
    ensures r.Ok? ==> KeyValid(r.value.1.classes, r.value.0, true) && MethodResolved(r.value.1, d, index, r.value.0)
    ensures r.Ok? ==> MethodFound(r.value.1, d, index, name, descriptor, r.value.0, false)
  {
    var h' :- CacheMethod(h, d, index, c, name, descriptor);
    PlainStep(defs, {}, h, h');
    Ok((LookupMethod(h.classes, c, name, descriptor).value, h'))
  }

  /** `CacheInterfaceMethod` with the method it found. */
  function StoreInterfaceMethod(defs: Defs, h: Heap, d: ClassId, index: nat, c: ClassId, name: string, descriptor: string)
    : (r: Result<(MemberKey, Heap)>)
    requires Valid(h) && d < |h.classes| && c < |h.classes| && index !in h.states[d].methodRefs
    requires ClassResolved(h, d, index, c)
    ensures r.Ok? ==> Step(defs, {}, h, r.value.1) && CachesGrow(h, r.value.1, d)
    ensures r.Ok? ==> KeyValid(r.value.1.classes, r.value.0, true) && MethodResolved(r.value.1, d, index, r.value.0)
    ensures r.Ok? ==> MethodFound(r.value.1, d, index, name, descriptor, r.value.0, true)
  {
    var h' :- CacheInterfaceMethod(h, d, index, c, name, descriptor);
    PlainStep(defs, {}, h, h');
    Ok((LookupInterfaceMethod(h.classes, c, name, descriptor).value, h'))
  }

  /** `MethodRef.ResolveMethod`: the cached method, or else the method looked
      up from the resolved class of the reference and, if accessible to d,
      cached. */
  method ResolveMethod(defs: Defs, h: Heap, d: ClassId, index: nat) returns (r: Result<(MemberKey, Heap)>)
    requires Valid(h) && d < |h.classes| && index < |h.classes[d].constantPool| && h.classes[d].constantPool[index].MethodRef?
    ensures index in h.states[d].methodRefs ==> r == Ok((h.states[d].methodRefs[index], h))
    ensures r.Ok? ==> Step(defs, {}, h, r.value.1) && CachesGrow(h, r.value.1, d)
    ensures r.Ok? ==> KeyValid(r.value.1.classes, r.value.0, true) && MethodResolved(r.value.1, d, index, r.value.0)
    ensures r.Ok? && index !in h.states[d].methodRefs ==>
      MethodFound(r.value.1, d, index, h.classes[d].constantPool[index].name, h.classes[d].constantPool[index].descriptor, r.value.0, false)
  {
    if index in h.states[d].methodRefs {
      StepRefl(defs, {}, h);
      return Ok((h.states[d].methodRefs[index], h));
    }
    var ref := h.classes[d].constantPool[index];
    var resolved :- ResolveClass(defs, h, d, index);
    var (c, h1) := resolved;
    var stored :- StoreMethod(defs, h1, d, index, c, ref.name, ref.descriptor);
    StepTrans(defs, {}, h, h1, stored.1);
    CachesGrowTrans(h, h1, stored.1, d);
    r := Ok(stored);
  }

  /** `InterfaceMethodRef.ResolvedInterfaceMethod`, the same for interface
      method references. */
  method ResolveInterfaceMethod(defs: Defs, h: Heap, d: ClassId, index: nat) returns (r: Result<(MemberKey, Heap)>)
    requires Valid(h) && d < |h.classes| && index < |h.classes[d].constantPool| && h.classes[d].constantPool[index].InterfaceMethodRef?
    ensures index in h.states[d].methodRefs ==> r == Ok((h.states[d].methodRefs[index], h))
    ensures r.Ok? ==> Step(defs, {}, h, r.value.1) && CachesGrow(h, r.value.1, d)
    ensures r.Ok? ==> KeyValid(r.value.1.classes, r.value.0, true) && MethodResolved(r.value.1, d, index, r.value.0)
    ensures r.Ok? && index !in h.states[d].methodRefs ==>
      MethodFound(r.value.1, d, index, h.classes[d].constantPool[index].name, h.classes[d].constantPool[index].descriptor, r.value.0, true)
  {
    if index in h.states[d].methodRefs {
      StepRefl(defs, {}, h);
      return Ok((h.states[d].methodRefs[index], h));
    }
    var ref := h.classes[d].constantPool[index];
    var resolved :- ResolveClass(defs, h, d, index);
    var (c, h1) := resolved;
    var stored :- StoreInterfaceMethod(defs, h1, d, index, c, ref.name, ref.descriptor);
    StepTrans(defs, {}, h, h1, stored.1);
    CachesGrowTrans(h, h1, stored.1, d);
    r := Ok(stored);
  }

  /** Resolving a field reference a second time finds it in the cache: the
      same field, and the heap the first resolution left. */
  method ResolveFieldTwice(defs: Defs, h: Heap, d: ClassId, index: nat) returns (first: Result<(MemberKey, Heap)>, second: Result<(MemberKey, Heap)>)
    requires Valid(h) && d < |h.classes| && index < |h.classes[d].constantPool| && h.classes[d].constantPool[index].FieldRef?
    ensures first.Ok? ==> second == first
  {
    first := ResolveField(defs, h, d, index);
    if first.Ok? {
      var h1 := first.value.1;
      assert h1.classes[d] == h.classes[d];
      second := ResolveField(defs, h1, d, index);
    } else {
      second := first;
    }
  }

  /** The same for method references. */
  method ResolveMethodTwice(defs: Defs, h: Heap, d: ClassId, index: nat) returns (first: Result<(MemberKey, Heap)>, second: Result<(MemberKey, Heap)>)
    requires Valid(h) && d < |h.classes| && index < |h.classes[d].constantPool| && h.classes[d].constantPool[index].MethodRef?
    ensures first.Ok? ==> second == first
  {
    first := ResolveMethod(defs, h, d, index);
    if first.Ok? {
      var h1 := first.value.1;
      assert h1.classes[d] == h.classes[d];
      second := ResolveMethod(defs, h1, d, index);
    } else {
      second := first;
    }
  }

  // ---------------------------------------------------------------------------
  // Exception handlers

  /** The handler's range holds pc: the start is inclusive, the end is not. */
  predicate Covers(e: ExceptionHandler, pc: int) {
    e.startPc <= pc < e.endPc
  }

  /** Handler e catches class ex: it is a catch-all, or its catch class,
      resolved in d's pool, is ex or a superclass of ex. */
  predicate Catches(h: Heap, d: ClassId, e: ExceptionHandler, ex: ClassId)
    requires Valid(h) && d < |h.classes| && ex < |h.classes|
  {
    || e.catchType.None?
    || (&& e.catchType.value in h.states[d].classRefs
        && var cc := h.states[d].classRefs[e.catchType.value];
           cc == ex || IsSuperClassOf(h.classes, cc, ex))
  }

  /** Handler e has a catch class, resolved in d's pool, that is neither ex
      nor a superclass of ex. */
  predicate Rejects(h: Heap, d: ClassId, e: ExceptionHandler, ex: ClassId)
    requires Valid(h) && d < |h.classes| && ex < |h.classes|
  {
    && e.catchType.Some?
    && e.catchType.value in h.states[d].classRefs
    && var cc := h.states[d].classRefs[e.catchType.value];
       cc != ex && !IsSuperClassOf(h.classes, cc, ex)
  }

  /** Class d's resolved class references are kept, whatever else is
      filled in. */
  predicate ClassRefsGrow(h: Heap, h': Heap, d: ClassId) {
    d < |h.states| <= |h'.states| && MapGrows(h.states[d].classRefs, h'.states[d].classRefs)
  }

  /** A handler keeps rejecting a class while classes are loaded and caches
      filled in. */
  lemma RejectsKept(h: Heap, h': Heap, d: ClassId, e: ExceptionHandler, ex: ClassId)
    requires Valid(h) && Valid(h') && Grows(h, h') && ClassRefsGrow(h, h', d)
    requires d < |h.classes| && ex < |h.classes| && Rejects(h, d, e, ex)
    ensures Rejects(h', d, e, ex)
  {
    SubClassStable(h.classes, h'.classes, ex, h.states[d].classRefs[e.catchType.value]);
  }

  /** Every typed handler of the table names a class reference of d's pool,
      as `getCatchType` makes sure. */
  predicate CatchTypesAt(h: Heap, d: ClassId, table: seq<ExceptionHandler>)
    requires d < |h.classes|
  {
    forall j :: 0 <= j < |table| && table[j].catchType.Some? ==>
      table[j].catchType.value < |h.classes[d].constantPool| && h.classes[d].constantPool[table[j].catchType.value].ClassRef?
  }

  /** The handlers before position i that cover pc all reject ex. */
  predicate NoHandlerBefore(h: Heap, d: ClassId, table: seq<ExceptionHandler>, ex: ClassId, pc: int, i: nat)
    requires Valid(h) && d < |h.classes| && ex < |h.classes| && i <= |table|
  {
    forall j :: 0 <= j < i && Covers(table[j], pc) ==> Rejects(h, d, table[j], ex)
  }

  /** Every handler before position i that covers pc has a catch class. */
  predicate TypedBefore(table: seq<ExceptionHandler>, pc: int, i: nat)
    requires i <= |table|
  {
    forall j :: 0 <= j < i && Covers(table[j], pc) ==> table[j].catchType.Some?
  }

  /** Handler j is one whose catch class the search resolves: it covers pc,
      has a catch class, and no catch-all before it covers pc. */
  predicate ResolvesAt(table: seq<ExceptionHandler>, pc: int, j: nat) {
    j < |table| && Covers(table[j], pc) && table[j].catchType.Some? && TypedBefore(table, pc, j)
  }

  /** Handler i is the first whose range covers pc. */
  predicate FirstCovering(table: seq<ExceptionHandler>, pc: int, i: nat) {
    i < |table| && Covers(table[i], pc) && forall j :: 0 <= j < i ==> !Covers(table[j], pc)
  }

  /** `findExceptionHandler`: the first handler in table order whose range
      covers pc and that catches ex, resolving catch classes as it goes; none
      when no handler does. The search fails only where it resolves the
      catch class of a covering handler; when no handler covers pc, or the
      first one that does is a catch-all, nothing is resolved. */
  method FindExceptionHandler(defs: Defs, h: Heap, d: ClassId, table: seq<ExceptionHandler>, ex: ClassId, pc: int)
    returns (r: Result<(Option<nat>, Heap)>)
    requires Valid(h) && d < |h.classes| && ex < |h.classes| && CatchTypesAt(h, d, table)
    ensures r.Ok? ==> Step(defs, {}, h, r.value.1) && CachesGrow(h, r.value.1, d)
    ensures r.Ok? && r.value.0.Some? ==>
      var i := r.value.0.value;
      i < |table| && Covers(table[i], pc) && Catches(r.value.1, d, table[i], ex)
      && NoHandlerBefore(r.value.1, d, table, ex, pc, i)
    ensures r.Ok? && r.value.0.None? ==> NoHandlerBefore(r.value.1, d, table, ex, pc, |table|)
    ensures r.Err? ==> exists j :: ResolvesAt(table, pc, j)
    ensures (forall j :: 0 <= j < |table| ==> !Covers(table[j], pc)) ==> r == Ok((None, h))
    ensures forall i: nat :: FirstCovering(table, pc, i) && table[i].catchType.None? ==> r == Ok((Some(i), h))
  {
    var cur := h;
    StepRefl(defs, {}, h);
    for i := 0 to |table|
      invariant Step(defs, {}, h, cur) && CachesGrow(h, cur, d) && cur.classes[d] == h.classes[d]
      invariant NoHandlerBefore(cur, d, table, ex, pc, i)
      invariant TypedBefore(table, pc, i)
      invariant (forall j :: 0 <= j < i ==> !Covers(table[j], pc)) ==> cur == h
    {
      var e := table[i];
      if Covers(e, pc) {
        if e.catchType.None? {
          assert forall k: nat :: FirstCovering(table, pc, k) && table[k].catchType.None? ==> k == i;
          return Ok((Some(i), cur));
        }
        assert ResolvesAt(table, pc, i);
        var res :- ResolveClass(defs, cur, d, e.catchType.value);
        var (cc, next) := res;
        HandlerStep(cur, next, d, table, ex, pc, i);
        StepTrans(defs, {}, h, cur, next);
        CachesGrowTrans(h, cur, next, d);
        cur := next;
        if cc == ex || IsSuperClassOf(cur.classes, cc, ex) {
          return Ok((Some(i), cur));
        }
      }
    }
    return Ok((None, cur));
  }

  lemma HandlerStep(h: Heap, h': Heap, d: ClassId, table: seq<ExceptionHandler>, ex: ClassId, pc: int, i: nat)
    requires Valid(h) && Valid(h') && Grows(h, h') && ClassRefsGrow(h, h', d)
    requires d < |h.classes| && ex < |h.classes| && i <= |table|
    requires NoHandlerBefore(h, d, table, ex, pc, i)
    ensures NoHandlerBefore(h', d, table, ex, pc, i)
  {
    forall j | 0 <= j < i && Covers(table[j], pc)
      ensures Rejects(h', d, table[j], ex)
    {
      RejectsKept(h, h', d, table[j], ex);
    }
  }
}

=== FILE: runtime_pool.dfy ===
/** The run-time constant pool of a class (section 5.1 of the Java Virtual
    Machine Specification): the class-file pool with numeric and string
    constants turned into values and class, field, method and interface-method
    entries turned into symbolic references. A symbolic reference carries the
    names it was built from; what it resolves to is cached per pool index in the
    owning class's state (see the class loader). */
module RuntimeConstantPool {
  import opened Wrappers
  import opened MachineInts
  import opened ClassFilePool
  import Decimal

  datatype Constant =
    | NoConstant
    | IntConst(intValue: i32)
    | FloatConst(floatBits: u32)
    | LongConst(longValue: i64)
    | DoubleConst(doubleBits: u64)
    | StringConst(str: string)
    | ClassRef(className: string)
    | FieldRef(className: string, name: string, descriptor: string)
    | MethodRef(className: string, name: string, descriptor: string)
    | InterfaceMethodRef(className: string, name: string, descriptor: string)
  {
    predicate IsMemberRef() {
      FieldRef? || MethodRef? || InterfaceMethodRef?
    }
  }

  type Pool = seq<Constant>

  /** The class name and the name and descriptor a member reference copies
      from its class-file entry (`copyMemberRefInfo`). */
  function MemberRefInfo(cp: ConstantPool, classIndex: u16, natIndex: u16): (r: Result<(string, string, string)>)
    ensures r.Ok? <==> GetClassName(cp, classIndex).Ok? && GetNameAndType(cp, natIndex).Ok?
  {
    var className :- GetClassName(cp, classIndex);
    var nt :- GetNameAndType(cp, natIndex);
    Ok((className, nt.0, nt.1))
  }

  /** The kinds `newConstantPool` converts. */
  predicate HasRuntimeForm(c: ConstantInfo) {
    || c.Integer? || c.Float? || c.Long? || c.Double? || c.StringInfo? || c.ClassInfo?
    || c.Fieldref? || c.Methodref? || c.InterfaceMethodref?
  }

  /** The run-time form of one class-file entry; kinds with no run-time form
      (Utf8, NameAndType, MethodHandle, …) and empty entries become `NoConstant`. */
  function ConvertEntry(cp: ConstantPool, c: ConstantInfo): (r: Result<Constant>)
    ensures c.Integer? ==> r == Ok(IntConst(c.intValue))
    ensures c.Float? ==> r == Ok(FloatConst(c.floatBits))
    ensures c.Long? ==> r == Ok(LongConst(c.longValue))
    ensures c.Double? ==> r == Ok(DoubleConst(c.doubleBits))
    ensures c.StringInfo? ==> r.Ok? == GetUtf8(cp, c.stringIndex).Ok?
    ensures c.ClassInfo? ==> r.Ok? == GetUtf8(cp, c.nameIndex).Ok?
    ensures r.Ok? && r.value.IsMemberRef() ==>
      (c.Fieldref? || c.Methodref? || c.InterfaceMethodref?) &&
      MemberRefInfo(cp, c.classIndex, c.nameAndTypeIndex) ==
        Ok((r.value.className, r.value.name, r.value.descriptor))
    ensures !HasRuntimeForm(c) ==> r == Ok(NoConstant)
  {
    match c
    case Integer(v) => Ok(IntConst(v))
    case Float(b) => Ok(FloatConst(b))
    case Long(v) => Ok(LongConst(v))
    case Double(b) => Ok(DoubleConst(b))
    case StringInfo(i) =>
      var s :- GetUtf8(cp, i);
      Ok(StringConst(s))
    case ClassInfo(i) =>
      var n :- GetUtf8(cp, i);
      Ok(ClassRef(n))
    case Fieldref(ci, ni) =>
      var info :- MemberRefInfo(cp, ci, ni);
      Ok(FieldRef(info.0, info.1, info.2))
    case Methodref(ci, ni) =>
      var info :- MemberRefInfo(cp, ci, ni);
      Ok(MethodRef(info.0, info.1, info.2))
    case InterfaceMethodref(ci, ni) =>
      var info :- MemberRefInfo(cp, ci, ni);
      Ok(InterfaceMethodRef(info.0, info.1, info.2))
    case _ => Ok(NoConstant)
  }

  /** The loop of `newConstantPool` from index i on; `acc` holds the entries
      before i. A Long or Double leaves the next index empty and skips it. */
  function ConvertEntries(cp: ConstantPool, i: nat, acc: Pool): (r: Result<Pool>)
    requires |acc| == i <= |cp|
    ensures r.Ok? ==> |r.value| == |cp| && r.value[..i] == acc
    decreases |cp| - i
  {
    if i == |cp| then Ok(acc)
    else
      var c :- ConvertEntry(cp, cp[i]);
      if cp[i].IsWide() && i + 1 < |cp| then
        var r := ConvertEntries(cp, i + 2, acc + [c, NoConstant]);
        assert r.Ok? ==> r.value[..i] == (r.value[..i + 2])[..i];
        r
      else
        var r := ConvertEntries(cp, i + 1, acc + [c]);
        assert r.Ok? ==> r.value[..i] == (r.value[..i + 1])[..i];
        r
  }

  /** `newConstantPool`: same length as the class-file pool, index 0 empty. */
  function NewConstantPool(cp: ConstantPool): (r: Result<Pool>)
    ensures r.Ok? ==> |r.value| == |cp|
    ensures r.Ok? && |cp| > 0 ==> r.value[0] == NoConstant
  {
    if |cp| == 0 then Ok([])
    else
      var r := ConvertEntries(cp, 1, [NoConstant]);
      assert r.Ok? ==> r.value[0] == r.value[..1][0];
      r
  }

  /** On a pool as read from a class file, the conversion succeeds exactly when
      every entry converts, and then each index holds its entry's run-time form;
      in particular the index after a Long or Double is empty. */
  lemma {:induction false} ConvertEntriesSpec(cp: ConstantPool, i: nat, acc: Pool)
    requires WellFormed(cp) && 1 <= i && |acc| == i <= |cp|
    ensures ConvertEntries(cp, i, acc).Ok? <==> forall k :: i <= k < |cp| ==> ConvertEntry(cp, cp[k]).Ok?
    ensures ConvertEntries(cp, i, acc).Ok? ==>
      forall k :: i <= k < |cp| ==> ConvertEntries(cp, i, acc).value[k] == ConvertEntry(cp, cp[k]).value
    decreases |cp| - i
  {
    if i < |cp| {
      var c := ConvertEntry(cp, cp[i]);
      if c.Ok? {
        if cp[i].IsWide() && i + 1 < |cp| {
          var acc' := acc + [c.value, NoConstant];
          ConvertEntriesSpec(cp, i + 2, acc');
          var r := ConvertEntries(cp, i, acc);
          assert cp[i + 1].Empty?;
          assert ConvertEntry(cp, cp[i + 1]) == Ok(NoConstant);
          if r.Ok? {
            assert r.value[i] == r.value[..i + 2][i] == acc'[i];
            assert r.value[i + 1] == r.value[..i + 2][i + 1] == acc'[i + 1];
          }
        } else {
          var acc' := acc + [c.value];
          ConvertEntriesSpec(cp, i + 1, acc');
          var r := ConvertEntries(cp, i, acc);
          if r.Ok? {
            assert r.value[i] == r.value[..i + 1][i] == acc'[i];
          }
        }
      }
    }
  }

  lemma NewConstantPoolSpec(cp: ConstantPool)
    requires WellFormed(cp) && |cp| > 0
    ensures NewConstantPool(cp).Ok? <==> forall k :: 1 <= k < |cp| ==> ConvertEntry(cp, cp[k]).Ok?
    ensures NewConstantPool(cp).Ok? ==>
      forall k :: 1 <= k < |cp| ==> NewConstantPool(cp).value[k] == ConvertEntry(cp, cp[k]).value
  {
    ConvertEntriesSpec(cp, 1, [NoConstant]);
  }

  /** `GetConstant`: the non-empty entry at index, or a panic naming the index. */
  function GetConstant(pool: Pool, index: nat): (r: Result<Constant>)
    ensures r.Ok? <==> index < |pool| && !pool[index].NoConstant?
    ensures r.Ok? ==> r.value == pool[index]
    ensures index < |pool| && pool[index].NoConstant? ==>
      r == Err(Panic("No constants at index " + Decimal.NatToString(index)))
  {
    if index >= |pool| then Err(OutOfRange)
    else if pool[index].NoConstant? then Err(Panic("No constants at index " + Decimal.NatToString(index)))
    else Ok(pool[index])
  }
}

=== FILE: slots.dfy ===
/** Slots: the unit of storage of local variables, static variables and
    instance fields. A slot holds a 32-bit number and a reference; a long or a
    double takes two consecutive slots, low half first, and a float or double
    is kept as its IEEE 754 bit pattern.

    Go panics on an index outside the slice; here that is `Err(OutOfRange)`. */
module Slots {
  import opened Wrappers
  import opened MachineInts

  /** A reference: null or the address of an object in the heap. */
  datatype Ref = Null | Addr(address: nat)

  datatype Slot = Slot(num: i32, ref: Ref)

  const ZeroSlot := Slot(0, Null)

  type Slots = seq<Slot>

  // ---------------------------------------------------------------------------
  // Two-slot encoding of 64-bit values

  /** The two 32-bit halves `int32(v)` and `int32(v >> 32)` of a long. */
  function LongToHalves(v: i64): (r: (i32, i32))
  {
    // for a positive divisor Dafny's division rounds down, as an arithmetic shift does
    (Wrap32(v), Wrap32(v / TWO_32))
  }

  /** `int64(uint32(high)) << 32 | int64(uint32(low))` */
  function HalvesToLong(low: i32, high: i32): (r: i64)
  {
    Wrap64(ToU32(high) * TWO_32 + ToU32(low))
  }

  /** Splitting a long into halves and joining them gives the long back. */
  lemma LongHalvesRoundTrip(v: i64)
    ensures HalvesToLong(LongToHalves(v).0, LongToHalves(v).1) == v
  {
    var q := v / TWO_32;
    var r := v % TWO_32;
    assert v == q * TWO_32 + r;
    assert ToU32(Wrap32(v)) == r;
    assert Wrap32(q) == q;
    if q < 0 {
      assert ToU32(q) == q + TWO_32;
      assert ToU32(q) * TWO_32 + r == v + TWO_64;
    } else {
      assert ToU32(q) * TWO_32 + r == v;
    }
  }

  /** Joining two halves and splitting the long gives the halves back, so the
      encoding is a bijection between longs and pairs of ints. */
  lemma HalvesLongRoundTrip(low: i32, high: i32)
    ensures LongToHalves(HalvesToLong(low, high)) == (low, high)
  {
    var h := ToU32(high);
    var l := ToU32(low);
    var x := h * TWO_32 + l;
    var v := HalvesToLong(low, high);
    assert 0 <= x < TWO_64;
    if high >= 0 {
      assert h == high && x < TWO_63 && v == x;
      assert v / TWO_32 == high;
    } else {
      assert h == high + TWO_32 && x >= TWO_63 && v == x - TWO_64;
      assert v == high * TWO_32 + l;
      assert v / TWO_32 == high;
    }
    assert v % TWO_32 == l;
    assert Wrap32(l) == low;
  }

  // ---------------------------------------------------------------------------
  // Slot vectors

  /** `newSlots(count)`: count zero slots. */
  function NewSlots(count: nat): (r: Slots)
    ensures |r| == count && forall i :: 0 <= i < count ==> r[i] == ZeroSlot
  {
    seq(count, _ => ZeroSlot)
  }

  /** `newLocalVars(maxLocals)`: maxLocals + 1 zero slots when maxLocals > 0, and
      none otherwise. */
  function NewLocalVars(maxLocals: nat): (r: Slots)
    ensures maxLocals > 0 ==> |r| == maxLocals + 1
    ensures maxLocals == 0 ==> r == []
    ensures forall i :: 0 <= i < |r| ==> r[i] == ZeroSlot
  {
    if maxLocals > 0 then NewSlots(maxLocals + 1) else []
  }

  function SetInt(vars: Slots, index: nat, v: i32): (r: Result<Slots>)
    ensures r.Ok? <==> index < |vars|
    ensures r.Ok? ==> |r.value| == |vars| && r.value[index] == vars[index].(num := v)
    ensures r.Ok? ==> forall j :: 0 <= j < |vars| && j != index ==> r.value[j] == vars[j]
  {
    if index < |vars| then Ok(vars[index := vars[index].(num := v)]) else Err(OutOfRange)
  }

  function GetInt(vars: Slots, index: nat): (r: Result<i32>)
    ensures r.Ok? <==> index < |vars|
  {
    if index < |vars| then Ok(vars[index].num) else Err(OutOfRange)
  }

  /** `SetFloat` stores the float's bit pattern reinterpreted as an int32. */
  function SetFloat(vars: Slots, index: nat, bits: u32): (r: Result<Slots>)
    ensures r.Ok? <==> index < |vars|
    ensures r.Ok? ==> |r.value| == |vars| && ToU32(r.value[index].num) == bits
    ensures r.Ok? ==> r.value[index].ref == vars[index].ref
    ensures r.Ok? ==> forall j :: 0 <= j < |vars| && j != index ==> r.value[j] == vars[j]
  {
    U32RoundTrip(0, bits);
    SetInt(vars, index, Wrap32(bits))
  }

  function GetFloat(vars: Slots, index: nat): (r: Result<u32>)
    ensures r.Ok? <==> index < |vars|
  {
    var n :- GetInt(vars, index);
    Ok(ToU32(n))
  }

  /** `SetLong`: the low half at index, the high half at index + 1. */
  function SetLong(vars: Slots, index: nat, v: i64): (r: Result<Slots>)
    ensures r.Ok? <==> index + 1 < |vars|
    ensures r.Ok? ==> |r.value| == |vars|
    ensures r.Ok? ==> r.value[index] == vars[index].(num := LongToHalves(v).0)
    ensures r.Ok? ==> r.value[index + 1] == vars[index + 1].(num := LongToHalves(v).1)
    ensures r.Ok? ==> forall j :: 0 <= j < |vars| && j != index && j != index + 1 ==> r.value[j] == vars[j]
  {
    var (low, high) := LongToHalves(v);
    var vars1 :- SetInt(vars, index, low);
    SetInt(vars1, index + 1, high)
  }

  function GetLong(vars: Slots, index: nat): (r: Result<i64>)
    ensures r.Ok? <==> index + 1 < |vars|
    ensures r.Ok? ==> r.value == HalvesToLong(vars[index].num, vars[index + 1].num)
  {
    var low :- GetInt(vars, index);
    var high :- GetInt(vars, index + 1);
    Ok(HalvesToLong(low, high))
  }

  /** `SetDouble` stores the bit pattern as a long. */
  function SetDouble(vars: Slots, index: nat, bits: u64): (r: Result<Slots>)
    ensures r.Ok? <==> index + 1 < |vars|
    ensures r.Ok? ==> |r.value| == |vars|
    ensures r.Ok? ==> r.value[index] == vars[index].(num := LongToHalves(Wrap64(bits)).0)
    ensures r.Ok? ==> r.value[index + 1] == vars[index + 1].(num := LongToHalves(Wrap64(bits)).1)
    ensures r.Ok? ==> forall j :: 0 <= j < |vars| && j != index && j != index + 1 ==> r.value[j] == vars[j]
  {
    SetLong(vars, index, Wrap64(bits))
  }

  function GetDouble(vars: Slots, index: nat): (r: Result<u64>)
    ensures r.Ok? <==> index + 1 < |vars|
  {
    var v :- GetLong(vars, index);
    Ok(ToU64(v))
  }

  function SetRef(vars: Slots, index: nat, ref: Ref): (r: Result<Slots>)
    ensures r.Ok? <==> index < |vars|
    ensures r.Ok? ==> |r.value| == |vars| && r.value[index] == vars[index].(ref := ref)
    ensures r.Ok? ==> forall j :: 0 <= j < |vars| && j != index ==> r.value[j] == vars[j]
  {
    if index < |vars| then Ok(vars[index := vars[index].(ref := ref)]) else Err(OutOfRange)
  }

  function GetRef(vars: Slots, index: nat): (r: Result<Ref>)
    ensures r.Ok? <==> index < |vars|
  {
    if index < |vars| then Ok(vars[index].ref) else Err(OutOfRange)
  }

  /** `SetSlot` replaces one whole slot. */
  function SetSlot(vars: Slots, index: nat, slot: Slot): (r: Result<Slots>)
    ensures r.Ok? <==> index < |vars|
    ensures r.Ok? ==> r.value == vars[index := slot]
  {
    if index < |vars| then Ok(vars[index := slot]) else Err(OutOfRange)
  }

  /** `GetThis` is the reference in slot 0. */
  function GetThis(vars: Slots): (r: Result<Ref>)
    ensures r.Ok? <==> |vars| > 0
    ensures r.Ok? ==> r.value == vars[0].ref
  {
    GetRef(vars, 0)
  }

  // ---------------------------------------------------------------------------
  // Each setter is undone by its getter

  lemma IntRoundTrip(vars: Slots, index: nat, v: i32)
    requires index < |vars|
    ensures GetInt(SetInt(vars, index, v).value, index) == Ok(v)
    ensures SetInt(vars, index, v).value[index].ref == vars[index].ref
  {
  }

  lemma FloatRoundTrip(vars: Slots, index: nat, bits: u32)
    requires index < |vars|
    ensures GetFloat(SetFloat(vars, index, bits).value, index) == Ok(bits)
  {
  }

  lemma LongRoundTrip(vars: Slots, index: nat, v: i64)
    requires index + 1 < |vars|
    ensures GetLong(SetLong(vars, index, v).value, index) == Ok(v)
  {
    LongHalvesRoundTrip(v);
  }

  lemma DoubleRoundTrip(vars: Slots, index: nat, bits: u64)
    requires index + 1 < |vars|
    ensures GetDouble(SetDouble(vars, index, bits).value, index) == Ok(bits)
  {
    LongRoundTrip(vars, index, Wrap64(bits));
    U64RoundTrip(0, bits);
  }

  lemma RefRoundTrip(vars: Slots, index: nat, ref: Ref)
    requires index < |vars|
    ensures GetRef(SetRef(vars, index, ref).value, index) == Ok(ref)
    ensures SetRef(vars, index, ref).value[index].num == vars[index].num
    ensures GetThis(SetRef(vars, 0, ref).value) == Ok(ref)
  {
  }
}

=== FILE: stack_instructions.dfy ===
/** The stack instructions SWAP, POP and POP2, the constant pushes BIPUSH and
    SIPUSH, and the int loads ILOAD and ILOAD_0 to ILOAD_3. */
module StackInstructions {
  import opened Wrappers
  import opened MachineInts
  import opened Slots
  import opened Frames
  import opened ClassReader
  import opened Bytecode
  import opened MathInstructions

  // ---------------------------------------------------------------------------
  // SWAP, POP, POP2

  /** SWAP: pops slot1 and slot2 and pushes them back in the other order, so
      the top two slots are exchanged and the rest of the frame is kept. */
  function ExecSwap(f: Frame): (r: Result<Frame>)
    ensures StackFits(f.stack) ==> (r.Ok? <==> |f.stack.slots| >= 2)
    ensures r.Ok? ==> |f.stack.slots| >= 2 && StackEffect(f, r.value, 2, [SlotFromTop(f.stack, 0), SlotFromTop(f.stack, 1)])
  {
    var p1 :- PopSlot(f.stack);
    var p2 :- PopSlot(p1.1);
    var s1 :- PushSlot(p2.1, p1.0);
    var s2 :- PushSlot(s1, p2.0);
    Ok(f.(stack := s2))
  }

  /** SWAP twice restores the frame. */
  lemma SwapTwice(f: Frame)
    requires StackFits(f.stack) && |f.stack.slots| >= 2
    ensures ExecSwap(f).Ok? && ExecSwap(ExecSwap(f).value) == Ok(f)
  {
  }

  /** POP: drops the top slot. */
  function ExecPop(f: Frame): (r: Result<Frame>)
    ensures r.Ok? <==> |f.stack.slots| >= 1
    ensures r.Ok? ==> StackEffect(f, r.value, 1, [])
  {
    var p :- PopSlot(f.stack);
    Ok(f.(stack := p.1))
  }

  /** POP2: drops the top two slots. */
  function ExecPop2(f: Frame): (r: Result<Frame>)
    ensures r.Ok? <==> |f.stack.slots| >= 2
    ensures r.Ok? ==> StackEffect(f, r.value, 2, [])
  {
    var p1 :- PopSlot(f.stack);
    var p2 :- PopSlot(p1.1);
    Ok(f.(stack := p2.1))
  }

  /** POP2 is POP done twice, and fails exactly when that does. */
  lemma Pop2IsTwoPops(f: Frame)
    ensures ExecPop2(f) == (var g :- ExecPop(f); ExecPop(g))
  {
  }

  // ---------------------------------------------------------------------------
  // BIPUSH, SIPUSH

  /** `BIPUSH.FetchOperands`: one signed byte. */
  function FetchBipush(r: Reader): (res: Result<(i32, Reader)>)
    ensures res.Ok? <==> Available(r, 1)
    ensures res.Ok? ==> -128 <= res.value.0 <= 127 && ToU8(res.value.0) == r.code[r.pc]
    ensures res.Ok? ==> res.value.1 == r.(pc := r.pc + 1)
  {
    var b :- ReadInt8(r);
    Ok((b.0 as i32, b.1))
  }

  /** `SIPUSH.FetchOperands`: a signed big-endian 16-bit value. */
  function FetchSipush(r: Reader): (res: Result<(i32, Reader)>)
    ensures res.Ok? <==> Available(r, 2)
    ensures res.Ok? ==> -32768 <= res.value.0 <= 32767 && Ahead(r, 2) == Bytes(ToU16(res.value.0), 2)
    ensures res.Ok? ==> res.value.1 == r.(pc := r.pc + 2)
  {
    var s :- ReadInt16(r);
    Ok((s.0 as i32, s.1))
  }

  /** `BIPUSH.Execute` and `SIPUSH.Execute`: push the fetched value, one slot
      more. */
  function ExecPushInt(f: Frame, v: i32): (r: Result<Frame>)
    ensures r.Ok? <==> |f.stack.slots| < f.stack.maxStack
    ensures r.Ok? ==> StackEffect(f, r.value, 0, [IntSlot(v)])
  {
    var s :- PushInt(f.stack, v);
    Ok(f.(stack := s))
  }

  /** What is pushed is the value on top, and popping it restores the frame. */
  lemma PushThenPop(f: Frame, v: i32)
    requires |f.stack.slots| < f.stack.maxStack
    ensures IntFromTop(ExecPushInt(f, v).value.stack, 0) == v
    ensures ExecPop(ExecPushInt(f, v).value) == Ok(f)
  {
  }

  // ---------------------------------------------------------------------------
  // ILOAD, ILOAD_<n>

  /** `_iload`: pushes the int in local `index`; the locals are not changed. */
  function ExecIload(f: Frame, index: nat): (r: Result<Frame>)
    ensures r.Ok? <==> index < |f.localVars| && |f.stack.slots| < f.stack.maxStack
    ensures r.Ok? ==> StackEffect(f, r.value, 0, [IntSlot(f.localVars[index].num)])
  {
    var v :- GetInt(f.localVars, index);
    var s :- PushInt(f.stack, v);
    Ok(f.(stack := s))
  }

  // ---------------------------------------------------------------------------
  // Instructions together

  /** Loading a local after IINC pushes the incremented value. */
  lemma IincThenIload(f: Frame, index: nat, c: i8)
    requires index < |f.localVars| && |f.stack.slots| < f.stack.maxStack
    ensures ExecIinc(f, index, c).Ok? && ExecIload(ExecIinc(f, index, c).value, index).Ok?
    ensures IntFromTop(ExecIload(ExecIinc(f, index, c).value, index).value.stack, 0) == Wrap32(f.localVars[index].num + c)
  {
  }

  /** IXOR and IOR give the same frame whether or not the operands were
      swapped first. */
  lemma BitOpsIgnoreSwap(f: Frame, op: IntOp)
    requires op == IXor || op == IOr
    requires StackFits(f.stack) && |f.stack.slots| >= 2
    ensures ExecSwap(f).Ok? && ExecIntOp(ExecSwap(f).value, op) == ExecIntOp(f, op)
  {
    var n := |f.stack.slots|;
    var g := ExecSwap(f).value;
    IntBitOps(IntFromTop(f.stack, 0), IntFromTop(f.stack, 1));
    assert g.stack.slots[..n - 2] == f.stack.slots[..n - 2];
  }
}

=== FILE: string_pool.dfy ===
/** The string pool: Java `String` objects whose `value` field holds a `char[]`
    of UTF-16 units, and the table `interned` from contents to the canonical
    object. `JString`, which creates strings and so loads classes, is part of
    the class loader. */
module StringPool {
  import opened Wrappers
  import opened MachineInts
  import opened Slots
  import opened Heaps
  import Utf16
  import Utf8

  /** The UTF-16 units of a Java string: the `char[]` its `value` field
      refers to. A null `value` is a nil dereference and a `value` that is not
      a `char[]` a failed type assertion. */
  function StringChars(h: Heap, jStr: Ref): (r: Result<seq<u16>>)
    requires Valid(h)
    ensures r.Ok? ==> jStr.Addr? && jStr.address < |h.objects|
    ensures r.Ok? ==> GetRefVar(h, jStr, "value", "[C").Ok?
    ensures r.Ok? ==> var v := GetRefVar(h, jStr, "value", "[C").value;
      v.Addr? && v.address < |h.objects| && h.objects[v.address].data == CharArray(r.value)
  {
    var value :- GetRefVar(h, jStr, "value", "[C");
    var arr :- Deref(h, value);
    if arr.data.CharArray? then Ok(arr.data.chars) else Err(BadAssertion)
  }

  /** `GoString`: the contents of a Java string as a Go string, its UTF-16
      units decoded into runes and the runes written as UTF-8. */
  function GoString(h: Heap, jStr: Ref): (r: Result<string>)
    requires Valid(h)
    ensures r.Ok? <==> StringChars(h, jStr).Ok?
    ensures r.Ok? ==> Utf8.Valid(r.value) && Utf8.Decode(r.value) == Utf16.Decode(StringChars(h, jStr).value)
  {
    var u :- StringChars(h, jStr);
    Utf8.DecodeEncode(Utf16.Decode(u));
    Ok(Utf8.Encode(Utf16.Decode(u)))
  }

  /** The pooled string of s, if any, is an object whose contents are s. */
  predicate Pooled(h: Heap, s: string)
    requires Valid(h)
  {
    s in h.interned ==> GoString(h, h.interned[s]) == Ok(s)
  }

  /** Every interned string is an object whose contents are its key. */
  ghost predicate InternConsistent(h: Heap)
    requires Valid(h)
  {
    forall s :: Pooled(h, s)
  }

  /** A string read from a heap reads the same in every heap that grows from
      it: its object, its array and the classes on its chain are kept. */
  lemma GoStringStable(h: Heap, h': Heap, jStr: Ref)
    requires Valid(h) && Valid(h') && Grows(h, h') && GoString(h, jStr).Ok?
    ensures GoString(h', jStr) == GoString(h, jStr)
  {
    var o := h.objects[jStr.address];
    assert h'.objects[jStr.address] == o;
    GetFieldStable(h.classes, h'.classes, o.classId, "value", "[C", Some(false));
    var v := GetRefVar(h, jStr, "value", "[C").value;
    assert h'.objects[v.address] == h.objects[v.address];
    assert StringChars(h', jStr) == StringChars(h, jStr);
  }

  /** A string's contents depend on the classes and the objects only. */
  lemma GoStringIgnoresPool(h: Heap, h': Heap, jStr: Ref)
    requires Valid(h) && Valid(h') && h'.classes == h.classes && h'.objects == h.objects
    ensures GoString(h', jStr) == GoString(h, jStr)
  {
  }

  /** Growing the heap without touching the pool keeps the pool consistent. */
  lemma InternConsistentGrows(h: Heap, h': Heap)
    requires Valid(h) && Valid(h') && Grows(h, h') && h'.interned == h.interned
    requires InternConsistent(h)
    ensures InternConsistent(h')
  {
    forall s
      ensures Pooled(h', s)
    {
      if s in h'.interned {
        assert Pooled(h, s);
        GoStringStable(h, h', h.interned[s]);
      }
    }
  }

  /** Adding to the pool a string whose contents are its key keeps the pool
      consistent. */
  lemma InternConsistentAdd(h: Heap, s: string, jStr: Ref)
    requires Valid(h) && InternConsistent(h) && GoString(h, jStr) == Ok(s)
    ensures Valid(h.(interned := h.interned[s := jStr]))
    ensures InternConsistent(h.(interned := h.interned[s := jStr]))
  {
    var h' := SetInterned(h, s, jStr);
    forall t
      ensures Pooled(h', t)
    {
      if t in h'.interned {
        assert Pooled(h, t);
        GoStringIgnoresPool(h, h', h'.interned[t]);
      }
    }
  }

  /** `InternString`: the pooled string with the same contents, or the string
      itself, which then joins the pool. */
  function InternString(h: Heap, jStr: Ref): (r: Result<(Ref, Heap)>)
    requires Valid(h)
    ensures r.Ok? <==> GoString(h, jStr).Ok?
    ensures r.Ok? ==> Valid(r.value.1) && Grows(h, r.value.1)
    ensures r.Ok? ==> r.value.1.classes == h.classes && r.value.1.objects == h.objects && r.value.1.states == h.states
    ensures r.Ok? ==> var s := GoString(h, jStr).value;
      s in r.value.1.interned && r.value.1.interned[s] == r.value.0 &&
      (s in h.interned ==> r.value == (h.interned[s], h)) &&
      (s !in h.interned ==> r.value == (jStr, h.(interned := h.interned[s := jStr])))
  {
    var s :- GoString(h, jStr);
    if s in h.interned then Ok((h.interned[s], h))
    else Ok((jStr, SetInterned(h, s, jStr)))
  }

  /** In a consistent pool, interning gives a string with the same contents and
      keeps the pool consistent. */
  lemma InternStringContents(h: Heap, jStr: Ref)
    requires Valid(h) && InternConsistent(h) && GoString(h, jStr).Ok?
    ensures var r := InternString(h, jStr).value;
      InternConsistent(r.1) && GoString(r.1, r.0) == GoString(h, jStr)
  {
    var s := GoString(h, jStr).value;
    if s !in h.interned {
      InternConsistentAdd(h, s, jStr);
    } else {
      assert Pooled(h, s);
    }
  }

  /** Interning is idempotent: interning the result again returns it and
      changes nothing. */
  lemma InternStringIdempotent(h: Heap, jStr: Ref)
    requires Valid(h) && InternConsistent(h) && GoString(h, jStr).Ok?
    ensures var r := InternString(h, jStr).value;
      InternString(r.1, r.0) == Ok(r)
  {
    InternStringContents(h, jStr);
  }

  /** Two strings with the same contents intern to the same object. */
  lemma InternStringCanonical(h: Heap, a: Ref, b: Ref)
    requires Valid(h) && InternConsistent(h) && GoString(h, a).Ok? && GoString(h, a) == GoString(h, b)
    ensures var ra := InternString(h, a).value;
      InternString(ra.1, b).Ok? && InternString(ra.1, b).value.0 == ra.0
  {
  }
}

=== FILE: throw_instruction.dfy ===
/** ATHROW: the exception object is popped and the frame stack unwound, from
    the current frame down, to the first frame whose method has a handler
    for the exception at the instruction that frame is executing; a frame
    without one is popped. When no frame has one the stack ends empty and the
    exception's message is read; printing it and the stack trace is not part
    of this model. */
module ThrowInstruction {
  import opened Wrappers
  import opened Slots
  import opened ClassMembers
  import opened Heaps
  import opened ClassHierarchy
  import opened ClassLoader
  import opened Resolution
  import opened Frames
  import opened ReferenceInstructions
  import opened StringPool

  // ---------------------------------------------------------------------------
  // The handler search of one frame

  /** Every frame runs a method of a loaded class. */
  predicate FramesValid(h: Heap, t: Thread) {
    forall j :: 0 <= j < |t.stack.frames| ==> KeyValid(h.classes, t.stack.frames[j].methodKey, true)
  }

  function Table(h: Heap, f: Frame): seq<ExceptionHandler>
    requires KeyValid(h.classes, f.methodKey, true)
  {
    MethodAt(h.classes, f.methodKey).exceptionTable
  }

  /** The pc a frame is searched at: the instruction before its next pc,
      which is the instruction the frame is executing. */
  function ThrowPC(f: Frame): int {
    f.nextPC - 1
  }

  /** Handler i of f's method is the one the search finds for class ex: it
      covers the frame's pc and catches ex, and no handler before it does. */
  predicate CaughtAt(h: Heap, f: Frame, ex: ClassId, i: nat)
    requires Valid(h) && KeyValid(h.classes, f.methodKey, true) && ex < |h.classes|
  {
    var table := Table(h, f);
    && i < |table|
    && Covers(table[i], ThrowPC(f))
    && Catches(h, f.methodKey.owner, table[i], ex)
    && NoHandlerBefore(h, f.methodKey.owner, table, ex, ThrowPC(f), i)
  }

  /** Frame f does not take the exception: no handler of its method catches
      ex at its pc, or the one that does starts at pc 0, which the Go code
      takes for none. */
  predicate Passes(h: Heap, f: Frame, ex: ClassId)
    requires Valid(h) && KeyValid(h.classes, f.methodKey, true) && ex < |h.classes|
  {
    || NoHandlerBefore(h, f.methodKey.owner, Table(h, f), ex, ThrowPC(f), |Table(h, f)|)
    || exists i: nat :: i < |Table(h, f)| && CaughtAt(h, f, ex, i) && Table(h, f)[i].handlerPc <= 0
  }

  /** A handler cannot both catch and reject a class. */
  lemma NotBoth(h: Heap, d: ClassId, e: ExceptionHandler, ex: ClassId)
    requires Valid(h) && d < |h.classes| && ex < |h.classes|
    ensures !(Catches(h, d, e, ex) && Rejects(h, d, e, ex))
  {
  }

  /** The search finds at most one handler. */
  lemma CaughtUnique(h: Heap, f: Frame, ex: ClassId, i: nat, k: nat)
    requires Valid(h) && KeyValid(h.classes, f.methodKey, true) && ex < |h.classes|
    requires CaughtAt(h, f, ex, i) && CaughtAt(h, f, ex, k)
    ensures i == k
  {
  }

  /** A frame whose search finds a handler with a positive pc does not pass
      the exception on. */
  lemma CaughtNotPasses(h: Heap, f: Frame, ex: ClassId, i: nat)
    requires Valid(h) && KeyValid(h.classes, f.methodKey, true) && ex < |h.classes|
    requires CaughtAt(h, f, ex, i) && Table(h, f)[i].handlerPc > 0
    ensures !Passes(h, f, ex)
  {
  }

  /** Resolution in class d keeps every class's resolved class references:
      d's grow and the others' are untouched. */
  lemma ClassRefsGrowAll(h: Heap, h': Heap, d: ClassId, e: ClassId)
    requires CachesGrow(h, h', d) && e < |h.states|
    ensures ClassRefsGrow(h, h', e)
  {
  }

  /** A handler keeps catching a class while classes are loaded and caches
      filled in. */
  lemma CatchesKept(h: Heap, h': Heap, d: ClassId, e: ExceptionHandler, ex: ClassId)
    requires Valid(h) && Valid(h') && Grows(h, h') && ClassRefsGrow(h, h', d)
    requires d < |h.classes| && ex < |h.classes| && Catches(h, d, e, ex)
    ensures Catches(h', d, e, ex)
  {
    if e.catchType.Some? {
      SubClassStable(h.classes, h'.classes, ex, h.states[d].classRefs[e.catchType.value]);
    }
  }

  /** A frame keeps passing the exception on while classes are loaded and
      caches filled in. */
  lemma PassesKept(h: Heap, h': Heap, f: Frame, ex: ClassId)
    requires Valid(h) && Valid(h') && Grows(h, h') && ClassRefsGrow(h, h', f.methodKey.owner)
    requires KeyValid(h.classes, f.methodKey, true) && ex < |h.classes| && Passes(h, f, ex)
    ensures Passes(h', f, ex)
  {
    var d := f.methodKey.owner;
    var table := Table(h, f);
    assert Table(h', f) == table;
    if NoHandlerBefore(h, d, table, ex, ThrowPC(f), |table|) {
      HandlerStep(h, h', d, table, ex, ThrowPC(f), |table|);
    } else {
      var i: nat :| i < |table| && CaughtAt(h, f, ex, i) && table[i].handlerPc <= 0;
      CatchesKept(h, h', d, table[i], ex);
      HandlerStep(h, h', d, table, ex, ThrowPC(f), i);
      assert CaughtAt(h', f, ex, i);
    }
  }

  /** The frames from m up to n keep passing the exception on after a
      resolution in class d. */
  lemma FramesPassKept(h: Heap, h': Heap, frames: seq<Frame>, m: nat, ex: ClassId, d: ClassId)
    requires Valid(h) && Valid(h') && Grows(h, h') && CachesGrow(h, h', d) && ex < |h.classes|
    requires m <= |frames| && forall j :: 0 <= j < |frames| ==> KeyValid(h.classes, frames[j].methodKey, true)
    requires forall j :: m <= j < |frames| ==> Passes(h, frames[j], ex)
    ensures forall j :: m <= j < |frames| ==> KeyValid(h'.classes, frames[j].methodKey, true) && Passes(h', frames[j], ex)
  {
    forall j | m <= j < |frames|
      ensures KeyValid(h'.classes, frames[j].methodKey, true) && Passes(h', frames[j], ex)
    {
      ClassRefsGrowAll(h, h', d, frames[j].methodKey.owner);
      PassesKept(h, h', frames[j], ex);
    }
  }

  /** The search of frame f may fail: a catch type of its method does not
      name a class reference, or the search has a catch class to resolve. */
  ghost predicate SearchMayFail(h: Heap, f: Frame)
    requires KeyValid(h.classes, f.methodKey, true)
  {
    || !CatchTypesAt(h, f.methodKey.owner, Table(h, f))
    || exists j :: ResolvesAt(Table(h, f), ThrowPC(f), j)
  }

  /** A round of unwinding at frame f may fail: its search may, or the frame
      has no room on its operand stack for the exception. */
  ghost predicate FrameMayFail(h: Heap, f: Frame)
    requires KeyValid(h.classes, f.methodKey, true)
  {
    SearchMayFail(h, f) || f.stack.maxStack == 0
  }

  /** Whether a frame's round may fail depends only on class definitions,
      which loading keeps. */
  lemma FrameMayFailKept(h: Heap, h': Heap, f: Frame)
    requires Grows(h, h') && KeyValid(h.classes, f.methodKey, true)
    ensures KeyValid(h'.classes, f.methodKey, true)
    ensures FrameMayFail(h', f) ==> FrameMayFail(h, f)
  {
  }

  /** `FindExceptionHandler` of a frame's method: the handler pc of the
      handler the search finds, or -1 when there is none. Catch types that
      do not name a class reference of the pool, which `getCatchType` rules
      out, fail the type assertion. i is the index of the handler found. */
  method HandlerPC(defs: Defs, h: Heap, f: Frame, ex: ClassId) returns (r: Result<(int, Heap)>, ghost i: nat)
    requires Valid(h) && KeyValid(h.classes, f.methodKey, true) && ex < |h.classes|
    ensures !CatchTypesAt(h, f.methodKey.owner, Table(h, f)) ==> r == Err(BadAssertion)
    ensures r.Ok? ==> Step(defs, {}, h, r.value.1) && CachesGrow(h, r.value.1, f.methodKey.owner)
    ensures r.Ok? && r.value.0 > 0 ==> CaughtAt(r.value.1, f, ex, i) && Table(h, f)[i].handlerPc == r.value.0
    ensures r.Ok? && r.value.0 <= 0 ==> Passes(r.value.1, f, ex)
    ensures r.Err? ==> SearchMayFail(h, f)
  {
    i := 0;
    var d := f.methodKey.owner;
    var table := Table(h, f);
    if !CatchTypesAt(h, d, table) {
      return Err(BadAssertion), i;
    }
    var found := FindExceptionHandler(defs, h, d, table, ex, ThrowPC(f));
    if found.Err? {
      return Err(found.error), i;
    }
    var (handler, h1) := found.value;
    assert Table(h1, f) == table;
    if handler.None? {
      r := Ok((-1, h1));
    } else {
      i := handler.value;
      assert CaughtAt(h1, f, ex, i);
      r := Ok((table[handler.value].handlerPc, h1));
    }
  }

  // ---------------------------------------------------------------------------
  // Unwinding

  /** The frame that takes the exception: its operand stack holds just the
      exception, and it goes on at the handler. */
  function Caught(f: Frame, ex: Ref, handlerPc: int): (g: Frame)
    ensures g.methodKey == f.methodKey && g.localVars == f.localVars && g.stack.maxStack == f.stack.maxStack
  {
    f.(stack := f.stack.(slots := [Slot(0, ex)]), nextPC := handlerPc)
  }

  /** Frame k of t takes exception ex, of class exClass, at handler i in heap
      h, and t' is t with the frames above k popped: frame k's search finds
      handler i, whose pc is positive, and each frame above passes the
      exception on. */
  predicate TakenAt(h: Heap, t: Thread, ex: Ref, exClass: ClassId, t': Thread, k: nat, i: nat)
    requires Valid(h) && FramesValid(h, t) && exClass < |h.classes|
  {
    var fs := t.stack.frames;
    && k < |fs| && CaughtAt(h, fs[k], exClass, i)
    && Table(h, fs[k])[i].handlerPc > 0 && fs[k].stack.maxStack > 0
    && t'.stack.frames == fs[..k] + [Caught(fs[k], ex, Table(h, fs[k])[i].handlerPc)]
    && forall j :: k < j < |fs| ==> Passes(h, fs[j], exClass)
  }

  /** t' is thread t after throwing ex, of class exClass, in heap h: either
      some frame takes the exception, or every frame passes it on and is
      popped. */
  ghost predicate Thrown(h: Heap, t: Thread, ex: Ref, exClass: ClassId, t': Thread)
    requires Valid(h) && FramesValid(h, t) && exClass < |h.classes|
  {
    var fs := t.stack.frames;
    && t'.pc == t.pc && t'.stack.maxSize == t.stack.maxSize
    && (|| (t'.stack.frames == [] && forall j :: 0 <= j < |fs| ==> Passes(h, fs[j], exClass))
        || exists k, i: nat :: TakenAt(h, t, ex, exClass, t', k, i))
  }

  /** The frame below the ones that pass the exception on passes it on
      too. */
  lemma PassesDown(h: Heap, fs: seq<Frame>, m: nat, ex: ClassId)
    requires Valid(h) && 0 < m <= |fs| && ex < |h.classes|
    requires forall j :: 0 <= j < |fs| ==> KeyValid(h.classes, fs[j].methodKey, true)
    requires Passes(h, fs[m - 1], ex) && forall j :: m <= j < |fs| ==> Passes(h, fs[j], ex)
    ensures forall j :: m - 1 <= j < |fs| ==> Passes(h, fs[j], ex)
  {
  }

  /** Two frames cannot both take the same exception. */
  lemma TakenUnique(h: Heap, t: Thread, ex: Ref, exClass: ClassId, t1: Thread, t2: Thread, k1: nat, i1: nat, k2: nat, i2: nat)
    requires Valid(h) && FramesValid(h, t) && exClass < |h.classes|
    requires TakenAt(h, t, ex, exClass, t1, k1, i1) && TakenAt(h, t, ex, exClass, t2, k2, i2)
    ensures k1 == k2 && i1 == i2 && t1.stack.frames == t2.stack.frames
  {
  }

  /** The frame that takes the exception does not pass it on. */
  lemma TakenBlocks(h: Heap, t: Thread, ex: Ref, exClass: ClassId, t': Thread, k: nat, i: nat)
    requires Valid(h) && FramesValid(h, t) && exClass < |h.classes|
    requires TakenAt(h, t, ex, exClass, t', k, i)
    ensures k < |t.stack.frames| && !Passes(h, t.stack.frames[k], exClass)
  {
  }

  /** Throwing has one outcome: the frame that takes the exception, and the
      handler it goes on at, are determined by the heap. */
  lemma ThrownUnique(h: Heap, t: Thread, ex: Ref, exClass: ClassId, t1: Thread, t2: Thread)
    requires Valid(h) && FramesValid(h, t) && exClass < |h.classes|
    requires Thrown(h, t, ex, exClass, t1) && Thrown(h, t, ex, exClass, t2)
    ensures t1 == t2
  {
  }

  /** One round of `findAndGotoExceptionHandler`: frame m - 1 searches its
      exception table. When a handler is found the frames above are dropped
      and the frame goes on at the handler with just the exception on its
      operand stack; otherwise the frame passes the exception on too. */
  method SearchFrame(defs: Defs, h: Heap, t: Thread, m: nat, ex: Ref, exClass: ClassId)
    returns (r: Result<Option<Thread>>, h': Heap, ghost i: nat)
    requires Valid(h) && FramesValid(h, t) && exClass < |h.classes| && 0 < m <= |t.stack.frames|
    requires forall j :: m <= j < |t.stack.frames| ==> Passes(h, t.stack.frames[j], exClass)
    ensures Step(defs, {}, h, h') && Valid(h') && FramesValid(h', t)
    ensures r.Ok? && r.value.Some? ==>
      && r.value.value.pc == t.pc && r.value.value.stack.maxSize == t.stack.maxSize
      && TakenAt(h', t, ex, exClass, r.value.value, m - 1, i)
    ensures r.Ok? && r.value.None? ==> forall j :: m - 1 <= j < |t.stack.frames| ==> Passes(h', t.stack.frames[j], exClass)
    ensures r.Err? ==> FrameMayFail(h, t.stack.frames[m - 1])
  {
    var fs := t.stack.frames;
    var g := fs[m - 1];
    h' := h;
    StepRefl(defs, {}, h);
    var found, hi := HandlerPC(defs, h, g, exClass);
    i := hi;
    if found.Err? {
      return Err(found.error), h, i;
    }
    var (handlerPc, next) := found.value;
    FramesPassKept(h, next, fs, m, exClass, g.methodKey.owner);
    h' := next;
    if handlerPc > 0 {
      var s :- PushRef(ClearStack(g.stack), ex);
      var t' := t.(stack := t.stack.(frames := fs[..m - 1] + [Caught(g, ex, handlerPc)]));
      assert TakenAt(next, t, ex, exClass, t', m - 1, i);
      return Ok(Some(t')), next, i;
    }
    PassesDown(next, fs, m, exClass);
    r := Ok(None);
  }

  /** `handleUncaughtException`: the stack is cleared and the exception's
      `detailMessage` read as a Go string, so a null message is the nil
      dereference `GoString` makes. The printing of the message and of the
      stack trace is not modelled. */
  function HandleUncaught(h: Heap, t: Thread, ex: Ref): (r: Result<Thread>)
    requires Valid(h)
    ensures GetRefVar(h, ex, "detailMessage", "Ljava/lang/String;") == Ok(Null) ==> r == Err(NilDeref)
    ensures r.Ok? <==>
      && GetRefVar(h, ex, "detailMessage", "Ljava/lang/String;").Ok?
      && StringChars(h, GetRefVar(h, ex, "detailMessage", "Ljava/lang/String;").value).Ok?
    ensures r.Ok? ==> r.value.stack.frames == [] && r.value.pc == t.pc && r.value.stack.maxSize == t.stack.maxSize
  {
    var msg :- GetRefVar(h, ex, "detailMessage", "Ljava/lang/String;");
    var _ :- GoString(h, msg);
    Ok(t.(stack := Clear(t.stack.(frames := []))))
  }

  /** ATHROW: pops the exception, which must not be null, and unwinds the
      frame stack (`findAndGotoExceptionHandler`); when no frame takes the
      exception, `handleUncaughtException` clears the stack, which is then
      already empty, and fails when the exception's message cannot be read.
      The heap changes only by the resolution of catch classes. */
  method ExecAthrow(defs: Defs, h: Heap, t: Thread) returns (r: Result<Thread>, h': Heap)
    requires Valid(h) && !IsStackEmpty(t) && FramesValid(h, t)
    ensures Step(defs, {}, h, h')
    ensures |Current(t).stack.slots| == 0 ==> r == Err(OutOfRange) && h' == h
    ensures |Current(t).stack.slots| > 0 && TopRef(Current(t)).Null? ==> r == Err(Panic(NullPointer)) && h' == h
    ensures r.Ok? ==>
      && |Current(t).stack.slots| > 0 && Deref(h, TopRef(Current(t))).Ok?
      && Deref(h, TopRef(Current(t))).value.classId < |h.classes|
      && FramesValid(h', t) && Valid(h')
      && Thrown(h', t, TopRef(Current(t)), Deref(h, TopRef(Current(t))).value.classId, r.value)
    ensures r.Ok? && r.value.stack.frames == [] ==> r == HandleUncaught(h', t, TopRef(Current(t)))
    ensures r.Err? ==>
      || |Current(t).stack.slots| == 0
      || TopRef(Current(t)).Null?
      || Deref(h, TopRef(Current(t))).Err?
      || (exists k :: 0 <= k < |t.stack.frames| && FrameMayFail(h, t.stack.frames[k]))
      || r == HandleUncaught(h', t, TopRef(Current(t)))
  {
    h' := h;
    StepRefl(defs, {}, h);
    var p :- PopRef(Current(t).stack);
    if p.0.Null? {
      r := Err(Panic(NullPointer));
      return;
    }
    assert p.0 == TopRef(Current(t));
    var o :- Deref(h, p.0);
    assert ObjectValid(o, |h.classes|);
    var ex, exClass := p.0, o.classId;
    var fs := t.stack.frames;
    var m := |fs|;
    var cur := h;
    while m > 0
      invariant 0 <= m <= |fs| && Step(defs, {}, h, cur) && FramesValid(cur, t)
      invariant forall j :: m <= j < |fs| ==> Passes(cur, fs[j], exClass)
      decreases m
    {
      var found, next, i := SearchFrame(defs, cur, t, m, ex, exClass);
      StepTrans(defs, {}, h, cur, next);
      if found.Err? {
        assert KeyValid(h.classes, fs[m - 1].methodKey, true);
        FrameMayFailKept(h, cur, fs[m - 1]);
      }
      if found.Err? || found.value.Some? {
        r := if found.Err? then Err(found.error) else Ok(found.value.value);
        h' := next;
        return;
      }
      cur := next;
      m := m - 1;
    }
    h' := cur;
    r := HandleUncaught(cur, t, ex);
  }
}

=== FILE: utf16.dfy ===
/** UTF-16, as Go's `unicode/utf16` package encodes and decodes it. A Dafny
    `char` is a Unicode scalar value, so the `string`s here are sequences of
    runes, Go's `[]rune`, which `Utf8` reads from and writes to Go strings. */
module Utf16 {
  import opened MachineInts

  const Surr1: int := 0xD800
  const Surr2: int := 0xDC00
  const Surr3: int := 0xE000
  const SurrSelf: int := 0x1_0000
  const Replacement: char := '\U{FFFD}'

  predicate IsHighSurrogate(u: u16) { Surr1 <= u < Surr2 }
  predicate IsLowSurrogate(u: u16) { Surr2 <= u < Surr3 }

  /** `utf16.EncodeRune` for one scalar value: one unit below U+10000, a
      surrogate pair above. */
  function EncodeChar(c: char): (r: seq<u16>)
    ensures |r| == 1 || |r| == 2
    ensures |r| == 1 <==> (c as int) < SurrSelf
    ensures |r| == 1 ==> r[0] == c as int && !IsHighSurrogate(r[0]) && !IsLowSurrogate(r[0])
    ensures |r| == 2 ==> IsHighSurrogate(r[0]) && IsLowSurrogate(r[1])
  {
    var v := c as int;
    if v < SurrSelf then [v]
    else
      var w := v - SurrSelf;
      [Surr1 + w / 0x400, Surr2 + w % 0x400]
  }

  /** `utf16.Encode` */
  function Encode(s: string): (r: seq<u16>)
    ensures |r| >= |s|
    decreases |s|
  {
    if |s| == 0 then [] else EncodeChar(s[0]) + Encode(s[1..])
  }

  /** `utf16.DecodeRune` of a high and a low surrogate. */
  function DecodePair(hi: u16, lo: u16): (c: char)
    requires IsHighSurrogate(hi) && IsLowSurrogate(lo)
    ensures (c as int) >= SurrSelf
  {
    (SurrSelf + (hi - Surr1) * 0x400 + (lo - Surr2)) as char
  }

  /** `utf16.Decode`: a unit outside the surrogate range is a character, a high
      surrogate followed by a low one is a pair, and any other surrogate
      becomes U+FFFD. */
  function Decode(u: seq<u16>): (s: string)
    ensures |s| <= |u|
    decreases |u|
  {
    if |u| == 0 then []
    else if u[0] < Surr1 || Surr3 <= u[0] then [u[0] as char] + Decode(u[1..])
    else if IsHighSurrogate(u[0]) && |u| > 1 && IsLowSurrogate(u[1]) then [DecodePair(u[0], u[1])] + Decode(u[2..])
    else [Replacement] + Decode(u[1..])
  }

  /** Units in which every surrogate is half of a high-low pair. */
  predicate WellFormed(u: seq<u16>)
    decreases |u|
  {
    if |u| == 0 then true
    else if IsHighSurrogate(u[0]) then |u| > 1 && IsLowSurrogate(u[1]) && WellFormed(u[2..])
    else !IsLowSurrogate(u[0]) && WellFormed(u[1..])
  }

  lemma EncodeDecodeChar(c: char, rest: seq<u16>)
    ensures Decode(EncodeChar(c) + rest) == [c] + Decode(rest)
  {
  }

  /** Decoding what was encoded gives the string back. */
  lemma {:induction false} DecodeEncode(s: string)
    ensures Decode(Encode(s)) == s
    decreases |s|
  {
    if |s| > 0 {
      EncodeDecodeChar(s[0], Encode(s[1..]));
      DecodeEncode(s[1..]);
    }
  }

  /** Encoding is well-formed, and on well-formed units it is undone by
      decoding, so the two are inverse bijections between strings and
      well-formed units. */
  lemma {:induction false} EncodeWellFormed(s: string)
    ensures WellFormed(Encode(s))
    decreases |s|
  {
    if |s| > 0 {
      EncodeWellFormed(s[1..]);
      var e := EncodeChar(s[0]);
      var u := e + Encode(s[1..]);
      if |e| == 1 {
        assert u[1..] == Encode(s[1..]);
      } else {
        assert u[2..] == Encode(s[1..]);
      }
    }
  }

  lemma {:induction false} EncodeDecode(u: seq<u16>)
    requires WellFormed(u)
    ensures Encode(Decode(u)) == u
    decreases |u|
  {
    if |u| > 0 {
      if IsHighSurrogate(u[0]) {
        EncodeDecode(u[2..]);
        var c := DecodePair(u[0], u[1]);
        assert Decode(u) == [c] + Decode(u[2..]);
        assert ([c] + Decode(u[2..]))[1..] == Decode(u[2..]);
        assert EncodeChar(c) == u[..2];
        assert u == u[..2] + u[2..];
      } else {
        EncodeDecode(u[1..]);
        var c := u[0] as char;
        assert Decode(u) == [c] + Decode(u[1..]);
        assert ([c] + Decode(u[1..]))[1..] == Decode(u[1..]);
        assert u == [u[0]] + u[1..];
      }
    }
  }
}

=== FILE: utf8.dfy ===
/** UTF-8, as Go turns a string into runes (`[]rune(s)`, one
    `utf8.DecodeRune` after another) and runes back into a string
    (`string(runes)`). A Go string is a sequence of bytes, and the model
    writes it as a `string` with one character per byte: the characters of a
    Go string are below 256, while the runes, Dafny characters, are Unicode
    scalar values. */
module Utf8 {
  const RuneError: char := '\U{FFFD}'

  /** A continuation byte, 10xxxxxx. */
  predicate IsCont(c: char) {
    0x80 <= c as int < 0xC0
  }

  /** The second byte b1 after lead b0 of a three- or four-byte sequence: a
      continuation byte, narrowed after E0 and F0 so that no rune has a longer
      form than it needs, after ED so that no surrogate is encoded, and after
      F4 so that no rune lies above U+10FFFF. */
  predicate SecondOk(b0: int, b1: int) {
    if b0 == 0xE0 then 0xA0 <= b1 < 0xC0
    else if b0 == 0xED then 0x80 <= b1 < 0xA0
    else if b0 == 0xF0 then 0x90 <= b1 < 0xC0
    else if b0 == 0xF4 then 0x80 <= b1 < 0x90
    else 0x80 <= b1 < 0xC0
  }

  /** A rune read from the start of a string, the number of bytes it took,
      and whether they were a valid encoding. */
  datatype Decoded = Decoded(rune: char, width: nat, valid: bool)

  /** The six low bits of a continuation byte appended to x. */
  function Shift(x: int, b: int): int {
    x * 64 + (b - 0x80)
  }

  lemma DivMod64(x: int, c: int)
    requires 0 <= c < 64
    ensures (64 * x + c) / 64 == x && (64 * x + c) % 64 == c
  {
  }

  function Rune2(b0: int, b1: int): (c: char)
    requires 0xC2 <= b0 < 0xE0 && 0x80 <= b1 < 0xC0
    ensures 0x80 <= c as int < 0x800
  {
    Shift(b0 - 0xC0, b1) as char
  }

  function Rune3(b0: int, b1: int, b2: int): (c: char)
    requires 0xE0 <= b0 < 0xF0 && SecondOk(b0, b1) && 0x80 <= b2 < 0xC0
    ensures 0x800 <= c as int < 0x1_0000
  {
    Shift(Shift(b0 - 0xE0, b1), b2) as char
  }

  function Rune4(b0: int, b1: int, b2: int, b3: int): (c: char)
    requires 0xF0 <= b0 < 0xF5 && SecondOk(b0, b1) && 0x80 <= b2 < 0xC0 && 0x80 <= b3 < 0xC0
    ensures 0x1_0000 <= c as int < 0x11_0000
  {
    Shift(Shift(Shift(b0 - 0xF0, b1), b2), b3) as char
  }

  /** `utf8.DecodeRune`: a byte below 0x80 is itself; a lead byte followed by
      the continuation bytes its length asks for is the rune they encode; any
      other start, a string cut short included, is `RuneError` of width 1. */
  function DecodeFirst(s: string): (d: Decoded)
    requires |s| > 0
    ensures 1 <= d.width <= 4 && d.width <= |s|
    ensures !d.valid ==> d == Decoded(RuneError, 1, false)
    ensures s[0] as int < 0x80 ==> d == Decoded(s[0], 1, true)
  {
    var b0 := s[0] as int;
    if b0 < 0x80 then Decoded(s[0], 1, true)
    else if 0xC2 <= b0 < 0xE0 && |s| >= 2 && IsCont(s[1]) then
      Decoded(Rune2(b0, s[1] as int), 2, true)
    else if 0xE0 <= b0 < 0xF0 && |s| >= 3 && SecondOk(b0, s[1] as int) && IsCont(s[2]) then
      Decoded(Rune3(b0, s[1] as int, s[2] as int), 3, true)
    else if 0xF0 <= b0 < 0xF5 && |s| >= 4 && SecondOk(b0, s[1] as int) && IsCont(s[2]) && IsCont(s[3]) then
      Decoded(Rune4(b0, s[1] as int, s[2] as int, s[3] as int), 4, true)
    else Decoded(RuneError, 1, false)
  }

  /** `[]rune(s)`: the runes of s, front to back. */
  function Decode(s: string): (rs: seq<char>)
    ensures |rs| <= |s|
    decreases |s|
  {
    if |s| == 0 then [] else var d := DecodeFirst(s); [d.rune] + Decode(s[d.width..])
  }

  /** `utf8.ValidString`: every rune of s is validly encoded. */
  predicate Valid(s: string)
    decreases |s|
  {
    |s| == 0 || (DecodeFirst(s).valid && Valid(s[DecodeFirst(s).width..]))
  }

  /** The continuation byte holding the six low bits of x. */
  function Cont(x: int): char
    requires x >= 0
  {
    (0x80 + x % 64) as char
  }

  /** `utf8.EncodeRune`: the shortest encoding of the rune, its bits taken
      six at a time from the low end. */
  function EncodeRune(c: char): (bs: string)
    ensures 1 <= |bs| <= 4 && forall i :: 0 <= i < |bs| ==> bs[i] as int < 256
    ensures |bs| == 1 <==> c as int < 0x80
  {
    var v := c as int;
    var v1 := v / 64;
    var v2 := v1 / 64;
    if v < 0x80 then [c]
    else if v < 0x800 then [(0xC0 + v1) as char, Cont(v)]
    else if v < 0x1_0000 then [(0xE0 + v2) as char, Cont(v1), Cont(v)]
    else [(0xF0 + v2 / 64) as char, Cont(v2), Cont(v1), Cont(v)]
  }

  /** `string(runes)`: the encodings of the runes, one after another. */
  function Encode(rs: seq<char>): (s: string)
    ensures |s| >= |rs|
    ensures forall i :: 0 <= i < |s| ==> s[i] as int < 256
    decreases |rs|
  {
    if |rs| == 0 then [] else EncodeRune(rs[0]) + Encode(rs[1..])
  }

  // ---------------------------------------------------------------------------
  // Properties

  /** Decoding the encoding of a rune, whatever follows it, reads the rune
      back as a valid sequence of the encoding's width. */
  lemma DecodeEncodeRune(c: char, rest: string)
    ensures DecodeFirst(EncodeRune(c) + rest) == Decoded(c, |EncodeRune(c)|, true)
  {
  }

  /** `[]rune(string(rs))` is rs. */
  lemma {:induction false} DecodeEncode(rs: seq<char>)
    ensures Decode(Encode(rs)) == rs
    ensures Valid(Encode(rs))
    decreases |rs|
  {
    if |rs| > 0 {
      var e := EncodeRune(rs[0]);
      var s := e + Encode(rs[1..]);
      DecodeEncodeRune(rs[0], Encode(rs[1..]));
      assert s[|e|..] == Encode(rs[1..]);
      DecodeEncode(rs[1..]);
    }
  }

  /** The rune of a valid two-, three- or four-byte sequence encodes back to
      those bytes. */
  lemma EncodeRune2(b0: int, b1: int)
    requires 0xC2 <= b0 < 0xE0 && 0x80 <= b1 < 0xC0
    ensures EncodeRune(Rune2(b0, b1)) == [b0 as char, b1 as char]
  {
  }

  lemma EncodeRune3(b0: int, b1: int, b2: int)
    requires 0xE0 <= b0 < 0xF0 && SecondOk(b0, b1) && 0x80 <= b2 < 0xC0
    ensures EncodeRune(Rune3(b0, b1, b2)) == [b0 as char, b1 as char, b2 as char]
  {
  }

  lemma EncodeRune4(b0: int, b1: int, b2: int, b3: int)
    requires 0xF0 <= b0 < 0xF5 && SecondOk(b0, b1) && 0x80 <= b2 < 0xC0 && 0x80 <= b3 < 0xC0
    ensures EncodeRune(Rune4(b0, b1, b2, b3)) == [b0 as char, b1 as char, b2 as char, b3 as char]
  {
  }

  /** A valid sequence at the start of s is the encoding of the rune it
      decodes to. */
  lemma EncodeDecodeFirst(s: string)
    requires |s| > 0 && DecodeFirst(s).valid
    ensures EncodeRune(DecodeFirst(s).rune) == s[..DecodeFirst(s).width]
  {
    var d := DecodeFirst(s);
    var b0 := s[0] as int;
    if b0 < 0x80 {
    } else if d.width == 2 {
      EncodeRune2(b0, s[1] as int);
      assert s[..2] == [s[0], s[1]];
    } else if d.width == 3 {
      EncodeRune3(b0, s[1] as int, s[2] as int);
      assert s[..3] == [s[0], s[1], s[2]];
    } else {
      EncodeRune4(b0, s[1] as int, s[2] as int, s[3] as int);
      assert s[..4] == [s[0], s[1], s[2], s[3]];
    }
  }

  /** `string([]rune(s))` is s exactly when s is valid UTF-8. */
  lemma {:induction false} EncodeDecode(s: string)
    ensures Valid(s) <==> Encode(Decode(s)) == s
    decreases |s|
  {
    if Valid(s) {
      ValidRoundTrip(s);
    } else {
      if Encode(Decode(s)) == s {
        DecodeEncode(Decode(s));
        assert false;
      }
    }
  }

  lemma {:induction false} ValidRoundTrip(s: string)
    requires Valid(s)
    ensures Encode(Decode(s)) == s
    decreases |s|
  {
    if |s| > 0 {
      var d := DecodeFirst(s);
      EncodeDecodeFirst(s);
      ValidRoundTrip(s[d.width..]);
      assert Decode(s) == [d.rune] + Decode(s[d.width..]);
      assert ([d.rune] + Decode(s[d.width..]))[1..] == Decode(s[d.width..]);
      assert s == s[..d.width] + s[d.width..];
    }
  }

  /** A string of ASCII bytes is its own runes. */
  lemma {:induction false} AsciiRunes(s: string)
    requires forall i :: 0 <= i < |s| ==> s[i] as int < 0x80
    ensures Decode(s) == s && Valid(s)
    decreases |s|
  {
    if |s| > 0 {
      AsciiRunes(s[1..]);
      assert s == [s[0]] + s[1..];
    }
  }

  /** The two bytes C3 A9 are the one rune U+00E9, and a lone C3 is
      `RuneError`. */
  lemma TwoByteExample()
    ensures Decode(['\U{C3}', '\U{A9}']) == ['\U{E9}']
    ensures Decode(['\U{C3}']) == [RuneError]
  {
  }
}

=== FILE: wrappers.dfy ===
/** Failure-compatible result types shared by every module of the model.

    The Go implementation reports every failure with `panic`: either a panic the
    virtual machine raises itself with a message such as
    "java.lang.NullPointerException", or a failure of the Go runtime (an index out
    of range, a nil dereference, a failed type assertion). Both become an `Err`
    here, so the paths on which the source panics are modelled explicitly. */
module Wrappers {

  datatype Option<+T> = None | Some(value: T)

  datatype Error =
    /** a panic raised by the virtual machine's own code, with its message */
    | Panic(message: string)
    /** a failure of the Go runtime: out-of-range index, nil dereference, failed type assertion */
    | Fault(what: string)
    /** a computation the source never finishes (a circular class hierarchy) */
    | Diverge

  datatype Result<+T> = Ok(value: T) | Err(error: Error) {
    predicate IsFailure() {
      Err?
    }

    function PropagateFailure<U>(): Result<U>
      requires Err?
    {
      Err(error)
    }

    function Extract(): T
      requires Ok?
    {
      value
    }
  }

  /** Messages of the panics raised by the virtual machine. */
  const NullPointer := "java.lang.NullPointerException"
  const ClassCast := "java.lang.ClassCastException"
  const NegativeArraySize := "java.lang.NegativeArraySizeException"
  const NoSuchField := "java.lang.NoSuchFieldError"
  const NoSuchMethod := "java.lang.NoSuchMethodError"
  const IllegalAccess := "java.lang.IllegalAccessError"
  const IncompatibleClassChange := "java.lang.IncompatibleClassChangeError"
  const AbstractMethod := "java.lang.AbstractMethodError"
  const Instantiation := "java.lang.InstantiationError"
  const StackOverflow := "java.lang.StackOverflowError"
  const ClassNotFoundPrefix := "java.lang.ClassNotFoundException: "
  const UnsatisfiedLinkPrefix := "java.lang.UnsatisfiedLinkError:"

  /** Go runtime failures. */
  const OutOfRange := Fault("index out of range")
  const NilDeref := Fault("nil pointer dereference")
  const BadAssertion := Fault("interface conversion")

  /** Extending a prefix by the next one or two elements. */
  lemma PrefixStep<T>(s: seq<T>, i: nat)
    requires i < |s|
    ensures s[..i] + [s[i]] == s[..i + 1]
    ensures i + 1 < |s| ==> s[..i] + [s[i], s[i + 1]] == s[..i + 2]
  {
  }
}
